=== FILE: README.md ===
# ColossusBot core, modelled in Dafny

ColossusBot is a Discord moderation and community bot. This project models the parts of it
that decide things: the database handler's tables (guild configuration, moderation alerts
and actions, autoresponses, reaction-role menus, paused tickets), the moderation listeners
(flagged words, NSFW images, repeated messages, anti-hacking), the owner/sub contract
system, the reaction-role menu cog, and the smaller commands whose outcome is fixed by
explicit conditions (todo, suggest, vote, vibecheck, catfish, image search, keywords, help,
restrict-role, channel access and archiving, prefixes, the AI chatbot's gate and history,
the log buffer, the progress bar and the command metadata).

Everything is pure Dafny: tables are sequences of rows or maps, commands are functions from
the old state and the command's inputs to the new state and a reply. Discord calls
(sending, editing, reacting, role and permission changes, kicks) are values of an `Effect`
or reply datatype that an operation returns, and whatever the platform or an outside
service answers (a message found or not, a `Forbidden`, a timeout, an OCR text, a search
result, a completion) is a parameter of the operation.

One module per source component, one file per module:

| file | models |
|---|---|
| `wrappers.dfy`, `text.dfy`, `collections.dfy`, `paging.dfy` | `Option`; Python's string operations on ASCII text; paging lists and sorting; the shared previous/next page step |
| `store_api.dfy` | the names of the database handler's methods, to tell which store calls raise |
| `guild_config.dfy` | `guild_config`: `set_config`, `get_config`, `migrate_guild_config` |
| `alert_tables.dfy`, `alert_workflow.dfy` | the alert and action tables of the three moderation listeners and the alert round trip they share |
| `flagged_words.dfy`, `nsfw_checker.dfy`, `repeated_messages.dfy`, `anti_hacking.dfy` | the moderation listeners |
| `autoresponder.dfy` | the `autoresponses` table and the autoresponder cog |
| `reaction_role_store.dfy`, `reaction_role_menu.dfy` | the `reaction_role_menus` table and the reaction-role menu cog |
| `ticket_checker.dfy` | ticket recognition, activity checks, pausing and the monitor toggle |
| `eternal_slave.dfy` | the owner/sub contract system |
| `aichatbot.dfy` | the AI chatbot's history, gate, prompt and reply splitting |
| `channel_access.dfy`, `channel_archiver.dfy`, `prefix_manager.dfy` | the remaining cogs |
| `todo.dfy`, `suggest.dfy`, `vote.dfy`, `vibecheck.dfy`, `catfish.dfy`, `image_search.dfy`, `keywords.dfy`, `help.dfy`, `restrict_role.dfy`, `progress_bar.dfy` | the commands |
| `log_handler.dfy`, `commands_meta.dfy` | the logging handlers and the commands handler's metadata and error replies |

Moderation alerts follow the code: one row per alert message in an alert table and an
action table, and the penalty reactions only record what was chosen.

## Model

| member | source | states |
|---|---|---|
| GuildConfig.OrFallback | handlers/database_handler.py:532-533 | the result is never 0: a missing or zero value becomes 5, any other value is kept |
| GuildConfig.SetConfig | handlers/database_handler.py:461-535 | only the guild's row changes; an existing row gets exactly the given fields overwritten and is untouched when none is given; a new row takes the given channel and owner fields as they are and each threshold as `given or 5` |
| GuildConfig.ZeroThresholdDependsOnRowExistence | handlers/database_handler.py:504-533 | a threshold of 0 is stored as 5 when the row is created but as 0 when the row is updated |
| GuildConfig.Lookup | handlers/database_handler.py:553 | a key is found exactly when the dictionary holds it |
| GuildConfig.GetConfig | handlers/database_handler.py:537-554 | a dictionary is returned exactly when the guild has a row, and it has the seven keys in order |
| GuildConfig.GetConfigLookup | handlers/database_handler.py:544-553 | each key of the dictionary carries the value of the column of that name |
| GuildConfig.GetAfterSetNew | handlers/database_handler.py:461-554 | after configuring a new guild, reading its configuration back gives exactly the given values, with the thresholds' fallback applied |
| GuildConfig.GetLogChannelId | handlers/database_handler.py:556-567 | a log channel is reported only for a guild that has a row, and it is the value `get_config`'s dictionary holds under `log_channel_id` |
| GuildConfig.LogChannelAfterSet | handlers/database_handler.py:461-567 | after `set_config`, the guild's log channel reads back as the given one, or as before when none was given; other guilds read as before |
| GuildConfig.Migrate | handlers/database_handler.py:354-389 | on SQLite and MySQL a missing `owner_id` column is appended after the others when the ALTER succeeds; otherwise the columns are unchanged |
| GuildConfig.MigrateIdempotent | handlers/database_handler.py:354-389 | migrating a migrated table changes nothing |
| GuildConfig.GetConfigPositional | handlers/database_handler.py:544-553 | as written, a dictionary is returned exactly when the guild has a row, pairing the keys with the columns by position |
| GuildConfig.PositionalAgreesOnFreshSchema | handlers/database_handler.py:83-91 | on a table created with the current layout, pairing by position gives the same dictionary as reading by name |
| GuildConfig.PositionalMislabelsMigratedSchema | handlers/database_handler.py:354-367 | on a table migrated from the layout without `owner_id`, the dictionary reports the repeat threshold as the owner and the owner as the minimum word count |
| AlertTables.Insert | handlers/database_handler.py:661-680 | the table gains exactly the new row, after the existing rows, which are unchanged |
| AlertTables.Fetch | handlers/database_handler.py:682-693 | nothing is found exactly when no row carries the message id; otherwise the user, channel and guild of the first row carrying it are returned |
| AlertTables.Delete | handlers/database_handler.py:695-705 | no row carrying the message id remains, every other row remains, and no row is added |
| AlertTables.FetchAfterInsert | handlers/database_handler.py:661-693 | after inserting a row for an unused message id, fetching that id returns the inserted row's user, channel and guild |
| AlertTables.FetchFirstWins | handlers/database_handler.py:224-231 | since `message_id` is not a key, a second row for the same message id never shadows the first one on fetch |
| AlertTables.FetchAfterDelete | handlers/database_handler.py:682-705 | after a delete the message id is no longer found |
| AlertTables.DeleteKeepsOthers | handlers/database_handler.py:682-705 | deleting one message id's rows leaves the fetch of every other message id unchanged |
| AlertTables.DeleteMessages | handlers/database_handler.py:1066-1081 | an empty id list leaves the log alone; otherwise exactly the rows whose message id is listed are removed |
| AlertWorkflow.ResolveStaff | colossusCogs/listeners/flagged_words_alert.py:131-149 | a staff channel is found exactly when the configured staff channel id resolves in the guild, and it is that channel; a thread, when one is given, is a channel that resolves |
| AlertWorkflow.RaiseAlert | colossusCogs/listeners/flagged_words_alert.py:124-172 | an alert is posted only when a configuration, a staff channel and a staff thread all resolve, and then it goes to that thread and exactly one alert row is recorded; otherwise nothing happens; the action table never changes |
| AlertWorkflow.RaisedAlertIsFetchable | colossusCogs/listeners/flagged_words_alert.py:163-172 | a posted alert can afterwards be looked up by its staff message id and gives back the author, channel and guild |
| AlertWorkflow.IgnoredReactionsChangeNothing | colossusCogs/listeners/flagged_words_alert.py:50-55 | the bot's own reactions, reactions outside the six accepted emoji, and (in the NSFW and repeated-message handlers) other bots' reactions change nothing |
| AlertWorkflow.UnknownAlertChangesNothing | colossusCogs/listeners/flagged_words_alert.py:57-58 | a reaction on a message that is not a recorded alert changes nothing |
| AlertWorkflow.PenaltyEmojisDoNothing | colossusCogs/listeners/flagged_words_alert.py:86-90 | the four penalty emoji on an alert never record an action prompt and never reply; at most they drop the alert of a departed target or hit the missing-configuration error |
| AlertWorkflow.DismissRemovesAlert | colossusCogs/listeners/flagged_words_alert.py:88-90 | ❌ from a person on a resolvable alert replies once with the kind's "alert ignored" text and removes the alert for good, leaving the action table alone |
| AlertWorkflow.ConfirmKeepsAlert | colossusCogs/listeners/flagged_words_alert.py:86-87 | ✅ from a person keeps the alert; the NSFW handler re-checks the attachments, the other two record an action prompt about the alert's own user, channel and guild |
| AlertWorkflow.DepartedTargetDropsAlert | colossusCogs/listeners/flagged_words_alert.py:63-66 | when the alert's target has left the guild the alert is deleted and nothing is sent |
| AlertWorkflow.BotReactionsOnlyReachFlaggedWords | colossusCogs/listeners/nsfw_checker.py:92-97 | another bot's ❌ is ignored by the NSFW and repeated-message handlers but dismisses the alert in the flagged-words handler, which has no bot check |
| FlaggedWords.ContainsFlagged | colossusCogs/listeners/flagged_words_alert.py:92-108 | a message is flagged exactly when some entry of the list hits it (a literal in the lower-cased text, or a pattern match), and the reported text is that of the first entry in list order that hits |
| FlaggedWords.CapitalisedLiteralNeverHits | colossusCogs/listeners/flagged_words_alert.py:99-103 | a literal entry holding a capital letter can never hit, since it is searched for in the lower-cased message |
| FlaggedWords.LoggedIffFlagged | colossusCogs/listeners/flagged_words_alert.py:26-40 | the message is appended to the flagged-message log exactly when it is not the bot's own and some entry hits it; otherwise the log is unchanged |
| FlaggedWords.AlertOnlyForFlagged | colossusCogs/listeners/flagged_words_alert.py:36-40 | the alert tables change only for a flagged message, and then by exactly one alert row about its author, channel and guild; the action table never changes |
| FlaggedWords.EmptyListFlagsNothing | colossusCogs/listeners/Flags/flagged_words.py:9 | with the shipped list, which holds no entries, no message is ever flagged: nothing is logged, stored or sent |
| NsfwChecker.FirstFlaggedFrame | colossusCogs/listeners/nsfw_checker.py:68-74 | the frame reported is flagged and every earlier frame is not; nothing is reported exactly when no frame is flagged |
| NsfwChecker.Scan | colossusCogs/listeners/nsfw_checker.py:63-80 | every hit is an image attachment (png, jpg, jpeg or gif) whose text holds a keyword; hits come in attachment order, and every hit but the last is a GIF, because a flagged still image ends the loop |
| NsfwChecker.UnscannableNeverReported | colossusCogs/listeners/nsfw_checker.py:65 | an attachment with another extension is never reported |
| NsfwChecker.ResizeIfNeeded | colossusCogs/listeners/nsfw_checker.py:150-163 | an image of at most one mebibyte is kept as it is; the only change ever made is replacing an image by its thumbnail; when thumbnails fit, the result is within one mebibyte |
| NsfwChecker.ResizeIdempotent | colossusCogs/listeners/nsfw_checker.py:150-163 | when thumbnails fit the limit, resizing a resized image changes nothing |
| NsfwChecker.HandleAll | colossusCogs/listeners/nsfw_checker.py:187-245 | handling the hits never touches the action table, keeps every existing alert row in front, and adds at most one alert row per hit |
| NsfwChecker.OnMessage | colossusCogs/listeners/nsfw_checker.py:54-80 | the bot's own messages change nothing; any other message has each hit of the attachment scan handled in order |
| NsfwChecker.HandlePostsFields | colossusCogs/listeners/nsfw_checker.py:218-231 | the alert posted for a hit carries the extracted text (or "No text extracted."), the origin and the message's link as its three fields |
| NsfwChecker.AlertFieldsLinkBack | colossusCogs/listeners/nsfw_checker.py:229-258 | the message link an alert is built with parses back to the id of the message it reports |
| NsfwChecker.AlertsLinkBack | colossusCogs/listeners/nsfw_checker.py:187-258 | every alert posted while handling a message's hits links back to that message's id |
| NsfwChecker.NoThreadNoAlerts | colossusCogs/listeners/nsfw_checker.py:202-204 | without a configuration for the guild nothing is stored or sent, however many images are flagged |
| NsfwChecker.OriginalMessageId | colossusCogs/listeners/nsfw_checker.py:254-258 | an alert with fewer than three embed fields yields no original message id |
| NsfwChecker.JumpUrlRoundTrip | colossusCogs/listeners/nsfw_checker.py:229-258 | a message link ending in "/" and a message id, stored as the third field, parses back to that id |
| NsfwChecker.Recheck | colossusCogs/listeners/nsfw_checker.py:248-266 | the ✅ re-check never touches the action table, and it posts only when the alert has an embed whose link parses to a message that the alert's own channel holds with an attachment |
| NsfwChecker.RecheckRepostsSameFields | colossusCogs/listeners/nsfw_checker.py:187-266 | re-checking an alert the listener posted, when the alert's channel holds the original message with its attachment, handles that message again and posts an alert with the same three fields |
| RepeatedMessages.DistinctUsers | colossusCogs/listeners/repeated_message_alert.py:145-154 | the users listed are exactly those with a logged row of the text, in any guild, each listed once |
| RepeatedMessages.UserRecords | colossusCogs/listeners/repeated_message_alert.py:136-143 | every record returned is a logged row of the author with that text, and there are no more records than rows |
| RepeatedMessages.CountIncludesCurrent | colossusCogs/listeners/repeated_message_alert.py:58-68 | since the message is logged before the check, logging it adds exactly one to the author's count of that text |
| RepeatedMessages.OtherRowsDoNotCount | colossusCogs/listeners/repeated_message_alert.py:136-143 | rows of another user, or with another text, never change the author's records |
| RepeatedMessages.SeveralUsers | colossusCogs/listeners/repeated_message_alert.py:154-156 | more than one distinct user holds exactly when two logged rows with the text come from different users |
| RepeatedMessages.Put | colossusCogs/listeners/repeated_message_alert.py:203-205 | assigning a dictionary key keeps the keys distinct, stores the pair, changes no other entry, and grows the dictionary only for a new key |
| RepeatedMessages.Occurrences | colossusCogs/listeners/repeated_message_alert.py:194-205 | the occurrence lines are keyed by distinct users who all appear in the records, no more lines than records |
| RepeatedMessages.OneUserOneLine | colossusCogs/listeners/repeated_message_alert.py:194-207 | since the lines are keyed by user and all the records are the author's, the alert lists at most one occurrence line |
| RepeatedMessages.LimitField | colossusCogs/listeners/repeated_message_alert.py:207-209 | the occurrence text never exceeds 1024 characters; text that fits is kept whole, longer text keeps its first 1020 characters and ends in "..." |
| RepeatedMessages.AlertFields | colossusCogs/listeners/repeated_message_alert.py:216-218 | the alert shows the first 1024 characters of the text, the number of the author's records, and occurrence text of at most 1024 characters |
| RepeatedMessages.ShortMessagesIgnored | colossusCogs/listeners/repeated_message_alert.py:52-56 | the bot's own messages and messages of fewer than five words change nothing |
| RepeatedMessages.AcceptedMessagesLogged | colossusCogs/listeners/repeated_message_alert.py:55-66 | any other message, five words included, is appended to the log |
| RepeatedMessages.AlertIffTwoUsers | colossusCogs/listeners/repeated_message_alert.py:126-158 | the listener announces an alert exactly when an accepted message's text, counting the new message, has been logged from two different users |
| RepeatedMessages.SingleUserNeverAlerts | colossusCogs/listeners/repeated_message_alert.py:154-158 | one user repeating a text, however often, never raises an alert or stores one |
| RepeatedMessages.AlertReportsAuthorOccurrences | colossusCogs/listeners/repeated_message_alert.py:156-218 | an alert first sets the presence, then posts the alert fields; the count includes the new message, and at most one occurrence line is listed |
| AntiHacking.Recent | colossusCogs/listeners/anti_hacking_checker.py:77-79 | exactly the timestamps at most the window before now are kept |
| AntiHacking.TrackAction | colossusCogs/listeners/anti_hacking_checker.py:63-81 | other keys are untouched; the suspicious-activity handling runs exactly when the windowed count, the new action included, reaches the threshold, and then the key's record is deleted; below the threshold the key keeps exactly the windowed timestamps |
| AntiHacking.WindowHoldsRecentActions | colossusCogs/listeners/anti_hacking_checker.py:72-79 | with a non-negative window the new action is always kept, and every kept action lies inside the window |
| AntiHacking.AlertNeedsEarlierActions | colossusCogs/listeners/anti_hacking_checker.py:74-81 | an alert needs at least threshold minus one earlier actions of the same guild and user |
| AntiHacking.CountRestartsAfterAlert | colossusCogs/listeners/anti_hacking_checker.py:131-134 | after an alert the key's record is gone, so the next action counts alone and raises nothing |
| AntiHacking.SecurityChannel | colossusCogs/listeners/anti_hacking_checker.py:94-99 | a configured, non-zero log channel is the security channel; otherwise the default channel is |
| AntiHacking.IncidentCallMissing | colossusCogs/listeners/anti_hacking_checker.py:124 | the database handler defines no `insert_record` |
| AntiHacking.HandlingAsWritten | colossusCogs/listeners/anti_hacking_checker.py:85-134 | as written the alert is posted exactly when the security channel resolves to one that can send and the presence changes, but no incident is ever recorded, because the `insert_record` lookup raises and the handler's `except` catches it |
| AntiHacking.Handling | colossusCogs/listeners/anti_hacking_checker.py:85-134 | corrected: the same alert and presence change, and the incident is recorded |
| AntiHacking.HandlingAddsOnlyTheRecord | colossusCogs/listeners/anti_hacking_checker.py:106-128 | the corrected handling is the as-written one followed by the incident record and nothing else |
| AntiHacking.AsWrittenNeverRecords | colossusCogs/listeners/anti_hacking_checker.py:72-134 | as written, tracking an action never records an incident, and an alert still clears the key's record |
| AntiHacking.OnCommand | colossusCogs/listeners/anti_hacking_checker.py:169-176 | commands outside a guild are not tracked; in a guild the command's author is tracked, with the corrected handling on an alert |
| AntiHacking.GuildsIsolated | colossusCogs/listeners/anti_hacking_checker.py:73-79 | actions in one guild never change another guild's counts |
| AntiHacking.UpdateSecurityConfig | colossusCogs/listeners/anti_hacking_checker.py:136-164 | only the supplied settings change, the channel is stored as the guild's log channel and no other guild's, and with nothing supplied nothing changes and the "No valid configuration parameters provided." reply is sent |
| AntiHacking.ThresholdShared | colossusCogs/listeners/anti_hacking_checker.py:150-151 | a new threshold set in one guild decides every guild's next alert |
| Autoresponder.EmptyValid | handlers/database_handler.py:319-325 | The empty table with the counter at 1 satisfies the table's invariant: ids below the counter and distinct |
| Autoresponder.Insert | handlers/database_handler.py:1275-1296 | An insert keeps the invariant, returns the next id (never below 1) and appends the row with the trigger lower-cased |
| Autoresponder.Delete | handlers/database_handler.py:1298-1317 | Exactly the rows matching both id and guild go, and the answer is true iff there was one |
| Autoresponder.Without | handlers/database_handler.py:1303-1307 | The rows kept are exactly those not matching id and guild, and fewer remain iff one matched |
| Autoresponder.Fetch | handlers/database_handler.py:1319-1334 | The guild's rows are exactly the stored rows with that guild id |
| Autoresponder.OfGuild | handlers/database_handler.py:1323-1333 | The rows selected are exactly those of the guild |
| Autoresponder.FetchById | handlers/database_handler.py:1336-1349 | A row found matches both id and guild; none is found iff no row matches |
| Autoresponder.FirstTargeted | handlers/database_handler.py:1341-1349 | The row returned is stored and matches both id and guild; there is none iff no row matches |
| Autoresponder.Apply | handlers/database_handler.py:1362-1370 | A given trigger is stored lower-cased, a given response or channel replaces the old one, and absent fields keep the row's values; id and guild never change |
| Autoresponder.Update | handlers/database_handler.py:1351-1392 | With no field given nothing is written and the answer is false; otherwise only rows matching id and guild change, and the answer is true iff one matches |
| Autoresponder.DeleteScopedToGuild | handlers/database_handler.py:1303-1307 | A delete never removes another guild's row, even one with the same id |
| Autoresponder.InsertDeleteRoundTrip | handlers/database_handler.py:1275-1349 | After an insert the new row is found by its id with the trigger lower-cased; deleting it reports true and leaves it gone; before the insert the delete changed nothing |
| Autoresponder.WithoutNothing | handlers/database_handler.py:1303-1307 | A delete that matches no row leaves the rows as they were |
| Autoresponder.Firing | colossusCogs/autoresponder.py:121-124 | The rows that fire are exactly those whose trigger occurs in the lower-cased content |
| Autoresponder.HandleMessage | colossusCogs/autoresponder.py:107-129 | A bot's message is never answered; otherwise the answers are exactly the guild's rows whose trigger occurs in the lower-cased content |
| Autoresponder.AddedTriggerAnswers | colossusCogs/autoresponder.py:117-124 | A trigger just added answers any later message of the guild that contains it, in any letter case |
| Autoresponder.Sent | colossusCogs/autoresponder.py:126 | One message is sent per firing row |
| Autoresponder.ChannelIgnored | colossusCogs/autoresponder.py:121-126 | A row's channel plays no part: changing the rows' channels changes nothing sent |
| Autoresponder.AddReply | colossusCogs/autoresponder.py:59-65 | The failure reply comes iff the store answered -1 |
| Autoresponder.AddNeverFails | colossusCogs/autoresponder.py:59-61 | An id from a valid table is never -1, so adding always reports success |
| Autoresponder.RemoveReply | colossusCogs/autoresponder.py:75-80 | Success is reported iff the delete changed a row |
| Autoresponder.ListReply | colossusCogs/autoresponder.py:89-104 | "No autoresponses" comes iff the guild has none; otherwise one field per row, in stored order, with its id, trigger and response |
| ReactionRoleStore.RowOf | handlers/database_handler.py:1129-1135 | the stored row carries the menu's id, guild and message and the given emoji and role |
| ReactionRoleStore.InsertKeyed | handlers/database_handler.py:1089-1135 | with `menu_id` as primary key, an insert fails exactly when a row of that menu exists, and otherwise appends the row |
| ReactionRoleStore.Insert | handlers/database_handler.py:1106-1135 | without the key, the table gains exactly the new row, after the existing ones |
| ReactionRoleStore.StorePairsKeyed | colossusCogs/reaction_role_menu.py:150-166 | as written, the loop keeps the existing rows in front, stores at most one row per pair, and reports success only when every pair was stored |
| ReactionRoleStore.StorePairs | colossusCogs/reaction_role_menu.py:150-162 | without the key, every pair becomes a row of the menu, in order, after the existing rows |
| ReactionRoleStore.KeyedStoreKeepsOnlyFirstPair | handlers/database_handler.py:1089-1100 | under the declared key, a new menu of two pairs stores only its first row and the save is reported as failed |
| ReactionRoleStore.StorePairsKeyedFresh | handlers/database_handler.py:306-315 | on the table with the `menu_id` key, the pairs of a fresh menu leave exactly the first pair stored, and every pair was stored exactly when there was only one |
| ReactionRoleStore.StoredPairsFoundByMessage | handlers/database_handler.py:1137-1160 | without the key, every pair of a stored menu is found again by the menu's guild and message |
| ReactionRoleStore.ByMessage | handlers/database_handler.py:1137-1160 | exactly the rows of the guild carrying the given message id are returned, and none for a missing id |
| ReactionRoleStore.ByGuild | handlers/database_handler.py:1256-1271 | exactly the rows of the guild are returned |
| ReactionRoleStore.FetchMenu | handlers/database_handler.py:1162-1180 | nothing is found exactly when the menu has no row; otherwise a row of that menu is returned |
| ReactionRoleStore.DeleteMenu | handlers/database_handler.py:1182-1193 | exactly the rows of other menus remain |
| ReactionRoleStore.RemoveReaction | handlers/database_handler.py:1238-1254 | exactly the rows not matching both the menu and the emoji remain |
| ReactionRoleStore.DeletedMenuIsGone | handlers/database_handler.py:1162-1193 | after a menu is deleted, looking it up finds nothing |
| ReactionRoleStore.RemoveReactionKeepsOthers | handlers/database_handler.py:1238-1254 | removing one emoji of a menu keeps the menu's other pairs and every other menu |
| ReactionRoleStore.UpdateDescription | handlers/database_handler.py:1195-1212 | every row of the menu takes the new description and every other row is unchanged |
| ReactionRoleStore.AddReaction | handlers/database_handler.py:1214-1236 | as written, against the table with its `menu_id` key: the insert fails exactly when the menu exists, because every copied row repeats the key, and otherwise the table is unchanged; no pair is ever added |
| ReactionRoleStore.AddReactionUnkeyed | handlers/database_handler.py:1214-1236 | the same query on a table without the key keeps the rows in front and gains one row with the new emoji and role per existing row of the menu |
| ReactionRoleStore.AddReactionDuplicates | handlers/database_handler.py:1227-1235 | without the key, adding a pair to a menu of two pairs stores the new pair twice |
| ReactionRoleStore.AddPair | handlers/database_handler.py:1214-1236 | corrected: a missing menu is left alone; an existing menu gains one row with its header and the new emoji and role |
| ReactionRoleStore.AddPairAddsOne | handlers/database_handler.py:1214-1236 | corrected: adding a pair to an existing menu adds exactly one row of that menu, found again by the menu's message |
| ReactionRoleMenu.ExtractRoleId | colossusCogs/reaction_role_menu.py:664-679 | an id is only ever read from a `<@&…>` mention or from a plain digit string |
| ReactionRoleMenu.ParseDigits | colossusCogs/reaction_role_menu.py:674-675 | `int()` of a digit string succeeds with the number its digits spell |
| ReactionRoleMenu.ExtractRoleIdOfMention | colossusCogs/reaction_role_menu.py:672-673 | a role mention `<@&digits>` gives back exactly the role id it was written from |
| ReactionRoleMenu.ExtractRoleIdOfDigits | colossusCogs/reaction_role_menu.py:674-675 | a bare digit string is taken as the role id it spells |
| ReactionRoleMenu.EmptyMentionRejected | colossusCogs/reaction_role_menu.py:672-679 | `<@&>` has the mention shape but no id, and is rejected rather than raising |
| ReactionRoleMenu.IsValidEmoji | colossusCogs/reaction_role_menu.py:681-698 | anything not shaped `<:…>` counts as a Unicode emoji and is accepted |
| ReactionRoleMenu.CustomEmojiValidIffKnown | colossusCogs/reaction_role_menu.py:689-695 | a custom emoji `<:name:id>` is valid if and only if the guild has an emoji with that id |
| ReactionRoleMenu.SetupLine | colossusCogs/reaction_role_menu.py:96-133 | a dialogue line adds a pair only when its role exists, is assignable and nonzero, its emoji is new, valid and could be reacted with; otherwise the pairs are unchanged; emoji stay distinct |
| ReactionRoleMenu.SetupDialogue | colossusCogs/reaction_role_menu.py:82-94 | a finished dialogue has at least one pair, with distinct emoji, each acceptable in the guild |
| ReactionRoleMenu.DoneFirstCancels | colossusCogs/reaction_role_menu.py:90-93 | "done" (in any case) before any pair was accepted cancels the setup |
| ReactionRoleMenu.DescriptionOf | colossusCogs/reaction_role_menu.py:139-148 | a timeout leaves the description empty; a reply other than "skip" in any case becomes the stripped reply |
| ReactionRoleMenu.CreateMenu | colossusCogs/reaction_role_menu.py:49-168 | on either table layout, the rows already stored stay in front; nothing is written unless the dialogue finishes and the save is attempted; a created menu adds rows; on the table without the `menu_id` key the save never fails |
| ReactionRoleMenu.CreateMenuAsDeclared | colossusCogs/reaction_role_menu.py:150-168 | as written, on the table with the `menu_id` key, a finished dialogue for a fresh id stores only its first pair, and the menu is reported created exactly when there was one pair; otherwise the error reply is sent with that one row left behind |
| ReactionRoleMenu.CreatedMenuIsReachable | colossusCogs/reaction_role_menu.py:150-168 | corrected, on the table without the `menu_id` key: a created menu came from a finished dialogue whose pairs have distinct emoji, and each of its pairs is found again by the menu's guild and message |
| ReactionRoleMenu.AddRow | colossusCogs/reaction_role_menu.py:190-203 | a row of a known menu appends its pair to that menu only; a new menu id opens one entry at the end holding the row's header and pair |
| ReactionRoleMenu.Group | colossusCogs/reaction_role_menu.py:188-203 | the grouped menus have distinct ids, and an id is listed exactly when some row carries it |
| ReactionRoleMenu.GroupCollectsPairs | colossusCogs/reaction_role_menu.py:190-203 | each grouped menu holds exactly the pairs of its rows, in row order |
| ReactionRoleMenu.PairsOfAbsent | colossusCogs/reaction_role_menu.py:190-203 | a menu id that no row carries collects no pairs |
| ReactionRoleMenu.ListMenusAsWrittenNeverLists | colossusCogs/reaction_role_menu.py:179-186 | the listing as written queries with no message id and so answers "no menus" for every guild and table |
| ReactionRoleMenu.ListMenus | colossusCogs/reaction_role_menu.py:184-249 | "no menus" exactly when the guild has no rows; otherwise nonempty pages of at most 25 menus that together are the guild's grouped menus in order |
| ReactionRoleMenu.ListMenusShowsEveryMenu | colossusCogs/reaction_role_menu.py:184-236 | every menu stored for the guild appears on some page of the corrected listing |
| ReactionRoleMenu.PaginateButton | colossusCogs/reaction_role_menu.py:642-652 | the page stays in range, "Previous" on the first page and "Next" on the last do nothing, and the message is edited exactly when the page changed |
| ReactionRoleMenu.FirstInvalid | colossusCogs/reaction_role_menu.py:423-431 | the import check passes exactly when every pair's role exists and every emoji is valid, and otherwise reports an unknown role or a bad emoji |
| ReactionRoleMenu.ImportMenu | colossusCogs/reaction_role_menu.py:390-454 | on either table layout, a refused import leaves the table alone; an import that reaches the save had every required key, this guild's id and valid pairs, and inserts them under the fresh menu id with a missing description read as empty; without the `menu_id` key the save never fails |
| ReactionRoleMenu.ImportManyPairsFailsAsDeclared | colossusCogs/reaction_role_menu.py:436-454 | as written, on the table with the `menu_id` key, a valid document with two or more pairs is never imported: its first pair is stored and the error reply is sent |
| ReactionRoleMenu.ImportRejectsOtherGuild | colossusCogs/reaction_role_menu.py:418-421 | a document for another guild is refused and nothing is stored |
| ReactionRoleMenu.Grants | colossusCogs/reaction_role_menu.py:552-570 | exactly the roles some row ties to the emoji that exist, are assignable and the member lacks are granted |
| ReactionRoleMenu.Revokes | colossusCogs/reaction_role_menu.py:604-619 | exactly the existing roles some row ties to the emoji that the member holds are removed |
| ReactionRoleMenu.OnReaction | colossusCogs/reaction_role_menu.py:529-530 | the bot's own reactions change no roles |
| ReactionRoleMenu.ReactionChangesOnlyMatchingRoles | colossusCogs/reaction_role_menu.py:523-619 | every role change comes from a resolved member, grants on add and revokes on remove, respects what the member holds, and is tied to a row of the reacted guild, message and emoji |
| Paging.Prev | colossusCogs/reaction_role_menu.py:642-646 | "Previous" never moves forward and moves back by at most one page, and it moves exactly when the page is above the first |
| Paging.Next | colossusCogs/reaction_role_menu.py:648-652 | "Next" never moves back and moves on by at most one page, and it moves exactly when the page is below the last |
| Paging.StaysInRange | colossusCogs/reaction_role_menu.py:642-652 | Both moves keep the page index within the first and last page |
| Paging.PrevNextInverse | colossusCogs/reaction_role_menu.py:642-652 | Away from the ends, "next" undoes "previous" and the other way round |
| Paging.Walk | colossusCogs/reaction_role_menu.py:637-652 | Any sequence of button presses leaves the index within the pages |
| TicketChecker.TicketNameIntro | colossusCogs/ticket_checker.py:44 | Every name made of "ticket-", one digit and any tail is a ticket channel: the pattern only has to match at the start |
| TicketChecker.TicketNameShape | colossusCogs/ticket_checker.py:44 | Conversely every ticket name is "ticket-", a digit and a tail |
| TicketChecker.AnchoredAtStart | colossusCogs/ticket_checker.py:82 | A name with anything but "t" in front is never a ticket, so "closed-ticket-1" is not checked |
| TicketChecker.SilenceStaysInactive | colossusCogs/ticket_checker.py:54-67 | With no new message, a channel without activity in the last hour is still inactive at any later look |
| TicketChecker.ClosingSent | colossusCogs/ticket_checker.py:109-120 | At most the four closing messages go out, and all four when no send raises |
| TicketChecker.ChannelEffects | colossusCogs/ticket_checker.py:82-120 | A channel gets messages iff it is an unpaused ticket, inactive at the first look, and the warning send succeeds; the warning comes first, then the closing messages in order, and they come iff the second look is inactive too; every message goes to that channel |
| TicketChecker.CheckTickets | colossusCogs/ticket_checker.py:70-87 | With monitoring off nothing is sent; every message goes to an unpaused ticket that was inactive at the first look, and every closing message to one inactive at both looks |
| TicketChecker.CheckTicketsAppend | colossusCogs/ticket_checker.py:80-82 | The channels are handled one after another: the effects of a split list are the two parts' effects in order |
| TicketChecker.PausedTicketSkipped | colossusCogs/ticket_checker.py:84-87 | A paused ticket gets nothing, whatever its activity |
| TicketChecker.TicketMonitor | colossusCogs/ticket_checker.py:122-156 | No state only reports; "on" leaves monitoring enabled and "off" disabled, with the word compared in lower case; any other word changes nothing and gets the usage reply; when the enabled flag does not change nothing changes |
| TicketChecker.MonitorKeepsLoopInStep | colossusCogs/ticket_checker.py:138-154 | The background loop runs exactly while checks are enabled, before and after every command |
| TicketChecker.MonitorIdempotent | colossusCogs/ticket_checker.py:137-154 | Repeating a command changes nothing the first run did not |
| TicketChecker.MonitorIgnoresCase | colossusCogs/ticket_checker.py:136 | Two state words with the same lower case act the same |
| TicketChecker.MonitorReplies | colossusCogs/ticket_checker.py:130-154 | The status reply names the current state; the "enabled" reply comes iff monitoring was off and is now on, the "disabled" one iff it was on and is now off |
| TicketChecker.SetChannelPausedAsWritten | handlers/database_handler.py:1403-1416 | As written, a pause raises a NameError before the insert (the module never imports the timestamp's name); an unpause deletes the row |
| TicketChecker.AsWrittenNeverPauses | handlers/database_handler.py:1403-1416 | As written, no call makes an unpaused channel paused |
| TicketChecker.AsWrittenPauseLost | handlers/database_handler.py:1410 | Concretely, pausing channel 1 in an empty store leaves it unpaused |
| TicketChecker.SetChannelPaused | handlers/database_handler.py:1396-1416 | With the timestamp supplied: afterwards the channel is paused iff asked, a pause records the time, and every other channel's row is untouched |
| TicketChecker.PauseThenUnpause | handlers/database_handler.py:1403-1414 | Pausing then unpausing leaves the store without the channel |
| TicketChecker.PausedThenSkipped | handlers/database_handler.py:1418-1427 | A channel paused through the corrected store is skipped by the check |
| EternalSlave.EmptyValid | commands/eternal_slave_cog.py:66-135 | the empty store satisfies every foreign key of the schema |
| EternalSlave.Register | commands/eternal_slave_cog.py:231-247 | registering adds a default profile for exactly the unknown ids named, and changes nothing else, keeping the foreign keys |
| EternalSlave.Reset | commands/eternal_slave_cog.py:726-727 | the reset leaves no gag, mute, binding, brand, chastity or restrictions, and keeps the setup flag and safe word |
| EternalSlave.ResetUser | commands/eternal_slave_cog.py:725-728 | the update resets exactly the named user's profile, and does nothing for an unknown id |
| EternalSlave.StoredRestrictionsRoundTrip | commands/eternal_slave_cog.py:911-916 | a list of comma-free entries joined with ',' and split again reads back as the same list |
| EternalSlave.DropVariantsMembers | commands/eternal_slave_cog.py:938 | exactly the entries that are not case variants of the removed word survive |
| EternalSlave.DropVariantsNone | commands/eternal_slave_cog.py:938 | without a case variant of the word, nothing is dropped |
| EternalSlave.DropVariantsAppend | commands/eternal_slave_cog.py:938 | the surviving entries keep their order: dropping distributes over concatenation |
| EternalSlave.AddRestriction | commands/eternal_slave_cog.py:909-920 | an entry already present in any case is refused; otherwise it is appended to the stored list |
| EternalSlave.RemoveRestriction | commands/eternal_slave_cog.py:931-943 | an entry not present in any case is refused; otherwise every case variant of it is dropped |
| EternalSlave.RestrictionsHaveNoComma | commands/eternal_slave_cog.py:911 | entries read from the column never contain the separator and are never the single empty entry |
| EternalSlave.AddedRestrictionReadsBack | commands/eternal_slave_cog.py:909-920 | an added comma-free entry reads back as the old list followed by that entry |
| EternalSlave.RemovedRestrictionReadsBack | commands/eternal_slave_cog.py:931-943 | after a removal the survivors read back in their old order and no case variant of the word is left |
| EternalSlave.AddThenRemoveRestores | commands/eternal_slave_cog.py:905-943 | removing a restriction just added gives back the list it was added to |
| EternalSlave.EditProfile | commands/eternal_slave_cog.py:309-598 | bind, chastity, gag, mute and brand change only the sub's profile, never its restrictions or safe word; chastity accepts only enable or disable in any case; brand needs a '|' |
| EternalSlave.RestrictionsStep | commands/eternal_slave_cog.py:905-961 | add and remove need a restriction, refuse duplicates and absent entries, and change only the sub's restrictions; list reports the stored entries; any other action is refused |
| EternalSlave.RewriteRules | commands/eternal_slave_cog.py:1087-1089 | the update rewrites the text of exactly the rules with that id and user, and keeps the rest |
| EternalSlave.RuleStep | commands/eternal_slave_cog.py:984-1099 | adding appends a rule with the next id; removing and updating an absent rule refuse and change nothing; removing drops exactly that rule; only the rules table changes |
| EternalSlave.WordStep | commands/eternal_slave_cog.py:1380-1516 | only the sub's restricted words change: add stores the word lower-cased and fails exactly when that lower-cased pair is already stored, remove drops the lower-cased pair, clear and toggle drop all the sub's words, and toggle refuses exactly when the sub has none |
| EternalSlave.WordCaseInsensitive | commands/eternal_slave_cog.py:1397-1405 | a word added in one case is refused with the error reply when added again in another case |
| EternalSlave.WordAddThenRemoveRestores | commands/eternal_slave_cog.py:1380-1437 | adding a new word stores it lower-cased, and removing it again in any case gives the store back |
| EternalSlave.SubTrustedStep | commands/eternal_slave_cog.py:1534-1640 | only the invoker's trusted pairs can change: add writes nothing, remove drops one pair, clear drops all of them |
| EternalSlave.Guarded | commands/eternal_slave_cog.py:309-1640 | an owner's command keeps the foreign keys, registers nobody, never touches a safe word, and changes the contracts only by disowning, which leaves the sub unimpaired |
| EternalSlave.OwnerStep | commands/eternal_slave_cog.py:218-324 | without a contract between invoker and sub, the reply is "not owner" and only registration happens; validity is kept, and no safe word appears |
| EternalSlave.NoContractNoChange | commands/eternal_slave_cog.py:218-229 | without a contract, no contract, rule, task, word, trust or existing profile changes |
| EternalSlave.SubTrustedAddWritesNothing | commands/eternal_slave_cog.py:1534-1558 | `sub-trusted add` never writes the trusted-users table |
| EternalSlave.DisownFreesSub | commands/eternal_slave_cog.py:705-874 | after `disown` the sub has no owner, is unimpaired, and can be claimed by anyone |
| EternalSlave.Claim | commands/eternal_slave_cog.py:851-874 | a claim succeeds exactly when no contract names the sub, and then makes the invoker its owner; other contracts are untouched |
| EternalSlave.SecondClaimRefused | commands/eternal_slave_cog.py:861-868 | a sub never gets a second owner: any later claim is refused and the first owner stays |
| EternalSlave.Leave | commands/eternal_slave_cog.py:741-764 | without a contract nothing happens; with one it ends and the sub is unimpaired; no other profile changes |
| EternalSlave.Safeword | commands/eternal_slave_cog.py:777-804 | accepted exactly when the word equals the stored safe word; then the sub has no contract and is unimpaired; otherwise nothing changes |
| EternalSlave.TrustedAdd | commands/eternal_slave_cog.py:621-649 | an already trusted user changes nothing but registration; otherwise exactly that pair is added |
| EternalSlave.TrustedRemove | commands/eternal_slave_cog.py:651-679 | an untrusted user changes nothing but registration; otherwise exactly that pair is removed |
| EternalSlave.TrustedClear | commands/eternal_slave_cog.py:681-703 | exactly the invoker's trusted pairs are removed |
| EternalSlave.MarkTasks | commands/eternal_slave_cog.py:1173-1175 | exactly the tasks with the id get the new completion flag |
| EternalSlave.TaskMark | commands/eternal_slave_cog.py:1151-1180 | succeeds exactly for complete or incomplete in any case on an existing task, then sets its flag; otherwise nothing changes |
| EternalSlave.TaskRemove | commands/eternal_slave_cog.py:1188-1211 | succeeds exactly for an existing task id and removes exactly the tasks with it |
| EternalSlave.Forget | commands/eternal_slave_cog.py:1797-1839 | afterwards no table mentions the user, and every row not mentioning the user survives |
| EternalSlave.LeaveServer | commands/eternal_slave_cog.py:1797-1855 | the data is deleted whatever the kick does, and the reply reports success exactly when the kick worked |
| EternalSlave.ForgetIdempotent | commands/eternal_slave_cog.py:1797-1839 | leaving the server twice is the same as leaving once |
| EternalSlave.FilterAllPass | commands/eternal_slave_cog.py:1817-1824 | a delete that matches no row leaves the table as it was |
| EternalSlave.Apply | commands/eternal_slave_cog.py:218-1855 | every command keeps the foreign keys and the id counters ahead of the ids, and none stores a safe word |
| EternalSlave.RunKeepsValid | commands/eternal_slave_cog.py:66-135 | every state reachable from a valid one keeps the schema's foreign keys |
| EternalSlave.SafewordNeverAccepted | commands/eternal_slave_cog.py:777-794 | no command ever stores a safe word, so from an empty store `safeword` is never accepted |
| EternalSlave.NoSafeWordsReachable | commands/eternal_slave_cog.py:790-794 | a store without safe words stays without them whatever commands run |
| EternalSlave.Watched | commands/eternal_slave_cog.py:1726-1727 | the watched words are the stored restrictions, each stripped and lower-cased, in order |
| EternalSlave.FirstMatch | commands/eternal_slave_cog.py:1729-1732 | the first watched word the content contains, with none before it contained |
| EternalSlave.MatchCount | commands/eternal_slave_cog.py:1731-1732 | the number of watched words the content contains, zero exactly when none is |
| EternalSlave.Scan | commands/eternal_slave_cog.py:1729-1742 | no match, no effect; a successful deletion warns about the first match and stops; a refused deletion is retried for every match; another failure stops |
| EternalSlave.OnMessage | commands/eternal_slave_cog.py:1707-1742 | bots, direct messages and unknown authors are ignored; otherwise a message is deleted exactly when it contains a watched word, with a warning naming the first |
| EternalSlave.BlankEntryMatchesEverything | commands/eternal_slave_cog.py:1726-1732 | a blank restriction entry is watched as the empty word, so every message of that user is deleted |
| AIChatbot.ClearChatHistory | colossusCogs/aichatbot.py:38-47 | the result flag is true exactly when the user had a history; afterwards the user has none, every other user's history is unchanged, and nothing changes when there was none |
| AIChatbot.GetChatHistory | colossusCogs/aichatbot.py:49-56 | an unknown user reads as the empty list, a known user's stored entries are returned |
| AIChatbot.ClearThenGet | colossusCogs/aichatbot.py:38-56 | after a clear the history reads back empty, and a second clear reports that there was nothing to clear and changes nothing |
| AIChatbot.OwnerIdFromConfigDict | colossusCogs/aichatbot.py:84-92 | the owner id the chat uses is the value the guild's configuration dictionary holds under "owner_id" |
| AIChatbot.PingOwner | colossusCogs/aichatbot.py:134-136 | a reply whose lower-cased text lacks "ping the owner", or whose own text lacks it, goes out unchanged; a reply that starts with the exact phrase starts with the owner's mention `<@owner>` instead, and the rest is replaced in the same way |
| AIChatbot.PingIsReplace | colossusCogs/aichatbot.py:134-136 | the lower-cased check never changes the outcome: the ping equals replacing every exact "ping the owner" with the mention |
| AIChatbot.PingStep | colossusCogs/aichatbot.py:136 | reading left to right, an exact phrase at the front becomes the mention, and any other first character is kept; either way the rest is pinged the same way |
| AIChatbot.CapitalisedPingUnchanged | colossusCogs/aichatbot.py:134-136 | "Ping the owner" is detected by the lower-cased test but, being capitalised, is not replaced: the reply goes out without the mention |
| AIChatbot.Replies | colossusCogs/aichatbot.py:141-148 | at least one reply is sent, and a reply of at most 2000 characters is sent as it is |
| AIChatbot.LongReplyPages | colossusCogs/aichatbot.py:141-148 | a reply over 2000 characters becomes two or more pages of at most 1900 characters that concatenate back to the reply, each sent as "Page i/n: " followed by the page |
| AIChatbot.Prompt | colossusCogs/aichatbot.py:111-112 | the prompt is the system message followed by at most five entries, ending with the newest |
| AIChatbot.PromptWindow | colossusCogs/aichatbot.py:111-112 | everything after the system message is exactly the tail of the user's history, in order |
| AIChatbot.Answer | colossusCogs/aichatbot.py:126-148 | a found tag for an administrator or the owner yields the moderation action first; no moderation happens otherwise; at least one reply is always sent |
| AIChatbot.Converse | colossusCogs/aichatbot.py:97-152 | the history keeps its old entries, gains the cleaned user message and, when the completion succeeded, the assistant's answer; the prompt is built from the history including the new message; a failed completion sends only the apology |
| AIChatbot.Chat | colossusCogs/aichatbot.py:73-152 | a DM changes nothing (the guild id is read first and raises); in a guild the user gets a history entry, a missing owner id stops there, otherwise the exchange is recorded; other users' histories never change |
| AIChatbot.OnMessage | colossusCogs/aichatbot.py:58-71 | the bot's own messages and messages starting with "!" change nothing; every other message goes to the chat |
| AIChatbot.FailedCompletionApologises | colossusCogs/aichatbot.py:114-152 | a failed completion sends only the apology and leaves the user's message recorded without an answer |
| AIChatbot.ModerationNeedsAdmin | colossusCogs/aichatbot.py:94-132 | a moderation action happens only in a guild, on a found tag, for an administrator or the owner |
| AIChatbot.TagIgnoredForMembers | colossusCogs/aichatbot.py:126-132 | for a member who is neither administrator nor owner every effect is a reply, whatever tag the answer carries |
| ChannelAccess.ToggleReply | colossusCogs/channel_access_manager.py:64-66 | The confirmation starts "✅ Granted" iff the new read is allowed and "✅ Removed" iff it is not |
| ChannelAccess.ToggleChannelAccess | colossusCogs/channel_access_manager.py:42-66 | The read overwrite flips with Python's `not`: a granted read becomes denied and an unset or denied one granted; no other (member, channel) pair changes; exactly one log row is appended, holding the previous stored value and the new one |
| ChannelAccess.ToggleTwice | colossusCogs/channel_access_manager.py:50-53 | Two toggles give a set read back, while an unset read ends as an explicit deny; each toggle logs one row |
| ChannelAccess.ToggleLogAgrees | colossusCogs/channel_access_manager.py:56-62 | The appended row's previous value is the access before the toggle and its new value the access after |
| ChannelAccess.LogField | colossusCogs/channel_access_manager.py:85-97 | A log field's value starts with the previous state's mark, ✅ only for a stored True |
| ChannelAccess.ViewLogs | colossusCogs/channel_access_manager.py:69-99 | An empty log gets the no-logs reply; otherwise there is one field per row for the first ten rows, in log order |
| ChannelAccess.ViewLogsFirstTen | colossusCogs/channel_access_manager.py:84 | Once ten rows are logged, further rows never change what is shown |
| ChannelAccess.ClearLogged | colossusCogs/channel_access_manager.py:113-117 | Every logged pair whose member and channel resolve loses its overwrite; every other overwrite is kept as it was |
| ChannelAccess.ResetPermissions | colossusCogs/channel_access_manager.py:102-121 | An empty log changes nothing and says so; otherwise the log is emptied, resolvable logged pairs end unset and any overwrite either keeps its value or is unset |
| ChannelAccess.ResetKeepsUnlogged | colossusCogs/channel_access_manager.py:113-120 | An overwrite for a pair nobody logged survives a reset |
| ChannelAccess.HomePage | colossusCogs/channel_access_manager.py:147-161 | The page times out iff no reaction is from the invoker with one of its three emojis; the page methods that are missing are reached only through ➡️ or 🔍 |
| ChannelAccess.HomePageIgnoresOthers | colossusCogs/channel_access_manager.py:147-148 | The outcome depends only on the invoker's reactions with the page's emojis |
| ChannelAccess.ExitEndsLoop | colossusCogs/channel_access_manager.py:157-159 | The first considered ❌ deletes the page, whatever follows |
| ChannelAccess.Channels | colossusCogs/channel_access_manager.py:37-40 | The command answers "server only" iff it is used outside a guild |
| ChannelArchiver.LastActivity | colossusCogs/channel_archiver.py:66-93 | exactly ignored names, channels under an archive category, categories and unknown kinds are skipped; voice and stage channels use their creation time; a text channel uses its newest message, falling back to creation when there is none |
| ChannelArchiver.GatherInactive | colossusCogs/channel_archiver.py:58-96 | a channel is selected if and only if it is in the guild and its last activity is strictly earlier than thirty days before now |
| ChannelArchiver.IgnoredNeverSelected | colossusCogs/channel_archiver.py:59-68 | a channel named rules or roles in any case, or under a category whose name contains "archive", is never selected |
| ChannelArchiver.TextChannelCutoff | colossusCogs/channel_archiver.py:77-96 | a text channel with a message is selected exactly when that message is older than the thirty-day cutoff |
| ChannelArchiver.Filled | colossusCogs/channel_archiver.py:102-103 | the filled part never exceeds 25 blocks and is all 25 once every channel was scanned |
| ChannelArchiver.Bar | colossusCogs/channel_archiver.py:103 | the bar is always 25 characters: blocks over the filled part and dashes over the rest |
| ChannelArchiver.BarGrows | colossusCogs/channel_archiver.py:102-103 | scanning further never shortens the bar |
| ChannelArchiver.DivMonotone | colossusCogs/channel_archiver.py:102-103 | floor division by a positive number keeps the order of the dividends |
| ChannelArchiver.CheckedAt | colossusCogs/channel_archiver.py:65-99 | the indices listed are those of channels checked without error, each within the scan, in strictly increasing scan order |
| ChannelArchiver.CheckedAtComplete | colossusCogs/channel_archiver.py:65-99 | no channel checked without error is left out of the listed indices |
| ChannelArchiver.Progress | colossusCogs/channel_archiver.py:97-106 | exactly one bar per channel checked without error, in scan order, each the bar for that channel's position among all the guild's channels |
| ChannelArchiver.ProgressGrows | colossusCogs/channel_archiver.py:100-106 | a later bar is never less filled than an earlier one |
| ChannelArchiver.FullBarAtEnd | colossusCogs/channel_archiver.py:100-103 | when the guild's last channel is checked without error the scan ends on a bar of 25 blocks |
| ChannelArchiver.ArchiveAll | colossusCogs/channel_archiver.py:127-139 | one step per channel in order; exactly the failing channels are logged and every other one is archived |
| ChannelArchiver.Autoarchive | colossusCogs/channel_archiver.py:108-118 | "no inactive channels" exactly when none is selected; otherwise the reported count is the number of selected channels and each of them, in guild order, gets one step, archived exactly when it is not among the failing ones |
| ChannelArchiver.Archive | colossusCogs/channel_archiver.py:148-173 | no target only prompts, a non-channel target is rejected, a category expands to its channels in order, and any other channel is archived alone |
| ChannelArchiver.CategoryLookupMissing | colossusCogs/channel_archiver.py:204 | the handler defines no `get_available_archive_category` |
| ChannelArchiver.FailingAsWritten | colossusCogs/channel_archiver.py:127-139 | as written every channel handed to the archiver fails inside its `try` |
| ChannelArchiver.AutoarchiveAsWritten | colossusCogs/channel_archiver.py:108-139 | as written the scan and the count are as intended, and every archive step fails |
| ChannelArchiver.ArchiveAsWritten | colossusCogs/channel_archiver.py:141-173 | as written the prompts are as intended, and every channel of the target fails |
| ChannelArchiver.AsWrittenMovesNothing | colossusCogs/channel_archiver.py:108-139 | with no failures every selected channel is archived, while as written none is |
| PrefixManager.Lookup | colossusCogs/prefix_manager.py:60-65 | A guild's stored prefix is absent iff no row has its id, and present only as some row's prefix |
| PrefixManager.Upsert | colossusCogs/prefix_manager.py:60-65 | The guild's existing row takes the new prefix in place, every other row is untouched, and a row is added at the end iff the guild had none |
| PrefixManager.LookupKeyed | colossusCogs/prefix_manager.py:60-65 | In a table keyed by guild id, looking up a row's guild finds that row's prefix |
| PrefixManager.UpsertStores | colossusCogs/prefix_manager.py:53-65 | The upsert keeps the table keyed by guild id, the guild then reads back the new prefix, and every other guild reads what it read before |
| PrefixManager.UpsertLastWins | colossusCogs/prefix_manager.py:60-65 | Two upserts for a guild leave what the second alone leaves |
| PrefixManager.SetPrefix | colossusCogs/prefix_manager.py:42-50 | Corrected: outside a guild the command is refused and nothing changes; in a guild only that guild's in-memory prefix changes, to the new one, the table is upserted, and the reply echoes the prefix |
| PrefixManager.MemoryAndTableAgree | colossusCogs/prefix_manager.py:46-48 | After the corrected command, the in-memory prefix and the stored one agree for the guild |
| PrefixManager.SetPrefixAsWritten | colossusCogs/prefix_manager.py:42-50 | As written, outside a guild the command is refused; in a guild it raises at `guild_prefixes` with the map and the table unchanged and no reply |
| PrefixManager.AsWrittenNeverStores | colossusCogs/prefix_manager.py:46-49 | As written no prefix is ever stored or confirmed, and outside a guild the command agrees with the corrected one |
| Todo.NumberedLines | commands/todo.py:79 | One line per item, in list order, each its position counted from the start, ". " and the item |
| Todo.RemoveAt | commands/todo.py:68 | Removing position i keeps every other item in order and shortens the list by one |
| Todo.TodoCommand | commands/todo.py:48-80 | No action gives the usage reply and no change; other users' lists never change; "add" appends a non-empty message or asks for one; "remove" needs a digit string, removes the item at that 1-based index when it exists and otherwise answers "Invalid index." without a change; "list" changes nothing, reports an empty list iff it is empty, and otherwise shows "Your Todo List:" and the numbered items joined by line breaks; any other action does nothing |
| Todo.ListingLines | commands/todo.py:78-80 | a listing of single-line items reads back, line by line, as the header and one line per item, numbered from 1 in list order |
| Todo.NumberedLineSingle | commands/todo.py:79 | the numbered line of a single-line item holds no line break |
| Todo.StoreCallsMissing | commands/todo.py:56-58 | the handler defines neither `get_todo_list` nor `update_todo_list` |
| Todo.TodoCommandAsWritten | commands/todo.py:48-80 | as written the command raises exactly when it reaches the list ("list", "add" with a message, "remove" with a digit index); otherwise it replies as intended and changes nothing |
| Todo.AsWrittenNeverTouchesLists | commands/todo.py:48-80 | as written the only replies are the usage, the two prompts and silence |
| Todo.AddThenRemoveLast | commands/todo.py:52-70 | Adding an item and then removing the last index gives the list back |
| Todo.ZeroIndexInvalid | commands/todo.py:65-72 | Index "0" never removes anything |
| Suggest.UpdateChannel | commands/suggest.py:64-71 | The guild's record ends with the new channel and keeps its number; other guilds' records are unchanged |
| Suggest.SuggestionChannel | commands/suggest.py:42-77 | Without the owner or head_staff role, or without a channel, nothing changes; otherwise the channel is written, and the reply says "set" iff the guild had no record and "updated" iff it had one |
| Suggest.SuggestCommand | commands/suggest.py:80-140 | A suggestion is posted iff there is text, the guild's configured channel resolves and the author has an avatar; without the avatar the run raises; nothing else posted changes the store; a posted suggestion goes to that channel under the stored number plus one (0 when absent), which is then stored |
| Suggest.StoreCallMissing | commands/suggest.py:60 | the handler defines no `child` |
| Suggest.SuggestionChannelAsWritten | commands/suggest.py:42-77 | as written the command raises at `child` exactly when it has the role and a channel; otherwise it replies as intended without writing |
| Suggest.SuggestCommandAsWritten | commands/suggest.py:80-97 | as written any suggestion raises at `child`; only the usage reply is given |
| Suggest.AsWrittenNeverPosts | commands/suggest.py:60-134 | as written no suggestion is posted and no channel is stored |
| Suggest.ConsecutiveNumbers | commands/suggest.py:116-134 | Two accepted suggestions in a row take consecutive numbers |
| Suggest.SetThenSuggest | commands/suggest.py:64-134 | After a resolvable channel is set, a suggestion goes through to it, numbered after the guild's previous count |
| Suggest.ChannelKeepsCount | commands/suggest.py:64-71 | Setting the channel never resets the suggestion count |
| Vote.VoteLink | commands/vote.py:54-55 | The link text starts "**[Vote for " and the guild's name |
| Vote.Decompose | commands/vote.py:94-96 | Days, hours, minutes and seconds add back up to the total, with hours below 24 and minutes and seconds below 60 |
| Vote.DecomposeUnique | commands/vote.py:94-96 | Parts within those bounds are exactly what decomposing their total gives back |
| Vote.DivModUnique | commands/vote.py:94-96 | `divmod` by a positive divisor has only one quotient and remainder with the remainder below the divisor |
| Vote.WaitText | commands/vote.py:98-105 | From a day on the wait shows whole days and the hours left over; from an hour on, hours and minutes; from a minute on, minutes and seconds; below a minute the fixed "`10 seconds`" |
| Vote.PairInjective | commands/vote.py:98-103 | A shown wait determines both amounts and both units |
| Vote.Shows | commands/vote.py:94-103 | From a minute on, the wait shows its value cut down to the smallest shown unit, split into the larger unit and a remainder below one larger unit |
| Vote.WaitTextSameIff | commands/vote.py:94-103 | From a minute on, two waits read the same exactly when they fall in the same range (a day, an hour or a minute and more) and agree once cut down to its smallest shown unit |
| Vote.WaitUnits | commands/vote.py:98-103 | Days lead iff the wait is at least a day; below a day, hours lead iff it is at least an hour; below an hour, minutes lead iff it is at least a minute |
| Vote.Remaining | commands/vote.py:92-93 | The whole seconds left until a next vote time that is still ahead: the remaining microseconds lie within that many seconds and one more |
| Vote.Votes | commands/vote.py:73-115 | The target defaults to the invoker; with no row the count is 0 and the wait "Now"; with a row its count shows, the wait is "Now" unless the next vote time is in the future, and then it is the remaining whole seconds formatted; the footer names the requester iff the target is someone else |
| Vote.UnderASecond | commands/vote.py:91-105 | Less than a second before the next vote the wait still reads "`10 seconds`", never "Now" |
| Vote.VotesCommand | commands/vote.py:108-117 | Nothing is sent exactly when the target has no avatar, or the target is someone else and the invoker has none; otherwise the reply is the vote summary |
| VibeCheck.IntOf | commands/vibecheck.py:119 | a missing or null value does not convert; a number converts to itself |
| VibeCheck.MentionId | commands/vibecheck.py:94 | an id is read exactly when the value is a string holding some digit, and it is the number its digits spell |
| VibeCheck.MentionRoundTrip | commands/vibecheck.py:93-108 | the user mentions `<@id>` and `<@!id>` and the channel mention `<#id>` all give back the id |
| VibeCheck.TwoDigitsInjective | commands/vibecheck.py:180-181 | below 100, two numbers print as the same two-digit text exactly when they are equal |
| VibeCheck.DateText | commands/vibecheck.py:87-88 | an absent month or day is the current one in two digits; a given one is its text padded to two characters |
| VibeCheck.NumberOverrideNamesDate | commands/vibecheck.py:129-132 | a numeric month or day override selects exactly the date it names, and the same number written as a string selects the same date |
| VibeCheck.CheckHours | commands/vibecheck.py:119-126 | the hours are accepted exactly when both convert and lie in 0..24; a failed conversion raises unless the start was already out of range |
| VibeCheck.StartCheckedFirst | commands/vibecheck.py:119 | a start outside 0..24 is rejected even when the end is missing, because the test stops at the start |
| VibeCheck.MatchingFromValid | commands/vibecheck.py:176-183 | every selected text is the content of a message of the history that passes the selection |
| VibeCheck.PassTakesPrefix | commands/vibecheck.py:192-197 | one pass appends the first qualifying messages, as many as the remaining count (at least one), and stops early exactly when it fills the count |
| VibeCheck.Collect | commands/vibecheck.py:172-202 | the collected texts are the first `count` qualifying messages (at least one), in history order, and none are collected exactly when none qualify |
| VibeCheck.CollectedQualify | commands/vibecheck.py:176-197 | every collected text comes from a qualifying message of the history |
| VibeCheck.ShortHistoryOnePass | commands/vibecheck.py:185-202 | with fewer messages than the fetch limit the loop makes exactly one pass |
| VibeCheck.FetchAsWrittenDuplicates | commands/vibecheck.py:185-200 | as written, a full history holding one qualifying message, asked for two, yields that message twice, where the intended result holds it once |
| VibeCheck.FetchAsWrittenNeverStops | commands/vibecheck.py:185-200 | as written, a full history with no qualifying message never ends the loop, however many passes are allowed |
| VibeCheck.Classify | commands/vibecheck.py:252-256 | a compound score of at least 0.05 is Based, strictly between -0.05 and 0.05 is Neutral, and at most -0.05 is Cringe |
| VibeCheck.ClassifyMonotone | commands/vibecheck.py:252-256 | a higher compound score never gets a lower state |
| VibeCheck.Checks | commands/vibecheck.py:75-143 | the checks before any fetch: without a count or a setup the usage is shown, unparsable JSON is reported, and no check ever shows results; a run that passes had a count, a JSON object and valid hours, reads the user from their mention, names a user or channel exactly when the setup does, and selects by that user, the month and day (the current ones when absent) and the two hours |
| VibeCheck.VibecheckAsWritten | commands/vibecheck.py:75-202 | as written, every run that passes the usage, JSON, user, channel and hours checks ends in the raised error, because the history read fails; before that it replies as the checks do |
| VibeCheck.AsWrittenNeverShowsResults | commands/vibecheck.py:185-189 | as written, no run ever shows results or reports that no message matched |
| VibeCheck.Vibecheck | commands/vibecheck.py:75-143 | with the history read as intended: without a count or a setup the usage is shown; unparsable setup JSON gives the JSON error; any reply the checks give is the reply; results are shown only for a setup object with valid hours that names a user or a channel, classify the compound score and hold at least one message |
| VibeCheck.AsWrittenAgreesUntilFetch | commands/vibecheck.py:75-189 | the command as written and as intended give the same reply unless the checks all pass, and then the as-written one raises |
| VibeCheck.ResultsAreTheUsers | commands/vibecheck.py:93-183 | with the history read as intended, a run naming one user and a numeric date reports only non-bot messages of that user, on that month and day, within the hours |
| Catfish.PickImage | commands/catfish.py:54-74 | The image is chosen in priority order: the invoking message's first attachment, then a non-empty URL argument, then the replied-to message's first attachment, then its content, which is taken iff it contains "http" and ".jpg" or ".png" |
| Catfish.PlainReplyNotSearched | commands/catfish.py:70-74 | Replied-to text without "http" is never searched unless a URL argument was given |
| Catfish.ResultLine | commands/catfish.py:116 | Each result line is non-empty and ends with a newline |
| Catfish.ResultLineNumbered | commands/catfish.py:116 | Each result line starts with its number in brackets, then " [" |
| Catfish.ResultLines | commands/catfish.py:115-116 | One line per result, in the service's order, numbered on from the start |
| Catfish.ResultLinesAppend | commands/catfish.py:115-116 | Further results only add lines after the existing ones, numbered on where they stopped |
| Catfish.Answer | commands/catfish.py:101-147 | An error in the body gives only the error embed; otherwise no results give "no matches" and any results give the lines numbered from 1; a network failure and any other failure get their own replies |
| Catfish.CatfishCommand | commands/catfish.py:76-99 | The usage reply comes iff no image was found, and then nothing is searched; otherwise the chosen image is searched and the answer decides the reply |
| Catfish.NoImageNoCall | commands/catfish.py:77-84 | Without an image the service's answer cannot matter |
| Catfish.OwnAttachmentFirst | commands/catfish.py:55-56 | The invoking message's own attachment wins over every other source |
| ImageSearch.FetchFrom | commands/image.py:64-80 | The requests go out at start indices 0, 10, 20, ... in order, at most eleven of them |
| ImageSearch.ElevenRequests | commands/image.py:68-80 | When every answer reads, exactly eleven requests are made, at 0 through 100, and every batch's items are kept in request order |
| ImageSearch.Navigate | commands/image.py:110-130 | Every page the results are edited to lies within 1 to the number of results |
| ImageSearch.ArrowAtEndIsNoOp | commands/image.py:118-127 | ➡️ on the last page and ⬅️ on the first change nothing |
| ImageSearch.StopEnds | commands/image.py:128-130 | ⏹️ from the invoker stops the loop whatever follows |
| ImageSearch.ForwardBack | commands/image.py:118-127 | ➡️ then ⬅️ below the last page shows the next page and then the starting one again |
| ImageSearch.ImgAsWritten | commands/image.py:43-113 | As written, there is a usage reply iff there is no query; the reaction wait uses a client attribute the class never sets |
| ImageSearch.AsWrittenNeverPages | commands/image.py:102-113 | As written, a search with two or more results raises at the first wait and never pages |
| ImageSearch.AsWrittenTwoResults | commands/image.py:113 | Concretely, two results and ➡️ from the invoker raise instead of showing page 2 |
| ImageSearch.Img | commands/image.py:54-130 | With the client kept: usage iff no query; "no results" iff the batches hold no item; one result is shown alone; more results always page, starting from page 1 over all of them |
| KeyWords.Footer | commands/keywords.py:127 | Every footer reads "Page " followed by the page and the total |
| KeyWords.Step | commands/keywords.py:155-157 | A move stays within pages 1 to total, and when the page changes it changes by the arrow's offset |
| KeyWords.StepIsPaging | commands/keywords.py:155-157 | ⬅️ and ➡️ moves agree with the shared previous/next page navigation |
| KeyWords.Navigate | commands/keywords.py:143-164 | Every page the message is edited to lies within 1 to total, and there is at most one edit per reaction |
| KeyWords.Footers | commands/keywords.py:127-159 | One footer for the first page and one per edit, each naming a page in range |
| KeyWords.EditsMoveOnePage | commands/keywords.py:155-159 | Consecutive pages shown, the starting page first, differ by exactly one |
| KeyWords.ConsideredOnlyMembers | commands/keywords.py:135-140 | The reactions kept for the session are exactly those from the invoker, on this message, with a navigation emoji |
| KeyWords.NavigateIgnoresOthers | commands/keywords.py:135-140 | Only the invoker's navigation reactions on this message matter: dropping the others gives the same session |
| KeyWords.ArrowAtEndIsNoOp | commands/keywords.py:155-156 | ⬅️ on page 1 and ➡️ on the last page change nothing, as if they never came |
| KeyWords.StopEnds | commands/keywords.py:149-153 | ⏹️ from the invoker cancels at once with no further edits |
| KeyWords.KeyWordsCommand | commands/keywords.py:36-127 | Without the owner or head_staff role the command is refused; with it, a missing invoker avatar or guild icon raises before anything is sent; otherwise the session starts on page 1, every edit shows a page within the two, and consecutive pages differ by one |
| Help.ShortDescription | commands/help.py:56 | Without ". Usage:" in the help text, the listing shows the whole help stripped |
| Help.Description | commands/help.py:72 | An empty help gives "No description available."; help without the marker is shown whole |
| Help.UsageText | commands/help.py:75 | Help without ". Usage:" gives "No specific usage." |
| Help.UsageField | commands/help.py:76-82 | An empty usage or the fallback text shows "No specific usage provided."; any other usage is shown in a code block |
| Help.HelpTextRoundTrip | commands/help.py:56-75 | Help written as "description. Usage: usage" splits back into the description (stripped in the listing) and the usage |
| Help.MarkerWithoutSpaceHasNoUsage | commands/help.py:75-80 | With ". Usage:" at the very end and no space after it, no usage is shown |
| Help.Lines | commands/help.py:55-58 | One listing line per command, bold name, " - " and the short description |
| Help.ShownCommands | commands/help.py:51-57 | A cog's listed commands are exactly its visible ones, in case-insensitive name order |
| Help.ShownCogs | commands/help.py:49-61 | The cogs that get a field are exactly those with a visible command, in case-insensitive name order |
| Help.Listing | commands/help.py:41-63 | One field per shown cog, in order, each holding its commands' lines |
| Help.VisibleCogListed | commands/help.py:59-61 | Every cog with a visible command gets a field |
| Help.ListedCogVisible | commands/help.py:59-61 | Only cogs with a visible command get a field |
| Help.ListingSorted | commands/help.py:49 | The fields come in case-insensitive cog name order |
| Help.ShownCommandsStable | commands/help.py:51-57 | Commands whose names differ only in case are listed in the cog's own order, as Python's stable `sorted` leaves them |
| Help.ShownCogsStable | commands/help.py:49-61 | Cogs whose names differ only in case get their fields in the bot's own cog order |
| Help.Named | commands/help.py:66 | The command found has the name as its name or an alias; none is found iff no command has it |
| Help.Descend | commands/help.py:66 | No word left gives the command itself; a word after a plain command finds nothing; a group goes on only through a subcommand named by the next word |
| Help.FindCommand | commands/help.py:66 | A word without a space is found iff some command has it as name or alias; with a space, only the first whitespace-separated word picks the command, and a plain command found by it is the answer whatever follows |
| Help.ArgumentsAfterCommandIgnored | commands/help.py:34-66 | `help vote now` shows `vote`: words after a plain command's name do not change the command found |
| Help.SubcommandFound | commands/help.py:34-66 | A group's name, a space and a subcommand's name find that subcommand |
| Help.HelpCommandReply | commands/help.py:41-90 | Without a word the general listing comes; "not found" comes iff no command answers to the word; a found command's detail lists aliases iff it has some |
| RestrictRole.Apply | commands/restrict_role.py:75-77 | A text channel gets the role's read overwrite set to whether it is the allowed channel; any other channel is untouched |
| RestrictRole.RunFrom | commands/restrict_role.py:74-81 | Every text channel visited ends with read allowed exactly on the allowed channel; ids of no visited text channel keep their overwrite; progress is reported at exactly the positions that are multiples of the step |
| RestrictRole.Decide | commands/restrict_role.py:61-68 | The wait times out iff no reaction is the invoker's ✅ or ❌ |
| RestrictRole.PassAsWritten | commands/restrict_role.py:73-86 | As written, with one to nine channels only the first channel is handled before the modulo by `total // 10 == 0` raises, and the error is replied; from ten channels on the role is restricted |
| RestrictRole.AsWrittenThreeChannels | commands/restrict_role.py:80 | Concretely, three text channels: only the first gets its overwrite, the allowed one is untouched, and the reply is the error |
| RestrictRole.ProgressStep | commands/restrict_role.py:80 | The corrected step is never zero and equals a tenth of the channels from ten channels on |
| RestrictRole.Pass | commands/restrict_role.py:73-83 | With the corrected step every text channel ends with read allowed exactly on the allowed channel, every other overwrite is kept, progress comes at the step's multiples and the role is reported restricted |
| RestrictRole.PassAgreesFromTen | commands/restrict_role.py:73-83 | From ten channels on the corrected pass is the pass as written |
| RestrictRole.AllChannelsReported | commands/restrict_role.py:79-81 | Below ten channels the corrected pass reports progress after every channel |
| RestrictRole.RestrictRoleCommand | commands/restrict_role.py:49-86 | Without both role and channel only the usage reply comes; a cancel or a timeout changes no overwrite and reports nothing, a cancel replying "canceled"; a confirmation runs the pass |
| ProgressBar.NewBar | commands/helpers/progress_bar.py:16-26 | Construction fails with its message iff the total is at most 0; otherwise it keeps the total and length |
| ProgressBar.RoundHalfEven | commands/helpers/progress_bar.py:40-41 | The filled count is the integer nearest to the exact ratio, the even one on a tie |
| ProgressBar.RoundIsNearest | commands/helpers/progress_bar.py:41 | Only one integer is nearest with ties to even, so the rounding is exactly that integer |
| ProgressBar.NearestOrdered | commands/helpers/progress_bar.py:41 | Nearest integers of two ratios over the same divisor come in the ratios' order |
| ProgressBar.RoundMonotone | commands/helpers/progress_bar.py:40-41 | Rounding a larger ratio never gives less |
| ProgressBar.Times | commands/helpers/progress_bar.py:42-43 | A character repeated a negative or zero number of times is empty, and otherwise that many copies |
| ProgressBar.Create | commands/helpers/progress_bar.py:28-44 | A negative current and a current past the total fail with their messages; otherwise the bar is "[", the filled count of "#", the rest of "-", "]" |
| ProgressBar.FilledInRange | commands/helpers/progress_bar.py:40-43 | For an accepted current the filled count lies between 0 and the bar's length |
| ProgressBar.BarShape | commands/helpers/progress_bar.py:40-44 | The bar has length plus two characters, brackets at the ends, "#" over the filled count and "-" after, and the filled count is within half a step of current times length over total |
| ProgressBar.EmptyAndFull | commands/helpers/progress_bar.py:40-44 | Zero progress gives all "-" and full progress all "#" |
| ProgressBar.FilledMonotone | commands/helpers/progress_bar.py:40-41 | More progress never fills less of the bar |
| ProgressBar.HalfOfDefault | commands/helpers/progress_bar.py:16 | The default twenty-character bar at one half shows ten "#" and ten "-" |
| LogHandler.Emit | handlers/log_handler.py:30-45 | A record that formats is sanitised and appended as the last line, and the oldest line is dropped exactly when the buffer then exceeds 1000; a failure calls the error handler and leaves the buffer alone; a buffer within the limit stays within it |
| LogHandler.BufferKeepsNewest | handlers/log_handler.py:40-43 | Starting within the limit, after any run of records the buffer holds exactly the newest 1000 sanitised lines, in order |
| LogHandler.StreamEmit | handlers/log_handler.py:79-92 | The stream handler writes the sanitised line and a newline iff the record formats |
| LogHandler.HandlersAgree | handlers/log_handler.py:57-59 | Both handlers produce the same sanitised text for a record: IPv4 addresses redacted first, then IPv6 |
| CommandsMeta.Permissions | handlers/commands_handler.py:466-470 | a missing entry reads "Default", a non-list value is returned unchanged, and a list becomes a sorted arrangement of exactly its items joined with ", " |
| CommandsMeta.PermissionsIgnoreOrder | handlers/commands_handler.py:467-468 | two lists holding the same permissions in any order give the same string |
| CommandsMeta.PermissionsOfSorted | handlers/commands_handler.py:467-468 | a list's string is the join of the one sorted arrangement of its items |
| CommandsMeta.TwoPermissionsSorted | handlers/commands_handler.py:468 | two permissions are listed alphabetically whatever order they were given in |
| CommandsMeta.OrDefault | handlers/commands_handler.py:449-450 | a missing or empty text is replaced by the default, and any other text is kept |
| CommandsMeta.EntryOf | handlers/commands_handler.py:449-456 | an entry's description and usage are never empty, and its permissions are the command's extracted permissions |
| CommandsMeta.CommandsData | handlers/commands_handler.py:446-457 | the table has an entry for a name exactly when some command has that name |
| CommandsMeta.LastCommandWins | handlers/commands_handler.py:447-456 | the entry under a name describes the last command registered with that name |
| CommandsMeta.DistinctNamesOneEntryEach | handlers/commands_handler.py:446-457 | with distinct names there are as many entries as commands, and each describes its own command |
| CommandsMeta.HandleError | handlers/commands_handler.py:504-520 | only an unknown command gets no reply; exactly internal failures and unlisted errors are logged; a missing argument's reply names the parameter |
| CommandsMeta.UnexpectedErrorsDistinguished | handlers/commands_handler.py:513-520 | an internal failure and an unlisted error get different replies, and both are logged |

## Left out

- Discord itself: sending, editing, deleting and reacting to messages, roles, permission overwrites, kicks, DMs and channel creation are returned as effects or replies; what Discord answers (a message found or missing, `Forbidden`, `NotFound`, a `wait_for` timeout) is an input of the operation.
- Outside services: the OpenAI completion, SerpAPI and Google image search, OCR.space, PIL's thumbnail resizing and VADER sentiment are not modelled; their answers (the completion text, the result list, the extracted text, the resized image, the compound score) are inputs.
- SQL text and database engines: the tables are sequences of rows or maps. The MySQL dialect branches are not modelled. A `fetchone` without `ORDER BY` is taken to return the first row in insertion order.
- Time and concurrency: `asyncio.sleep`, `tasks.loop` schedules, the log handler's lock, the anti-hacking `background_task` and the Flask route `setup_commands_data_route` are left out. Timestamps are whole seconds given as inputs, and `time.time()` floats are read as whole seconds.
- Floating point: the progress bar divides exactly before rounding half to even, so float rounding error is left out, and so is `with_percentage`. The archiver's percentages and its `{progress:.2f}` text are left out. The vibecheck compound score is a `real`, and its JSON float form is left out.
- Regular expressions: the IPv4 and IPv6 sanitisers, the flagged-word regex phrases and the chatbot's action tag pattern enter as functions or as their match results.
- Presentation: embed colours, titles, footers and field layout are left out, except for the texts that the contracts state.
- Text: `lower()`, `isdigit()`, `isspace()` and `strip()` are modelled on ASCII only. `int()` is modelled with its stripping of ASCII whitespace; its acceptance of `_` between digits, of non-ASCII whitespace and of non-ASCII digits is not modelled.
- Help: a command without a docstring makes `help.py:56` raise. The model takes each command's help as a string.
- Restrict-role: the administrator permission check belongs to discord.py's decorator and is not modelled.
- Image search: how `remove_reaction` is called is platform work and is not modelled.
- Cog loading and unloading is not modelled.
- Vote: the time argument is parsed as whole seconds; the parser's date formats are left out.
- Suggest, todo and the archiver call store methods that the database handler does not define (`child`, `get_todo_list`, `update_todo_list`, `get_available_archive_category`, `add_archived_channel`). The as-written members raise at the first such call (Findings below). The corrected members take each store as a map with the behaviour the commands expect.
- Ticket checker: the code after `return` in `is_channel_paused` (`handlers/database_handler.py:1428-1435`) never runs and is not modelled.
- Anti-hacking: the audit-log listeners are modelled by the one `TrackAction` they all lead to.
- NSFW checker: the alert's image and footer are presentation and are not modelled. `check_attachments` fetches the original message from the channel holding the alert, which is the staff thread; `NsfwChecker.Recheck` takes what that channel holds as an input, so a message posted elsewhere is simply not found there.
- Reaction-role menu `edit_menu`: options 1 to 5 call `handle_*` methods that the class never defines, so they raise and the error is replied. They are not modelled.
- CreatedMenuIsReachable: stated on the table without the `menu_id` key, the corrected layout of the fourth finding below. On the table as declared, `ReactionRoleMenu.CreateMenuAsDeclared` states what happens instead.
- Reaction-role menu `export_menu`: the JSON serialisation is not modelled.
- Reaction-role menu `delete_menu`: the confirmation and the clearing of reactions are platform work. The deletion itself is `ReactionRoleStore.DeleteMenu`.
- Reaction-role menu `create_menu`: the name and message waits are inputs, and so is the `uuid4` menu id.
- Eternal slave: the profile embed's layout is not modelled; it reads some columns at the wrong index, but only for display.
- Eternal slave: renaming, voice moves, `e-say`, the task view and list, and the rules listing are display or platform work and are not modelled.
- Eternal slave: `leave_server` is defined twice in the class, at `commands/eternal_slave_cog.py:1642` and `commands/eternal_slave_cog.py:1797`. The definitions are identical. Python keeps the second, and that one is modelled.
- Eternal slave: no command ever sets `safe_word`, so a safe word is never accepted; this is proved as `EternalSlave.SafewordNeverAccepted`.
- Channel archiver: unarchiving is platform and store work and is not modelled. Of `get_or_create_archive_category`, only its first store call is modelled, the one that raises. `MAX_CHANNELS_PER_CATEGORY` is never used.
- VibeCheck.FetchAsWritten: the passes of the as-written loop are bounded by a `fuel` argument. `None` means the loop had not ended within that many passes, and the loop's behaviour beyond the fuel is not modelled.
- AlertWorkflow.OnReaction: it carries no `ensures` of its own. Its properties are stated by the lemmas about it in the table above.
- FlaggedWords.OnMessage (`colossusCogs/listeners/flagged_words_alert.py:27`): no `ensures` of its own; `FlaggedWords.LoggedIffFlagged`, `FlaggedWords.AlertOnlyForFlagged` and `FlaggedWords.EmptyListFlagsNothing` state its behaviour.
- RepeatedMessages.OnMessage (`colossusCogs/listeners/repeated_message_alert.py:43`): no `ensures` of its own; `RepeatedMessages.ShortMessagesIgnored`, `RepeatedMessages.AcceptedMessagesLogged`, `RepeatedMessages.AlertIffTwoUsers`, `RepeatedMessages.SingleUserNeverAlerts` and `RepeatedMessages.AlertReportsAuthorOccurrences` state its behaviour.
- NsfwChecker.Handle (`colossusCogs/listeners/nsfw_checker.py:187`): no `ensures` of its own; `NsfwChecker.HandlePostsFields`, `NsfwChecker.HandleAll` and `NsfwChecker.NoThreadNoAlerts` state its behaviour.
- VibeCheck.FetchAsWritten (`commands/vibecheck.py:185-200`): no `ensures` of its own; it is the as-written half of a finding below, and `VibeCheck.ShortHistoryOnePass`, `VibeCheck.FetchAsWrittenDuplicates` and `VibeCheck.FetchAsWrittenNeverStops` state its behaviour.
- ReactionRoleMenu.ListMenusAsWritten (`colossusCogs/reaction_role_menu.py:180-183`): no `ensures` of its own; `ReactionRoleMenu.ListMenusAsWrittenNeverLists` states that it never lists a menu.
- Moderation alerts: the code keeps one row per alert message in an alert table and an action table. The penalty reactions only record the choice. Alerts have no states, expiry or de-duplication, and neither does the model.
- The wiring of the event and commands handlers is not modelled. As written, the program never reaches any cog. Every module therefore models its cog as it would behave once constructed and reached:
  - `handlers/event_handler.py:36` builds `AIChatbot` without the `openai_api_key` that `colossusCogs/aichatbot.py:23` requires, which has no default. The `EventsHandler` constructor therefore raises `TypeError`.
  - `main.py:43` calls that constructor inside `main()` with no `try`, so the program stops at startup. It stops before `CommandsHandler` is built (`main.py:44`) and before `client.run` (`main.py:72`).
  - The NSFW, flagged-words and repeated-message listeners and the active-alert checker are built only in that constructor (`handlers/event_handler.py:37-40`). So FlaggedWords, NsfwChecker, RepeatedMessages, AlertWorkflow and `AIChatbot.OnMessage` model listeners that the program as written never reaches.
  - The event handler calls the flagged-words cog's `on_reaction`, while the cog defines `on_reaction_add`. The cog's handler is modelled as written.
  - `handlers/commands_handler.py:44` makes the same `AIChatbot` call, so the commands handler's constructor would raise too.
  - `handlers/commands_handler.py:410` passes `new_prefix` positionally to `setprefix`, whose `new_prefix` is keyword-only (`colossusCogs/prefix_manager.py:35`). The cog's `setprefix` has no command decorator, so this call is its only route, and it raises `TypeError` before the method runs. `PrefixManager.SetPrefixAsWritten` and `PrefixManager.SetPrefix` model the method itself, as a call with the keyword would run it.
  - `handlers/commands_handler.py:389` routes `ticketmonitor` to `self.channel_manager.ticketmonitor_command`, which `ChannelAccessManager` does not define, so the command raises. Only `ticketmonitor_command` of the ticket checker (`colossusCogs/ticket_checker.py:144`) starts the check loop, and `ticket_checks_enabled` starts `False` (`colossusCogs/ticket_checker.py:43`). So even in a program that started, the ticket checks would never run. `TicketChecker.TicketMonitor`, `TicketChecker.CheckTickets` and `TicketChecker.ChannelEffects` model the cog's methods as they would behave once reached.
  - `handlers/commands_handler.py:74`, `:91`, `:112` and `:129` call `clear_chat`, `show_history`, `reset_perms` and `view_perms`. No cog defines them, so these commands raise; they are not modelled.
- No code creates the `votes` table that `commands/vote.py` reads, or the `guild_prefixes` table that `colossusCogs/prefix_manager.py` writes. Both are modelled as existing tables.
- ResultsAreTheUsers and VibeCheck.Vibecheck: both describe the history read as intended. As written, the read raises before any message is fetched; `VibeCheck.VibecheckAsWritten` states that (Findings below).

## Findings

| source | as written | input that shows it | evidently intended | confidence | as-written member | corrected member |
|---|---|---|---|---|---|---|
| commands/restrict_role.py:80 | `idx % (total_channels // 10)` divides by zero when the guild has one to nine channels of any kind (the count is `len(ctx.guild.channels)`), so the loop stops after the first channel and the error is replied | a guild with three text channels and no others | every text channel gets the overwrite, with progress reported along the way | not executed | RestrictRole.PassAsWritten | RestrictRole.Pass |
| handlers/database_handler.py:1410 | pausing a channel calls `datetime`, which the module never imports, so a `NameError` is raised before the insert | pausing channel 1 in an empty store | the channel is stored as paused and later skipped | not executed | TicketChecker.SetChannelPausedAsWritten | TicketChecker.SetChannelPaused |
| colossusCogs/reaction_role_menu.py:180-183 | `list_menus` fetches menus with `message_id=None`, and the `= NULL` comparison matches no row | any guild with a stored menu | every menu of the guild is listed | not executed | ReactionRoleMenu.ListMenusAsWrittenNeverLists | ReactionRoleMenu.ListMenus |
| handlers/database_handler.py:306 | `menu_id` is the table's primary key, so a menu's second emoji-role pair fails to insert | a menu with two pairs | one row per pair, all found by the menu's message | not executed | ReactionRoleStore.StorePairsKeyed | ReactionRoleStore.StorePairs |
| commands/vibecheck.py:185-200 | once the history can be read (see the next row), every pass of the outer loop re-reads the same newest history, so messages are collected twice, or the loop never ends when the history is full and nothing more qualifies | a history of 1000 messages with one qualifying message, asking for 2 | each qualifying message is collected once, newest first, up to the count | not executed | VibeCheck.FetchAsWritten | VibeCheck.Collect |
| commands/vibecheck.py:185-189 | `fetch_messages` calls `.flatten()` on `channel.history(...)`, which discord.py 2 (the version the awaited `add_cog` and the `.avatar.url` calls need) no longer has, and without a channel runs `async for` over `ctx.guild.text_channels`, a plain list; both raise | any valid setup, with or without a channel | the first `count` qualifying messages of the channel or the guild are analysed | not executed | VibeCheck.VibecheckAsWritten | VibeCheck.Vibecheck |
| handlers/database_handler.py:544-553 | `get_config` zips a fixed key list with the row's columns by position; on a table rebuilt by `migrate_guild_config` (354-367) `owner_id` is the last column, so the values land under the wrong keys | a migrated table holding one guild's configuration | each key gets its own column's value | not executed | GuildConfig.GetConfigPositional | GuildConfig.GetConfig |
| commands/image.py:113 | the pager is built without a client, so `self.client.wait_for` raises as soon as there are two or more results | two results and a ➡️ reaction | the pager moves to the next result | not executed | ImageSearch.ImgAsWritten | ImageSearch.Img |
| handlers/database_handler.py:1214-1236 | `add_reaction_to_menu` copies the menu's rows with `INSERT ... SELECT`, so every new row repeats the menu's `menu_id` key; the statement fails whenever the menu exists and adds nothing when it does not. Without the key the copy still adds the pair once per existing row | any existing menu; without the key, a menu with two pairs | the menu gains exactly one row with the new pair | not executed | ReactionRoleStore.AddReaction | ReactionRoleStore.AddPair |
| commands/todo.py:56 | every branch that reaches the store calls `get_todo_list` (and then `update_todo_list`), which the database handler does not define, so listing, adding and removing all raise `AttributeError` | `todo list` by any user | the user's list is read, changed and shown | not executed | Todo.TodoCommandAsWritten | Todo.TodoCommand |
| commands/suggest.py:60 | the suggestion channel and the suggestion counter are read and written through `child("suggestion")`, a Firebase call that the database handler does not define, so both commands raise `AttributeError` as soon as they reach the store | `suggest hello` in any guild | the suggestion is posted to the configured channel under the next number | not executed | Suggest.SuggestCommandAsWritten | Suggest.SuggestCommand |
| colossusCogs/channel_archiver.py:204 | archiving a channel first looks up the archive category through `get_available_archive_category`, which the database handler does not define, so every archive attempt raises and no channel is moved | one inactive channel when the auto-archive runs | every selected channel is moved to an archive category | not executed | ChannelArchiver.AutoarchiveAsWritten | ChannelArchiver.Autoarchive |
| colossusCogs/listeners/anti_hacking_checker.py:124 | the incident is recorded through `insert_record`, which the database handler does not define; the `AttributeError` is caught by the handler's own `except`, so no incident is ever recorded (the alert and the presence change happen first, and the key is still cleared) | any user reaching the action threshold | each suspicious-activity alert is recorded as a security incident | not executed | AntiHacking.HandlingAsWritten | AntiHacking.Handling |
| colossusCogs/prefix_manager.py:47 | the new prefix is written to `self.client.guild_prefixes`, an attribute the client (a plain `commands.Bot`, `handlers/client_handler.py:27`) never has, so the command raises `AttributeError` before the table write and the reply | `setprefix ?` in any guild | the guild's prefix is kept in memory and in the `guild_prefixes` table, and the reply confirms it | not executed | PrefixManager.SetPrefixAsWritten | PrefixManager.SetPrefix |

=== FILE: aichatbot.dfy ===
/**
 * The AI chatbot: the per-user conversation history, the gate in front of a chat, the
 * prompt built from the last five entries, the moderation tag honoured only for
 * administrators, the owner ping, and the splitting of long replies. The completion service
 * and the tag search are inputs.
 */
module AIChatbot {
  import opened Wrappers
  import Text
  import Collections
  import GuildConfig

  datatype Role = System | User | Assistant

  datatype Entry = Entry(role: Role, content: string)

  /** The conversation history kept in memory, per user id. */
  type History = map<int, seq<Entry>>

  // ---------------------------------------------------------------- history

  /** `clear_chat_history`: drop the user's history and say whether there was one. */
  function ClearChatHistory(h: History, user: int): (r: (History, bool))
    ensures r.1 <==> user in h
    ensures user !in r.0
    ensures forall u :: u != user ==> (u in r.0 <==> u in h)
    ensures forall u :: u != user && u in h ==> r.0[u] == h[u]
    ensures !r.1 ==> r.0 == h
  {
    if user in h then (h - {user}, true) else (h, false)
  }

  /** `get_chat_history`: the user's entries, or none for an unknown user. */
  function GetChatHistory(h: History, user: int): (r: seq<Entry>)
    ensures user !in h ==> r == []
    ensures user in h ==> r == h[user]
  {
    if user in h then h[user] else []
  }

  /** Clearing leaves nothing to read back, and a second clear reports that. */
  lemma ClearThenGet(h: History, user: int)
    ensures GetChatHistory(ClearChatHistory(h, user).0, user) == []
    ensures ClearChatHistory(ClearChatHistory(h, user).0, user) == (ClearChatHistory(h, user).0, false)
  {
  }

  // ---------------------------------------------------------------- the chat

  /** The moderation tag `[ACTION:@name:reason]` the reply may carry, as the tag search found it. */
  datatype Tag = Tag(action: string, target: string, reason: string)

  /**
   * A message as the listener sees it: `fromBot` marks the bot's own messages, `content` is the
   * clean content, `guild` is absent in DMs.
   */
  datatype Message = Message(authorId: int, fromBot: bool, administrator: bool, guild: Option<int>,
                             raw: string, content: string)

  /**
   * The outside answers one chat needs: the completion's text (`None` when the call raised)
   * and the tag search's result on it.
   */
  datatype Completion = Completion(text: Option<string>, tag: Option<Tag>)

  datatype Effect =
    | Moderate(tag: Tag)
    | Reply(text: string)

  datatype Chatted = Chatted(history: History, prompt: seq<Entry>, effects: seq<Effect>)

  const SorryReply: string := "I'm sorry, I'm having trouble thinking right now. Please try again later."

  /** The owner id of the guild's stored configuration, `None` without one. */
  function OwnerId(config: GuildConfig.Table, guild: int): Option<int>
  {
    if guild in config then config[guild].owner else None
  }

  /** It is what `get_config`'s dictionary holds under "owner_id". */
  lemma OwnerIdFromConfigDict(config: GuildConfig.Table, guild: int)
    requires GuildConfig.GetConfig(config, guild).Some?
    ensures GuildConfig.Lookup(GuildConfig.GetConfig(config, guild).value, "owner_id") == Some(OwnerId(config, guild))
  {
    GuildConfig.GetConfigLookup(config, guild, "owner_id");
  }

  /** The last `n` elements, or all of them when there are fewer (`xs[-n:]`). */
  function Last<T>(xs: seq<T>, n: nat): (r: seq<T>)
    ensures |r| == if |xs| < n then |xs| else n
    ensures r == xs[|xs| - |r|..]
  {
    if |xs| <= n then xs else xs[|xs| - n..]
  }

  const SystemIntro: string := "You are an AI assistant for a Discord server with moderation capabilities. "
  const UserIdIntro: string := "The user messaging you has ID "
  const OwnerIdIntro: string := "The bot owner has ID "
  const AdminClause: string := " an administrator. "
  const OwnerClause: string := " the owner. "
  const SystemClosing: string := "Respond concisely and perform actions only if explicitly instructed by an administrator."

  /** The system message: who is asking, who the owner is, and whether the asker is an administrator or the owner. */
  function SystemMessage(user: int, owner: int, isAdmin: bool, isOwner: bool): string
  {
    SystemIntro
    + UserIdIntro + Text.IntToString(user) + ". "
    + OwnerIdIntro + Text.IntToString(owner) + ". "
    + "The user " + (if isAdmin then "is" else "is not") + AdminClause
    + "The user " + (if isOwner then "is" else "is not") + OwnerClause
    + SystemClosing
  }

  const OwnerPhrase: string := "ping the owner"

  /** The mention that pings the owner. */
  function OwnerMention(owner: int): string
  {
    "<@" + Text.IntToString(owner) + ">"
  }

  /** Lower-casing keeps every occurrence of the (already lower-case) phrase. */
  lemma LowerKeepsPhrase(s: string, i: nat)
    requires Text.OccursAt(s, OwnerPhrase, i)
    ensures Text.OccursAt(Text.Lower(s), OwnerPhrase, i)
  {
    assert Text.Lower(s)[i..i + |OwnerPhrase|] == Text.Lower(s[i..i + |OwnerPhrase|]);
    assert Text.Lower(OwnerPhrase) == OwnerPhrase;
  }

  /** A phrase at the front of the reply is found by the lower-cased search. */
  lemma FrontPhraseFound(reply: string)
    ensures Text.OccursAt(reply, OwnerPhrase, 0) ==> Text.FindFrom(Text.Lower(reply), OwnerPhrase, 0).Some?
  {
    if Text.OccursAt(reply, OwnerPhrase, 0) {
      LowerKeepsPhrase(reply, 0);
    }
  }

  /**
   * The owner ping: the phrase is looked for in the lower-cased reply, but only its exactly
   * lower-case occurrences are replaced by the mention.
   */
  function PingOwner(reply: string, owner: int): (r: string)
    ensures !Text.Contains(Text.Lower(reply), OwnerPhrase) ==> r == reply
    ensures !Text.Contains(reply, OwnerPhrase) ==> r == reply
    ensures Text.OccursAt(reply, OwnerPhrase, 0) ==>
              r == OwnerMention(owner) + Text.ReplaceAll(reply[|OwnerPhrase|..], OwnerPhrase, OwnerMention(owner))
  {
    FrontPhraseFound(reply);
    if Text.FindFrom(Text.Lower(reply), OwnerPhrase, 0).Some? then
      Text.ReplaceAll(reply, OwnerPhrase, OwnerMention(owner))
    else reply
  }

  /**
   * The lower-cased check never changes the outcome: the ping is exactly Python's
   * `reply.replace("ping the owner", mention)`.
   */
  lemma PingIsReplace(reply: string, owner: int)
    ensures PingOwner(reply, owner) == Text.ReplaceAll(reply, OwnerPhrase, OwnerMention(owner))
  {
    if Text.FindFrom(Text.Lower(reply), OwnerPhrase, 0).None? && Text.Contains(reply, OwnerPhrase) {
      var i :| 0 <= i <= |reply| - |OwnerPhrase| && Text.OccursAt(reply, OwnerPhrase, i);
      LowerKeepsPhrase(reply, i);
      assert false;
    }
  }

  /**
   * The ping read left to right: an exact phrase at the front becomes the mention, any other
   * first character is kept, and the rest of the reply is pinged the same way.
   */
  lemma PingStep(reply: string, owner: int)
    requires reply != []
    ensures Text.OccursAt(reply, OwnerPhrase, 0) ==>
              PingOwner(reply, owner) == OwnerMention(owner) + PingOwner(reply[|OwnerPhrase|..], owner)
    ensures !Text.OccursAt(reply, OwnerPhrase, 0) ==>
              PingOwner(reply, owner) == [reply[0]] + PingOwner(reply[1..], owner)
  {
    PingIsReplace(reply, owner);
    if Text.OccursAt(reply, OwnerPhrase, 0) {
      PingIsReplace(reply[|OwnerPhrase|..], owner);
      Text.ReplaceAllHit(reply, OwnerPhrase, OwnerMention(owner));
    } else {
      PingIsReplace(reply[1..], owner);
      Text.ReplaceAllSkip(reply, OwnerPhrase, OwnerMention(owner));
    }
  }

  /** A capitalised phrase is detected but not replaced, so the reply goes out unchanged. */
  lemma CapitalisedPingUnchanged(owner: int)
    ensures Text.Contains(Text.Lower("Ping the owner"), OwnerPhrase)
    ensures PingOwner("Ping the owner", owner) == "Ping the owner"
  {
    assert Text.Lower("Ping the owner") == OwnerPhrase;
    assert Text.OccursAt(Text.Lower("Ping the owner"), OwnerPhrase, 0);
    assert !Text.OccursAt("Ping the owner", OwnerPhrase, 0) by {
      assert "Ping the owner"[0] != OwnerPhrase[0];
    }
  }

  const PageSize: nat := 1900
  const ReplyLimit: nat := 2000

  /** `Page i/n: ` before the i-th of n pages. */
  function Numbered(pages: seq<string>): (r: seq<string>)
    ensures |r| == |pages|
  {
    seq(|pages|, i requires 0 <= i < |pages| =>
      "Page " + Text.IntToString(i + 1) + "/" + Text.IntToString(|pages|) + ": " + pages[i])
  }

  /** A long reply goes out as numbered pages of 1900 characters, a short one as is. */
  function Replies(reply: string): (r: seq<string>)
    ensures r != []
    ensures |reply| <= ReplyLimit ==> r == [reply]
  {
    if |reply| <= ReplyLimit then [reply] else Numbered(Collections.Chunks(reply, PageSize))
  }

  /**
   * A reply over 2000 characters goes out as two or more numbered pages; without their
   * numbers, the pages put back together give the reply, and none exceeds 1900 characters.
   */
  lemma LongReplyPages(reply: string)
    requires |reply| > ReplyLimit
    ensures var pages := Collections.Chunks(reply, PageSize);
            |Replies(reply)| == |pages| >= 2
            && Collections.Flatten(pages) == reply
            && (forall p :: p in pages ==> 0 < |p| <= PageSize)
            && forall i :: 0 <= i < |pages| ==>
                 Replies(reply)[i] == "Page " + Text.IntToString(i + 1) + "/" + Text.IntToString(|pages|) + ": " + pages[i]
  {
    var pages := Collections.Chunks(reply, PageSize);
    var numbered := Numbered(pages);
    assert Replies(reply) == numbered;
    forall i | 0 <= i < |pages|
      ensures numbered[i] == "Page " + Text.IntToString(i + 1) + "/" + Text.IntToString(|pages|) + ": " + pages[i]
    {
    }
  }

  /** The prompt: the system message, then at most the last five entries. */
  function Prompt(system: string, entries: seq<Entry>): (p: seq<Entry>)
    requires entries != []
    ensures |p| == 1 + (if |entries| < 5 then |entries| else 5)
    ensures p[0] == Entry(System, system) && p[|p| - 1] == entries[|entries| - 1]
  {
    var p := [Entry(System, system)] + Last(entries, 5);
    assert p[|p| - 1] == Last(entries, 5)[|p| - 2];
    p
  }

  /** Everything after the system message is the tail of the history, in order. */
  lemma PromptWindow(system: string, entries: seq<Entry>)
    requires entries != []
    ensures var p := Prompt(system, entries);
            p[1..] == entries[|entries| - (|p| - 1)..]
  {
    var p := Prompt(system, entries);
    assert p[1..] == Last(entries, 5);
  }

  /**
   * What the trimmed completion becomes: for an administrator or the owner a found tag is acted
   * on and replaces the text; then the owner ping; then one or more replies.
   */
  function Answer(text: string, tag: Option<Tag>, isAdmin: bool, owner: int): (r: (string, seq<Effect>))
    ensures r.1 != []
    ensures isAdmin && tag.Some? ==> r.1[0] == Moderate(tag.value)
    ensures forall e :: e in r.1 && e.Moderate? ==> isAdmin && tag.Some?
    ensures r.1[|r.1| - 1].Reply?
  {
    var moderation := if isAdmin then tag else None;
    var final := PingOwner(if moderation.Some? then ModerationNotice(moderation.value) else text, owner);
    (final, Deliver(moderation, Replies(final)))
  }

  /** The effects of an answer: the moderation action if there is one, then the replies. */
  function Deliver(moderation: Option<Tag>, replies: seq<string>): (r: seq<Effect>)
    requires replies != []
    ensures r != [] && r[|r| - 1].Reply?
    ensures moderation.Some? ==> r[0] == Moderate(moderation.value)
    ensures forall e :: e in r && e.Moderate? ==> moderation.Some?
  {
    var sends := ReplyEffects(replies);
    var effects := (if moderation.Some? then [Moderate(moderation.value)] else []) + sends;
    assert effects[|effects| - 1] == sends[|sends| - 1];
    effects
  }

  function ModerationNotice(t: Tag): string
  {
    "Moderation action performed: " + t.action + " on user " + t.target + " for: " + t.reason
  }

  function ReplyEffects(pages: seq<string>): (r: seq<Effect>)
    ensures |r| == |pages|
    ensures forall i :: 0 <= i < |pages| ==> r[i] == Reply(pages[i])
  {
    seq(|pages|, i requires 0 <= i < |pages| => Reply(pages[i]))
  }

  /** The message text with mentions of the bot removed, trimmed. */
  function Clean(content: string, botName: string): string
  {
    Text.Strip(Text.ReplaceAll(content, "@" + botName, ""))
  }

  datatype Turn = Turn(entries: seq<Entry>, prompt: seq<Entry>, effects: seq<Effect>)

  /**
   * One exchange: the user's message is recorded, the prompt is the system message and the last
   * five entries, and the answer (if the completion succeeded) is recorded and sent; a failed
   * completion gets the apology.
   */
  function Converse(before: seq<Entry>, clean: string, system: string, answer: Option<(string, seq<Effect>)>): (t: Turn)
    ensures t.entries == before + [Entry(User, clean)] + (if answer.Some? then [Entry(Assistant, answer.value.0)] else [])
    ensures answer.Some? ==> t.effects == answer.value.1
    ensures answer.None? ==> t.effects == [Reply(SorryReply)]
    ensures t.prompt == Prompt(system, before + [Entry(User, clean)])
  {
    var entries := before + [Entry(User, clean)];
    var prompt := Prompt(system, entries);
    match answer
    case None => Turn(entries, prompt, [Reply(SorryReply)])
    case Some(a) => Turn(entries + [Entry(Assistant, a.0)], prompt, a.1)
  }

  /** The exchange `chat` has with a guild whose owner is `owner`. */
  function Exchange(before: seq<Entry>, m: Message, owner: int, botName: string, c: Completion): (t: Turn)
    ensures forall e :: e in t.effects && e.Moderate? ==> c.tag.Some? && (m.administrator || m.authorId == owner)
  {
    var isOwner := m.authorId == owner;
    var isAdmin := m.administrator || isOwner;
    Converse(before, Clean(m.content, botName), SystemMessage(m.authorId, owner, isAdmin, isOwner),
             if c.text.Some? then Some(Answer(Text.Strip(c.text.value), c.tag, isAdmin, owner)) else None)
  }

  /**
   * `chat`: in a DM the guild id is read before anything else and raises, so nothing changes;
   * in a guild, make sure the user has a history, stop without a configured owner, else
   * converse and keep the exchange in the user's history.
   */
  function Chat(h: History, m: Message, config: GuildConfig.Table, botName: string, c: Completion): (r: Chatted)
    ensures m.guild.None? ==> r == Chatted(h, [], [])
    ensures m.guild.Some? ==> m.authorId in r.history
    ensures m.guild.Some? && OwnerId(config, m.guild.value).None? ==>
              r == Chatted(h[m.authorId := GetChatHistory(h, m.authorId)], [], [])
    ensures m.guild.Some? && OwnerId(config, m.guild.value).Some? ==>
              var t := Exchange(GetChatHistory(h, m.authorId), m, OwnerId(config, m.guild.value).value, botName, c);
              r == Chatted(h[m.authorId := t.entries], t.prompt, t.effects)
  {
    if m.guild.None? then Chatted(h, [], [])
    else ChatInGuild(h, m, OwnerId(config, m.guild.value), botName, c)
  }

  /** `chat` past the guild id, with the guild's configured owner if any. */
  function ChatInGuild(h: History, m: Message, owner: Option<int>, botName: string, c: Completion): (r: Chatted)
    ensures owner.None? ==> r == Chatted(h[m.authorId := GetChatHistory(h, m.authorId)], [], [])
    ensures owner.Some? ==>
              var t := Exchange(GetChatHistory(h, m.authorId), m, owner.value, botName, c);
              r == Chatted(h[m.authorId := t.entries], t.prompt, t.effects)
  {
    var before := GetChatHistory(h, m.authorId);
    if owner.None? then Chatted(h[m.authorId := before], [], [])
    else
      var t := Exchange(before, m, owner.value, botName, c);
      Chatted(h[m.authorId := t.entries], t.prompt, t.effects)
  }

  /** `on_message`: the bot's own messages and messages starting with '!' never reach the chat. */
  function OnMessage(h: History, m: Message, config: GuildConfig.Table, botName: string, c: Completion): (r: Chatted)
    ensures m.fromBot || Text.StartsWith(m.raw, "!") ==> r == Chatted(h, [], [])
    ensures !m.fromBot && !Text.StartsWith(m.raw, "!") ==> r == Chat(h, m, config, botName, c)
  {
    if m.fromBot || Text.StartsWith(m.raw, "!") then Chatted(h, [], []) else Chat(h, m, config, botName, c)
  }

  /** A failed completion keeps the user's message and sends only the apology. */
  lemma FailedCompletionApologises(h: History, m: Message, config: GuildConfig.Table, botName: string, c: Completion)
    requires m.guild.Some? && OwnerId(config, m.guild.value).Some? && c.text.None?
    ensures var r := Chat(h, m, config, botName, c);
            r.effects == [Reply(SorryReply)] && |r.history[m.authorId]| == |GetChatHistory(h, m.authorId)| + 1
  {
  }

  /** Moderation happens only on a tag found for an administrator or the owner. */
  lemma ModerationNeedsAdmin(h: History, m: Message, config: GuildConfig.Table, botName: string, c: Completion)
    ensures (exists e :: e in Chat(h, m, config, botName, c).effects && e.Moderate?) ==>
              c.tag.Some? && m.guild.Some?
              && (m.administrator || OwnerId(config, m.guild.value) == Some(m.authorId))
  {
    if m.guild.Some? && OwnerId(config, m.guild.value).Some? {
      var owner := OwnerId(config, m.guild.value).value;
      var t := Exchange(GetChatHistory(h, m.authorId), m, owner, botName, c);
      assert Chat(h, m, config, botName, c).effects == t.effects;
    }
  }

  /** A tag in the reply is ignored for a member who is neither administrator nor owner. */
  lemma TagIgnoredForMembers(h: History, m: Message, config: GuildConfig.Table, botName: string, t: string, tag: Tag)
    requires m.guild.Some? && OwnerId(config, m.guild.value).Some?
    requires !m.administrator && OwnerId(config, m.guild.value) != Some(m.authorId)
    ensures forall e :: e in Chat(h, m, config, botName, Completion(Some(t), Some(tag))).effects ==> e.Reply?
  {
  }
}

=== FILE: alert_tables.dfy ===
/**
 * The moderation tables of the database handler. Each alert kind (flagged words, NSFW
 * images, repeated messages) has an alert table and an action table with identical
 * rows keyed by the id of the bot's own staff message, plus a log of the offending
 * messages. `message_id` is not a key: several rows may carry it.
 */
module AlertTables {
  import opened Wrappers

  /** A row of `*_alert_messages` / `*_action_messages`: the staff message and whom it is about. */
  datatype AlertRow = AlertRow(messageId: int, userId: int, channelId: int, guildId: int)

  type AlertTable = seq<AlertRow>

  /** What `fetch_*_alert_message` returns: `(user_id, channel_id, guild_id)`. */
  datatype AlertInfo = AlertInfo(userId: int, channelId: int, guildId: int)

  function InfoOf(row: AlertRow): AlertInfo
  {
    AlertInfo(row.userId, row.channelId, row.guildId)
  }

  /** `insert_*_alert_message`: a new row after the existing ones. */
  function Insert(t: AlertTable, messageId: int, userId: int, channelId: int, guildId: int): (t': AlertTable)
    ensures |t'| == |t| + 1 && t'[..|t|] == t
    ensures t'[|t|] == AlertRow(messageId, userId, channelId, guildId)
  {
    t + [AlertRow(messageId, userId, channelId, guildId)]
  }

  /** `fetch_*_alert_message`: the first row (in insertion order) carrying the message id. */
  function Fetch(t: AlertTable, messageId: int): (r: Option<AlertInfo>)
    ensures r.None? <==> forall i :: 0 <= i < |t| ==> t[i].messageId != messageId
    ensures r.Some? ==> exists i :: 0 <= i < |t| && t[i].messageId == messageId && r.value == InfoOf(t[i])
                                    && forall j :: 0 <= j < i ==> t[j].messageId != messageId
    decreases |t|
  {
    if t == [] then None
    else if t[0].messageId == messageId then Some(InfoOf(t[0]))
    else
      var r := Fetch(t[1..], messageId);
      assert forall i :: 1 <= i < |t| ==> t[i] == t[1..][i - 1];
      if r.Some? then
        var k :| 0 <= k < |t[1..]| && t[1..][k].messageId == messageId && r.value == InfoOf(t[1..][k])
                 && forall j :: 0 <= j < k ==> t[1..][j].messageId != messageId;
        assert t[k + 1] == t[1..][k];
        r
      else r
  }

  /** `delete_*_alert_message`: every row carrying the message id goes; the rest keep their order. */
  function Delete(t: AlertTable, messageId: int): (t': AlertTable)
    ensures forall i :: 0 <= i < |t'| ==> t'[i].messageId != messageId
    ensures forall row :: row in t && row.messageId != messageId ==> row in t'
    ensures forall row :: row in t' ==> row in t
    ensures |t'| <= |t|
    decreases |t|
  {
    if t == [] then []
    else
      var rest := Delete(t[1..], messageId);
      if t[0].messageId == messageId then rest else [t[0]] + rest
  }

  lemma {:induction false} FetchAfterInsert(t: AlertTable, m: int, u: int, c: int, g: int)
    requires Fetch(t, m).None?
    ensures Fetch(Insert(t, m, u, c, g), m) == Some(AlertInfo(u, c, g))
  {
    var t' := Insert(t, m, u, c, g);
    assert t'[|t|].messageId == m;
  }

  /** A second alert for the same staff message id does not shadow the first one. */
  lemma {:induction false} FetchFirstWins(t: AlertTable, m: int, u: int, c: int, g: int)
    requires Fetch(t, m).Some?
    ensures Fetch(Insert(t, m, u, c, g), m) == Fetch(t, m)
    decreases |t|
  {
    if t[0].messageId != m {
      assert Insert(t, m, u, c, g)[1..] == Insert(t[1..], m, u, c, g);
      FetchFirstWins(t[1..], m, u, c, g);
    }
  }

  lemma FetchAfterDelete(t: AlertTable, m: int)
    ensures Fetch(Delete(t, m), m).None?
  {
  }

  /** Deleting one staff message's rows leaves every other message's lookup unchanged. */
  lemma {:induction false} DeleteKeepsOthers(t: AlertTable, m: int, other: int)
    requires other != m
    ensures Fetch(Delete(t, m), other) == Fetch(t, other)
    decreases |t|
  {
    if t != [] {
      DeleteKeepsOthers(t[1..], m, other);
      if t[0].messageId != m {
        assert Delete(t, m)[1..] == Delete(t[1..], m);
      }
    }
  }

  // ---------------------------------------------------------------- logs of offending messages

  /** A row of `flagged_messages` / `nsfw_messages` / `repeated_messages`. */
  datatype LoggedMessage = LoggedMessage(content: string, userId: int, messageId: int, channelId: int,
                                         guildId: Option<int>, timestamp: int)

  /** `delete_repeated_messages`: drop the rows of the given messages; an empty list does nothing. */
  function DeleteMessages(log: seq<LoggedMessage>, ids: seq<int>): (r: seq<LoggedMessage>)
    ensures ids == [] ==> r == log
    ensures forall i :: 0 <= i < |r| ==> r[i].messageId !in ids && r[i] in log
    ensures forall row :: row in log && row.messageId !in ids ==> row in r
    decreases |log|
  {
    if ids == [] || log == [] then log
    else
      var rest := DeleteMessages(log[1..], ids);
      if log[0].messageId in ids then rest else [log[0]] + rest
  }
}

=== FILE: alert_workflow.dfy ===
/**
 * The alert round trip shared by the three moderation listeners (flagged words, NSFW
 * images, repeated messages): resolving the staff channel and thread from the guild
 * configuration, posting an alert and recording it, and reacting to staff decisions
 * on the alert message.
 */
module AlertWorkflow {
  import opened Wrappers
  import GuildConfig
  import AlertTables

  datatype Kind = FlaggedWords | Nsfw | RepeatedMessage

  const Confirm: string := "✅"
  const Dismiss: string := "❌"

  /** The reactions the listeners accept on an alert; the last four do nothing there. */
  const ValidReactions: seq<string> := ["✅", "❌", "⚠️", "🔇", "👢", "🔨"]

  /** The reactions put under an action prompt, per kind. */
  function ActionEmojis(kind: Kind): seq<string>
  {
    match kind
    case FlaggedWords => ["❌", "⚠️", "🔇", "👢", "🔨"]
    case _ => ["⚠️", "🔇", "👢", "🔨"]
  }

  function IgnoredText(kind: Kind): string
  {
    match kind
    case FlaggedWords => "Flagged words alert ignored."
    case Nsfw => "NSFW alert ignored."
    case RepeatedMessage => "Repeated message alert ignored."
  }

  datatype ChannelKind = ThreadChannel | OtherChannel

  /** What the bot sees of a guild: the member ids and the channels `get_channel` resolves. */
  datatype GuildView = GuildView(members: set<int>, channels: map<int, ChannelKind>)

  /** The staff channel and, if one resolves, the thread alerts go to. */
  datatype Staff = Staff(channel: int, thread: Option<int>)

  /**
   * The staff channel is `staff_forum_channel_id`; when it is itself a thread it is also the
   * thread, otherwise the thread is `staff_thread_id` when that is set (non-zero) and resolves.
   */
  function ResolveStaff(config: GuildConfig.Config, guild: GuildView): (r: Option<Staff>)
    ensures r.Some? <==> config.staffForum.Some? && config.staffForum.value in guild.channels
    ensures r.Some? ==> r.value.channel == config.staffForum.value
    ensures r.Some? && r.value.thread.Some? ==> r.value.thread.value in guild.channels
  {
    match config.staffForum
    case None => None
    case Some(forum) =>
      if forum !in guild.channels then None
      else if guild.channels[forum] == ThreadChannel then Some(Staff(forum, Some(forum)))
      else
        var thread := config.staffThread;
        if thread.Some? && thread.value != 0 && thread.value in guild.channels
        then Some(Staff(forum, thread))
        else Some(Staff(forum, None))
  }

  datatype Effect =
    | SetPresence(kind: Kind, author: int)
    | PostAlert(thread: int, kind: Kind, fields: seq<string>, alertMessageId: int)
    | AddReactions(messageId: int, emojis: seq<string>)
    | PostActionPrompt(staffChannel: int, kind: Kind, target: int, actionMessageId: int)
    | Reply(toMessageId: int, text: string)
    | RecheckAttachments(alertMessageId: int)
    /** The handler raised (a missing guild configuration is dereferenced). */
    | Raised

  /** A guild message as the listeners see it. */
  datatype Message = Message(id: int, author: int, authorIsSelf: bool, authorIsBot: bool,
                             guildId: int, channelId: int, content: string, timestamp: int)

  datatype Tables = Tables(alerts: AlertTables.AlertTable, actions: AlertTables.AlertTable)

  /** A listener's store: its log of offending messages and its alert and action tables. */
  datatype State = State(log: seq<AlertTables.LoggedMessage>, tables: Tables)

  // ---------------------------------------------------------------- posting an alert

  /**
   * The common tail of `send_alert` / `handle_nsfw_content`: without a configuration, a
   * resolvable staff channel and a staff thread nothing happens; otherwise the alert is
   * posted, ✅ and ❌ are added, and the alert row is stored after posting.
   */
  function RaiseAlert(tables: Tables, kind: Kind, config: Option<GuildConfig.Config>, guild: GuildView,
                      guildId: int, author: int, channel: int, fields: seq<string>,
                      alertMessageId: int): (r: (Tables, seq<Effect>))
    ensures r.0.actions == tables.actions
    ensures r.1 == [] <==> r.0 == tables
    ensures r.1 != [] ==>
      config.Some? && ResolveStaff(config.value, guild).Some?
      && ResolveStaff(config.value, guild).value.thread.Some?
      && r.1[0] == PostAlert(ResolveStaff(config.value, guild).value.thread.value, kind, fields, alertMessageId)
      && r.0.alerts == AlertTables.Insert(tables.alerts, alertMessageId, author, channel, guildId)
    ensures (config.Some? && ResolveStaff(config.value, guild).Some?
             && ResolveStaff(config.value, guild).value.thread.Some?) ==> r.1 != []
  {
    if config.None? then (tables, [])
    else
      match ResolveStaff(config.value, guild)
      case None => (tables, [])
      case Some(staff) =>
        if staff.thread.None? then (tables, [])
        else
          var t := AlertTables.Insert(tables.alerts, alertMessageId, author, channel, guildId);
          assert t != tables.alerts by { assert |t| == |tables.alerts| + 1; }
          (tables.(alerts := t),
           [PostAlert(staff.thread.value, kind, fields, alertMessageId),
            AddReactions(alertMessageId, [Confirm, Dismiss])])
  }

  /** An alert that is posted can be looked up by its staff message id afterwards. */
  lemma RaisedAlertIsFetchable(tables: Tables, kind: Kind, config: Option<GuildConfig.Config>, guild: GuildView,
                               guildId: int, author: int, channel: int, fields: seq<string>, alertMessageId: int)
    requires AlertTables.Fetch(tables.alerts, alertMessageId).None?
    ensures var r := RaiseAlert(tables, kind, config, guild, guildId, author, channel, fields, alertMessageId);
      r.1 != [] ==> AlertTables.Fetch(r.0.alerts, alertMessageId) == Some(AlertTables.AlertInfo(author, channel, guildId))
  {
    var r := RaiseAlert(tables, kind, config, guild, guildId, author, channel, fields, alertMessageId);
    if r.1 != [] {
      AlertTables.FetchAfterInsert(tables.alerts, alertMessageId, author, channel, guildId);
    }
  }

  // ---------------------------------------------------------------- reactions on an alert

  datatype Reaction = Reaction(alertMessageId: int, emoji: string, reactorIsSelf: bool, reactorIsBot: bool)

  /** The state of the platform the reaction handler consults. */
  datatype World = World(guilds: map<int, GuildView>, configs: GuildConfig.Table)

  /** The flagged-words handler has no check for other bots; the other two ignore them. */
  predicate IgnoresReactor(kind: Kind, ev: Reaction)
  {
    ev.reactorIsSelf || ev.emoji !in ValidReactions || (kind != FlaggedWords && ev.reactorIsBot)
  }

  /**
   * `on_reaction` / `on_reaction_add`. For a known alert whose target, origin and staff
   * channel still resolve: ✅ opens an action prompt (flagged words, repeated messages)
   * or re-checks the attachments (NSFW) and keeps the alert; ❌ replies and drops it.
   * A target that left the guild drops the alert silently. `actionMessageId` is the id
   * the platform gives the action prompt.
   */
  function OnReaction(kind: Kind, tables: Tables, ev: Reaction, world: World, actionMessageId: int): (r: (Tables, seq<Effect>))
  {
    if IgnoresReactor(kind, ev) then (tables, [])
    else
      match AlertTables.Fetch(tables.alerts, ev.alertMessageId)
      case None => (tables, [])
      case Some(info) =>
        if info.guildId !in world.guilds then (tables, [])
        else
          var guild := world.guilds[info.guildId];
          if info.userId !in guild.members then
            (tables.(alerts := AlertTables.Delete(tables.alerts, ev.alertMessageId)), [])
          else if info.channelId !in guild.channels then (tables, [])
          else if info.guildId !in world.configs then (tables, [Raised])
          else
            match ResolveStaff(world.configs[info.guildId], guild)
            case None => (tables, [])
            case Some(staff) =>
              if ev.emoji == Confirm then
                if kind == Nsfw then (tables, [RecheckAttachments(ev.alertMessageId)])
                else
                  (tables.(actions := AlertTables.Insert(tables.actions, actionMessageId, info.userId, info.channelId, info.guildId)),
                   [PostActionPrompt(staff.channel, kind, info.userId, actionMessageId),
                    AddReactions(actionMessageId, ActionEmojis(kind))])
              else if ev.emoji == Dismiss then
                (tables.(alerts := AlertTables.Delete(tables.alerts, ev.alertMessageId)),
                 [Reply(ev.alertMessageId, IgnoredText(kind))])
              else (tables, [])
  }

  /** Reactions the handler ignores (the bot's own, unknown emoji, other bots where filtered) change nothing. */
  lemma IgnoredReactionsChangeNothing(kind: Kind, tables: Tables, ev: Reaction, world: World, id: int)
    requires IgnoresReactor(kind, ev)
    ensures OnReaction(kind, tables, ev, world, id) == (tables, [])
  {
  }

  /** Reactions on messages that are not recorded alerts change nothing. */
  lemma UnknownAlertChangesNothing(kind: Kind, tables: Tables, ev: Reaction, world: World, id: int)
    requires AlertTables.Fetch(tables.alerts, ev.alertMessageId).None?
    ensures OnReaction(kind, tables, ev, world, id) == (tables, [])
  {
  }

  /** The penalty emoji (⚠️ 🔇 👢 🔨) on an alert message never change state or act. */
  lemma PenaltyEmojisDoNothing(kind: Kind, tables: Tables, ev: Reaction, world: World, id: int)
    requires ev.emoji != Confirm && ev.emoji != Dismiss
    ensures OnReaction(kind, tables, ev, world, id).1 == [] || OnReaction(kind, tables, ev, world, id).1 == [Raised]
    ensures OnReaction(kind, tables, ev, world, id).0.actions == tables.actions
    ensures var t' := OnReaction(kind, tables, ev, world, id).0;
      t'.alerts == tables.alerts || t'.alerts == AlertTables.Delete(tables.alerts, ev.alertMessageId)
  {
  }

  /** Whether the alert's target, origin, configuration and staff channel all resolve. */
  predicate Resolves(tables: Tables, ev: Reaction, world: World)
  {
    var info := AlertTables.Fetch(tables.alerts, ev.alertMessageId);
    info.Some? && info.value.guildId in world.guilds
    && info.value.userId in world.guilds[info.value.guildId].members
    && info.value.channelId in world.guilds[info.value.guildId].channels
    && info.value.guildId in world.configs
    && ResolveStaff(world.configs[info.value.guildId], world.guilds[info.value.guildId]).Some?
  }

  /** ❌ from a person on a resolvable alert replies once and removes the alert for good. */
  lemma DismissRemovesAlert(kind: Kind, tables: Tables, ev: Reaction, world: World, id: int)
    requires ev.emoji == Dismiss && !ev.reactorIsSelf && !ev.reactorIsBot
    requires Resolves(tables, ev, world)
    ensures var r := OnReaction(kind, tables, ev, world, id);
      r.1 == [Reply(ev.alertMessageId, IgnoredText(kind))]
      && AlertTables.Fetch(r.0.alerts, ev.alertMessageId).None?
      && r.0.actions == tables.actions
  {
    AlertTables.FetchAfterDelete(tables.alerts, ev.alertMessageId);
  }

  /**
   * ✅ from a person keeps the alert; for flagged words and repeated messages it records an
   * action prompt about the same user, channel and guild.
   */
  lemma ConfirmKeepsAlert(kind: Kind, tables: Tables, ev: Reaction, world: World, id: int)
    requires ev.emoji == Confirm && !ev.reactorIsSelf && !ev.reactorIsBot
    requires Resolves(tables, ev, world)
    requires AlertTables.Fetch(tables.actions, id).None?
    ensures var r := OnReaction(kind, tables, ev, world, id);
      r.0.alerts == tables.alerts
      && (kind == Nsfw ==> r.0.actions == tables.actions && r.1 == [RecheckAttachments(ev.alertMessageId)])
      && (kind != Nsfw ==> AlertTables.Fetch(r.0.actions, id) == AlertTables.Fetch(tables.alerts, ev.alertMessageId))
  {
    var info := AlertTables.Fetch(tables.alerts, ev.alertMessageId).value;
    var guild := world.guilds[info.guildId];
    var staff := ResolveStaff(world.configs[info.guildId], guild).value;
    if kind == Nsfw {
      assert OnReaction(kind, tables, ev, world, id) == (tables, [RecheckAttachments(ev.alertMessageId)]);
    } else {
      var actions := AlertTables.Insert(tables.actions, id, info.userId, info.channelId, info.guildId);
      assert OnReaction(kind, tables, ev, world, id).0 == tables.(actions := actions);
      AlertTables.FetchAfterInsert(tables.actions, id, info.userId, info.channelId, info.guildId);
    }
  }

  /** When the alert's target has left the guild the alert is dropped without any message. */
  lemma DepartedTargetDropsAlert(kind: Kind, tables: Tables, ev: Reaction, world: World, id: int)
    requires !IgnoresReactor(kind, ev)
    requires AlertTables.Fetch(tables.alerts, ev.alertMessageId).Some?
    requires var info := AlertTables.Fetch(tables.alerts, ev.alertMessageId).value;
      info.guildId in world.guilds && info.userId !in world.guilds[info.guildId].members
    ensures var r := OnReaction(kind, tables, ev, world, id);
      r.1 == [] && AlertTables.Fetch(r.0.alerts, ev.alertMessageId).None?
  {
    AlertTables.FetchAfterDelete(tables.alerts, ev.alertMessageId);
  }

  /** Only the flagged-words handler acts on another bot's ❌. */
  lemma BotReactionsOnlyReachFlaggedWords(tables: Tables, ev: Reaction, world: World, id: int)
    requires ev.emoji == Dismiss && !ev.reactorIsSelf && ev.reactorIsBot
    requires Resolves(tables, ev, world)
    ensures OnReaction(Nsfw, tables, ev, world, id) == (tables, [])
    ensures OnReaction(RepeatedMessage, tables, ev, world, id) == (tables, [])
    ensures OnReaction(FlaggedWords, tables, ev, world, id).1 == [Reply(ev.alertMessageId, IgnoredText(FlaggedWords))]
  {
  }
}

=== FILE: anti_hacking.dfy ===
/**
 * The anti-hacking checker: a sliding-window count of sensitive actions per
 * (guild, user), an alert once the count reaches the threshold, and the shared
 * threshold and window settings.
 */
module AntiHacking {
  import opened Wrappers
  import Text
  import Collections
  import GuildConfig
  import StoreApi

  const DefaultThreshold: int := 15
  const DefaultWindow: int := 5
  const DefaultSecurityChannel: int := 1135648274007724062

  /** One threshold and one window, shared by every guild. */
  datatype Settings = Settings(threshold: int, window: int)

  /** A (guild id, user id) pair. */
  type Key = (int, int)

  /** The action timestamps (whole seconds) kept per key. */
  datatype Tracker = Tracker(settings: Settings, actions: map<Key, seq<int>>)

  const Initial: Tracker := Tracker(Settings(DefaultThreshold, DefaultWindow), map[])

  /** The timestamps still inside the window at `now`. */
  function Recent(ts: seq<int>, now: int, window: int): (r: seq<int>)
    ensures forall t :: t in r <==> t in ts && now - t <= window
    ensures |r| <= |ts|
  {
    Collections.Filter(ts, t => now - t <= window)
  }

  datatype Effect = PostAlert(channel: int) | ShowAlertPresence(user: int) | RecordIncident(user: int)

  datatype Tracked = Tracked(tracker: Tracker, effects: seq<Effect>)

  /** `track_action` at time `now`; `handling` is what the suspicious-activity handler emits. */
  function TrackAction(tr: Tracker, guild: int, user: int, now: int, handling: seq<Effect>): (r: Tracked)
    ensures r.tracker.settings == tr.settings
    ensures forall k :: k != (guild, user) ==> (k in r.tracker.actions <==> k in tr.actions)
    ensures forall k :: k != (guild, user) && k in tr.actions ==> r.tracker.actions[k] == tr.actions[k]
    ensures var previous := if (guild, user) in tr.actions then tr.actions[(guild, user)] else [];
            var kept := Recent(previous + [now], now, tr.settings.window);
            (r.effects != [] ==> |kept| >= tr.settings.threshold)
            && (|kept| >= tr.settings.threshold ==> r.effects == handling && (guild, user) !in r.tracker.actions)
            && (|kept| < tr.settings.threshold ==> r.effects == [] && (guild, user) in r.tracker.actions && r.tracker.actions[(guild, user)] == kept)
  {
    var key := (guild, user);
    var previous := if key in tr.actions then tr.actions[key] else [];
    var kept := Recent(previous + [now], now, tr.settings.window);
    if |kept| >= tr.settings.threshold then Tracked(tr.(actions := tr.actions - {key}), handling)
    else Tracked(tr.(actions := tr.actions[key := kept]), [])
  }

  /** With a non-negative window the new action is always counted, and only actions inside the window are. */
  lemma WindowHoldsRecentActions(tr: Tracker, guild: int, user: int, now: int, handling: seq<Effect>)
    requires tr.settings.window >= 0
    requires (guild, user) in TrackAction(tr, guild, user, now, handling).tracker.actions
    ensures var ts := TrackAction(tr, guild, user, now, handling).tracker.actions[(guild, user)];
            now in ts && forall t :: t in ts ==> now - t <= tr.settings.window
  {
  }

  /** An alert needs at least `threshold - 1` earlier actions of the same key still inside the window. */
  lemma AlertNeedsEarlierActions(tr: Tracker, guild: int, user: int, now: int, handling: seq<Effect>)
    requires handling != [] && TrackAction(tr, guild, user, now, handling).effects != []
    ensures (guild, user) in tr.actions ==> |tr.actions[(guild, user)]| >= tr.settings.threshold - 1
    ensures (guild, user) !in tr.actions ==> tr.settings.threshold <= 1
  {
    var previous := if (guild, user) in tr.actions then tr.actions[(guild, user)] else [];
    assert |Recent(previous + [now], now, tr.settings.window)| <= |previous| + 1;
  }

  /** After an alert the key starts afresh: the next action counts alone. */
  lemma CountRestartsAfterAlert(tr: Tracker, guild: int, user: int, now: int, later: int, handling: seq<Effect>)
    requires TrackAction(tr, guild, user, now, handling).effects != []
    requires tr.settings.window >= 0 && tr.settings.threshold > 1
    ensures var next := TrackAction(TrackAction(tr, guild, user, now, handling).tracker, guild, user, later, handling);
            next.effects == [] && next.tracker.actions[(guild, user)] == [later]
  {
    var t1 := TrackAction(tr, guild, user, now, handling).tracker;
    assert (guild, user) !in t1.actions;
    assert [] + [later] == [later];
    var kept := Recent([later], later, t1.settings.window);
    assert later in kept;
    assert forall t :: t in kept ==> t == later;
    assert |kept| == 1;
  }

  /** Python's truthiness of the configured log channel decides between it and the default. */
  function SecurityChannel(config: GuildConfig.Table, guild: int): (c: int)
    ensures var configured := GuildConfig.GetLogChannelId(config, guild);
            (configured.Some? && configured.value != 0 ==> c == configured.value)
            && (configured.None? || configured.value == 0 ==> c == DefaultSecurityChannel)
  {
    var configured := GuildConfig.GetLogChannelId(config, guild);
    if configured.Some? && configured.value != 0 then configured.value else DefaultSecurityChannel
  }

  /** The store method the handler calls to record the incident. */
  const IncidentCall := "insert_record"

  /** The database handler defines no `insert_record`. */
  lemma IncidentCallMissing()
    ensures !StoreApi.Defines(IncidentCall)
  {
    StoreApi.CommandCallMissing(IncidentCall);
  }

  /** The alert, when the channel resolves to one that can send, then the presence change. */
  function Shown(config: GuildConfig.Table, guild: int, user: int, channelCanSend: bool): seq<Effect>
  {
    (if channelCanSend then [PostAlert(SecurityChannel(config, guild))] else []) + [ShowAlertPresence(user)]
  }

  /**
   * `handle_suspicious_activity` as written: the alert and the presence change happen, then
   * looking up `insert_record` on the handler raises `AttributeError`, which the handler's own
   * `except` catches; no incident is ever recorded.
   */
  function HandlingAsWritten(config: GuildConfig.Table, guild: int, user: int, channelCanSend: bool): (r: seq<Effect>)
    ensures PostAlert(SecurityChannel(config, guild)) in r <==> channelCanSend
    ensures ShowAlertPresence(user) in r
    ensures forall e :: e in r ==> !e.RecordIncident?
  {
    IncidentCallMissing();
    var shown := Shown(config, guild, user, channelCanSend);
    if StoreApi.Defines(IncidentCall) then shown + [RecordIncident(user)] else shown
  }

  /**
   * The handling as intended (corrected): the same alert and presence change, and then the
   * incident is recorded.
   */
  function Handling(config: GuildConfig.Table, guild: int, user: int, channelCanSend: bool): (r: seq<Effect>)
    ensures r != []
    ensures PostAlert(SecurityChannel(config, guild)) in r <==> channelCanSend
    ensures ShowAlertPresence(user) in r
    ensures RecordIncident(user) in r
  {
    Shown(config, guild, user, channelCanSend) + [RecordIncident(user)]
  }

  /** The corrected handling differs from the code as written only by the incident record at the end. */
  lemma HandlingAddsOnlyTheRecord(config: GuildConfig.Table, guild: int, user: int, channelCanSend: bool)
    ensures Handling(config, guild, user, channelCanSend)
            == HandlingAsWritten(config, guild, user, channelCanSend) + [RecordIncident(user)]
  {
    IncidentCallMissing();
  }

  /** As written, an alert never records an incident, while the key is still cleared. */
  lemma AsWrittenNeverRecords(tr: Tracker, guild: int, user: int, now: int, config: GuildConfig.Table,
                              channelCanSend: bool)
    ensures var r := TrackAction(tr, guild, user, now, HandlingAsWritten(config, guild, user, channelCanSend));
            (forall e :: e in r.effects ==> !e.RecordIncident?)
            && (r.effects != [] ==> (guild, user) !in r.tracker.actions)
  {
  }

  /** `on_command`: commands outside a guild are not tracked. */
  function OnCommand(tr: Tracker, guild: Option<int>, user: int, now: int, config: GuildConfig.Table, channelCanSend: bool): (r: Tracked)
    ensures guild.None? ==> r == Tracked(tr, [])
    ensures guild.Some? ==> r == TrackAction(tr, guild.value, user, now, Handling(config, guild.value, user, channelCanSend))
  {
    match guild
    case None => Tracked(tr, [])
    case Some(g) => TrackAction(tr, g, user, now, Handling(config, g, user, channelCanSend))
  }

  /** Actions in one guild never change another guild's counts. */
  lemma GuildsIsolated(tr: Tracker, guild: int, user: int, now: int, handling: seq<Effect>, other: int, u: int)
    requires other != guild
    ensures ((other, u) in TrackAction(tr, guild, user, now, handling).tracker.actions) == ((other, u) in tr.actions)
    ensures (other, u) in tr.actions ==>
              TrackAction(tr, guild, user, now, handling).tracker.actions[(other, u)] == tr.actions[(other, u)]
  {
  }

  datatype SecurityUpdate = SecurityUpdate(tracker: Tracker, config: GuildConfig.Table, reply: string)

  /** `update_security_config`: only the supplied parameters change; with none, nothing does. */
  function UpdateSecurityConfig(tr: Tracker, config: GuildConfig.Table, guild: int,
                                threshold: Option<int>, window: Option<int>, channel: Option<int>): (r: SecurityUpdate)
    ensures r.tracker.actions == tr.actions
    ensures r.tracker.settings.threshold == threshold.GetOr(tr.settings.threshold)
    ensures r.tracker.settings.window == window.GetOr(tr.settings.window)
    ensures channel.None? ==> r.config == config
    ensures channel.Some? ==> GuildConfig.GetLogChannelId(r.config, guild) == channel
    ensures forall g :: g != guild ==> GuildConfig.GetLogChannelId(r.config, g) == GuildConfig.GetLogChannelId(config, g)
    ensures threshold.None? && window.None? && channel.None? ==>
              r == SecurityUpdate(tr, config, "No valid configuration parameters provided.")
  {
    var settings := Settings(threshold.GetOr(tr.settings.threshold), window.GetOr(tr.settings.window));
    SecurityUpdate(tr.(settings := settings), SetSecurityChannel(config, guild, channel),
                   SecurityReply(threshold, window, channel))
  }

  /** The security channel is the guild's log channel; without one the table is left alone. */
  function SetSecurityChannel(config: GuildConfig.Table, guild: int, channel: Option<int>): (r: GuildConfig.Table)
    ensures channel.None? ==> r == config
    ensures channel.Some? ==> GuildConfig.GetLogChannelId(r, guild) == channel
    ensures forall g :: g != guild ==> GuildConfig.GetLogChannelId(r, g) == GuildConfig.GetLogChannelId(config, g)
  {
    if channel.Some? then
      var r := GuildConfig.SetConfig(config, guild, GuildConfig.NoArgs.(logChannel := channel));
      assert r[guild].logChannel == channel;
      r
    else config
  }

  /** One part per supplied parameter, joined with "; ", or the complaint when there are none. */
  function SecurityReply(threshold: Option<int>, window: Option<int>, channel: Option<int>): (r: string)
    ensures threshold.None? && window.None? && channel.None? ==> r == "No valid configuration parameters provided."
  {
    var parts :=
      (if threshold.Some? then ["Threshold set to " + Text.IntToString(threshold.value)] else [])
      + (if window.Some? then ["Time window set to " + Text.IntToString(window.value) + " seconds"] else [])
      + (if channel.Some? then ["Security channel set to <#" + Text.IntToString(channel.value) + ">"] else []);
    if parts != [] then "Security configuration updated: " + Text.JoinWith(parts, "; ")
    else "No valid configuration parameters provided."
  }

  /** A new threshold applies to every guild's next action alike. */
  lemma ThresholdShared(tr: Tracker, config: GuildConfig.Table, guild: int, t: int, other: int, user: int, now: int,
                        handling: seq<Effect>)
    requires handling != []
    ensures var tr' := UpdateSecurityConfig(tr, config, guild, Some(t), None, None).tracker;
            var previous := if (other, user) in tr'.actions then tr'.actions[(other, user)] else [];
            TrackAction(tr', other, user, now, handling).effects != [] <==>
              |Recent(previous + [now], now, tr.settings.window)| >= t
  {
  }
}

=== FILE: autoresponder.dfy ===
/**
 * Autoresponses: the `autoresponses` table of the database handler (rows scoped by guild,
 * triggers stored lower-cased, ids from an auto-increment counter) and the cog that answers
 * every message containing a stored trigger.
 */
module Autoresponder {
  import opened Wrappers
  import Text

  datatype AutoRow = AutoRow(id: int, guildId: int, trigger: string, response: string, channelId: Option<int>)

  /** The table and its auto-increment counter, which starts at 1. */
  datatype Store = Store(rows: seq<AutoRow>, nextId: int)

  predicate Valid(s: Store)
  {
    s.nextId >= 1
    && (forall i :: 0 <= i < |s.rows| ==> 1 <= s.rows[i].id < s.nextId)
    && (forall i, j :: 0 <= i < j < |s.rows| ==> s.rows[i].id != s.rows[j].id)
  }

  const Empty: Store := Store([], 1)

  lemma EmptyValid()
    ensures Valid(Empty)
  {
  }

  // ---------------------------------------------------------------- store operations

  /** `insert_autoresponse`: a new row with the next id and the trigger lower-cased; the new id is returned. */
  function Insert(s: Store, guildId: int, trigger: string, response: string, channelId: Option<int>): (r: (Store, int))
    requires Valid(s)
    ensures Valid(r.0)
    ensures r.1 == s.nextId && r.1 >= 1
    ensures r.0.rows == s.rows + [AutoRow(r.1, guildId, Text.Lower(trigger), response, channelId)]
  {
    (Store(s.rows + [AutoRow(s.nextId, guildId, Text.Lower(trigger), response, channelId)], s.nextId + 1), s.nextId)
  }

  predicate Targets(row: AutoRow, guildId: int, id: int) { row.id == id && row.guildId == guildId }

  /** `delete_autoresponse`: only the row matching both id and guild goes; true iff one did. */
  function Delete(s: Store, guildId: int, id: int): (r: (Store, bool))
    ensures r.0.nextId == s.nextId
    ensures forall row :: row in r.0.rows <==> row in s.rows && !Targets(row, guildId, id)
    ensures r.1 <==> exists i :: 0 <= i < |s.rows| && Targets(s.rows[i], guildId, id)
  {
    var kept := Without(s.rows, guildId, id);
    (Store(kept, s.nextId), |kept| < |s.rows|)
  }

  function Without(rows: seq<AutoRow>, guildId: int, id: int): (r: seq<AutoRow>)
    ensures forall row :: row in r <==> row in rows && !Targets(row, guildId, id)
    ensures |r| <= |rows|
    ensures |r| < |rows| <==> exists i :: 0 <= i < |rows| && Targets(rows[i], guildId, id)
    decreases |rows|
  {
    if rows == [] then []
    else
      var rest := Without(rows[1..], guildId, id);
      assert forall row :: row in rows <==> row == rows[0] || row in rows[1..];
      assert forall i :: 1 <= i < |rows| ==> rows[i] == rows[1..][i - 1];
      if Targets(rows[0], guildId, id) then rest else [rows[0]] + rest
  }

  /** `fetch_autoresponses`: the guild's rows in stored order. */
  function Fetch(s: Store, guildId: int): (r: seq<AutoRow>)
    ensures forall row :: row in r <==> row in s.rows && row.guildId == guildId
  {
    OfGuild(s.rows, guildId)
  }

  function OfGuild(rows: seq<AutoRow>, guildId: int): (r: seq<AutoRow>)
    ensures forall row :: row in r <==> row in rows && row.guildId == guildId
    decreases |rows|
  {
    if rows == [] then []
    else
      var rest := OfGuild(rows[1..], guildId);
      assert forall row :: row in rows <==> row == rows[0] || row in rows[1..];
      if rows[0].guildId == guildId then [rows[0]] + rest else rest
  }

  /** `fetch_autoresponse_by_id`: the row with this id in this guild. */
  function FetchById(s: Store, guildId: int, id: int): (r: Option<AutoRow>)
    ensures r.Some? ==> r.value in s.rows && Targets(r.value, guildId, id)
    ensures r.None? <==> forall i :: 0 <= i < |s.rows| ==> !Targets(s.rows[i], guildId, id)
  {
    FirstTargeted(s.rows, guildId, id)
  }

  function FirstTargeted(rows: seq<AutoRow>, guildId: int, id: int): (r: Option<AutoRow>)
    ensures r.Some? ==> r.value in rows && Targets(r.value, guildId, id)
    ensures r.None? <==> forall i :: 0 <= i < |rows| ==> !Targets(rows[i], guildId, id)
    decreases |rows|
  {
    if rows == [] then None
    else if Targets(rows[0], guildId, id) then Some(rows[0])
    else
      var r := FirstTargeted(rows[1..], guildId, id);
      assert forall i :: 1 <= i < |rows| ==> rows[i] == rows[1..][i - 1];
      r
  }

  /** The new values of `update_autoresponse`: `None` keeps a column as it is. */
  datatype Changes = Changes(trigger: Option<string>, response: Option<string>, channelId: Option<int>)

  predicate NoChanges(c: Changes) { c.trigger.None? && c.response.None? && c.channelId.None? }

  function Apply(row: AutoRow, c: Changes): (r: AutoRow)
    ensures r.id == row.id && r.guildId == row.guildId
    ensures r.trigger == (if c.trigger.Some? then Text.Lower(c.trigger.value) else row.trigger)
    ensures r.response == c.response.GetOr(row.response)
    ensures r.channelId == (if c.channelId.Some? then c.channelId else row.channelId)
  {
    AutoRow(row.id, row.guildId,
            if c.trigger.Some? then Text.Lower(c.trigger.value) else row.trigger,
            c.response.GetOr(row.response),
            if c.channelId.Some? then c.channelId else row.channelId)
  }

  /**
   * `update_autoresponse`: with no field given nothing is written and the answer is false;
   * otherwise the row matching id and guild takes the given fields, and the answer says
   * whether such a row exists.
   */
  function Update(s: Store, guildId: int, id: int, c: Changes): (r: (Store, bool))
    ensures NoChanges(c) ==> r.0 == s && !r.1
    ensures r.0.nextId == s.nextId && |r.0.rows| == |s.rows|
    ensures forall i :: 0 <= i < |s.rows| ==>
      r.0.rows[i] == if !NoChanges(c) && Targets(s.rows[i], guildId, id) then Apply(s.rows[i], c) else s.rows[i]
    ensures r.1 <==> !NoChanges(c) && exists i :: 0 <= i < |s.rows| && Targets(s.rows[i], guildId, id)
  {
    if NoChanges(c) then (s, false)
    else
      var rows := seq(|s.rows|, i requires 0 <= i < |s.rows| =>
                        if Targets(s.rows[i], guildId, id) then Apply(s.rows[i], c) else s.rows[i]);
      (Store(rows, s.nextId), exists i :: 0 <= i < |s.rows| && Targets(s.rows[i], guildId, id))
  }

  /** Deleting a row never touches another guild's rows, even one with the same id. */
  lemma DeleteScopedToGuild(s: Store, guildId: int, id: int, row: AutoRow)
    requires row in s.rows && row.guildId != guildId
    ensures row in Delete(s, guildId, id).0.rows
  {
  }

  /** After an insert the new row is found by its id, and a second delete of it reports false. */
  lemma InsertDeleteRoundTrip(s: Store, guildId: int, trigger: string, response: string)
    requires Valid(s)
    ensures var (s1, id) := Insert(s, guildId, trigger, response, None);
      FetchById(s1, guildId, id) == Some(AutoRow(id, guildId, Text.Lower(trigger), response, None))
      && Delete(s1, guildId, id).1
      && FetchById(Delete(s1, guildId, id).0, guildId, id).None?
      && Delete(s, guildId, id).0 == s
  {
    var (s1, id) := Insert(s, guildId, trigger, response, None);
    var row := AutoRow(id, guildId, Text.Lower(trigger), response, None);
    assert s1.rows[|s.rows|] == row;
    assert forall i :: 0 <= i < |s1.rows| && Targets(s1.rows[i], guildId, id) ==> i == |s.rows|;
    var d := Delete(s1, guildId, id).0;
    forall i | 0 <= i < |d.rows| ensures !Targets(d.rows[i], guildId, id) {
      assert d.rows[i] in d.rows;
    }
    assert !exists i :: 0 <= i < |s.rows| && Targets(s.rows[i], guildId, id);
    WithoutNothing(s.rows, guildId, id);
  }

  lemma {:induction false} WithoutNothing(rows: seq<AutoRow>, guildId: int, id: int)
    requires forall i :: 0 <= i < |rows| ==> !Targets(rows[i], guildId, id)
    ensures Without(rows, guildId, id) == rows
    decreases |rows|
  {
    if rows != [] {
      WithoutNothing(rows[1..], guildId, id);
    }
  }

  // ---------------------------------------------------------------- the cog

  /** A trigger fires when it occurs in the lower-cased content; the row's channel plays no part. */
  predicate Fires(row: AutoRow, content: string) { Text.Contains(Text.Lower(content), row.trigger) }

  /** The rows that fire, in stored order. */
  function Firing(rows: seq<AutoRow>, content: string): (r: seq<AutoRow>)
    ensures forall row :: row in r <==> row in rows && Fires(row, content)
    decreases |rows|
  {
    if rows == [] then []
    else
      var rest := Firing(rows[1..], content);
      assert forall row :: row in rows <==> row == rows[0] || row in rows[1..];
      if Fires(rows[0], content) then [rows[0]] + rest else rest
  }

  /**
   * `handle_message`: bots are never answered; otherwise every autoresponse of the guild whose
   * trigger fires sends its response, in stored order (the result lists those autoresponses).
   */
  function HandleMessage(s: Store, guildId: int, authorIsBot: bool, content: string): (r: seq<AutoRow>)
    ensures authorIsBot ==> r == []
    ensures !authorIsBot ==> forall row :: row in r <==> row in s.rows && row.guildId == guildId && Fires(row, content)
  {
    if authorIsBot then [] else Firing(Fetch(s, guildId), content)
  }

  /** A trigger just added answers any later message of that guild containing it, in any letter case. */
  lemma {:induction false} AddedTriggerAnswers(s: Store, guildId: int, trigger: string, response: string,
                                                before: string, after: string)
    requires Valid(s)
    ensures AutoRow(s.nextId, guildId, Text.Lower(trigger), response, None)
              in HandleMessage(Insert(s, guildId, trigger, response, None).0, guildId, false, before + trigger + after)
  {
    var s1 := Insert(s, guildId, trigger, response, None).0;
    var row := s1.rows[|s.rows|];
    assert row in s1.rows;
    Text.LowerAppend(before + trigger, after);
    Text.LowerAppend(before, trigger);
    var low := Text.Lower(before + trigger + after);
    assert low == Text.Lower(before) + Text.Lower(trigger) + Text.Lower(after);
    assert Text.OccursAt(low, row.trigger, |before|) by {
      assert low[|before|..|before| + |trigger|] == Text.Lower(trigger);
    }
  }

  /** The messages the channel receives: each firing row's response. */
  function Sent(rows: seq<AutoRow>): (r: seq<string>)
    ensures |r| == |rows|
    decreases |rows|
  {
    if rows == [] then [] else [rows[0].response] + Sent(rows[1..])
  }

  /** Channels play no part: rows differing only in their channel send the same responses. */
  lemma {:induction false} ChannelIgnored(rows: seq<AutoRow>, content: string, channel: Option<int>)
    ensures Sent(Firing(seq(|rows|, i requires 0 <= i < |rows| => rows[i].(channelId := channel)), content))
         == Sent(Firing(rows, content))
    decreases |rows|
  {
    if rows != [] {
      var moved := seq(|rows|, i requires 0 <= i < |rows| => rows[i].(channelId := channel));
      var tail := rows[1..];
      assert moved[1..] == seq(|tail|, i requires 0 <= i < |tail| => tail[i].(channelId := channel));
      ChannelIgnored(tail, content, channel);
      assert Fires(moved[0], content) == Fires(rows[0], content);
    }
  }

  // ---------------------------------------------------------------- command replies

  datatype Reply =
    | Added(id: int, trigger: string) | AddFailed
    | Removed(id: int) | RemoveFailed(id: int)
    | NoneSetUp | Listing(fields: seq<(string, string)>)

  /** `add_autoresponse`: success is reported iff the store did not answer -1. */
  function AddReply(id: int, trigger: string): (r: Reply)
    ensures r.AddFailed? <==> id == -1
  {
    if id != -1 then Added(id, trigger) else AddFailed
  }

  /** An id handed out by a valid store is never -1, so adding always reports success. */
  lemma AddNeverFails(s: Store, guildId: int, trigger: string, response: string)
    requires Valid(s)
    ensures AddReply(Insert(s, guildId, trigger, response, None).1, trigger).Added?
  {
  }

  /** `remove_autoresponse`: success iff the delete changed a row. */
  function RemoveReply(id: int, changed: bool): (r: Reply)
    ensures r.Removed? <==> changed
  {
    if changed then Removed(id) else RemoveFailed(id)
  }

  /** `list_autoresponses`: an info line when the guild has none, else one field per row. */
  function ListReply(s: Store, guildId: int): (r: Reply)
    ensures r.NoneSetUp? <==> forall row :: row in s.rows ==> row.guildId != guildId
    ensures r.Listing? ==> |r.fields| == |Fetch(s, guildId)|
    ensures r.Listing? ==> forall k :: 0 <= k < |r.fields| ==>
      r.fields[k].0 == "ID: " + Text.IntToString(Fetch(s, guildId)[k].id) + " | Trigger: `" + Fetch(s, guildId)[k].trigger + "`"
      && r.fields[k].1 == "**Response:** " + Fetch(s, guildId)[k].response
  {
    var rows := Fetch(s, guildId);
    if rows == [] then NoneSetUp
    else
      assert rows[0] in rows;
      Listing(seq(|rows|, k requires 0 <= k < |rows| =>
        ("ID: " + Text.IntToString(rows[k].id) + " | Trigger: `" + rows[k].trigger + "`",
         "**Response:** " + rows[k].response)))
  }
}

=== FILE: catfish.dfy ===
/**
 * The `catfish` reverse image search: which image it searches for, and how the search
 * service's answer becomes a reply. The service itself is an input.
 */
module Catfish {
  import opened Wrappers
  import Text
  import Collections

  /** A message the command was replying to: its attachment URLs and its content. */
  datatype Referenced = Referenced(attachments: seq<string>, content: string)

  /** The invoking message: its attachment URLs, the URL argument, and the message it replies to. */
  datatype Invocation = Invocation(attachments: seq<string>, imageUrl: Option<string>, reference: Option<Referenced>)

  /** Python's truthiness of an optional string. */
  predicate Truthy(s: Option<string>) { s.Some? && s.value != "" }

  /** Replied-to content counts as an image link when it mentions "http" and ".jpg" or ".png". */
  predicate LooksLikeImage(content: string)
  {
    content != "" && Text.Contains(content, "http") && (Text.Contains(content, ".jpg") || Text.Contains(content, ".png"))
  }

  /**
   * The image searched for, in priority order: the invoking message's first attachment, the URL
   * argument, the replied-to message's first attachment, then its content if it looks like an
   * image link.
   */
  function PickImage(inv: Invocation): (r: Option<string>)
    ensures inv.attachments != [] ==> r == Some(inv.attachments[0])
    ensures inv.attachments == [] && Truthy(inv.imageUrl) ==> r == inv.imageUrl
    ensures inv.attachments == [] && !Truthy(inv.imageUrl) && inv.reference.None? ==> !Truthy(r)
    ensures inv.attachments == [] && !Truthy(inv.imageUrl) && inv.reference.Some? ==>
              (inv.reference.value.attachments != [] ==> r == Some(inv.reference.value.attachments[0]))
              && (inv.reference.value.attachments == [] ==>
                    (Truthy(r) <==> LooksLikeImage(inv.reference.value.content))
                    && (Truthy(r) ==> r == Some(inv.reference.value.content)))
  {
    if inv.attachments != [] then Some(inv.attachments[0])
    else if Truthy(inv.imageUrl) then inv.imageUrl
    else if inv.reference.Some? then
      var ref := inv.reference.value;
      if ref.attachments != [] then Some(ref.attachments[0])
      else if LooksLikeImage(ref.content) then Some(ref.content)
      else inv.imageUrl
    else inv.imageUrl
  }

  /** A replied-to text without both a link and an image extension is never searched. */
  lemma PlainReplyNotSearched(content: string, url: Option<string>)
    requires !Text.Contains(content, "http")
    ensures !Truthy(PickImage(Invocation([], url, Some(Referenced([], content))))) || Truthy(url)
  {
  }

  /** One search result: title and link, each possibly missing. */
  datatype ResultItem = ResultItem(title: Option<string>, link: Option<string>)

  /** What the search service answers: a JSON body, or a network or other failure. */
  datatype ApiAnswer =
    | Body(error: Option<string>, imageResults: seq<ResultItem>)
    | NetworkFailure(message: string)
    | OtherFailure(message: string)

  datatype Reply =
    | Usage
    | ErrorEmbed(text: string)
    | Matches(description: string)
    | NoMatches
    | NetworkError(text: string)
    | UnexpectedError(text: string)

  /** `[i] [title](link)` followed by a newline, with "No Title" and "" as defaults. */
  function ResultLine(i: nat, item: ResultItem): (line: string)
    ensures |line| > 0 && line[|line| - 1] == '\n'
  {
    "[" + Text.NatToString(i) + "] [" + (if item.title.Some? then item.title.value else "No Title") + "]("
    + (if item.link.Some? then item.link.value else "") + ")\n"
  }

  /** A result line opens with its bracketed number. */
  lemma ResultLineNumbered(i: nat, item: ResultItem)
    ensures Text.StartsWith(ResultLine(i, item), "[" + Text.NatToString(i) + "] [")
  {
    var head := "[" + Text.NatToString(i) + "] [";
    assert ResultLine(i, item)[..|head|] == head;
  }

  /** The results numbered from `from` in the service's order. */
  function ResultLines(items: seq<ResultItem>, from: nat): (lines: seq<string>)
    ensures |lines| == |items|
    ensures forall i {:trigger lines[i]} :: 0 <= i < |items| ==> lines[i] == ResultLine(from + i, items[i])
  {
    Collections.Numbered(ResultLine, items, from)
  }

  /** More results only add lines after the existing ones, numbered on from where they stopped. */
  lemma ResultLinesAppend(a: seq<ResultItem>, b: seq<ResultItem>, from: nat)
    ensures ResultLines(a + b, from) == ResultLines(a, from) + ResultLines(b, from + |a|)
  {
    Collections.NumberedAppend(ResultLine, a, b, from);
  }

  /** The reply once an image was found: the error embed only, numbered results, or no matches. */
  function Answer(answer: ApiAnswer): (r: Reply)
    ensures answer.Body? && answer.error.Some? ==> r == ErrorEmbed("Error: " + answer.error.value)
    ensures answer.Body? && answer.error.None? ==>
              (answer.imageResults == [] <==> r == NoMatches)
              && (answer.imageResults != [] ==> r == Matches(Text.Concat(ResultLines(answer.imageResults, 1))))
    ensures answer.NetworkFailure? <==> r.NetworkError?
    ensures answer.OtherFailure? <==> r.UnexpectedError?
  {
    match answer
    case NetworkFailure(m) => NetworkError("An error occurred while contacting the API: " + m)
    case OtherFailure(m) => UnexpectedError("An unexpected error occurred: " + m)
    case Body(error, items) =>
      if error.Some? then ErrorEmbed("Error: " + error.value)
      else if items != [] then Matches(Text.Concat(ResultLines(items, 1)))
      else NoMatches
  }

  /** The command: usage when no image is found, otherwise "checking" and the answer. */
  datatype Outcome = Outcome(searched: Option<string>, reply: Reply)

  function CatfishCommand(inv: Invocation, answer: ApiAnswer): (r: Outcome)
    ensures !Truthy(PickImage(inv)) <==> r.searched.None?
    ensures r.searched.None? ==> r.reply == Usage
    ensures r.searched.Some? ==> r.searched == PickImage(inv) && r.reply == Answer(answer)
  {
    var image := PickImage(inv);
    if !Truthy(image) then Outcome(None, Usage) else Outcome(image, Answer(answer))
  }

  /** With no image the service is never consulted: any answer gives the same outcome. */
  lemma NoImageNoCall(inv: Invocation, a: ApiAnswer, b: ApiAnswer)
    requires !Truthy(PickImage(inv))
    ensures CatfishCommand(inv, a) == CatfishCommand(inv, b)
  {
  }

  /** An own attachment wins over everything else offered. */
  lemma OwnAttachmentFirst(url: string, imageUrl: Option<string>, reference: Option<Referenced>, rest: seq<string>, answer: ApiAnswer)
    requires url != ""
    ensures CatfishCommand(Invocation([url] + rest, imageUrl, reference), answer).searched == Some(url)
  {
  }
}

=== FILE: channel_access.dfy ===
/**
 * The channel access manager: toggling a member's read permission on a channel, the
 * permission-change log, resetting logged overwrites, and the reaction-driven home page.
 * Permission overwrites are a map; which users, members and channels resolve is an input.
 */
module ChannelAccess {
  import opened Wrappers
  import Text
  import Collections

  /** A member's read-messages overwrite on a channel: unset (None in the platform), allowed or denied. */
  datatype Access = Unset | Granted | Denied

  /** Overwrites keyed by (member id, channel id); a missing key is `Unset`. */
  type Overwrites = map<(int, int), Access>

  function AccessOf(ow: Overwrites, member: int, channel: int): Access
  {
    if (member, channel) in ow then ow[(member, channel)] else Unset
  }

  /** The stored boolean for an access: Python's `None`, `True` or `False`. */
  function Stored(a: Access): Option<bool>
  {
    match a
    case Unset => None
    case Granted => Some(true)
    case Denied => Some(false)
  }

  /** One row of the permission-change log. */
  datatype LogRow = LogRow(user: int, channel: int, previous: Option<bool>, newState: bool, time: string)

  datatype Toggled = Toggled(overwrites: Overwrites, log: seq<LogRow>, reply: string)

  /** The confirmation: "Granted" when the new read is allowed, "Removed" otherwise. */
  function ToggleReply(granted: bool, member: int, channel: int): (r: string)
    ensures Text.StartsWith(r, "✅ Granted") <==> granted
    ensures Text.StartsWith(r, "✅ Removed") <==> !granted
  {
    var action := if granted then "Granted" else "Removed";
    var tail := " access for <@" + Text.IntToString(member) + "> to <#" + Text.IntToString(channel) + ">.";
    var r := "✅ " + action + tail;
    // Only the action word tells the two confirmations apart.
    assert r[..|"✅ Granted"|] == "✅ " + action;
    assert "✅ Granted"[2] != "✅ Removed"[2];
    r
  }

  /**
   * `toggle_channel_access`: `not` of the current value, so an unset or denied read becomes
   * granted and a granted one becomes an explicit deny. The change is logged, then applied.
   */
  function ToggleChannelAccess(ow: Overwrites, log: seq<LogRow>, member: int, channel: int, now: string): (r: Toggled)
    ensures AccessOf(r.overwrites, member, channel) == (if AccessOf(ow, member, channel) == Granted then Denied else Granted)
    ensures forall m, c :: (m, c) != (member, channel) ==> AccessOf(r.overwrites, m, c) == AccessOf(ow, m, c)
    ensures |r.log| == |log| + 1 && r.log[..|log|] == log
    ensures r.log[|log|] == LogRow(member, channel, Stored(AccessOf(ow, member, channel)),
                                   AccessOf(r.overwrites, member, channel) == Granted, now)
  {
    var current := AccessOf(ow, member, channel);
    var newAccess := current != Granted;
    var after := if newAccess then Granted else Denied;
    Toggled(ow[(member, channel) := after], log + [LogRow(member, channel, Stored(current), newAccess, now)],
            ToggleReply(newAccess, member, channel))
  }

  /** Two toggles of a granted read give it back; an unset one ends granted after a deny in between. */
  lemma ToggleTwice(ow: Overwrites, log: seq<LogRow>, member: int, channel: int, t1: string, t2: string)
    ensures var once := ToggleChannelAccess(ow, log, member, channel, t1);
            var twice := ToggleChannelAccess(once.overwrites, once.log, member, channel, t2);
            (AccessOf(ow, member, channel) != Unset ==> AccessOf(twice.overwrites, member, channel) == AccessOf(ow, member, channel))
            && (AccessOf(ow, member, channel) == Unset ==> AccessOf(twice.overwrites, member, channel) == Denied)
            && |twice.log| == |log| + 2
  {
  }

  /** The log records every toggle truthfully: its previous value is the access before, its new value the access after. */
  lemma ToggleLogAgrees(ow: Overwrites, log: seq<LogRow>, member: int, channel: int, now: string)
    ensures var t := ToggleChannelAccess(ow, log, member, channel, now);
            var row := t.log[|t.log| - 1];
            row.previous == Stored(AccessOf(ow, member, channel))
            && Stored(AccessOf(t.overwrites, member, channel)) == Some(row.newState)
  {
  }

  // ---------------------------------------------------------------- view_logs

  /** At most this many log rows are shown. */
  const ShownLogs: nat := 10

  datatype Field = Field(name: string, value: string)

  datatype LogsReply = NoLogs | LogFields(fields: seq<Field>)

  function Mark(b: bool): string { if b then "✅" else "❌" }

  /** The field for one row: mentions when user and channel resolve, raw ids otherwise. */
  function LogField(row: LogRow, users: set<int>, channels: set<int>): (f: Field)
    ensures Text.StartsWith(f.value, "Previous: " + Mark(row.previous == Some(true)))
  {
    var userText := if row.user in users then "<@" + Text.IntToString(row.user) + ">"
                    else "User ID: " + Text.IntToString(row.user);
    var channelText := if row.channel in channels then "<#" + Text.IntToString(row.channel) + ">"
                       else "Channel ID: " + Text.IntToString(row.channel);
    var head := "Previous: " + Mark(row.previous == Some(true));
    var value := head + "\nNew: " + Mark(row.newState) + "\nTime: " + row.time;
    assert value == head + ("\nNew: " + Mark(row.newState) + "\nTime: " + row.time);
    Field(userText + " in " + channelText, value)
  }

  /** `view_logs`: a message for an empty log, otherwise one field for each of the first ten rows. */
  function ViewLogs(log: seq<LogRow>, users: set<int>, channels: set<int>): (r: LogsReply)
    ensures r.NoLogs? <==> log == []
    ensures r.LogFields? ==> |r.fields| == if |log| < ShownLogs then |log| else ShownLogs
    ensures r.LogFields? ==> forall i :: 0 <= i < |r.fields| ==> r.fields[i] == LogField(log[i], users, channels)
  {
    if log == [] then NoLogs
    else
      var shown := if |log| < ShownLogs then log else log[..ShownLogs];
      LogFields(seq(|shown|, i requires 0 <= i < |shown| => LogField(shown[i], users, channels)))
  }

  /** Rows past the tenth never show: appending to a full page changes nothing. */
  lemma ViewLogsFirstTen(log: seq<LogRow>, more: seq<LogRow>, users: set<int>, channels: set<int>)
    requires |log| >= ShownLogs
    ensures ViewLogs(log + more, users, channels) == ViewLogs(log, users, channels)
  {
    var a := ViewLogs(log + more, users, channels);
    var b := ViewLogs(log, users, channels);
    assert |a.fields| == |b.fields|;
    forall i | 0 <= i < |a.fields| ensures a.fields[i] == b.fields[i] {
      assert (log + more)[i] == log[i];
    }
  }

  // ---------------------------------------------------------------- reset_permissions

  datatype Reset = Reset(overwrites: Overwrites, log: seq<LogRow>, reply: string)

  /** The logged pairs whose member and channel both resolve in the guild. */
  predicate Resolvable(row: LogRow, members: set<int>, channels: set<int>)
  {
    row.user in members && row.channel in channels
  }

  /** Clears the overwrite of every resolvable logged pair, in log order. */
  function ClearLogged(ow: Overwrites, log: seq<LogRow>, members: set<int>, channels: set<int>): (r: Overwrites)
    ensures forall k :: k in r ==> k in ow && r[k] == ow[k]
    ensures forall i :: 0 <= i < |log| && Resolvable(log[i], members, channels) ==> (log[i].user, log[i].channel) !in r
    ensures forall k :: k in ow && (forall i :: 0 <= i < |log| && Resolvable(log[i], members, channels) ==> (log[i].user, log[i].channel) != k)
                        ==> k in r
  {
    if log == [] then ow
    else
      var ow' := if Resolvable(log[0], members, channels) then ow - {(log[0].user, log[0].channel)} else ow;
      var r := ClearLogged(ow', log[1..], members, channels);
      assert forall i :: 1 <= i < |log| ==> log[i] == log[1..][i - 1];
      r
  }

  /** `reset_permissions`: nothing for an empty log; otherwise clear resolvable pairs and empty the log. */
  function ResetPermissions(ow: Overwrites, log: seq<LogRow>, members: set<int>, channels: set<int>): (r: Reset)
    ensures log == [] ==> r == Reset(ow, log, "No custom permissions to reset.")
    ensures log != [] ==> r.log == [] && r.reply == "✅ Custom permissions reset and cleared from the database."
    ensures forall m, c :: AccessOf(r.overwrites, m, c) == Unset || AccessOf(r.overwrites, m, c) == AccessOf(ow, m, c)
    ensures forall i :: 0 <= i < |log| && Resolvable(log[i], members, channels) ==>
              AccessOf(r.overwrites, log[i].user, log[i].channel) == Unset
  {
    if log == [] then Reset(ow, log, "No custom permissions to reset.")
    else Reset(ClearLogged(ow, log, members, channels), [], "✅ Custom permissions reset and cleared from the database.")
  }

  /** Overwrites nobody logged survive a reset. */
  lemma ResetKeepsUnlogged(ow: Overwrites, log: seq<LogRow>, members: set<int>, channels: set<int>, m: int, c: int)
    requires forall i :: 0 <= i < |log| ==> (log[i].user, log[i].channel) != (m, c)
    ensures AccessOf(ResetPermissions(ow, log, members, channels).overwrites, m, c) == AccessOf(ow, m, c)
  {
  }

  // ---------------------------------------------------------------- the home page

  const HomeEmojis: seq<string> := ["➡️", "🔍", "❌"]

  /** A reaction added while the home page waits. */
  datatype Reaction = Reaction(user: int, emoji: string)

  /**
   * How the home page ends: ❌ deletes it; ➡️ and 🔍 call page methods the class does not
   * define, which raises out of the command; running out of reactions is the timeout.
   */
  datatype HomeOutcome = Deleted | MissingPage(emoji: string) | TimedOut

  /** The wait's filter: the invoking user and one of the three emojis. */
  predicate Considered(author: int, r: Reaction)
  {
    r.user == author && r.emoji in HomeEmojis
  }

  /** The loop of `show_home_page` over the reactions that arrive before the timeout. */
  function HomePage(author: int, reactions: seq<Reaction>): (r: HomeOutcome)
    ensures r.MissingPage? ==> r.emoji == "➡️" || r.emoji == "🔍"
    ensures r == TimedOut <==> forall i :: 0 <= i < |reactions| ==> !Considered(author, reactions[i])
  {
    if reactions == [] then TimedOut
    else if !Considered(author, reactions[0]) then
      var r := HomePage(author, reactions[1..]);
      assert forall i :: 1 <= i < |reactions| ==> reactions[i] == reactions[1..][i - 1];
      r
    else if reactions[0].emoji == "❌" then Deleted
    else MissingPage(reactions[0].emoji)
  }

  /** Only the invoker's reactions with the page's emojis matter. */
  lemma {:induction false} HomePageIgnoresOthers(author: int, reactions: seq<Reaction>)
    ensures HomePage(author, reactions) == HomePage(author, Collections.Filter(reactions, (x: Reaction) => Considered(author, x)))
  {
    if reactions != [] {
      HomePageIgnoresOthers(author, reactions[1..]);
    }
  }

  /** The first considered ❌ ends the loop: later reactions change nothing. */
  lemma {:induction false} ExitEndsLoop(author: int, before: seq<Reaction>, after: seq<Reaction>)
    requires forall i :: 0 <= i < |before| ==> !Considered(author, before[i])
    ensures HomePage(author, before + [Reaction(author, "❌")] + after) == Deleted
    decreases |before|
  {
    if before == [] {
      assert (before + [Reaction(author, "❌")] + after)[0] == Reaction(author, "❌");
    } else {
      var s := before + [Reaction(author, "❌")] + after;
      assert s[0] == before[0];
      assert s[1..] == before[1..] + [Reaction(author, "❌")] + after;
      ExitEndsLoop(author, before[1..], after);
    }
  }

  datatype ChannelsReply = GuildOnly | Home(outcome: HomeOutcome)

  /** The `channels` command: guild-only, then the home page. */
  function Channels(guild: Option<int>, author: int, reactions: seq<Reaction>): (r: ChannelsReply)
    ensures guild.None? <==> r.GuildOnly?
  {
    if guild.None? then GuildOnly else Home(HomePage(author, reactions))
  }
}

=== FILE: channel_archiver.dfy ===
/**
 * The channel archiver: which channels the auto-archive scan selects as inactive, the
 * progress bar it shows while scanning, and which channels an archive command moves.
 * Channel histories and the archive category are inputs; which channels fail to archive is
 * an input of the intended archiver, and as written every one fails at a missing store call.
 */
module ChannelArchiver {
  import opened Wrappers
  import Text
  import StoreApi

  /** Thirty days in seconds. */
  const InactiveAfter: int := 30 * 24 * 60 * 60

  /** The channel kinds the scan tells apart; `fails` is a platform call that raises. */
  datatype Kind =
    | TextChannel(lastMessage: Option<int>, fails: bool)
    | VoiceChannel
    | StageChannel
    | ForumChannel(hasThreads: bool, lastPost: Option<int>)
    | CategoryChannel(members: seq<Channel>)
    | OtherChannel

  /** A channel: its id, name, the name of its category if any, its kind and creation time. */
  datatype Channel = Channel(id: int, name: string, category: Option<string>, kind: Kind, created: int)

  /** Names never archived, compared in lower case. */
  predicate IgnoredName(name: string)
  {
    Text.Lower(name) == "rules" || Text.Lower(name) == "roles"
  }

  /** Skipped before looking at activity: an ignored name, or a category whose name contains "archive". */
  predicate Ignored(ch: Channel)
  {
    IgnoredName(ch.name) || (ch.category.Some? && Text.Contains(Text.Lower(ch.category.value), "archive"))
  }

  /** What the scan learns about one channel. */
  datatype Scan = Skipped | Errored | Active(time: int)

  /**
   * The time of a channel's last activity: the newest message of a text channel (a time of 0
   * counting as none) or else its creation; the creation of a voice or stage channel; the last
   * post of a forum's first thread when it has threads (a failed fetch raises). Categories and
   * other kinds are skipped.
   */
  function LastActivity(ch: Channel): (r: Scan)
    ensures r.Skipped? <==> Ignored(ch) || ch.kind.CategoryChannel? || ch.kind.OtherChannel?
    ensures !Ignored(ch) && (ch.kind.VoiceChannel? || ch.kind.StageChannel?) ==> r == Active(ch.created)
    ensures !Ignored(ch) && ch.kind.TextChannel? && !ch.kind.fails ==>
              r == Active(if ch.kind.lastMessage.Some? && ch.kind.lastMessage.value != 0
                          then ch.kind.lastMessage.value else ch.created)
  {
    if Ignored(ch) then Skipped
    else
      match ch.kind
      case CategoryChannel(_) => Skipped
      case OtherChannel => Skipped
      case TextChannel(last, fails) =>
        if fails then Errored
        else
          var t := if last.Some? then last.value else 0;
          Active(if t == 0 then ch.created else t)
      case VoiceChannel => Active(ch.created)
      case StageChannel => Active(ch.created)
      case ForumChannel(threads, post) =>
        if !threads then Active(ch.created)
        else if post.None? then Errored
        else Active(post.value)
  }

  /** Selected at time `now`: scanned without error and last active strictly before the cutoff. */
  predicate Inactive(ch: Channel, now: int)
  {
    LastActivity(ch).Active? && LastActivity(ch).time < now - InactiveAfter
  }

  /** The channels the scan selects, in guild order. */
  function GatherInactive(channels: seq<Channel>, now: int): (r: seq<Channel>)
    ensures forall ch :: ch in r ==> ch in channels && Inactive(ch, now)
    ensures forall ch :: ch in channels && Inactive(ch, now) ==> ch in r
    ensures |r| <= |channels|
  {
    if channels == [] then []
    else (if Inactive(channels[0], now) then [channels[0]] else []) + GatherInactive(channels[1..], now)
  }

  /** A channel named rules or roles in any case, or under an archive category, is never selected. */
  lemma {:induction false} IgnoredNeverSelected(channels: seq<Channel>, now: int, ch: Channel)
    requires Ignored(ch)
    ensures ch !in GatherInactive(channels, now)
  {
  }

  /** A text channel that spoke within the last thirty days is not selected; a silent one is. */
  lemma TextChannelCutoff(ch: Channel, now: int)
    requires !Ignored(ch) && ch.kind.TextChannel? && !ch.kind.fails && ch.kind.lastMessage.Some?
    requires ch.kind.lastMessage.value != 0
    ensures Inactive(ch, now) <==> ch.kind.lastMessage.value < now - InactiveAfter
  {
  }

  // ---------------------------------------------------------------- progress bar

  /** `int(progress // 4)` with `progress = idx / total * 100`, computed exactly. */
  function Filled(idx: nat, total: nat): (k: nat)
    requires 0 < idx <= total
    ensures k <= 25
    ensures idx == total ==> k == 25
  {
    FilledBounds(idx, total);
    idx * 25 / total
  }

  /** The bar is never more than full, and full once every channel is scanned. */
  lemma FilledBounds(idx: nat, total: nat)
    requires 0 < idx <= total
    ensures idx * 25 / total <= 25
    ensures idx == total ==> idx * 25 / total == 25
  {
    DivMonotone(idx * 25, total * 25, total);
    var q := total * 25 / total;
    assert q * total <= 25 * total < (q + 1) * total;
    MulLeCancel(q, 25, total);
    MulCancel(25, q + 1, total);
  }

  /** The 25-character bar: `Filled` blocks, then dashes. */
  function Bar(idx: nat, total: nat): (r: string)
    requires 0 < idx <= total
    ensures |r| == 25
    ensures forall i :: 0 <= i < 25 ==> (r[i] == '█' <==> i < Filled(idx, total))
    ensures forall i :: 0 <= i < 25 ==> (r[i] == '-' <==> i >= Filled(idx, total))
  {
    Text.Repeat('█', Filled(idx, total)) + Text.Repeat('-', 25 - Filled(idx, total))
  }

  /** Scanning further never shortens the bar. */
  lemma {:induction false} BarGrows(i: nat, j: nat, total: nat)
    requires 0 < i <= j <= total
    ensures Filled(i, total) <= Filled(j, total)
  {
    assert i * 25 <= j * 25;
    DivMonotone(i * 25, j * 25, total);
  }

  lemma {:induction false} DivMonotone(a: nat, b: nat, d: nat)
    requires a <= b && d > 0
    ensures a / d <= b / d
  {
    var qa, qb := a / d, b / d;
    assert qa * d <= a;
    assert b < qb * d + d;
    assert (qb + 1) * d == qb * d + d;
    MulCancel(qa, qb + 1, d);
  }

  lemma MulLeCancel(x: int, y: int, d: int)
    requires d > 0 && x * d <= y * d
    ensures x <= y
  {
    if x > y {
      MulCancel(y, x, d);
    }
  }

  lemma MulCancel(x: int, y: int, d: int)
    requires d > 0 && x * d < y * d
    ensures x < y
  {
  }

  /** Scanned without error: the channels that update the bar. */
  predicate Checked(ch: Channel)
  {
    LastActivity(ch).Active?
  }

  /** Indices of the channels checked without error, in scan order. */
  function CheckedAt(channels: seq<Channel>): (idx: seq<nat>)
    ensures |idx| <= |channels|
    ensures forall i :: 0 <= i < |idx| ==> idx[i] < |channels| && Checked(channels[idx[i]])
    ensures forall i, j :: 0 <= i < j < |idx| ==> idx[i] < idx[j]
    decreases |channels|
  {
    if channels == [] then []
    else
      var n := |channels| - 1;
      var init := CheckedAt(channels[..n]);
      assert forall k :: 0 <= k < n ==> channels[..n][k] == channels[k];
      if Checked(channels[n]) then init + [n] else init
  }

  /** No channel checked without error is left out. */
  lemma {:induction false} CheckedAtComplete(channels: seq<Channel>, k: nat)
    requires k < |channels| && Checked(channels[k])
    ensures k in CheckedAt(channels)
    decreases |channels|
  {
    var n := |channels| - 1;
    if k < n {
      assert channels[..n][k] == channels[k];
      CheckedAtComplete(channels[..n], k);
    }
  }

  /**
   * The bars the scan shows: one per channel that was checked without error (skipped and
   * failed channels update nothing), in scan order, each drawn for that channel's position
   * among all channels, counted from `from`.
   */
  function Progress(channels: seq<Channel>, total: nat, from: nat): (bars: seq<string>)
    requires 0 < from && from + |channels| - 1 <= total
    ensures |bars| == |CheckedAt(channels)|
    ensures forall i :: 0 <= i < |bars| ==> bars[i] == Bar(from + CheckedAt(channels)[i], total)
  {
    var idx := CheckedAt(channels);
    seq(|idx|, i requires 0 <= i < |idx| => Bar(from + idx[i], total))
  }

  /** The bars never shrink as the scan goes on. */
  lemma ProgressGrows(channels: seq<Channel>, total: nat, from: nat, i: nat, j: nat)
    requires 0 < from && from + |channels| - 1 <= total
    requires i <= j < |CheckedAt(channels)|
    ensures var idx := CheckedAt(channels);
            Filled(from + idx[i], total) <= Filled(from + idx[j], total)
  {
    var idx := CheckedAt(channels);
    assert i < j ==> idx[i] < idx[j];
    BarGrows(from + idx[i], from + idx[j], total);
  }

  /** A scan whose last channel is checked without error ends on a full bar. */
  lemma FullBarAtEnd(channels: seq<Channel>, total: nat)
    requires channels != [] && |channels| == total && Checked(channels[|channels| - 1])
    ensures var bars := Progress(channels, total, 1);
            bars != [] && bars[|bars| - 1] == Text.Repeat('█', 25)
  {
    var n := |channels| - 1;
    assert CheckedAt(channels) == CheckedAt(channels[..n]) + [n];
    var bars := Progress(channels, total, 1);
    assert bars[|bars| - 1] == Bar(1 + n, total);
    assert Filled(total, total) == 25;
  }

  // ---------------------------------------------------------------- archiving

  /** What happens to one channel: it is recorded and moved, or the failure is logged. */
  datatype Step = Archived(channel: Channel) | Failed(channel: Channel)

  /** Archives each channel in turn; a failure on one is logged and the rest still run. */
  function ArchiveAll(channels: seq<Channel>, failing: set<int>): (steps: seq<Step>)
    ensures |steps| == |channels|
    ensures forall i :: 0 <= i < |channels| ==> steps[i].channel == channels[i]
    ensures forall i :: 0 <= i < |channels| ==> (steps[i].Failed? <==> channels[i].id in failing)
  {
    seq(|channels|, i requires 0 <= i < |channels| =>
      if channels[i].id in failing then Failed(channels[i]) else Archived(channels[i]))
  }

  datatype AutoReply = NoneInactive | Found(count: nat, steps: seq<Step>)

  /** `autoarchive`: report nothing to do, or archive every selected channel, in guild order. */
  function Autoarchive(channels: seq<Channel>, now: int, failing: set<int>): (r: AutoReply)
    ensures r.NoneInactive? <==> forall ch :: ch in channels ==> !Inactive(ch, now)
    ensures r.Found? ==> r.count == |r.steps| && r.count > 0
                         && forall s :: s in r.steps ==> s.channel in channels && Inactive(s.channel, now)
    ensures r.Found? ==>
              var selected := GatherInactive(channels, now);
              |r.steps| == |selected|
              && forall i :: 0 <= i < |selected| ==>
                   r.steps[i].channel == selected[i] && (r.steps[i].Archived? <==> selected[i].id !in failing)
  {
    var inactive := GatherInactive(channels, now);
    if inactive == [] then NoneInactive
    else
      assert inactive[0] in inactive;
      var steps := ArchiveAll(inactive, failing);
      assert forall s :: s in steps ==> s.channel in inactive;
      Found(|inactive|, steps)
  }

  /** The target of `archive`: none, a guild channel, or an argument that converted to no channel. */
  datatype Target = NoTarget | ChannelTarget(channel: Channel) | Unresolved

  datatype ArchiveReply = Prompt | InvalidTarget | Moved(steps: seq<Step>)

  /** `archive`: a category stands for its channels, any other channel for itself. */
  function Archive(target: Target, failing: set<int>): (r: ArchiveReply)
    ensures target.NoTarget? <==> r.Prompt?
    ensures target.Unresolved? <==> r.InvalidTarget?
    ensures target.ChannelTarget? && target.channel.kind.CategoryChannel? ==>
              r.Moved? && |r.steps| == |target.channel.kind.members|
              && forall i :: 0 <= i < |r.steps| ==> r.steps[i].channel == target.channel.kind.members[i]
    ensures target.ChannelTarget? && !target.channel.kind.CategoryChannel? ==>
              r.Moved? && |r.steps| == 1 && r.steps[0].channel == target.channel
  {
    match target
    case NoTarget => Prompt
    case Unresolved => InvalidTarget
    case ChannelTarget(ch) =>
      if ch.kind.CategoryChannel? then Moved(ArchiveAll(ch.kind.members, failing))
      else Moved(ArchiveAll([ch], failing))
  }

  // ---------------------------------------------------------------- as written

  /** The first store call of every archive attempt, made while finding the archive category. */
  const CategoryLookup := "get_available_archive_category"

  /** The handler has no such method. */
  lemma CategoryLookupMissing()
    ensures !StoreApi.Defines(CategoryLookup)
  {
    StoreApi.CommandCallMissing(CategoryLookup);
  }

  /**
   * The channels that fail as written: every archive attempt raises at the category lookup
   * inside its `try`, so every channel's failure is logged.
   */
  function FailingAsWritten(channels: seq<Channel>): (f: set<int>)
    ensures forall ch :: ch in channels ==> ch.id in f
  {
    CategoryLookupMissing();
    if StoreApi.Defines(CategoryLookup) then {} else set ch | ch in channels :: ch.id
  }

  /** `autoarchive` as written: the scan and the count are as intended; no channel is moved. */
  function AutoarchiveAsWritten(channels: seq<Channel>, now: int): (r: AutoReply)
    ensures r.NoneInactive? <==> forall ch :: ch in channels ==> !Inactive(ch, now)
    ensures r.Found? ==> r.count == |GatherInactive(channels, now)| && forall s :: s in r.steps ==> s.Failed?
  {
    Autoarchive(channels, now, FailingAsWritten(channels))
  }

  /** The channels an `archive` target stands for. */
  function TargetChannels(target: Target): seq<Channel>
  {
    match target
    case ChannelTarget(ch) => if ch.kind.CategoryChannel? then ch.kind.members else [ch]
    case _ => []
  }

  /** `archive` as written: the prompts are as intended; every channel of the target fails. */
  function ArchiveAsWritten(target: Target): (r: ArchiveReply)
    ensures target.NoTarget? <==> r.Prompt?
    ensures target.Unresolved? <==> r.InvalidTarget?
    ensures r.Moved? ==> |r.steps| == |TargetChannels(target)| && forall s :: s in r.steps ==> s.Failed?
  {
    Archive(target, FailingAsWritten(TargetChannels(target)))
  }

  /** Whatever the guild, the intended archiver moves every selected channel that does not fail; as written none moves. */
  lemma AsWrittenMovesNothing(channels: seq<Channel>, now: int)
    ensures var intended := Autoarchive(channels, now, {});
            intended.Found? ==> forall s :: s in intended.steps ==> s.Archived?
    ensures var written := AutoarchiveAsWritten(channels, now);
            written.Found? ==> forall s :: s in written.steps ==> !s.Archived?
  {
  }
}

=== FILE: collections.dfy ===
/**
 * Sequence utilities shared by several cogs: cutting a list into pages of a fixed
 * size, and Python's `sorted(xs, key=...)` on string keys.
 */
module Collections {

  function Flatten<T>(xss: seq<seq<T>>): seq<T>
  {
    if xss == [] then [] else xss[0] + Flatten(xss[1..])
  }

  /**
   * Consecutive slices of at most `n` elements: `[xs[i:i+n] for i in range(0, len(xs), n)]`.
   * Every page but the last is full, none is empty, and the pages put back together give `xs`.
   */
  function Chunks<T>(xs: seq<T>, n: nat): (pages: seq<seq<T>>)
    requires n > 0
    ensures Flatten(pages) == xs
    ensures forall k :: 0 <= k < |pages| ==> 0 < |pages[k]| <= n
    ensures forall k :: 0 <= k < |pages| - 1 ==> |pages[k]| == n
    ensures |xs| <= |pages| * n
    ensures |pages| > 0 ==> (|pages| - 1) * n < |xs|
    decreases |xs|
  {
    if |xs| == 0 then []
    else if |xs| <= n then
      assert Flatten([xs]) == xs + Flatten([]);
      [xs]
    else
      var rest := Chunks(xs[n..], n);
      assert (|rest| + 1) * n == |rest| * n + n;
      assert ([xs[..n]] + rest)[1..] == rest;
      assert xs == xs[..n] + xs[n..];
      [xs[..n]] + rest
  }

  // ---------------------------------------------------------------- ordering of strings

  /** Python's `a <= b` on strings: lexicographic by code point. */
  predicate LexLe(a: string, b: string)
    decreases |a|
  {
    if a == [] then true
    else if b == [] then false
    else if a[0] != b[0] then a[0] < b[0]
    else LexLe(a[1..], b[1..])
  }

  lemma {:induction false} LexLeTotal(a: string, b: string)
    ensures LexLe(a, b) || LexLe(b, a)
    decreases |a|
  {
    if a != [] && b != [] && a[0] == b[0] {
      LexLeTotal(a[1..], b[1..]);
    }
  }

  lemma {:induction false} LexLeTrans(a: string, b: string, c: string)
    requires LexLe(a, b) && LexLe(b, c)
    ensures LexLe(a, c)
    decreases |a|
  {
    if a != [] && b != [] && c != [] && a[0] == b[0] && b[0] == c[0] {
      LexLeTrans(a[1..], b[1..], c[1..]);
    }
  }

  lemma {:induction false} LexLeRefl(a: string)
    ensures LexLe(a, a)
    decreases |a|
  {
    if a != [] {
      LexLeRefl(a[1..]);
    }
  }

  lemma {:induction false} LexLeAntisymmetric(a: string, b: string)
    requires LexLe(a, b) && LexLe(b, a)
    ensures a == b
    decreases |a|
  {
    if a != [] && b != [] {
      LexLeAntisymmetric(a[1..], b[1..]);
      assert a == [a[0]] + a[1..] && b == [b[0]] + b[1..];
    }
  }

  predicate SortedBy<T>(xs: seq<T>, key: T -> string)
  {
    forall i, j :: 0 <= i < j < |xs| ==> LexLe(key(xs[i]), key(xs[j]))
  }

  /** Inserts `x` before the first element whose key is not below it. */
  function InsertBy<T>(x: T, ys: seq<T>, key: T -> string): (r: seq<T>)
    requires SortedBy(ys, key)
    ensures SortedBy(r, key)
    ensures multiset(r) == multiset(ys) + multiset{x}
    decreases |ys|
  {
    if ys == [] then [x]
    else if LexLe(key(x), key(ys[0])) then
      LowerThanHead(x, ys, key);
      assert multiset([x] + ys) == multiset(ys) + multiset{x};
      [x] + ys
    else
      var rest := InsertBy(x, ys[1..], key);
      LexLeTotal(key(x), key(ys[0]));
      HeadBelowAll(ys[0], rest, ys[1..], x, key);
      assert ys == [ys[0]] + ys[1..];
      [ys[0]] + rest
  }

  lemma LowerThanHead<T>(x: T, ys: seq<T>, key: T -> string)
    requires SortedBy(ys, key) && ys != [] && LexLe(key(x), key(ys[0]))
    ensures SortedBy([x] + ys, key)
  {
    var r := [x] + ys;
    forall i, j | 0 <= i < j < |r|
      ensures LexLe(key(r[i]), key(r[j]))
    {
      if i == 0 && j > 1 {
        LexLeTrans(key(x), key(ys[0]), key(ys[j - 1]));
      }
    }
  }

  lemma HeadBelowAll<T>(h: T, rest: seq<T>, tail: seq<T>, x: T, key: T -> string)
    requires SortedBy(rest, key) && SortedBy([h] + tail, key)
    requires multiset(rest) == multiset(tail) + multiset{x}
    requires LexLe(key(h), key(x))
    ensures SortedBy([h] + rest, key)
  {
    var r := [h] + rest;
    forall i, j | 0 <= i < j < |r|
      ensures LexLe(key(r[i]), key(r[j]))
    {
      if i == 0 {
        var z := rest[j - 1];
        assert r[0] == h && r[j] == z;
        assert z in multiset(rest);
        if z != x {
          assert z in multiset(tail);
          var k :| 0 <= k < |tail| && tail[k] == z;
          var ht := [h] + tail;
          assert ht[0] == h && ht[k + 1] == z;
          assert LexLe(key(ht[0]), key(ht[k + 1]));
        }
      } else {
        assert r[i] == rest[i - 1] && r[j] == rest[j - 1];
      }
    }
  }

  /**
   * `sorted(xs, key=key)`: an ordered permutation of `xs`. Elements with equal keys keep
   * their input order because each element is placed before the equal ones that follow it.
   */
  function SortBy<T>(xs: seq<T>, key: T -> string): (r: seq<T>)
    ensures SortedBy(r, key)
    ensures multiset(r) == multiset(xs)
    ensures |r| == |xs|
    decreases |xs|
  {
    if xs == [] then []
    else
      var r := InsertBy(xs[0], SortBy(xs[1..], key), key);
      assert xs == [xs[0]] + xs[1..];
      assert |r| == |multiset(r)|;
      r
  }

  /** The elements whose key is `k`, in their order in `xs`. */
  function WithKey<T>(xs: seq<T>, key: T -> string, k: string): (r: seq<T>)
    ensures forall x :: x in r ==> x in xs && key(x) == k
    decreases |xs|
  {
    if xs == [] then []
    else
      assert forall x :: x in xs[1..] ==> x in xs;
      (if key(xs[0]) == k then [xs[0]] else []) + WithKey(xs[1..], key, k)
  }

  /** One step of picking: the head is kept exactly when its key is `k`. */
  lemma WithKeyCons<T>(x: T, xs: seq<T>, key: T -> string, k: string)
    ensures WithKey([x] + xs, key, k) == (if key(x) == k then [x] else []) + WithKey(xs, key, k)
  {
    assert ([x] + xs)[0] == x && ([x] + xs)[1..] == xs;
  }

  /** Inserting places the new element before every element with an equal key. */
  lemma {:induction false} InsertByWithKey<T>(x: T, ys: seq<T>, key: T -> string, k: string)
    requires SortedBy(ys, key)
    ensures WithKey(InsertBy(x, ys, key), key, k) == (if key(x) == k then [x] else []) + WithKey(ys, key, k)
    decreases |ys|
  {
    var hx := if key(x) == k then [x] else [];
    if ys == [] || LexLe(key(x), key(ys[0])) {
      WithKeyCons(x, ys, key, k);
    } else {
      var h := ys[0];
      var hy := if key(h) == k then [h] else [];
      LexLeRefl(key(x));
      assert key(x) != key(h);
      assert hx == [] || hy == [];
      var rest := InsertBy(x, ys[1..], key);
      assert InsertBy(x, ys, key) == [h] + rest;
      InsertByWithKey(x, ys[1..], key, k);
      WithKeyCons(h, rest, key, k);
      WithKeyCons(h, ys[1..], key, k);
      assert ys == [h] + ys[1..];
      AppendAssoc(hy, hx, WithKey(ys[1..], key, k));
      AppendAssoc(hx, hy, WithKey(ys[1..], key, k));
      assert hy + hx == hx + hy;
    }
  }

  /** `sorted` is stable: elements with equal keys keep their input order. */
  lemma {:induction false} SortByStable<T>(xs: seq<T>, key: T -> string, k: string)
    ensures WithKey(SortBy(xs, key), key, k) == WithKey(xs, key, k)
    decreases |xs|
  {
    if xs != [] {
      SortByStable(xs[1..], key, k);
      InsertByWithKey(xs[0], SortBy(xs[1..], key), key, k);
      WithKeyCons(xs[0], xs[1..], key, k);
      assert xs == [xs[0]] + xs[1..];
    }
  }

  /** Picking the elements of one key commutes with filtering. */
  lemma {:induction false} WithKeyFilter<T(!new)>(xs: seq<T>, p: T -> bool, key: T -> string, k: string)
    ensures WithKey(Filter(xs, p), key, k) == Filter(WithKey(xs, key, k), p)
    decreases |xs|
  {
    if xs != [] {
      var h, t := xs[0], xs[1..];
      WithKeyFilter(t, p, key, k);
      var ft, wt := Filter(t, p), WithKey(t, key, k);
      var lhs, rhs := WithKey(Filter(xs, p), key, k), Filter(WithKey(xs, key, k), p);
      FilterCons(xs, p);
      WithKeyCons(h, ft, key, k);
      FilterCons([h] + wt, p);
      assert ([h] + wt)[0] == h && ([h] + wt)[1..] == wt;
      if p(h) {
        assert Filter(xs, p) == [h] + ft;
        if key(h) == k {
          assert WithKey(xs, key, k) == [h] + wt;
          assert lhs == [h] + WithKey(ft, key, k);
          assert rhs == [h] + Filter(wt, p);
        } else {
          assert WithKey(xs, key, k) == wt;
          assert lhs == WithKey(ft, key, k);
        }
      } else {
        assert Filter(xs, p) == ft;
        if key(h) == k {
          assert WithKey(xs, key, k) == [h] + wt;
          assert rhs == Filter(wt, p);
        } else {
          assert WithKey(xs, key, k) == wt;
        }
      }
    }
  }

  /** A string sorts by itself. */
  function Id(s: string): string { s }

  /** The least element heads every sorted arrangement. */
  lemma SortedHeadsAgree(a: seq<string>, b: seq<string>)
    requires SortedBy(a, Id) && SortedBy(b, Id)
    requires multiset(a) == multiset(b) && a != [] && b != []
    ensures a[0] == b[0]
  {
    assert a[0] in multiset(b) && b[0] in multiset(a);
    var j :| 0 <= j < |b| && b[j] == a[0];
    var i :| 0 <= i < |a| && a[i] == b[0];
    LexLeRefl(a[0]);
    LexLeRefl(b[0]);
    assert LexLe(Id(b[0]), Id(b[j]));
    assert LexLe(Id(a[0]), Id(a[i]));
    LexLeAntisymmetric(a[0], b[0]);
  }

  lemma TailsSameMultiset<T>(a: seq<T>, b: seq<T>)
    requires multiset(a) == multiset(b) && a != [] && b != [] && a[0] == b[0]
    ensures multiset(a[1..]) == multiset(b[1..])
  {
    assert a == [a[0]] + a[1..] && b == [b[0]] + b[1..];
    assert multiset(a) == multiset{a[0]} + multiset(a[1..]);
    assert multiset(b) == multiset{b[0]} + multiset(b[1..]);
    assert multiset(a[1..]) == multiset(a) - multiset{a[0]};
    assert multiset(b[1..]) == multiset(b) - multiset{b[0]};
  }

  /** Two sorted arrangements of the same strings are the same sequence. */
  lemma {:induction false} SortedUnique(a: seq<string>, b: seq<string>)
    requires SortedBy(a, Id) && SortedBy(b, Id)
    requires multiset(a) == multiset(b)
    ensures a == b
    decreases |a|
  {
    assert |a| == |multiset(a)| == |b|;
    if a != [] {
      SortedHeadsAgree(a, b);
      TailsSameMultiset(a, b);
      SortedUnique(a[1..], b[1..]);
      assert a == [a[0]] + a[1..] && b == [b[0]] + b[1..];
    }
  }

  /** Python's `sorted` on strings. */
  function SortStrings(xs: seq<string>): (r: seq<string>)
    ensures SortedBy(r, Id) && multiset(r) == multiset(xs)
  {
    SortBy(xs, Id)
  }

  /** Sorting forgets the input order: rearrangements of the same strings sort alike. */
  lemma SortStringsIgnoresOrder(xs: seq<string>, ys: seq<string>)
    requires multiset(xs) == multiset(ys)
    ensures SortStrings(xs) == SortStrings(ys)
  {
    SortedUnique(SortStrings(xs), SortStrings(ys));
  }

  /** `[x for x in xs if p(x)]` */
  function Filter<T(!new)>(xs: seq<T>, p: T -> bool): (r: seq<T>)
    ensures forall x :: x in r <==> x in xs && p(x)
    ensures |r| <= |xs|
    decreases |xs|
  {
    if xs == [] then []
    else
      var rest := Filter(xs[1..], p);
      assert forall x :: x in xs <==> x == xs[0] || x in xs[1..];
      if p(xs[0]) then [xs[0]] + rest else rest
  }

  /** `f` applied to each item together with its number, counting on from `from`. */
  function Numbered<T, U>(f: (nat, T) -> U, items: seq<T>, from: nat): (r: seq<U>)
    ensures |r| == |items|
    ensures forall i {:trigger r[i]} :: 0 <= i < |items| ==> r[i] == f(from + i, items[i])
    decreases |items|
  {
    if items == [] then [] else [f(from, items[0])] + Numbered(f, items[1..], from + 1)
  }

  /** Numbering more items only adds entries after the existing ones, counting on where they stopped. */
  lemma {:induction false} NumberedAppend<T, U>(f: (nat, T) -> U, a: seq<T>, b: seq<T>, from: nat)
    ensures Numbered(f, a + b, from) == Numbered(f, a, from) + Numbered(f, b, from + |a|)
  {
    if a == [] {
      assert a + b == b;
    } else {
      var head := [f(from, a[0])];
      var rest, tail := Numbered(f, a[1..], from + 1), Numbered(f, b, from + |a|);
      assert (a + b)[0] == a[0];
      assert (a + b)[1..] == a[1..] + b;
      NumberedAppend(f, a[1..], b, from + 1);
      assert from + 1 + |a[1..]| == from + |a|;
      AppendAssoc(head, rest, tail);
    }
  }

  /** Concatenation regroups freely. */
  lemma AppendAssoc<T>(x: seq<T>, y: seq<T>, z: seq<T>)
    ensures x + (y + z) == (x + y) + z
  {
  }

  /** One step of filtering: the head is kept exactly when it passes. */
  lemma FilterCons<T(!new)>(xs: seq<T>, p: T -> bool)
    requires xs != []
    ensures Filter(xs, p) == (if p(xs[0]) then [xs[0]] else []) + Filter(xs[1..], p)
  {
  }

  /** Filtering keeps a sorted sequence sorted. */
  lemma {:induction false} FilterSorted<T(!new)>(xs: seq<T>, p: T -> bool, key: T -> string)
    requires SortedBy(xs, key)
    ensures SortedBy(Filter(xs, p), key)
    decreases |xs|
  {
    if xs != [] {
      FilterSorted(xs[1..], p, key);
      var rest := Filter(xs[1..], p);
      if p(xs[0]) {
        var r := [xs[0]] + rest;
        forall i, j | 0 <= i < j < |r| ensures LexLe(key(r[i]), key(r[j])) {
          if i == 0 {
            assert r[j] in rest;
            var k :| 1 <= k < |xs| && xs[k] == r[j];
          } else {
            assert r[i] == rest[i - 1] && r[j] == rest[j - 1];
          }
        }
      }
    }
  }
}

=== FILE: commands_meta.dfy ===
/**
 * Command metadata of the commands handler: the permissions string of a command, the
 * per-command table served to the dashboard, and the replies of the cog's error handler.
 */
module CommandsMeta {
  import opened Wrappers
  import Text
  import Collections

  // ---------------------------------------------------------------- permissions

  /** The `permissions` entry of a command's extras: absent, a list, or any other (string) value. */
  datatype PermissionsExtra = NoPermissions | PermissionList(items: seq<string>) | PermissionText(text: string)

  /** `_extract_command_permissions`: "Default" when absent, a list sorted and joined with ", ", anything else as is. */
  function Permissions(extra: PermissionsExtra): (r: string)
    ensures extra.NoPermissions? ==> r == "Default"
    ensures extra.PermissionText? ==> r == extra.text
    ensures extra.PermissionList? ==>
      exists sorted: seq<string> {:trigger Text.JoinWith(sorted, ", ")} ::
        Collections.SortedBy(sorted, Collections.Id) && multiset(sorted) == multiset(extra.items)
        && r == Text.JoinWith(sorted, ", ")
  {
    match extra
    case NoPermissions => "Default"
    case PermissionList(items) => Text.JoinWith(Collections.SortStrings(items), ", ")
    case PermissionText(text) => text
  }

  /** The listed order of permissions does not matter. */
  lemma PermissionsIgnoreOrder(xs: seq<string>, ys: seq<string>)
    requires multiset(xs) == multiset(ys)
    ensures Permissions(PermissionList(xs)) == Permissions(PermissionList(ys))
  {
    Collections.SortStringsIgnoresOrder(xs, ys);
  }

  /** A list's permissions string is the sorted arrangement of its items, joined. */
  lemma PermissionsOfSorted(xs: seq<string>, sorted: seq<string>)
    requires Collections.SortedBy(sorted, Collections.Id) && multiset(sorted) == multiset(xs)
    ensures Permissions(PermissionList(xs)) == Text.JoinWith(sorted, ", ")
  {
    Collections.SortedUnique(Collections.SortStrings(xs), sorted);
  }

  /** Two permissions come out in alphabetical order. */
  lemma TwoPermissionsSorted(a: string, b: string)
    requires Collections.LexLe(a, b)
    ensures Permissions(PermissionList([b, a])) == a + ", " + b
  {
    var sorted := [a, b];
    assert Collections.SortedBy(sorted, Collections.Id) by {
      assert Collections.Id(a) == a && Collections.Id(b) == b;
    }
    assert multiset(sorted) == multiset([b, a]);
    PermissionsOfSorted([b, a], sorted);
    assert sorted[1..] == [b];
    assert Text.JoinWith(sorted, ", ") == a + ", " + Text.JoinWith([b], ", ");
  }

  // ---------------------------------------------------------------- the command table

  /** A registered command: its name, its help and usage text (absent or empty alike fall back), its extras. */
  datatype Command = Command(name: string, help: Option<string>, usage: Option<string>, permissions: PermissionsExtra)

  datatype Entry = Entry(description: string, usage: string, permissions: string)

  /** Python's `text or default` on an optional string. */
  function OrDefault(text: Option<string>, default: string): (r: string)
    ensures (text.None? || text.value == "") ==> r == default
    ensures text.Some? && text.value != "" ==> r == text.value
  {
    if text.None? || text.value == "" then default else text.value
  }

  function EntryOf(c: Command): (e: Entry)
    ensures e.description != "" && e.usage != ""
    ensures e.permissions == Permissions(c.permissions)
  {
    Entry(OrDefault(c.help, "No description provided."), OrDefault(c.usage, "No usage information provided."),
          Permissions(c.permissions))
  }

  /**
   * `get_commands_data`: one entry per command name, later commands of the same name
   * overwriting earlier ones as dictionary assignment does.
   */
  function CommandsData(cmds: seq<Command>): (r: map<string, Entry>)
    ensures forall name :: name in r <==> exists i :: 0 <= i < |cmds| && cmds[i].name == name
    decreases |cmds|
  {
    if cmds == [] then map[]
    else
      var init := cmds[..|cmds| - 1];
      var last := cmds[|cmds| - 1];
      var before := CommandsData(init);
      assert forall i :: 0 <= i < |init| ==> init[i] == cmds[i];
      before[last.name := EntryOf(last)]
  }

  /** A name's entry describes the last command registered under it. */
  lemma {:induction false} LastCommandWins(cmds: seq<Command>, i: nat)
    requires i < |cmds|
    requires forall j :: i < j < |cmds| ==> cmds[j].name != cmds[i].name
    ensures CommandsData(cmds)[cmds[i].name] == EntryOf(cmds[i])
    decreases |cmds|
  {
    var init := cmds[..|cmds| - 1];
    if i < |cmds| - 1 {
      assert init[i] == cmds[i];
      assert forall j :: i < j < |init| ==> init[j] == cmds[j];
      LastCommandWins(init, i);
    }
  }

  /** With distinct names every command gets its own entry and there are as many entries as commands. */
  lemma {:induction false} DistinctNamesOneEntryEach(cmds: seq<Command>)
    requires forall i, j :: 0 <= i < j < |cmds| ==> cmds[i].name != cmds[j].name
    ensures |CommandsData(cmds)| == |cmds|
    ensures forall i :: 0 <= i < |cmds| ==> CommandsData(cmds)[cmds[i].name] == EntryOf(cmds[i])
    decreases |cmds|
  {
    if cmds != [] {
      var init := cmds[..|cmds| - 1];
      assert forall i :: 0 <= i < |init| ==> init[i] == cmds[i];
      DistinctNamesOneEntryEach(init);
      assert cmds[|cmds| - 1].name !in CommandsData(init);
    }
    forall i | 0 <= i < |cmds|
      ensures CommandsData(cmds)[cmds[i].name] == EntryOf(cmds[i])
    {
      LastCommandWins(cmds, i);
    }
  }

  // ---------------------------------------------------------------- error replies

  /** The error classes `cog_command_error` distinguishes, in the order it tests them. */
  datatype CommandError =
    | MissingPermissions | MissingRequiredArgument(param: string) | BadArgument
    | CommandNotFound | CommandInvokeError | OtherError

  /** What the handler does: the reply it sends, if any, and whether it logs the error. */
  datatype ErrorHandling = ErrorHandling(reply: Option<string>, logged: bool)

  /** User mistakes the handler explains without logging. */
  predicate UserMistake(e: CommandError) { e.MissingPermissions? || e.MissingRequiredArgument? || e.BadArgument? }

  const NoPermissionReply: string := "❌ You do not have the required permissions to execute this command."
  const BadArgumentReply: string := "❌ Bad argument provided. Please check your input and try again."
  const InternalErrorReply: string := "❌ An internal error occurred while executing the command."
  const OtherErrorReply: string := "❌ An error occurred while processing the command."

  /** The reply to a missing argument: it names the parameter in backticks and gives the usage. */
  function MissingArgumentReply(param: string, usage: string): (text: string)
    ensures Text.Contains(text, "`" + param + "`")
  {
    var prefix := "❌ Missing required argument: ";
    var text := prefix + "`" + param + "`" + ". Usage: `" + usage + "`";
    assert text[|prefix|..|prefix| + |"`" + param + "`"|] == "`" + param + "`";
    assert Text.OccursAt(text, "`" + param + "`", |prefix|);
    text
  }

  /** `cog_command_error`; `usage` is the command's usage text as Python formats it ("None" when unset). */
  function HandleError(e: CommandError, usage: string): (r: ErrorHandling)
    ensures r.reply.None? <==> e.CommandNotFound?
    ensures r.logged <==> !UserMistake(e) && !e.CommandNotFound?
    ensures e.MissingRequiredArgument? ==> Text.Contains(r.reply.value, "`" + e.param + "`")
  {
    match e
    case MissingPermissions => ErrorHandling(Some(NoPermissionReply), false)
    case MissingRequiredArgument(param) => ErrorHandling(Some(MissingArgumentReply(param, usage)), false)
    case BadArgument => ErrorHandling(Some(BadArgumentReply), false)
    case CommandNotFound => ErrorHandling(None, false)
    case CommandInvokeError => ErrorHandling(Some(InternalErrorReply), true)
    case OtherError => ErrorHandling(Some(OtherErrorReply), true)
  }

  /** Failures inside a command and unlisted errors get different replies, both logged. */
  lemma UnexpectedErrorsDistinguished(usage: string)
    ensures HandleError(CommandInvokeError, usage).reply != HandleError(OtherError, usage).reply
    ensures HandleError(CommandInvokeError, usage).logged && HandleError(OtherError, usage).logged
  {
    assert |InternalErrorReply| != |OtherErrorReply|;
  }
}

=== FILE: eternal_slave.dfy ===
/**
 * The owner/sub contract system: a relational store of user profiles, contracts
 * (one owner per sub, the sub being the key), rules, tasks, restricted words and
 * trusted users. Commands aimed at a sub act only when the invoker owns that sub;
 * every command first registers the users it names with a default profile.
 */
module EternalSlave {
  import opened Wrappers
  import Text
  import Collections

  // ---------------------------------------------------------------- the store

  /** A row of `users`; the optional fields are the nullable columns. */
  datatype Profile = Profile(
    profileSetup: bool, gagged: Option<string>, muted: bool, boundChannel: Option<int>,
    brandTop: Option<string>, brandBottom: Option<string>, chastity: bool,
    restrictions: Option<string>, safeWord: Option<string>)

  /** The row `add_user_if_not_exists` inserts: every flag false, every text NULL. */
  const NewProfile: Profile := Profile(false, None, false, None, None, None, false, None, None)

  datatype TaskKind = Basic | Writing

  datatype Task = Task(id: int, userId: int, description: string, completed: bool, kind: TaskKind)

  datatype Rule = Rule(id: int, userId: int, text: string)

  /**
   * The seven tables. `contracts` maps a sub to its owner, `restrictedWords` holds
   * (user, word) keys and `trusted` holds (owner, trusted user) keys; the counters
   * are the next AUTOINCREMENT values of `tasks` and `rules`.
   */
  datatype State = State(
    users: map<int, Profile>, contracts: map<int, int>,
    tasks: seq<Task>, nextTaskId: int, rules: seq<Rule>, nextRuleId: int,
    restrictedWords: set<(int, string)>, trusted: set<(int, int)>)

  const Empty: State := State(map[], map[], [], 1, [], 1, {}, {})

  /** The foreign keys hold and every stored id was handed out by its counter. */
  predicate Valid(st: State)
  {
    (forall s :: s in st.contracts ==> s in st.users && st.contracts[s] in st.users)
    && (forall t :: t in st.tasks ==> t.userId in st.users && t.id < st.nextTaskId)
    && (forall r :: r in st.rules ==> r.userId in st.users && r.id < st.nextRuleId)
    && (forall w :: w in st.restrictedWords ==> w.0 in st.users)
    && (forall p :: p in st.trusted ==> p.0 in st.users && p.1 in st.users)
  }

  lemma EmptyValid()
    ensures Valid(Empty)
  {
  }

  /** `is_owner`: a contract names `owner` as the owner of `sub`. */
  predicate IsOwner(st: State, owner: int, sub: int)
  {
    sub in st.contracts && st.contracts[sub] == owner
  }

  /** `r` is `st` with nothing but default profiles added for unknown users. */
  predicate OnlyRegistered(st: State, r: State)
  {
    r == st.(users := r.users)
    && (forall id :: id in st.users ==> id in r.users && r.users[id] == st.users[id])
    && (forall id :: id in r.users && id !in st.users ==> r.users[id] == NewProfile)
  }

  /** `r` is `st` with at most the profile of `id` changed. */
  predicate OnlyProfileOf(st: State, r: State, id: int)
  {
    r == st.(users := r.users) && r.users.Keys == st.users.Keys
    && forall k :: k in st.users && k != id ==> r.users[k] == st.users[k]
  }

  /** `add_user_if_not_exists` for each id in turn. */
  function Register(st: State, ids: seq<int>): (r: State)
    ensures OnlyRegistered(st, r)
    ensures forall k :: 0 <= k < |ids| ==> ids[k] in r.users
    ensures r.users.Keys == st.users.Keys + set k | 0 <= k < |ids| :: ids[k]
    ensures Valid(st) ==> Valid(r)
    decreases |ids|
  {
    if ids == [] then st
    else
      var users := if ids[0] in st.users then st.users else st.users[ids[0] := NewProfile];
      var r := Register(st.(users := users), ids[1..]);
      assert forall k :: 1 <= k < |ids| ==> ids[k] == ids[1..][k - 1];
      r
  }

  // ---------------------------------------------------------------- impairments

  /** No gag, mute, binding, brand, chastity or restrictions. */
  predicate Unimpaired(p: Profile)
  {
    p.gagged.None? && !p.muted && p.boundChannel.None? && p.brandTop.None? && p.brandBottom.None?
    && !p.chastity && p.restrictions.None?
  }

  /** The reset `disown`, `leave` and `safeword` apply: impairments cleared, setup flag and safe word kept. */
  function Reset(p: Profile): (r: Profile)
    ensures Unimpaired(r)
    ensures r.profileSetup == p.profileSetup && r.safeWord == p.safeWord
  {
    p.(gagged := None, muted := false, boundChannel := None, brandTop := None, brandBottom := None,
       chastity := false, restrictions := None)
  }

  /** `UPDATE users SET … WHERE discord_id = id`: no effect on an unknown id. */
  function ResetUser(users: map<int, Profile>, id: int): (r: map<int, Profile>)
    ensures r.Keys == users.Keys
    ensures id in users ==> r[id] == Reset(users[id])
    ensures forall k :: k in users && k != id ==> r[k] == users[k]
  {
    if id in users then users[id := Reset(users[id])] else users
  }

  // ---------------------------------------------------------------- restrictions

  /** The restrictions column as a list: split on ',' when set and non-empty, else no entries. */
  function RestrictionsOf(p: Profile): seq<string>
  {
    if p.restrictions.Some? && p.restrictions.value != "" then Text.Split(p.restrictions.value, ',') else []
  }

  /** The column value a list of restrictions is stored as. */
  function Stored(xs: seq<string>): Option<string>
  {
    Some(Text.Join(xs, ','))
  }

  /** Storing a list and reading it back gives the list, unless it is the single empty entry. */
  lemma StoredRestrictionsRoundTrip(p: Profile, xs: seq<string>)
    requires forall k :: 0 <= k < |xs| ==> ',' !in xs[k]
    requires xs != [""]
    ensures RestrictionsOf(p.(restrictions := Stored(xs))) == xs
  {
    var s := Text.Join(xs, ',');
    if s == "" {
      Text.JoinEmpty(xs, ',');
    } else {
      Text.SplitJoin(xs, ',');
    }
  }

  /** Python's `w.lower() in [r.lower() for r in xs]`. */
  predicate HasVariant(xs: seq<string>, w: string)
  {
    exists i :: 0 <= i < |xs| && Text.Lower(xs[i]) == Text.Lower(w)
  }

  /** `[r for r in xs if r.lower() != w.lower()]` */
  function DropVariants(xs: seq<string>, w: string): (r: seq<string>)
    ensures |r| <= |xs|
    decreases |xs|
  {
    if xs == [] then []
    else if Text.Lower(xs[0]) == Text.Lower(w) then DropVariants(xs[1..], w)
    else [xs[0]] + DropVariants(xs[1..], w)
  }

  /** Exactly the entries that are not case variants of `w` survive. */
  lemma {:induction false} DropVariantsMembers(xs: seq<string>, w: string)
    ensures forall x :: x in DropVariants(xs, w) <==> x in xs && Text.Lower(x) != Text.Lower(w)
    decreases |xs|
  {
    if xs != [] {
      DropVariantsMembers(xs[1..], w);
      assert forall x :: x in xs <==> x == xs[0] || x in xs[1..];
    }
  }

  /** Without a case variant of `w`, nothing is dropped. */
  lemma {:induction false} DropVariantsNone(xs: seq<string>, w: string)
    requires !HasVariant(xs, w)
    ensures DropVariants(xs, w) == xs
    decreases |xs|
  {
    if xs != [] {
      assert Text.Lower(xs[0]) != Text.Lower(w);
      forall i | 0 <= i < |xs[1..]| ensures Text.Lower(xs[1..][i]) != Text.Lower(w) {
        assert xs[1..][i] == xs[i + 1];
      }
      DropVariantsNone(xs[1..], w);
    }
  }

  /** Dropping keeps the surviving entries in their order: it distributes over concatenation. */
  lemma {:induction false} DropVariantsAppend(xs: seq<string>, ys: seq<string>, w: string)
    ensures DropVariants(xs + ys, w) == DropVariants(xs, w) + DropVariants(ys, w)
    decreases |xs|
  {
    if xs == [] {
      assert xs + ys == ys;
    } else {
      assert (xs + ys)[0] == xs[0] && (xs + ys)[1..] == xs[1..] + ys;
      DropVariantsAppend(xs[1..], ys, w);
      if Text.Lower(xs[0]) != Text.Lower(w) {
        assert DropVariants(xs + ys, w) == [xs[0]] + (DropVariants(xs[1..], w) + DropVariants(ys, w));
      }
    }
  }

  /** `restrictions add`: a case variant already present leaves the list alone, otherwise the entry is appended. */
  function AddRestriction(p: Profile, w: string): (r: Option<Profile>)
    ensures r.None? <==> HasVariant(RestrictionsOf(p), w)
    ensures r.Some? ==> r.value == p.(restrictions := Stored(RestrictionsOf(p) + [w]))
  {
    if HasVariant(RestrictionsOf(p), w) then None else Some(p.(restrictions := Stored(RestrictionsOf(p) + [w])))
  }

  /** `restrictions remove`: every case variant of the entry is dropped, the rest kept in order. */
  function RemoveRestriction(p: Profile, w: string): (r: Option<Profile>)
    ensures r.None? <==> !HasVariant(RestrictionsOf(p), w)
    ensures r.Some? ==> r.value == p.(restrictions := Stored(DropVariants(RestrictionsOf(p), w)))
  {
    if !HasVariant(RestrictionsOf(p), w) then None else Some(p.(restrictions := Stored(DropVariants(RestrictionsOf(p), w))))
  }

  /** Stored entries never contain the separator. */
  lemma RestrictionsHaveNoComma(p: Profile)
    ensures forall k :: 0 <= k < |RestrictionsOf(p)| ==> ',' !in RestrictionsOf(p)[k]
    ensures RestrictionsOf(p) != [""]
  {
    if p.restrictions.Some? && p.restrictions.value != "" {
      Text.SplitNonEmpty(p.restrictions.value, ',');
    }
  }

  /** A new restriction without a comma reads back as the old list plus that entry. */
  lemma AddedRestrictionReadsBack(p: Profile, w: string)
    requires AddRestriction(p, w).Some? && ',' !in w && w != ""
    ensures RestrictionsOf(AddRestriction(p, w).value) == RestrictionsOf(p) + [w]
  {
    var xs := RestrictionsOf(p) + [w];
    RestrictionsHaveNoComma(p);
    assert forall k :: 0 <= k < |xs| ==> ',' !in xs[k] by {
      forall k | 0 <= k < |xs| ensures ',' !in xs[k] {
        if k < |xs| - 1 { assert xs[k] == RestrictionsOf(p)[k]; }
      }
    }
    assert xs[|xs| - 1] == w;
    StoredRestrictionsRoundTrip(p, xs);
  }

  /**
   * After a removal no case variant of the entry is left, and the survivors read back in
   * their old order.
   */
  lemma RemovedRestrictionReadsBack(p: Profile, w: string)
    requires RemoveRestriction(p, w).Some?
    requires DropVariants(RestrictionsOf(p), w) != [""]
    ensures RestrictionsOf(RemoveRestriction(p, w).value) == DropVariants(RestrictionsOf(p), w)
    ensures !HasVariant(RestrictionsOf(RemoveRestriction(p, w).value), w)
  {
    var xs := DropVariants(RestrictionsOf(p), w);
    RestrictionsHaveNoComma(p);
    DropVariantsMembers(RestrictionsOf(p), w);
    assert forall k :: 0 <= k < |xs| ==> ',' !in xs[k] by {
      forall k | 0 <= k < |xs| ensures ',' !in xs[k] {
        assert xs[k] in xs;
        assert xs[k] in RestrictionsOf(p);
      }
    }
    StoredRestrictionsRoundTrip(p, xs);
    forall i | 0 <= i < |xs| ensures Text.Lower(xs[i]) != Text.Lower(w) {
      assert xs[i] in xs;
    }
  }

  /** Removing a restriction just added gives back the list it was added to. */
  lemma AddThenRemoveRestores(p: Profile, w: string)
    requires AddRestriction(p, w).Some? && ',' !in w && w != ""
    ensures RemoveRestriction(AddRestriction(p, w).value, w).Some?
    ensures RestrictionsOf(RemoveRestriction(AddRestriction(p, w).value, w).value) == RestrictionsOf(p)
  {
    var q := AddRestriction(p, w).value;
    AddedRestrictionReadsBack(p, w);
    var xs := RestrictionsOf(p);
    assert (xs + [w])[|xs|] == w;
    DropVariantsAppend(xs, [w], w);
    assert DropVariants([w], w) == [];
    assert !HasVariant(xs, w);
    DropVariantsNone(xs, w);
    assert DropVariants(xs + [w], w) == xs;
    RestrictionsHaveNoComma(p);
    RemovedRestrictionReadsBack(q, w);
  }

  // ---------------------------------------------------------------- owner commands

  /** What the bot answers. `Done` is the command's success message. */
  datatype Reply =
    | Done | NotOwner | BadChoice | BadBrand | StoreError | NoReply
    | MissingRestriction | AlreadyApplied | NotApplied | RestrictionList(items: seq<string>) | NoRestrictions
    | InvalidAction | RuleNotFound | TaskNotFound | NoWordsToEnable
    | AlreadyClaimed | NotOwned | NoProfile | WrongSafeword | AlreadyTrusted | NotTrusted

  datatype Outcome = Outcome(state: State, reply: Reply)

  /** The commands that name a sub and require the invoker to own it. */
  datatype OwnerCommand =
    | Bind(sub: int, channel: int)
    | SetChastity(sub: int, action: string)
    | Gag(sub: int, gagType: string)
    | MuteSub(sub: int)
    | Brand(sub: int, texts: string)
    | Disown(sub: int)
    | Restrictions(sub: int, action: string, restriction: Option<string>)
    | AddRule(sub: int, text: string)
    | RemoveRule(sub: int, ruleId: int)
    | UpdateRule(sub: int, ruleId: int, text: string)
    | AddTask(sub: int, kind: TaskKind, description: string)
    | AddRestrictedWord(sub: int, word: string)
    | RemoveRestrictedWord(sub: int, word: string)
    | ClearRestrictedWords(sub: int)
    | ToggleRestrictedWords(sub: int)
    | SubTrustedAdd(sub: int, user: int)
    | SubTrustedRemove(sub: int, user: int)
    | SubTrustedClear(sub: int)

  /** The users a command registers besides the invoker. */
  function Named(cmd: OwnerCommand): seq<int>
  {
    match cmd
    case SubTrustedAdd(sub, user) => [sub, user]
    case SubTrustedRemove(sub, user) => [sub, user]
    case _ => [cmd.sub]
  }

  /** The profile commands: bind, chastity, gag, mute-sub and brand. */
  function EditProfile(st: State, cmd: OwnerCommand): (r: Outcome)
    requires cmd.Bind? || cmd.SetChastity? || cmd.Gag? || cmd.MuteSub? || cmd.Brand?
    requires cmd.sub in st.users
    ensures OnlyProfileOf(st, r.state, cmd.sub)
    ensures r.state != st ==> r.reply == Done
    ensures r.state.users[cmd.sub].restrictions == st.users[cmd.sub].restrictions
    ensures r.state.users[cmd.sub].safeWord == st.users[cmd.sub].safeWord
    ensures cmd.SetChastity? ==> (r.reply == BadChoice <==> Text.Lower(cmd.action) != "enable" && Text.Lower(cmd.action) != "disable")
    ensures cmd.SetChastity? && r.reply == Done ==> r.state.users[cmd.sub].chastity == (Text.Lower(cmd.action) == "enable")
    ensures cmd.Brand? ==> (r.reply == BadBrand <==> '|' !in cmd.texts)
  {
    var p := st.users[cmd.sub];
    match cmd
    case Bind(sub, channel) => Outcome(st.(users := st.users[sub := p.(boundChannel := Some(channel))]), Done)
    case SetChastity(sub, action) =>
      var a := Text.Lower(action);
      if a != "enable" && a != "disable" then Outcome(st, BadChoice)
      else Outcome(st.(users := st.users[sub := p.(chastity := a == "enable")]), Done)
    case Gag(sub, gagType) => Outcome(st.(users := st.users[sub := p.(gagged := Some(gagType))]), Done)
    case MuteSub(sub) => Outcome(st.(users := st.users[sub := p.(muted := true)]), Done)
    case Brand(sub, texts) => BrandStep(st, sub, texts)
  }

  /** `brand`: the text is split at its first `|` into the top and bottom brand. */
  function BrandStep(st: State, sub: int, texts: string): (r: Outcome)
    requires sub in st.users
    ensures OnlyProfileOf(st, r.state, sub)
    ensures r.state.users[sub] == st.users[sub].(brandTop := r.state.users[sub].brandTop,
                                                 brandBottom := r.state.users[sub].brandBottom)
    ensures r.reply == BadBrand <==> '|' !in texts
    ensures r.state != st ==> r.reply == Done
  {
    var parts := Text.Partition(texts, "|");
    Text.ContainsChar(texts, '|');
    if !parts.1 then Outcome(st, BadBrand)
    else
      var p := st.users[sub];
      Outcome(st.(users := st.users[sub := p.(brandTop := Some(Text.Strip(parts.0)),
                                              brandBottom := Some(Text.Strip(parts.2)))]), Done)
  }

  /** `restrictions add|remove|list`. */
  function RestrictionsStep(st: State, sub: int, action: string, restriction: Option<string>): (r: Outcome)
    requires sub in st.users
    ensures OnlyProfileOf(st, r.state, sub)
    ensures r.state.users[sub] == st.users[sub].(restrictions := r.state.users[sub].restrictions)
    ensures r.state != st ==> r.reply == Done
    ensures (Text.Lower(action) == "add" || Text.Lower(action) == "remove") && (restriction.None? || restriction.value == "")
            ==> r.reply == MissingRestriction && r.state == st
    ensures Text.Lower(action) == "add" && restriction.Some? && restriction.value != "" ==>
              match AddRestriction(st.users[sub], restriction.value)
              case None => r.reply == AlreadyApplied && r.state == st
              case Some(q) => r.reply == Done && r.state.users[sub] == q
    ensures Text.Lower(action) == "remove" && restriction.Some? && restriction.value != "" ==>
              match RemoveRestriction(st.users[sub], restriction.value)
              case None => r.reply == NotApplied && r.state == st
              case Some(q) => r.reply == Done && r.state.users[sub] == q
    ensures Text.Lower(action) == "list" ==>
              r.state == st && (r.reply == NoRestrictions <==> RestrictionsOf(st.users[sub]) == [])
              && (r.reply.RestrictionList? ==> r.reply.items == RestrictionsOf(st.users[sub]))
    ensures Text.Lower(action) != "add" && Text.Lower(action) != "remove" && Text.Lower(action) != "list"
            ==> r == Outcome(st, InvalidAction)
  {
    var p := st.users[sub];
    var a := Text.Lower(action);
    if a == "add" || a == "remove" then
      if restriction.None? || restriction.value == "" then Outcome(st, MissingRestriction)
      else
        var change := if a == "add" then AddRestriction(p, restriction.value) else RemoveRestriction(p, restriction.value);
        match change
        case None => Outcome(st, if a == "add" then AlreadyApplied else NotApplied)
        case Some(q) => Outcome(st.(users := st.users[sub := q]), Done)
    else if a == "list" then
      var items := RestrictionsOf(p);
      Outcome(st, if items != [] then RestrictionList(items) else NoRestrictions)
    else Outcome(st, InvalidAction)
  }

  /** Rules of `user` carrying `id`. */
  predicate HasRule(rules: seq<Rule>, id: int, user: int)
  {
    exists r :: r in rules && r.id == id && r.userId == user
  }

  /** `UPDATE rules SET rule_text = text WHERE rule_id = id AND user_id = user` */
  function RewriteRules(rules: seq<Rule>, id: int, user: int, text: string): (r: seq<Rule>)
    ensures |r| == |rules|
    ensures forall k :: 0 <= k < |rules| ==>
              r[k] == if rules[k].id == id && rules[k].userId == user then rules[k].(text := text) else rules[k]
  {
    seq(|rules|, k requires 0 <= k < |rules| =>
      if rules[k].id == id && rules[k].userId == user then rules[k].(text := text) else rules[k])
  }

  /** `rules add|remove|update`: only the rules table and its counter change. */
  function RuleStep(st: State, cmd: OwnerCommand): (r: Outcome)
    requires cmd.AddRule? || cmd.RemoveRule? || cmd.UpdateRule?
    requires cmd.sub in st.users
    ensures r.state == st.(rules := r.state.rules, nextRuleId := r.state.nextRuleId)
    ensures r.reply == Done || (r.reply == RuleNotFound && r.state == st)
    ensures !cmd.AddRule? ==> (r.reply == RuleNotFound <==> !HasRule(st.rules, cmd.ruleId, cmd.sub))
    ensures cmd.AddRule? ==>
              r.state.rules == st.rules + [Rule(st.nextRuleId, cmd.sub, cmd.text)] && r.state.nextRuleId == st.nextRuleId + 1
    ensures cmd.RemoveRule? ==>
              forall x :: x in r.state.rules <==> x in st.rules && !(x.id == cmd.ruleId && x.userId == cmd.sub)
    ensures cmd.UpdateRule? && r.reply == Done ==>
              forall x :: x in st.rules && x.id == cmd.ruleId && x.userId == cmd.sub ==> x.(text := cmd.text) in r.state.rules
  {
    match cmd
    case AddRule(sub, text) =>
      Outcome(st.(rules := st.rules + [Rule(st.nextRuleId, sub, text)], nextRuleId := st.nextRuleId + 1), Done)
    case RemoveRule(sub, id) =>
      if !HasRule(st.rules, id, sub) then Outcome(st, RuleNotFound)
      else Outcome(st.(rules := Collections.Filter(st.rules, (x: Rule) => !(x.id == id && x.userId == sub))), Done)
    case UpdateRule(sub, id, text) =>
      if !HasRule(st.rules, id, sub) then Outcome(st, RuleNotFound)
      else
        var rules := RewriteRules(st.rules, id, sub, text);
        assert forall x :: x in st.rules && x.id == id && x.userId == sub ==> x.(text := text) in rules by {
          forall x | x in st.rules && x.id == id && x.userId == sub ensures x.(text := text) in rules {
            var k :| 0 <= k < |st.rules| && st.rules[k] == x;
            assert rules[k] == x.(text := text);
          }
        }
        Outcome(st.(rules := rules), Done)
  }

  /**
   * `restricted-words add|remove|clear|toggle`: only the sub's pairs change. Add and remove
   * store and delete the word lower-cased, so a word differing only in case is the same word.
   */
  function WordStep(st: State, cmd: OwnerCommand): (r: Outcome)
    requires cmd.AddRestrictedWord? || cmd.RemoveRestrictedWord? || cmd.ClearRestrictedWords? || cmd.ToggleRestrictedWords?
    ensures r.state == st.(restrictedWords := r.state.restrictedWords)
    ensures forall w: (int, string) :: w.0 != cmd.sub ==> (w in r.state.restrictedWords <==> w in st.restrictedWords)
    ensures r.state.restrictedWords
              <= st.restrictedWords + (if cmd.AddRestrictedWord? then {(cmd.sub, Text.Lower(cmd.word))} else {})
    ensures cmd.AddRestrictedWord? ==>
              (cmd.sub, Text.Lower(cmd.word)) in r.state.restrictedWords
              && (r.reply == StoreError <==> (cmd.sub, Text.Lower(cmd.word)) in st.restrictedWords)
    ensures cmd.RemoveRestrictedWord? ==>
              r.state.restrictedWords == st.restrictedWords - {(cmd.sub, Text.Lower(cmd.word))} && r.reply == Done
    ensures cmd.ClearRestrictedWords? || (cmd.ToggleRestrictedWords? && r.reply == Done) ==>
              forall w :: w in r.state.restrictedWords ==> w.0 != cmd.sub
    ensures cmd.ToggleRestrictedWords? ==>
              (r.reply == NoWordsToEnable <==> forall w :: w in st.restrictedWords ==> w.0 != cmd.sub)
  {
    match cmd
    case AddRestrictedWord(sub, word) =>
      var entry := (sub, Text.Lower(word));
      if entry in st.restrictedWords then Outcome(st, StoreError)
      else Outcome(st.(restrictedWords := st.restrictedWords + {entry}), Done)
    case RemoveRestrictedWord(sub, word) =>
      Outcome(st.(restrictedWords := st.restrictedWords - {(sub, Text.Lower(word))}), Done)
    case ClearRestrictedWords(sub) =>
      Outcome(st.(restrictedWords := set w | w in st.restrictedWords && w.0 != sub), Done)
    case ToggleRestrictedWords(sub) =>
      if forall w :: w in st.restrictedWords ==> w.0 != sub then Outcome(st, NoWordsToEnable)
      else Outcome(st.(restrictedWords := set w | w in st.restrictedWords && w.0 != sub), Done)
  }

  /** A word added in one case is refused when added again in another. */
  lemma WordCaseInsensitive(st: State, sub: int, word: string, again: string)
    requires Text.Lower(again) == Text.Lower(word)
    ensures var added := WordStep(st, AddRestrictedWord(sub, word)).state;
            WordStep(added, AddRestrictedWord(sub, again)) == Outcome(added, StoreError)
  {
  }

  /**
   * Adding a new word and then removing it, in any case, gives the store back, and the
   * added word is stored lower-cased.
   */
  lemma WordAddThenRemoveRestores(st: State, sub: int, word: string, removed: string)
    requires (sub, Text.Lower(word)) !in st.restrictedWords
    requires Text.Lower(removed) == Text.Lower(word)
    ensures var added := WordStep(st, AddRestrictedWord(sub, word));
            added.reply == Done && added.state.restrictedWords == st.restrictedWords + {(sub, Text.Lower(word))}
            && WordStep(added.state, RemoveRestrictedWord(sub, removed)).state == st
  {
    var added := WordStep(st, AddRestrictedWord(sub, word));
    assert added.state.restrictedWords - {(sub, Text.Lower(removed))} == st.restrictedWords;
  }

  /** `sub-trusted add|remove|clear`, acting on the invoker's own trusted list. */
  function SubTrustedStep(st: State, invoker: int, cmd: OwnerCommand): (r: Outcome)
    requires cmd.SubTrustedAdd? || cmd.SubTrustedRemove? || cmd.SubTrustedClear?
    ensures r.state == st.(trusted := r.state.trusted)
    ensures r.state.trusted <= st.trusted
    ensures forall p: (int, int) :: p.0 != invoker ==> (p in r.state.trusted <==> p in st.trusted)
    ensures cmd.SubTrustedAdd? ==> r.state == st && (r.reply == AlreadyTrusted <==> (invoker, cmd.user) in st.trusted)
    ensures cmd.SubTrustedRemove? ==> r.state.trusted == st.trusted - {(invoker, cmd.user)}
    ensures cmd.SubTrustedClear? ==> forall p :: p in r.state.trusted ==> p.0 != invoker
  {
    match cmd
    case SubTrustedAdd(sub, user) => Outcome(st, if (invoker, user) in st.trusted then AlreadyTrusted else NoReply)
    case SubTrustedRemove(sub, user) => Outcome(st.(trusted := st.trusted - {(invoker, user)}), Done)
    case SubTrustedClear(sub) => Outcome(st.(trusted := set p | p in st.trusted && p.0 != invoker), Done)
  }

  /** The owner commands that act on the sub's profile or contract rather than on a list. */
  predicate ChangesProfile(cmd: OwnerCommand)
  {
    cmd.Bind? || cmd.SetChastity? || cmd.Gag? || cmd.MuteSub? || cmd.Brand? || cmd.Disown? || cmd.Restrictions?
  }

  /** An owner command once the ownership check has passed. */
  function Guarded(st: State, invoker: int, cmd: OwnerCommand): (r: Outcome)
    requires cmd.sub in st.users && invoker in st.users && IsOwner(st, invoker, cmd.sub)
    requires cmd.SubTrustedAdd? || cmd.SubTrustedRemove? ==> cmd.user in st.users
    ensures Valid(st) ==> Valid(r.state)
    ensures r.state.users.Keys == st.users.Keys
    ensures forall id :: id in st.users ==> r.state.users[id].safeWord == st.users[id].safeWord
    ensures r.state.contracts == (if cmd.Disown? then st.contracts - {cmd.sub} else st.contracts)
    ensures cmd.Disown? ==> Unimpaired(r.state.users[cmd.sub]) && r.reply == Done
  {
    if ChangesProfile(cmd) then ProfileCommand(st, cmd)
    else ListCommand(st, invoker, cmd)
  }

  /** The owner commands that change the sub's profile or contract. */
  function ProfileCommand(st: State, cmd: OwnerCommand): (r: Outcome)
    requires ChangesProfile(cmd)
    requires cmd.sub in st.users
    ensures Valid(st) ==> Valid(r.state)
    ensures r.state.users.Keys == st.users.Keys
    ensures forall id :: id in st.users ==> r.state.users[id].safeWord == st.users[id].safeWord
    ensures r.state.contracts == (if cmd.Disown? then st.contracts - {cmd.sub} else st.contracts)
    ensures cmd.Disown? ==> Unimpaired(r.state.users[cmd.sub]) && r.reply == Done
  {
    if cmd.Disown? then
      Outcome(st.(contracts := st.contracts - {cmd.sub}, users := ResetUser(st.users, cmd.sub)), Done)
    else if cmd.Restrictions? then RestrictionsStep(st, cmd.sub, cmd.action, cmd.restriction)
    else EditProfile(st, cmd)
  }

  /** The owner commands that change the rule, task, restricted-word and trusted-user tables. */
  function ListCommand(st: State, invoker: int, cmd: OwnerCommand): (r: Outcome)
    requires !ChangesProfile(cmd)
    requires cmd.sub in st.users && invoker in st.users && IsOwner(st, invoker, cmd.sub)
    requires cmd.SubTrustedAdd? || cmd.SubTrustedRemove? ==> cmd.user in st.users
    ensures Valid(st) ==> Valid(r.state)
    ensures r.state.users == st.users && r.state.contracts == st.contracts
  {
    match cmd
    case AddTask(sub, kind, description) =>
      Outcome(st.(tasks := st.tasks + [Task(st.nextTaskId, sub, description, false, kind)],
                  nextTaskId := st.nextTaskId + 1), Done)
    case SubTrustedAdd(_, _) => SubTrustedStep(st, invoker, cmd)
    case SubTrustedRemove(_, _) => SubTrustedStep(st, invoker, cmd)
    case SubTrustedClear(_) => SubTrustedStep(st, invoker, cmd)
    case AddRule(_, _) => RuleStep(st, cmd)
    case RemoveRule(_, _) => RuleStep(st, cmd)
    case UpdateRule(_, _, _) => RuleStep(st, cmd)
    case AddRestrictedWord(_, _) => WordStep(st, cmd)
    case RemoveRestrictedWord(_, _) => WordStep(st, cmd)
    case ClearRestrictedWords(_) => WordStep(st, cmd)
    case ToggleRestrictedWords(_) => WordStep(st, cmd)
  }

  /**
   * Any owner command: register the invoker and the named users, refuse unless the invoker
   * owns the sub, then act.
   */
  function OwnerStep(st: State, invoker: int, cmd: OwnerCommand): (r: Outcome)
    ensures !IsOwner(st, invoker, cmd.sub) ==> r.reply == NotOwner && OnlyRegistered(st, r.state)
    ensures Valid(st) ==> Valid(r.state)
    ensures NoSafeWords(st) ==> NoSafeWords(r.state)
    ensures st.users.Keys <= r.state.users.Keys
  {
    var st1 := Register(st, [invoker] + Named(cmd));
    assert NoSafeWords(st) ==> NoSafeWords(st1) by {
      assert OnlyRegistered(st, st1);
    }
    assert invoker in st1.users && cmd.sub in st1.users by {
      assert ([invoker] + Named(cmd))[0] == invoker && ([invoker] + Named(cmd))[1] == cmd.sub;
    }
    assert cmd.SubTrustedAdd? || cmd.SubTrustedRemove? ==> cmd.user in st1.users by {
      if cmd.SubTrustedAdd? || cmd.SubTrustedRemove? {
        assert ([invoker] + Named(cmd))[2] == cmd.user;
      }
    }
    if !IsOwner(st1, invoker, cmd.sub) then Outcome(st1, NotOwner)
    else Guarded(st1, invoker, cmd)
  }

  /** Without a contract between invoker and sub, no table but `users` changes, and no existing profile. */
  lemma NoContractNoChange(st: State, invoker: int, cmd: OwnerCommand)
    requires !IsOwner(st, invoker, cmd.sub)
    ensures OwnerStep(st, invoker, cmd).state.contracts == st.contracts
    ensures OwnerStep(st, invoker, cmd).state.rules == st.rules && OwnerStep(st, invoker, cmd).state.tasks == st.tasks
    ensures OwnerStep(st, invoker, cmd).state.restrictedWords == st.restrictedWords
    ensures OwnerStep(st, invoker, cmd).state.trusted == st.trusted
    ensures forall id :: id in st.users ==> OwnerStep(st, invoker, cmd).state.users[id] == st.users[id]
  {
  }

  /** `sub-trusted add` never writes the trusted-users table. */
  lemma SubTrustedAddWritesNothing(st: State, invoker: int, sub: int, user: int)
    ensures OwnerStep(st, invoker, SubTrustedAdd(sub, user)).state.trusted == st.trusted
  {
  }

  /** After `disown`, the sub is free and unimpaired, and anyone may claim it. */
  lemma DisownFreesSub(st: State, owner: int, sub: int, claimant: int)
    requires IsOwner(st, owner, sub)
    ensures sub !in OwnerStep(st, owner, Disown(sub)).state.contracts
    ensures Unimpaired(OwnerStep(st, owner, Disown(sub)).state.users[sub])
    ensures Claim(OwnerStep(st, owner, Disown(sub)).state, claimant, sub).reply == Done
  {
  }

  // ---------------------------------------------------------------- the sub's and anyone's commands

  /** `claim`: a sub can be claimed only while no contract names it. */
  function Claim(st: State, invoker: int, sub: int): (r: Outcome)
    ensures r.reply == Done <==> sub !in st.contracts
    ensures r.reply != Done ==> r.reply == AlreadyClaimed && OnlyRegistered(st, r.state)
    ensures r.reply == Done ==> r.state.contracts == st.contracts[sub := invoker] && IsOwner(r.state, invoker, sub)
    ensures forall s :: s in st.contracts ==> s in r.state.contracts && r.state.contracts[s] == st.contracts[s]
    ensures r.state == st.(users := r.state.users, contracts := r.state.contracts)
    ensures Valid(st) ==> Valid(r.state)
    ensures st.users.Keys <= r.state.users.Keys
    ensures forall id :: id in st.users ==> r.state.users[id] == st.users[id]
  {
    var st1 := Register(st, [invoker, sub]);
    assert invoker in st1.users && sub in st1.users by { assert [invoker, sub][1] == sub; }
    if sub in st1.contracts then Outcome(st1, AlreadyClaimed)
    else Outcome(st1.(contracts := st1.contracts[sub := invoker]), Done)
  }

  /** A sub never gets a second owner: a claim by anyone on an owned sub is refused. */
  lemma SecondClaimRefused(st: State, first: int, second: int, sub: int)
    requires Claim(st, first, sub).reply == Done
    ensures Claim(Claim(st, first, sub).state, second, sub).reply == AlreadyClaimed
    ensures IsOwner(Claim(Claim(st, first, sub).state, second, sub).state, first, sub)
  {
  }

  /** `leave`: the sub ends its contract; without one nothing at all happens. */
  function Leave(st: State, invoker: int): (r: Outcome)
    ensures r.state.users.Keys == st.users.Keys
    ensures invoker !in st.contracts ==> r == Outcome(st, NotOwned)
    ensures invoker in st.contracts ==>
              r.reply == Done && r.state.contracts == st.contracts - {invoker}
              && (invoker in st.users ==> Unimpaired(r.state.users[invoker]))
    ensures r.state == st.(users := r.state.users, contracts := r.state.contracts)
    ensures forall id :: id in st.users && id != invoker ==> r.state.users[id] == st.users[id]
    ensures forall id :: id in st.users ==> r.state.users[id].safeWord == st.users[id].safeWord
    ensures Valid(st) ==> Valid(r.state)
  {
    if invoker !in st.contracts then Outcome(st, NotOwned)
    else Outcome(st.(contracts := st.contracts - {invoker}, users := ResetUser(st.users, invoker)), Done)
  }

  /** `safeword`: acts only when the word equals the stored safe word (a NULL one matches nothing). */
  function Safeword(st: State, invoker: int, word: string): (r: Outcome)
    ensures r.state.users.Keys == st.users.Keys
    ensures r.reply == Done <==> invoker in st.users && st.users[invoker].safeWord == Some(word)
    ensures r.reply != Done ==> r.state == st && (r.reply == NoProfile <==> invoker !in st.users)
    ensures r.reply == Done ==>
              invoker !in r.state.contracts && Unimpaired(r.state.users[invoker])
              && r.state.contracts == st.contracts - {invoker}
    ensures r.state == st.(users := r.state.users, contracts := r.state.contracts)
    ensures forall id :: id in st.users && id != invoker ==> r.state.users[id] == st.users[id]
    ensures forall id :: id in st.users ==> r.state.users[id].safeWord == st.users[id].safeWord
    ensures Valid(st) ==> Valid(r.state)
  {
    if invoker !in st.users then Outcome(st, NoProfile)
    else if st.users[invoker].safeWord != Some(word) then Outcome(st, WrongSafeword)
    else Outcome(st.(users := ResetUser(st.users, invoker), contracts := st.contracts - {invoker}), Done)
  }

  /** `trusted add`: already trusted changes nothing but registration. */
  function TrustedAdd(st: State, invoker: int, user: int): (r: Outcome)
    ensures (invoker, user) in st.trusted ==> r.reply == AlreadyTrusted && OnlyRegistered(st, r.state)
    ensures (invoker, user) !in st.trusted ==> r.reply == Done && r.state.trusted == st.trusted + {(invoker, user)}
    ensures r.state == st.(users := r.state.users, trusted := r.state.trusted)
    ensures forall id :: id in st.users ==> id in r.state.users && r.state.users[id] == st.users[id]
    ensures Valid(st) ==> Valid(r.state)
  {
    var st1 := Register(st, [invoker, user]);
    assert invoker in st1.users && user in st1.users by { assert [invoker, user][1] == user; }
    if (invoker, user) in st1.trusted then Outcome(st1, AlreadyTrusted)
    else Outcome(st1.(trusted := st1.trusted + {(invoker, user)}), Done)
  }

  /** `trusted remove`: not trusted changes nothing but registration. */
  function TrustedRemove(st: State, invoker: int, user: int): (r: Outcome)
    ensures (invoker, user) !in st.trusted ==> r.reply == NotTrusted && OnlyRegistered(st, r.state)
    ensures (invoker, user) in st.trusted ==> r.reply == Done && r.state.trusted == st.trusted - {(invoker, user)}
    ensures r.state == st.(users := r.state.users, trusted := r.state.trusted)
    ensures forall id :: id in st.users ==> id in r.state.users && r.state.users[id] == st.users[id]
    ensures Valid(st) ==> Valid(r.state)
  {
    var st1 := Register(st, [invoker, user]);
    if (invoker, user) !in st1.trusted then Outcome(st1, NotTrusted)
    else Outcome(st1.(trusted := st1.trusted - {(invoker, user)}), Done)
  }

  /** `trusted clear`: every pair the invoker trusts goes, no other. */
  function TrustedClear(st: State, invoker: int): (r: Outcome)
    ensures forall p :: p in r.state.trusted <==> p in st.trusted && p.0 != invoker
    ensures r.state == st.(users := r.state.users, trusted := r.state.trusted)
    ensures forall id :: id in st.users ==> id in r.state.users && r.state.users[id] == st.users[id]
    ensures Valid(st) ==> Valid(r.state)
  {
    var st1 := Register(st, [invoker]);
    Outcome(st1.(trusted := set p | p in st1.trusted && p.0 != invoker), Done)
  }

  /** `UPDATE tasks SET completed = c WHERE task_id = id` */
  function MarkTasks(tasks: seq<Task>, id: int, c: bool): (r: seq<Task>)
    ensures |r| == |tasks|
    ensures forall k :: 0 <= k < |tasks| ==> r[k] == if tasks[k].id == id then tasks[k].(completed := c) else tasks[k]
  {
    seq(|tasks|, k requires 0 <= k < |tasks| => if tasks[k].id == id then tasks[k].(completed := c) else tasks[k])
  }

  predicate HasTask(tasks: seq<Task>, id: int) { exists t :: t in tasks && t.id == id }

  /** `task mark`: no ownership check; a bad status or an unknown id changes nothing. */
  function TaskMark(st: State, taskId: int, status: string): (r: Outcome)
    ensures r.reply == Done <==> (Text.Lower(status) == "complete" || Text.Lower(status) == "incomplete") && HasTask(st.tasks, taskId)
    ensures r.reply != Done ==> r.state == st
    ensures r.state == st.(tasks := r.state.tasks)
    ensures |r.state.tasks| == |st.tasks|
    ensures r.reply == Done ==> forall k :: 0 <= k < |st.tasks| && st.tasks[k].id == taskId ==>
              r.state.tasks[k].completed == (Text.Lower(status) == "complete")
    ensures forall k :: 0 <= k < |st.tasks| && st.tasks[k].id != taskId ==> r.state.tasks[k] == st.tasks[k]
    ensures Valid(st) ==> Valid(r.state)
  {
    var s := Text.Lower(status);
    if s != "complete" && s != "incomplete" then Outcome(st, BadChoice)
    else if !HasTask(st.tasks, taskId) then Outcome(st, TaskNotFound)
    else
      var tasks := MarkTasks(st.tasks, taskId, s == "complete");
      assert Valid(st) ==> forall t :: t in tasks ==> t.userId in st.users && t.id < st.nextTaskId by {
        if Valid(st) {
          forall t | t in tasks ensures t.userId in st.users && t.id < st.nextTaskId {
            var k :| 0 <= k < |tasks| && tasks[k] == t;
            assert st.tasks[k] in st.tasks;
          }
        }
      }
      Outcome(st.(tasks := tasks), Done)
  }

  /** `task remove`: no ownership check; every task with the id goes. */
  function TaskRemove(st: State, taskId: int): (r: Outcome)
    ensures r.reply == Done <==> HasTask(st.tasks, taskId)
    ensures r.reply != Done ==> r == Outcome(st, TaskNotFound)
    ensures forall t :: t in r.state.tasks <==> t in st.tasks && t.id != taskId
    ensures r.state == st.(tasks := r.state.tasks)
    ensures Valid(st) ==> Valid(r.state)
  {
    if !HasTask(st.tasks, taskId) then Outcome(st, TaskNotFound)
    else Outcome(st.(tasks := Collections.Filter(st.tasks, (t: Task) => t.id != taskId)), Done)
  }

  // ---------------------------------------------------------------- leave-server

  /** Some row of some table mentions `user`. */
  predicate References(st: State, user: int)
  {
    user in st.users
    || (exists s :: s in st.contracts && (s == user || st.contracts[s] == user))
    || (exists t :: t in st.tasks && t.userId == user)
    || (exists r :: r in st.rules && r.userId == user)
    || (exists w :: w in st.restrictedWords && w.0 == user)
    || (exists p :: p in st.trusted && (p.0 == user || p.1 == user))
  }

  datatype KickOutcome = Kicked | KickForbidden | KickFailed

  /** The data deletion of `leave-server`, which happens whatever the kick does. */
  function Forget(st: State, user: int): (r: State)
    ensures !References(r, user)
    ensures r.users == st.users - {user}
    ensures forall s :: s in r.contracts <==> s in st.contracts && s != user && st.contracts[s] != user
    ensures forall s :: s in r.contracts ==> r.contracts[s] == st.contracts[s]
    ensures forall t :: t in r.tasks <==> t in st.tasks && t.userId != user
    ensures forall x :: x in r.rules <==> x in st.rules && x.userId != user
    ensures forall w :: w in r.restrictedWords <==> w in st.restrictedWords && w.0 != user
    ensures forall p :: p in r.trusted <==> p in st.trusted && p.0 != user && p.1 != user
    ensures r.nextTaskId == st.nextTaskId && r.nextRuleId == st.nextRuleId
  {
    State(st.users - {user},
          map s | s in st.contracts && s != user && st.contracts[s] != user :: st.contracts[s],
          Collections.Filter(st.tasks, (t: Task) => t.userId != user), st.nextTaskId,
          Collections.Filter(st.rules, (x: Rule) => x.userId != user), st.nextRuleId,
          set w | w in st.restrictedWords && w.0 != user,
          set p | p in st.trusted && p.0 != user && p.1 != user)
  }

  /** `leave-server`: forget the user, then report how the kick went. */
  function LeaveServer(st: State, user: int, kick: KickOutcome): (r: Outcome)
    ensures r.state == Forget(st, user)
    ensures r.reply == Done <==> kick.Kicked?
    ensures Valid(st) ==> Valid(r.state)
  {
    Outcome(Forget(st, user), if kick.Kicked? then Done else StoreError)
  }

  /** Leaving the server twice is the same as leaving once. */
  lemma ForgetIdempotent(st: State, user: int)
    ensures Forget(Forget(st, user), user) == Forget(st, user)
  {
    var once := Forget(st, user);
    var twice := Forget(once, user);
    assert twice.contracts == once.contracts;
    assert twice.restrictedWords == once.restrictedWords;
    assert twice.trusted == once.trusted;
    FilterAllPass(once.tasks, (t: Task) => t.userId != user);
    FilterAllPass(once.rules, (x: Rule) => x.userId != user);
  }

  /** Filtering by a predicate every element satisfies changes nothing. */
  lemma {:induction false} FilterAllPass<T(!new)>(xs: seq<T>, p: T -> bool)
    requires forall x :: x in xs ==> p(x)
    ensures Collections.Filter(xs, p) == xs
    decreases |xs|
  {
    if xs != [] {
      assert forall x :: x in xs[1..] ==> x in xs;
      FilterAllPass(xs[1..], p);
    }
  }

  // ---------------------------------------------------------------- the whole machine

  datatype Event =
    | OwnerEvent(invoker: int, cmd: OwnerCommand)
    | ClaimEvent(invoker: int, sub: int)
    | LeaveEvent(invoker: int)
    | SafewordEvent(invoker: int, word: string)
    | TrustedAddEvent(invoker: int, user: int)
    | TrustedRemoveEvent(invoker: int, user: int)
    | TrustedClearEvent(invoker: int)
    | TaskMarkEvent(taskId: int, status: string)
    | TaskRemoveEvent(taskId: int)
    | LeaveServerEvent(user: int, kick: KickOutcome)

  /** No profile carries a safe word. */
  predicate NoSafeWords(st: State)
  {
    forall id :: id in st.users ==> st.users[id].safeWord.None?
  }

  function Apply(st: State, e: Event): (r: Outcome)
    ensures Valid(st) ==> Valid(r.state)
    ensures NoSafeWords(st) ==> NoSafeWords(r.state)
  {
    match e
    case OwnerEvent(invoker, cmd) => OwnerStep(st, invoker, cmd)
    case ClaimEvent(invoker, sub) => Claim(st, invoker, sub)
    case LeaveEvent(invoker) => Leave(st, invoker)
    case SafewordEvent(invoker, word) => Safeword(st, invoker, word)
    case LeaveServerEvent(user, kick) => LeaveServer(st, user, kick)
    case _ => ApplyListEvent(st, e)
  }

  /** The trusted-user and task commands keep both invariants. */
  function ApplyListEvent(st: State, e: Event): (r: Outcome)
    requires e.TrustedAddEvent? || e.TrustedRemoveEvent? || e.TrustedClearEvent? || e.TaskMarkEvent? || e.TaskRemoveEvent?
    ensures Valid(st) ==> Valid(r.state)
    ensures NoSafeWords(st) ==> NoSafeWords(r.state)
  {
    match e
    case TrustedAddEvent(invoker, user) => TrustedAdd(st, invoker, user)
    case TrustedRemoveEvent(invoker, user) => TrustedRemove(st, invoker, user)
    case TrustedClearEvent(invoker) => TrustedClear(st, invoker)
    case TaskMarkEvent(taskId, status) => TaskMark(st, taskId, status)
    case TaskRemoveEvent(taskId) => TaskRemove(st, taskId)
  }

  /** The state after a sequence of events. */
  function Run(st: State, events: seq<Event>): State
    decreases |events|
  {
    if events == [] then st else Run(Apply(st, events[0]).state, events[1..])
  }

  /** Every reachable state keeps the foreign keys and the id counters ahead of the ids. */
  lemma {:induction false} RunKeepsValid(st: State, events: seq<Event>)
    requires Valid(st)
    ensures Valid(Run(st, events))
    decreases |events|
  {
    if events != [] {
      RunKeepsValid(Apply(st, events[0]).state, events[1..]);
    }
  }

  /** No command stores a safe word, so from an empty store `safeword` is never accepted. */
  lemma {:induction false} SafewordNeverAccepted(events: seq<Event>, invoker: int, word: string)
    ensures Safeword(Run(Empty, events), invoker, word).reply != Done
  {
    NoSafeWordsReachable(Empty, events);
  }

  lemma {:induction false} NoSafeWordsReachable(st: State, events: seq<Event>)
    requires NoSafeWords(st)
    ensures NoSafeWords(Run(st, events))
    decreases |events|
  {
    if events != [] {
      NoSafeWordsReachable(Apply(st, events[0]).state, events[1..]);
    }
  }

  // ---------------------------------------------------------------- on_message

  datatype Message = Message(authorId: int, authorIsBot: bool, inGuild: bool, content: string)

  /** How a deletion attempt ends: done, refused (the loop goes on), or another failure (the loop stops). */
  datatype DeleteOutcome = Deleted | DeleteForbidden | DeleteFailed

  datatype MessageEffect = DeleteMessage | WarnRestricted(word: string)

  /** The entries `on_message` watches: the restrictions column, each entry stripped and lower-cased. */
  function Watched(p: Profile): (r: seq<string>)
    ensures |r| == |RestrictionsOf(p)|
    ensures forall k :: 0 <= k < |r| ==> r[k] == Text.Lower(Text.Strip(RestrictionsOf(p)[k]))
  {
    var xs := RestrictionsOf(p);
    seq(|xs|, k requires 0 <= k < |xs| => Text.Lower(Text.Strip(xs[k])))
  }

  /** The first watched entry occurring in `content`. */
  function FirstMatch(words: seq<string>, content: string): (r: Option<nat>)
    ensures r.Some? ==> r.value < |words| && Text.Contains(content, words[r.value])
                        && forall k :: 0 <= k < r.value ==> !Text.Contains(content, words[k])
    ensures r.None? ==> forall k :: 0 <= k < |words| ==> !Text.Contains(content, words[k])
    decreases |words|
  {
    if words == [] then None
    else if Text.Contains(content, words[0]) then Some(0)
    else
      match FirstMatch(words[1..], content)
      case None => None
      case Some(i) => Some(i + 1)
  }

  /** The number of watched entries occurring in `content`. */
  function MatchCount(words: seq<string>, content: string): (n: nat)
    ensures n <= |words|
    ensures n == 0 <==> FirstMatch(words, content).None?
    decreases |words|
  {
    if words == [] then 0
    else (if Text.Contains(content, words[0]) then 1 else 0) + MatchCount(words[1..], content)
  }

  /** The loop over the watched entries. */
  function Scan(words: seq<string>, content: string, outcome: DeleteOutcome): (r: seq<MessageEffect>)
    ensures r == [] <==> FirstMatch(words, content).None?
    ensures outcome.Deleted? && r != [] ==> r == [DeleteMessage, WarnRestricted(words[FirstMatch(words, content).value])]
    ensures outcome.DeleteFailed? && r != [] ==> r == [DeleteMessage]
    ensures outcome.DeleteForbidden? ==> |r| == MatchCount(words, content) && forall k :: 0 <= k < |r| ==> r[k] == DeleteMessage
    decreases |words|
  {
    if words == [] then []
    else if Text.Contains(content, words[0]) then
      match outcome
      case Deleted => [DeleteMessage, WarnRestricted(words[0])]
      case DeleteFailed => [DeleteMessage]
      case DeleteForbidden => [DeleteMessage] + Scan(words[1..], content, outcome)
    else Scan(words[1..], content, outcome)
  }

  /** `on_message`: bots, direct messages and unknown authors are ignored. */
  function OnMessage(st: State, msg: Message, outcome: DeleteOutcome): (r: seq<MessageEffect>)
    ensures msg.authorIsBot || !msg.inGuild || msg.authorId !in st.users ==> r == []
    ensures !msg.authorIsBot && msg.inGuild && msg.authorId in st.users ==>
              var words := Watched(st.users[msg.authorId]);
              var first := FirstMatch(words, Text.Lower(msg.content));
              (r == [] <==> first.None?)
              && (outcome.Deleted? && first.Some? ==> r == [DeleteMessage, WarnRestricted(words[first.value])])
  {
    if msg.authorIsBot || !msg.inGuild || msg.authorId !in st.users then []
    else Scan(Watched(st.users[msg.authorId]), Text.Lower(msg.content), outcome)
  }

  /** A blank restriction entry (say " ") is watched as "", which every message contains. */
  lemma BlankEntryMatchesEverything(st: State, msg: Message, k: nat)
    requires !msg.authorIsBot && msg.inGuild && msg.authorId in st.users
    requires k < |RestrictionsOf(st.users[msg.authorId])|
    requires Text.Strip(RestrictionsOf(st.users[msg.authorId])[k]) == ""
    ensures OnMessage(st, msg, Deleted) != []
  {
    var words := Watched(st.users[msg.authorId]);
    var content := Text.Lower(msg.content);
    assert words[k] == "";
    assert Text.OccursAt(content, words[k], 0);
  }
}

=== FILE: flagged_words.dfy ===
/**
 * The flagged-words listener: every message is matched against the flagged phrase list;
 * a hit is logged, announced in the bot's presence and raised as a staff alert.
 */
module FlaggedWords {
  import opened Wrappers
  import Text
  import GuildConfig
  import AlertTables
  import AlertWorkflow

  /**
   * An entry of the flagged phrase list: a literal, matched as a substring of the lower-cased
   * message, or a compiled regular expression, identified here by an index; regex search
   * itself is an input (`search(p, content)` is the matched text, if any).
   */
  datatype Phrase = Literal(text: string) | Pattern(index: nat)

  type Search = (nat, string) -> Option<string>

  predicate Hits(p: Phrase, content: string, search: Search)
  {
    match p
    case Literal(t) => Text.Contains(Text.Lower(content), t)
    case Pattern(i) => search(i, content).Some?
  }

  function HitText(p: Phrase, content: string, search: Search): string
    requires Hits(p, content, search)
  {
    match p
    case Literal(t) => t
    case Pattern(i) => search(i, content).value
  }

  /**
   * `contains_flagged_words`: the first entry of the list that hits decides the reported
   * text; no entry hitting gives `(False, None)`.
   */
  function ContainsFlagged(phrases: seq<Phrase>, content: string, search: Search): (r: (bool, Option<string>))
    ensures r.0 <==> exists i :: 0 <= i < |phrases| && Hits(phrases[i], content, search)
    ensures r.0 <==> r.1.Some?
    ensures r.0 ==> exists i :: 0 <= i < |phrases| && Hits(phrases[i], content, search)
                                && (forall j :: 0 <= j < i ==> !Hits(phrases[j], content, search))
                                && r.1.value == HitText(phrases[i], content, search)
    decreases |phrases|
  {
    if phrases == [] then (false, None)
    else if Hits(phrases[0], content, search) then (true, Some(HitText(phrases[0], content, search)))
    else
      var r := ContainsFlagged(phrases[1..], content, search);
      assert forall i :: 1 <= i < |phrases| ==> phrases[i] == phrases[1..][i - 1];
      if r.0 then
        var k :| 0 <= k < |phrases[1..]| && Hits(phrases[1..][k], content, search)
                 && (forall j :: 0 <= j < k ==> !Hits(phrases[1..][j], content, search))
                 && r.1.value == HitText(phrases[1..][k], content, search);
        assert Hits(phrases[k + 1], content, search);
        r
      else r
  }

  /** Literal entries are compared with the lower-cased message, so one holding a capital letter never hits. */
  lemma CapitalisedLiteralNeverHits(t: string, k: nat, content: string, search: Search)
    requires k < |t| && 'A' <= t[k] <= 'Z'
    ensures !Hits(Literal(t), content, search)
  {
    var low := Text.Lower(content);
    forall i | 0 <= i <= |low| - |t|
      ensures !Text.OccursAt(low, t, i)
    {
      assert low[i..i + |t|][k] == low[i + k];
      assert !('A' <= low[i + k] <= 'Z');
    }
  }

  type State = AlertWorkflow.State

  /** The row `record_message` writes; this log has no guild column. */
  function LogRow(m: AlertWorkflow.Message): AlertTables.LoggedMessage
  {
    AlertTables.LoggedMessage(m.content, m.author, m.id, m.channelId, None, m.timestamp)
  }

  /**
   * `on_message`: messages of the bot itself are skipped; a hit is logged, shown in the
   * presence, and raised to the staff thread with the detected text and the first 1024
   * characters of the message. `alertMessageId` is the id the platform gives the alert.
   */
  function OnMessage(s: State, m: AlertWorkflow.Message, phrases: seq<Phrase>, search: Search,
                     world: AlertWorkflow.World, alertMessageId: int): (r: (State, seq<AlertWorkflow.Effect>))
  {
    if m.authorIsSelf then (s, [])
    else
      var (hit, word) := ContainsFlagged(phrases, m.content, search);
      if !hit then (s, [])
      else
        var config := if m.guildId in world.configs then Some(world.configs[m.guildId]) else None;
        var guild := if m.guildId in world.guilds then world.guilds[m.guildId] else AlertWorkflow.GuildView({}, map[]);
        var fields := [word.value, Text.Take(m.content, 1024)];
        var (tables, effects) := AlertWorkflow.RaiseAlert(s.tables, AlertWorkflow.FlaggedWords, config, guild,
                                                          m.guildId, m.author, m.channelId, fields, alertMessageId);
        (AlertWorkflow.State(s.log + [LogRow(m)], tables), [AlertWorkflow.SetPresence(AlertWorkflow.FlaggedWords, m.author)] + effects)
  }

  /** A message is logged exactly when it is not the bot's own and some phrase hits it. */
  lemma LoggedIffFlagged(s: State, m: AlertWorkflow.Message, phrases: seq<Phrase>, search: Search,
                         world: AlertWorkflow.World, id: int)
    ensures var r := OnMessage(s, m, phrases, search, world, id);
      (r.0.log == s.log + [LogRow(m)] <==> !m.authorIsSelf && exists i :: 0 <= i < |phrases| && Hits(phrases[i], m.content, search))
      && (r.0.log == s.log || r.0.log == s.log + [LogRow(m)])
  {
    var r := OnMessage(s, m, phrases, search, world, id);
    assert |s.log + [LogRow(m)]| != |s.log|;
  }

  /** An alert row is only stored for a flagged message, and it points at its author and channel. */
  lemma AlertOnlyForFlagged(s: State, m: AlertWorkflow.Message, phrases: seq<Phrase>, search: Search,
                            world: AlertWorkflow.World, id: int)
    ensures var r := OnMessage(s, m, phrases, search, world, id);
      r.0.tables.actions == s.tables.actions
      && (r.0.tables != s.tables ==>
            !m.authorIsSelf && ContainsFlagged(phrases, m.content, search).0
            && r.0.tables.alerts == AlertTables.Insert(s.tables.alerts, id, m.author, m.channelId, m.guildId))
  {
  }

  /** With the shipped, empty phrase list nothing is ever flagged. */
  lemma EmptyListFlagsNothing(s: State, m: AlertWorkflow.Message, search: Search, world: AlertWorkflow.World, id: int)
    ensures OnMessage(s, m, [], search, world, id) == (s, [])
  {
  }
}

=== FILE: guild_config.dfy ===
/**
 * The `guild_config` table of the database handler: one row per guild holding the
 * log channel, the staff forum channel and thread, the owner and two thresholds.
 */
module GuildConfig {
  import opened Wrappers

  /** The value `single_user_repeat_threshold or 5` / `min_word_count or 5` falls back to. */
  const FallbackThreshold: int := 5

  datatype Config = Config(
    logChannel: Option<int>,
    staffForum: Option<int>,
    staffThread: Option<int>,
    owner: Option<int>,
    repeatThreshold: Option<int>,
    minWordCount: Option<int>)

  /** The keyword arguments of `set_config`; `None` means the argument was not given. */
  type Args = Config

  const NoArgs: Args := Config(None, None, None, None, None, None)

  type Table = map<int, Config>

  /** Python's `v or 5` on an optional integer: `None` and `0` are falsy. */
  function OrFallback(v: Option<int>): (r: int)
    ensures r != 0
    ensures v.None? || v.value == 0 ==> r == FallbackThreshold
    ensures v.Some? && v.value != 0 ==> r == v.value
  {
    if v.None? || v.value == 0 then FallbackThreshold else v.value
  }

  function Overlay(current: Option<int>, given: Option<int>): Option<int>
  {
    if given.Some? then given else current
  }

  predicate Refines(updated: Config, current: Config, a: Args)
  {
    updated.logChannel == Overlay(current.logChannel, a.logChannel)
    && updated.staffForum == Overlay(current.staffForum, a.staffForum)
    && updated.staffThread == Overlay(current.staffThread, a.staffThread)
    && updated.owner == Overlay(current.owner, a.owner)
    && updated.repeatThreshold == Overlay(current.repeatThreshold, a.repeatThreshold)
    && updated.minWordCount == Overlay(current.minWordCount, a.minWordCount)
  }

  /**
   * `set_config`: an existing row gets exactly the given fields overwritten; a new row
   * takes the given fields as they are, except that the two thresholds fall back to 5.
   */
  function SetConfig(t: Table, guild: int, a: Args): (t': Table)
    ensures t'.Keys == t.Keys + {guild}
    ensures forall g :: g in t && g != guild ==> t'[g] == t[g]
    ensures guild in t ==> Refines(t'[guild], t[guild], a)
    ensures guild in t && a == NoArgs ==> t' == t
    ensures guild !in t ==>
      t'[guild].logChannel == a.logChannel && t'[guild].staffForum == a.staffForum
      && t'[guild].staffThread == a.staffThread && t'[guild].owner == a.owner
    ensures guild !in t ==>
      t'[guild].repeatThreshold == Some(OrFallback(a.repeatThreshold))
      && t'[guild].minWordCount == Some(OrFallback(a.minWordCount))
  {
    if guild in t then
      var c := t[guild];
      t[guild := Config(
        Overlay(c.logChannel, a.logChannel),
        Overlay(c.staffForum, a.staffForum),
        Overlay(c.staffThread, a.staffThread),
        Overlay(c.owner, a.owner),
        Overlay(c.repeatThreshold, a.repeatThreshold),
        Overlay(c.minWordCount, a.minWordCount))]
    else
      t[guild := Config(a.logChannel, a.staffForum, a.staffThread, a.owner,
                        Some(OrFallback(a.repeatThreshold)), Some(OrFallback(a.minWordCount)))]
  }

  /** A threshold of 0 is replaced by 5 when a row is created but stored as 0 on an update. */
  lemma ZeroThresholdDependsOnRowExistence(t: Table, guild: int)
    ensures var a := NoArgs.(repeatThreshold := Some(0));
            var created := SetConfig(map[], guild, a);
            var updated := SetConfig(created, guild, a);
            created[guild].repeatThreshold == Some(5) && updated[guild].repeatThreshold == Some(0)
  {
  }

  // ---------------------------------------------------------------- reading a row back

  /** The dictionary keys `get_config` uses, in this order. */
  const ConfigKeys: seq<string> := ["guild_id", "log_channel_id", "staff_forum_channel_id",
    "staff_thread_id", "owner_id", "single_user_repeat_threshold", "min_word_count"]

  /** The value stored in the column called `name`. */
  function Column(guild: int, c: Config, name: string): Option<int>
  {
    if name == "guild_id" then Some(guild)
    else if name == "log_channel_id" then c.logChannel
    else if name == "staff_forum_channel_id" then c.staffForum
    else if name == "staff_thread_id" then c.staffThread
    else if name == "owner_id" then c.owner
    else if name == "single_user_repeat_threshold" then c.repeatThreshold
    else if name == "min_word_count" then c.minWordCount
    else None
  }

  type Dict = seq<(string, Option<int>)>

  /** A dictionary lookup: the value paired with the first occurrence of `key`. */
  function Lookup(d: Dict, key: string): (r: Option<Option<int>>)
    ensures r.Some? <==> exists i :: 0 <= i < |d| && d[i].0 == key
  {
    if d == [] then None
    else if d[0].0 == key then Some(d[0].1)
    else
      var r := Lookup(d[1..], key);
      assert forall i :: 1 <= i < |d| ==> d[i] == d[1..][i - 1];
      r
  }

  /** `get_config`, reading each column by its name. */
  function GetConfig(t: Table, guild: int): (r: Option<Dict>)
    ensures r.None? <==> guild !in t
    ensures r.Some? ==>
      |r.value| == |ConfigKeys| && forall i :: 0 <= i < |ConfigKeys| ==> r.value[i].0 == ConfigKeys[i]
  {
    if guild !in t then None
    else Some(seq(|ConfigKeys|, i requires 0 <= i < |ConfigKeys| => (ConfigKeys[i], Column(guild, t[guild], ConfigKeys[i]))))
  }

  lemma {:induction false} LookupFirst(d: Dict, key: string, i: nat)
    requires i < |d| && d[i].0 == key
    requires forall j :: 0 <= j < i ==> d[j].0 != key
    ensures Lookup(d, key) == Some(d[i].1)
    decreases i
  {
    if i > 0 {
      LookupFirst(d[1..], key, i - 1);
    }
  }

  /** Every key of `get_config`'s dictionary carries the value of the column of that name. */
  lemma GetConfigLookup(t: Table, guild: int, key: string)
    requires guild in t && key in ConfigKeys
    ensures Lookup(GetConfig(t, guild).value, key) == Some(Column(guild, t[guild], key))
  {
    var d := GetConfig(t, guild).value;
    var i :| 0 <= i < |ConfigKeys| && ConfigKeys[i] == key;
    LookupFirst(d, key, i);
  }

  /** After `set_config` on a new guild, `get_config` reports exactly what was set. */
  lemma GetAfterSetNew(t: Table, guild: int, a: Args)
    requires guild !in t
    ensures var t' := SetConfig(t, guild, a);
      GetConfig(t', guild).Some?
      && Lookup(GetConfig(t', guild).value, "guild_id") == Some(Some(guild))
      && Lookup(GetConfig(t', guild).value, "log_channel_id") == Some(a.logChannel)
      && Lookup(GetConfig(t', guild).value, "staff_forum_channel_id") == Some(a.staffForum)
      && Lookup(GetConfig(t', guild).value, "staff_thread_id") == Some(a.staffThread)
      && Lookup(GetConfig(t', guild).value, "owner_id") == Some(a.owner)
      && Lookup(GetConfig(t', guild).value, "single_user_repeat_threshold") == Some(Some(OrFallback(a.repeatThreshold)))
      && Lookup(GetConfig(t', guild).value, "min_word_count") == Some(Some(OrFallback(a.minWordCount)))
  {
    var t' := SetConfig(t, guild, a);
    assert t'[guild] == Config(a.logChannel, a.staffForum, a.staffThread, a.owner,
                               Some(OrFallback(a.repeatThreshold)), Some(OrFallback(a.minWordCount)));
    GetConfigLookup(t', guild, "guild_id");
    GetConfigLookup(t', guild, "log_channel_id");
    GetConfigLookup(t', guild, "staff_forum_channel_id");
    GetConfigLookup(t', guild, "staff_thread_id");
    GetConfigLookup(t', guild, "owner_id");
    GetConfigLookup(t', guild, "single_user_repeat_threshold");
    GetConfigLookup(t', guild, "min_word_count");
  }

  /** `get_log_channel_id`: the log channel of a configured guild, `None` otherwise. */
  function GetLogChannelId(t: Table, guild: int): (r: Option<int>)
    ensures r.Some? ==> GetConfig(t, guild).Some?
    ensures GetConfig(t, guild).Some? ==> Lookup(GetConfig(t, guild).value, "log_channel_id") == Some(r)
  {
    if guild in t then
      GetConfigLookup(t, guild, "log_channel_id");
      t[guild].logChannel
    else None
  }

  /**
   * `get_log_channel_id` reads back what `set_config` wrote: a given log channel, otherwise
   * the one stored before (none for a new guild); other guilds read as before.
   */
  lemma LogChannelAfterSet(t: Table, guild: int, a: Args, other: int)
    requires other != guild
    ensures GetLogChannelId(SetConfig(t, guild, a), guild)
      == (if a.logChannel.Some? then a.logChannel else GetLogChannelId(t, guild))
    ensures GetLogChannelId(SetConfig(t, guild, a), other) == GetLogChannelId(t, other)
  {
  }

  // ---------------------------------------------------------------- physical column order

  /** The columns of a table created before `owner_id` existed. */
  const LegacyColumns: seq<string> := ["guild_id", "log_channel_id", "staff_forum_channel_id",
    "staff_thread_id", "single_user_repeat_threshold", "min_word_count"]

  datatype Engine = Sqlite | MySql | OtherEngine

  /**
   * `migrate_guild_config`: on SQLite and MySQL the `owner_id` column is appended when it is
   * missing; a failed ALTER only logs, and other engines only log a warning.
   */
  function Migrate(engine: Engine, columns: seq<string>, alterSucceeds: bool): (r: seq<string>)
    ensures engine != OtherEngine && alterSucceeds ==> "owner_id" in r
    ensures "owner_id" in columns || engine == OtherEngine || !alterSucceeds ==> r == columns
    ensures "owner_id" !in columns && engine != OtherEngine && alterSucceeds ==> r == columns + ["owner_id"]
  {
    if engine == OtherEngine || "owner_id" in columns || !alterSucceeds then columns
    else columns + ["owner_id"]
  }

  lemma MigrateIdempotent(engine: Engine, columns: seq<string>, ok1: bool, ok2: bool)
    requires ok1
    ensures Migrate(engine, Migrate(engine, columns, ok1), ok2) == Migrate(engine, columns, ok1)
  {
  }

  /**
   * `get_config` as written: `SELECT *` yields the columns in their physical order, and the
   * values are paired positionally with `ConfigKeys`.
   */
  function GetConfigPositional(t: Table, guild: int, columns: seq<string>): (r: Option<Dict>)
    ensures r.None? <==> guild !in t
    ensures r.Some? ==> |r.value| == if |columns| < |ConfigKeys| then |columns| else |ConfigKeys|
  {
    if guild !in t then None
    else
      var n := if |columns| < |ConfigKeys| then |columns| else |ConfigKeys|;
      Some(seq(n, i requires 0 <= i < n => (ConfigKeys[i], Column(guild, t[guild], columns[i]))))
  }

  /** On a freshly created table the positional reading agrees with reading by name. */
  lemma PositionalAgreesOnFreshSchema(t: Table, guild: int)
    ensures GetConfigPositional(t, guild, ConfigKeys) == GetConfig(t, guild)
  {
  }

  /**
   * On a table migrated from the legacy layout, `owner_id` is the last physical column, so the
   * dictionary reports the repeat threshold under "owner_id" and the owner under "min_word_count".
   */
  lemma PositionalMislabelsMigratedSchema(guild: int)
    ensures var t := map[guild := Config(None, None, None, Some(42), Some(5), Some(7))];
            var columns := Migrate(Sqlite, LegacyColumns, true);
            var d := GetConfigPositional(t, guild, columns).value;
            Lookup(d, "owner_id") == Some(Some(5)) && Lookup(d, "min_word_count") == Some(Some(42))
            && Lookup(GetConfig(t, guild).value, "owner_id") == Some(Some(42))
  {
    var t := map[guild := Config(None, None, None, Some(42), Some(5), Some(7))];
    var columns := Migrate(Sqlite, LegacyColumns, true);
    assert columns == LegacyColumns + ["owner_id"];
    var d := GetConfigPositional(t, guild, columns).value;
    assert d[4] == ("owner_id", Some(5));
    assert d[6] == ("min_word_count", Some(42));
    LookupFirst(d, "owner_id", 4);
    LookupFirst(d, "min_word_count", 6);
    GetConfigLookup(t, guild, "owner_id");
  }
}

=== FILE: help.dfy ===
/**
 * The help command: a listing of every cog's visible commands in case-insensitive order,
 * and the detail view of one command with its description, usage and aliases taken
 * from the help text around the ". Usage:" marker.
 */
module Help {
  import opened Wrappers
  import Text
  import Collections

  /**
   * A command as help sees it; discord.py fills `help` from the docstring. A group
   * (`@commands.group`) carries its subcommands.
   */
  datatype HelpCommand = HelpCommand(name: string, help: string, hidden: bool, aliases: seq<string>,
                                     group: bool, subcommands: seq<HelpCommand>)

  datatype CogInfo = CogInfo(name: string, commands: seq<HelpCommand>)

  const Marker: string := ". Usage:"

  // ---------------------------------------------------------------- help text

  /** The listing's description: the stripped text before the first ". Usage:", or the whole help. */
  function ShortDescription(help: string): (r: string)
    ensures !Text.Contains(help, Marker) ==> r == Text.Strip(help)
  {
    Text.Strip(Text.Partition(help, Marker).0)
  }

  /** The detail view's description: the unstripped text before the marker; an empty help has none. */
  function Description(help: string): (r: string)
    ensures help == "" ==> r == "No description available."
    ensures help != "" && !Text.Contains(help, Marker) ==> r == help
  {
    if help != "" then Text.Partition(help, Marker).0 else "No description available."
  }

  /**
   * The usage text: what follows the first ". Usage: " (with its space), provided ". Usage:"
   * occurs at all; otherwise "No specific usage.".
   */
  function UsageText(help: string): (r: string)
    ensures !Text.Contains(help, Marker) ==> r == "No specific usage."
  {
    if help != "" && Text.Contains(help, Marker) then Text.Partition(help, Marker + " ").2 else "No specific usage."
  }

  /** The usage field: the usage in a code block, unless it is empty or the fallback. */
  function UsageField(usage: string): (r: string)
    ensures usage == "" || usage == "No specific usage." ==> r == "No specific usage provided."
    ensures usage != "" && usage != "No specific usage." ==> r == "```\n" + usage + "\n```"
  {
    if usage != "" && usage != "No specific usage." then "```\n" + usage + "\n```" else "No specific usage provided."
  }

  /** Help written as "description. Usage: usage" splits back into its two halves. */
  lemma {:induction false} HelpTextRoundTrip(d: string, u: string)
    requires '.' !in d
    ensures ShortDescription(d + Marker + " " + u) == Text.Strip(d)
    ensures Description(d + Marker + " " + u) == d
    ensures UsageText(d + Marker + " " + u) == u
  {
    var help := d + Marker + " " + u;
    var sep := Marker + " ";
    assert help == d + sep + u;
    assert help[|d|..|d| + |Marker|] == Marker;
    assert help[|d|..|d| + |sep|] == sep;
    forall j | 0 <= j < |d|
      ensures !Text.OccursAt(help, Marker, j) && !Text.OccursAt(help, sep, j)
    {
      assert help[j] == d[j] && Marker[0] == '.' && sep[0] == '.';
    }
    Text.PartitionAt(help, Marker, |d|);
    Text.PartitionAt(help, sep, |d|);
    assert help[..|d|] == d;
    assert help[|d| + |sep|..] == u;
  }

  /** With the marker but no space after it, there is no usage to show. */
  lemma MarkerWithoutSpaceHasNoUsage(d: string)
    requires '.' !in d
    ensures UsageField(UsageText(d + Marker)) == "No specific usage provided."
  {
    var help := d + Marker;
    var sep := Marker + " ";
    assert help[|d|..|d| + |Marker|] == Marker;
    assert Text.OccursAt(help, Marker, |d|);
    forall j | 0 <= j <= |help| - |sep|
      ensures !Text.OccursAt(help, sep, j)
    {
      assert j < |d|;
      assert help[j] == d[j];
    }
    assert !Text.Contains(help, sep);
  }

  // ---------------------------------------------------------------- the listing

  function CogKey(c: CogInfo): string { Text.Lower(c.name) }

  function CommandKey(c: HelpCommand): string { Text.Lower(c.name) }

  predicate IsVisible(c: HelpCommand) { !c.hidden }

  function Line(c: HelpCommand): string { "**" + c.name + "** - " + ShortDescription(c.help) }

  function Lines(cmds: seq<HelpCommand>): (r: seq<string>)
    ensures |r| == |cmds|
    ensures forall k :: 0 <= k < |cmds| ==> r[k] == Line(cmds[k])
  {
    seq(|cmds|, k requires 0 <= k < |cmds| => Line(cmds[k]))
  }

  /** A cog's commands in name order, hidden ones left out. */
  function ShownCommands(cog: CogInfo): (r: seq<HelpCommand>)
    ensures forall c :: c in r <==> c in cog.commands && !c.hidden
    ensures Collections.SortedBy(r, CommandKey)
  {
    var sorted := Collections.SortBy(cog.commands, CommandKey);
    assert forall c :: c in sorted <==> c in multiset(sorted);
    Collections.FilterSorted(sorted, IsVisible, CommandKey);
    Collections.Filter(sorted, IsVisible)
  }

  /** A cog is listed when it has a visible command. */
  predicate HasVisible(cog: CogInfo) { ShownCommands(cog) != [] }

  /** A cog's field: its name, and one line per shown command, joined by newlines. */
  function CogField(cog: CogInfo): (string, string)
  {
    (cog.name, Text.Join(Lines(ShownCommands(cog)), '\n'))
  }

  /** The cogs that get a field, in case-insensitive name order. */
  function ShownCogs(cogs: seq<CogInfo>): (r: seq<CogInfo>)
    ensures forall cog :: cog in r <==> cog in cogs && HasVisible(cog)
    ensures Collections.SortedBy(r, CogKey)
  {
    var sorted := Collections.SortBy(cogs, CogKey);
    assert forall cog :: cog in sorted <==> cog in multiset(sorted);
    Collections.FilterSorted(sorted, HasVisible, CogKey);
    Collections.Filter(sorted, HasVisible)
  }

  /** The listing: one field per shown cog. */
  function Listing(cogs: seq<CogInfo>): (r: seq<(string, string)>)
    ensures |r| == |ShownCogs(cogs)|
    ensures forall k :: 0 <= k < |r| ==> r[k] == CogField(ShownCogs(cogs)[k])
  {
    var shown := ShownCogs(cogs);
    seq(|shown|, k requires 0 <= k < |shown| => CogField(shown[k]))
  }

  /** Every cog with a visible command gets a field. */
  lemma VisibleCogListed(cogs: seq<CogInfo>, cog: CogInfo, c: HelpCommand)
    requires cog in cogs && c in cog.commands && !c.hidden
    ensures exists k :: 0 <= k < |Listing(cogs)| && Listing(cogs)[k].0 == cog.name
  {
    var shown := ShownCogs(cogs);
    assert c in ShownCommands(cog);
    assert cog in shown;
    var k :| 0 <= k < |shown| && shown[k] == cog;
    assert Listing(cogs)[k].0 == cog.name;
  }

  /** Only cogs with a visible command get a field. */
  lemma ListedCogVisible(cogs: seq<CogInfo>, k: nat)
    requires k < |Listing(cogs)|
    ensures exists cog :: cog in cogs && cog.name == Listing(cogs)[k].0 && exists c :: c in cog.commands && !c.hidden
  {
    var shown := ShownCogs(cogs);
    assert shown[k] in shown;
    var first := ShownCommands(shown[k])[0];
    assert first in ShownCommands(shown[k]);
    assert Listing(cogs)[k].0 == shown[k].name;
  }

  /** The fields are in case-insensitive cog name order. */
  lemma ListingSorted(cogs: seq<CogInfo>, i: nat, j: nat)
    requires i < j < |Listing(cogs)|
    ensures Collections.LexLe(Text.Lower(Listing(cogs)[i].0), Text.Lower(Listing(cogs)[j].0))
  {
    var shown := ShownCogs(cogs);
    assert Collections.LexLe(CogKey(shown[i]), CogKey(shown[j]));
  }

  /** Commands whose names differ only in case are listed in the cog's own order. */
  lemma ShownCommandsStable(cog: CogInfo, k: string)
    ensures Collections.WithKey(ShownCommands(cog), CommandKey, k)
            == Collections.Filter(Collections.WithKey(cog.commands, CommandKey, k), IsVisible)
  {
    var sorted := Collections.SortBy(cog.commands, CommandKey);
    assert ShownCommands(cog) == Collections.Filter(sorted, IsVisible);
    Collections.WithKeyFilter(sorted, IsVisible, CommandKey, k);
    Collections.SortByStable(cog.commands, CommandKey, k);
  }

  /** Cogs whose names differ only in case get their fields in the bot's own cog order. */
  lemma ShownCogsStable(cogs: seq<CogInfo>, k: string)
    ensures Collections.WithKey(ShownCogs(cogs), CogKey, k)
            == Collections.Filter(Collections.WithKey(cogs, CogKey, k), HasVisible)
  {
    var sorted := Collections.SortBy(cogs, CogKey);
    assert ShownCogs(cogs) == Collections.Filter(sorted, HasVisible);
    Collections.WithKeyFilter(sorted, HasVisible, CogKey, k);
    Collections.SortByStable(cogs, CogKey, k);
  }

  // ---------------------------------------------------------------- one command

  datatype Detail = Detail(title: string, description: string, usage: string, aliases: Option<string>)

  /** `all_commands.get(name)`: the first command named `name` or carrying it as an alias. */
  function Named(cmds: seq<HelpCommand>, name: string): (r: Option<HelpCommand>)
    ensures r.Some? ==> r.value in cmds && (r.value.name == name || name in r.value.aliases)
    ensures r.None? ==> forall c :: c in cmds ==> c.name != name && name !in c.aliases
    decreases |cmds|
  {
    if cmds == [] then None
    else if cmds[0].name == name || name in cmds[0].aliases then Some(cmds[0])
    else
      assert forall c :: c in cmds <==> c == cmds[0] || c in cmds[1..];
      Named(cmds[1..], name)
  }

  /**
   * The walk from a group through its subcommands, one word per level; a word after a
   * plain command ends the walk with nothing, since a plain command has no `all_commands`.
   */
  function Descend(c: HelpCommand, names: seq<string>): (r: Option<HelpCommand>)
    ensures names == [] ==> r == Some(c)
    ensures names != [] && !c.group ==> r.None?
    ensures names != [] && r.Some? ==> Named(c.subcommands, names[0]).Some?
    decreases |names|
  {
    if names == [] then Some(c)
    else if !c.group then None
    else
      match Named(c.subcommands, names[0])
      case None => None
      case Some(s) => Descend(s, names[1..])
  }

  /**
   * `get_command(word)`: a word without a space is looked up whole; otherwise it is split on
   * whitespace, the first word names the command, and only a group goes on to the next words.
   */
  function FindCommand(cmds: seq<HelpCommand>, word: string): (r: Option<HelpCommand>)
    ensures ' ' !in word ==> (r.Some? <==> exists c :: c in cmds && (c.name == word || word in c.aliases))
    ensures ' ' !in word && r.Some? ==> r.value in cmds && (r.value.name == word || word in r.value.aliases)
    ensures ' ' in word && r.Some? ==> Text.Words(word) != [] && Named(cmds, Text.Words(word)[0]).Some?
    ensures (' ' in word && Text.Words(word) != [] && Named(cmds, Text.Words(word)[0]).Some?
             && !Named(cmds, Text.Words(word)[0]).value.group) ==> r == Named(cmds, Text.Words(word)[0])
  {
    if ' ' !in word then Named(cmds, word)
    else
      var names := Text.Words(word);
      if names == [] then None
      else
        match Named(cmds, names[0])
        case None => None
        case Some(c) => if c.group then Descend(c, names[1..]) else Some(c)
  }

  /** Words after a plain command's name are ignored: `help vote now` shows `vote`. */
  lemma ArgumentsAfterCommandIgnored(cmds: seq<HelpCommand>, name: string, rest: string)
    requires name != [] && Text.NoSpace(name)
    requires Named(cmds, name).Some? && !Named(cmds, name).value.group
    ensures FindCommand(cmds, name + " " + rest) == FindCommand(cmds, name) == Named(cmds, name)
  {
    Text.WordsAfterWord(name, rest);
    assert (name + " " + rest)[|name|] == ' ';
    assert ' ' !in name by {
      assert forall i :: 0 <= i < |name| ==> name[i] != ' ';
    }
  }

  /** A group's name, a space and a subcommand's name find that subcommand. */
  lemma SubcommandFound(cmds: seq<HelpCommand>, name: string, sub: string)
    requires name != [] && Text.NoSpace(name) && sub != [] && Text.NoSpace(sub)
    requires Named(cmds, name).Some? && Named(cmds, name).value.group
    ensures FindCommand(cmds, name + " " + sub) == Named(Named(cmds, name).value.subcommands, sub)
  {
    Text.WordsAfterWord(name, sub);
    Text.WordsOfWord(sub);
    assert (name + " " + sub)[|name|] == ' ';
    var names := Text.Words(name + " " + sub);
    assert names == [name, sub] && names[1..] == [sub];
    var g := Named(cmds, name).value;
    assert Descend(g, [sub]) == Named(g.subcommands, sub) by {
      if Named(g.subcommands, sub).Some? {
        assert Descend(Named(g.subcommands, sub).value, []) == Named(g.subcommands, sub);
      }
    }
  }

  datatype HelpReply = General(fields: seq<(string, string)>) | Specific(detail: Detail) | NotFound(word: string)

  /** `help_command`: the listing without an argument, a command's detail, or the not-found message. */
  function HelpCommandReply(cogs: seq<CogInfo>, cmds: seq<HelpCommand>, word: Option<string>): (r: HelpReply)
    ensures word.None? <==> r.General?
    ensures r.NotFound? <==> word.Some? && FindCommand(cmds, word.value).None?
    ensures r.Specific? ==> word.Some? && FindCommand(cmds, word.value).Some?
                            && (r.detail.aliases.None? <==> FindCommand(cmds, word.value).value.aliases == [])
  {
    match word
    case None => General(Listing(cogs))
    case Some(w) =>
      match FindCommand(cmds, w)
      case None => NotFound(w)
      case Some(c) =>
        Specific(Detail("`" + Text.Capitalize(c.name) + "` Command", Description(c.help),
                        UsageField(UsageText(c.help)),
                        if c.aliases != [] then Some(Text.JoinWith(c.aliases, ", ")) else None))
  }
}

=== FILE: image_search.dfy ===
/**
 * The `img` image search: the batched requests to the search service, and paging through
 * the results with reactions. The service's answers and the reactions are inputs.
 */
module ImageSearch {
  import opened Wrappers
  import Paging

  /** One image result: title, display link and link, each possibly missing. */
  datatype Item = Item(title: Option<string>, displayLink: Option<string>, link: Option<string>)

  /** An answer to one request: its `items` (none when the key is absent), or a body whose reading raises. */
  datatype FetchAnswer = Items(items: seq<Item>) | Unreadable

  /** Requests start at 0, 10, ..., 100. */
  const LastStart: int := 100
  const StartStep: int := 10
  const Requests: nat := 11

  /** The requests made from the `k`-th on, and the results they add; an unreadable answer stops the batching. */
  function FetchFrom(answers: seq<FetchAnswer>, k: nat): (r: (seq<int>, seq<Item>))
    requires |answers| == Requests && k <= Requests
    ensures |r.0| <= Requests - k
    ensures forall i :: 0 <= i < |r.0| ==> r.0[i] == StartStep * (k + i)
    decreases Requests - k
  {
    if StartStep * k > LastStart then ([], [])
    else
      match answers[k]
      case Unreadable => ([StartStep * k], [])
      case Items(items) =>
        var rest := FetchFrom(answers, k + 1);
        ([StartStep * k] + rest.0, items + rest.1)
  }

  /** Every answer readable. */
  predicate AllReadable(answers: seq<FetchAnswer>)
  {
    forall i :: 0 <= i < |answers| ==> answers[i].Items?
  }

  /** The results in request order. */
  function AllItems(answers: seq<FetchAnswer>): seq<Item>
    requires AllReadable(answers)
  {
    if answers == [] then [] else answers[0].items + AllItems(answers[1..])
  }

  /** When every answer reads, exactly eleven requests go out, at 0 through 100, and all items are kept in order. */
  lemma {:induction false} ElevenRequests(answers: seq<FetchAnswer>, k: nat)
    requires |answers| == Requests && k <= Requests
    requires AllReadable(answers)
    ensures |FetchFrom(answers, k).0| == Requests - k
    ensures FetchFrom(answers, k).1 == AllItems(answers[k..])
    decreases Requests - k
  {
    if k == Requests {
      assert answers[k..] == [];
    } else {
      ElevenRequests(answers, k + 1);
      assert answers[k..][1..] == answers[k + 1..];
      assert answers[k..][0] == answers[k];
    }
  }

  // ---------------------------------------------------------------- paging

  /** A reaction added while the results are shown. */
  datatype ImgReaction = ImgReaction(user: int, emoji: string)

  /** The wait's filter: the invoker and one of the three emojis (any message). */
  predicate Considered(author: int, r: ImgReaction)
  {
    r.user == author && (r.emoji == "⬅️" || r.emoji == "➡️" || r.emoji == "⏹️")
  }

  datatype Ending = Stopped | TimedOut

  datatype Browse = Browse(edits: seq<nat>, ending: Ending)

  /** The navigation loop over `n` result pages: the arrows move one page within `[1, n]`, ⏹️ stops. */
  function Navigate(page: nat, n: nat, author: int, reactions: seq<ImgReaction>): (b: Browse)
    requires 1 <= page <= n
    ensures forall i :: 0 <= i < |b.edits| ==> 1 <= b.edits[i] <= n
    decreases |reactions|
  {
    if reactions == [] then Browse([], TimedOut)
    else if !Considered(author, reactions[0]) then Navigate(page, n, author, reactions[1..])
    else if reactions[0].emoji == "⏹️" then Browse([], Stopped)
    else
      var next := if reactions[0].emoji == "➡️" then Paging.Next(page, n) else Paging.Prev(page, 1);
      Paging.StaysInRange(page, 1, n);
      if next == page then Navigate(page, n, author, reactions[1..])
      else
        var rest := Navigate(next, n, author, reactions[1..]);
        Browse([next] + rest.edits, rest.ending)
  }

  /** ➡️ on the last page and ⬅️ on the first change nothing. */
  lemma ArrowAtEndIsNoOp(page: nat, n: nat, author: int, emoji: string, rest: seq<ImgReaction>)
    requires 1 <= page <= n
    requires (page == n && emoji == "➡️") || (page == 1 && emoji == "⬅️")
    ensures Navigate(page, n, author, [ImgReaction(author, emoji)] + rest) == Navigate(page, n, author, rest)
  {
    assert ([ImgReaction(author, emoji)] + rest)[1..] == rest;
  }

  /** ⏹️ from the invoker ends the loop whatever follows. */
  lemma StopEnds(page: nat, n: nat, author: int, rest: seq<ImgReaction>)
    requires 1 <= page <= n
    ensures Navigate(page, n, author, [ImgReaction(author, "⏹️")] + rest) == Browse([], Stopped)
  {
  }

  /** ➡️ then ⬅️ away from the last page comes back to where it started. */
  lemma ForwardBack(page: nat, n: nat, author: int)
    requires 1 <= page < n
    ensures Navigate(page, n, author, [ImgReaction(author, "➡️"), ImgReaction(author, "⬅️")]).edits == [page + 1, page]
  {
    var rs := [ImgReaction(author, "➡️"), ImgReaction(author, "⬅️")];
    assert "➡️"[0] != "⏹️"[0] && "⬅️"[0] != "⏹️"[0] && "⬅️"[0] != "➡️"[0];
    assert rs[1..] == [ImgReaction(author, "⬅️")];
    assert rs[1..][1..] == [];
    var left := [ImgReaction(author, "⬅️")];
    assert Considered(author, left[0]) && left[0].emoji != "⏹️" && left[0].emoji != "➡️";
    assert Paging.Prev(page + 1, 1) == page;
    assert left[1..] == [];
    assert Navigate(page, n, author, []) == Browse([], TimedOut);
    var back := Navigate(page + 1, n, author, left);
    assert back == Browse([page] + [], TimedOut);
    assert Navigate(page, n, author, rs) == Browse([page + 1] + back.edits, back.ending);
  }

  // ---------------------------------------------------------------- the command

  datatype ImgReply =
    | Usage
    | NoResults
    | Single(first: Item)
    | Paged(count: nat, browse: Browse)
    | RaisedAfterFirstPage(count: nat)

  /** `img` as written: the class keeps no client, so waiting for the first reaction raises. */
  function ImgAsWritten(query: Option<string>, answers: seq<FetchAnswer>, reactions: seq<ImgReaction>): (r: ImgReply)
    requires |answers| == Requests
    ensures query.None? <==> r == Usage
  {
    if query.None? then Usage
    else
      var results := FetchFrom(answers, 0).1;
      if results == [] then NoResults
      else if |results| == 1 then Single(results[0])
      else RaisedAfterFirstPage(|results|)
  }

  /** As written, a search with two or more results never pages, whatever the invoker does. */
  lemma AsWrittenNeverPages(query: string, answers: seq<FetchAnswer>, reactions: seq<ImgReaction>)
    requires |answers| == Requests
    requires |FetchFrom(answers, 0).1| > 1
    ensures ImgAsWritten(Some(query), answers, reactions).RaisedAfterFirstPage?
  {
  }

  /** Concretely: two results in the first batch, and ➡️ from the invoker, raise instead of showing page 2. */
  lemma AsWrittenTwoResults(a: Item, b: Item, author: int)
    ensures var answers := [Items([a, b])] + seq(10, i => Items([]));
            |answers| == Requests
            && ImgAsWritten(Some("cats"), answers, [ImgReaction(author, "➡️")]) == RaisedAfterFirstPage(2)
  {
    var answers := [Items([a, b])] + seq(10, i => Items([]));
    var rest := answers[1..];
    assert AllReadable(answers);
    ElevenRequests(answers, 0);
    assert answers[0..] == answers;
    assert AllItems(answers) == [a, b] + AllItems(rest);
    EmptyBatches(rest);
    assert [a, b] + [] == [a, b];
  }

  lemma {:induction false} EmptyBatches(answers: seq<FetchAnswer>)
    requires forall i :: 0 <= i < |answers| ==> answers[i] == Items([])
    ensures AllReadable(answers) && AllItems(answers) == []
  {
    if answers != [] {
      EmptyBatches(answers[1..]);
    }
  }

  /**
   * `img` with the client kept: usage without a query, a message for no results, the first
   * page alone for one result, and navigation from page 1 otherwise.
   */
  function Img(query: Option<string>, answers: seq<FetchAnswer>, author: int, reactions: seq<ImgReaction>): (r: ImgReply)
    requires |answers| == Requests
    ensures query.None? <==> r == Usage
    ensures query.Some? ==> (r == NoResults <==> FetchFrom(answers, 0).1 == [])
    ensures r.Paged? ==> r.count == |FetchFrom(answers, 0).1| > 1
                         && r.browse == Navigate(1, r.count, author, reactions)
    ensures query.Some? && |FetchFrom(answers, 0).1| > 1 ==> r.Paged?
    ensures !r.RaisedAfterFirstPage?
  {
    if query.None? then Usage
    else
      var results := FetchFrom(answers, 0).1;
      if results == [] then NoResults
      else if |results| == 1 then Single(results[0])
      else Paged(|results|, Navigate(1, |results|, author, reactions))
  }
}

=== FILE: keywords.dfy ===
/**
 * The `key_words` command: two explanatory pages navigated with ⬅️, ➡️ and ⏹️ reactions.
 * The reactions that arrive before the timeout are an input; the embeds' text is left out.
 */
module KeyWords {
  import Text
  import Paging

  /** The pages are numbered 1 and 2. */
  const TotalPages: nat := 2

  /** The navigation emojis and their page offsets; 0 stops. */
  const Directions: map<string, int> := map["⬅️" := -1, "➡️" := 1, "⏹️" := 0]

  /** A reaction added while the command waits: who, on which message, which emoji. */
  datatype KeyReaction = KeyReaction(user: int, messageId: int, emoji: string)

  /** The wait's filter: the invoker, on this message, with a navigation emoji. */
  predicate Considered(author: int, messageId: int, r: KeyReaction)
  {
    r.user == author && r.emoji in Directions && r.messageId == messageId
  }

  /** `Page p/total`. */
  function Footer(page: nat, total: nat): (f: string)
    ensures Text.StartsWith(f, "Page ")
  {
    "Page " + Text.NatToString(page) + "/" + Text.NatToString(total)
  }

  /** One move: the new page when it lies in `[1, total]`, otherwise the current one. */
  function Step(page: int, total: int, direction: int): (p: int)
    requires 1 <= page <= total
    ensures 1 <= p <= total
    ensures p != page ==> p == page + direction
  {
    var next := page + direction;
    if 1 <= next <= total then next else page
  }

  /** For the two arrows the move is the shared previous/next page navigation. */
  lemma StepIsPaging(page: int, total: int)
    requires 1 <= page <= total
    ensures Step(page, total, -1) == Paging.Prev(page, 1)
    ensures Step(page, total, 1) == Paging.Next(page, total)
  {
  }

  datatype Ending = Cancelled | TimedOut

  /** The pages the message is edited to, in order, and how the session ends. */
  datatype Session = Session(edits: seq<nat>, ending: Ending)

  /**
   * The reaction loop from `page`: ⏹️ cancels; an arrow that stays in range edits the message to
   * the new page; running out of reactions is the timeout.
   */
  function Navigate(page: nat, total: nat, author: int, messageId: int, reactions: seq<KeyReaction>): (s: Session)
    requires 1 <= page <= total
    ensures forall i :: 0 <= i < |s.edits| ==> 1 <= s.edits[i] <= total
    ensures |s.edits| <= |reactions|
    decreases |reactions|
  {
    if reactions == [] then Session([], TimedOut)
    else if !Considered(author, messageId, reactions[0]) then Navigate(page, total, author, messageId, reactions[1..])
    else
      var direction := Directions[reactions[0].emoji];
      if direction == 0 then Session([], Cancelled)
      else
        var next := page + direction;
        if 1 <= next <= total then
          var rest := Navigate(next, total, author, messageId, reactions[1..]);
          Session([next] + rest.edits, rest.ending)
        else Navigate(page, total, author, messageId, reactions[1..])
  }

  /** The page the session ends on. */
  function FinalPage(page: nat, s: Session): nat
  {
    if s.edits == [] then page else s.edits[|s.edits| - 1]
  }

  /** Every footer shown, the first page's and each edit's, reads `Page p/total` for a page in range. */
  function Footers(page: nat, total: nat, s: Session): (fs: seq<string>)
    requires 1 <= page <= total
    requires forall i :: 0 <= i < |s.edits| ==> 1 <= s.edits[i] <= total
    ensures |fs| == 1 + |s.edits|
    ensures forall i :: 0 <= i < |fs| ==> exists p :: 1 <= p <= total && fs[i] == Footer(p, total)
  {
    var fs := [Footer(page, total)] + seq(|s.edits|, i requires 0 <= i < |s.edits| => Footer(s.edits[i], total));
    assert forall i :: 1 <= i < |fs| ==> fs[i] == Footer(s.edits[i - 1], total);
    fs
  }

  /** Consecutive pages differ by exactly one. */
  predicate OneApart(shown: seq<nat>)
  {
    forall i :: 1 <= i < |shown| ==> shown[i] == shown[i - 1] + 1 || shown[i] + 1 == shown[i - 1]
  }

  /** The pages shown, starting page first, never jump: each arrow moves exactly one page. */
  lemma {:induction false} EditsMoveOnePage(page: nat, total: nat, author: int, messageId: int, reactions: seq<KeyReaction>)
    requires 1 <= page <= total
    ensures OneApart([page] + Navigate(page, total, author, messageId, reactions).edits)
    decreases |reactions|
  {
    var s := Navigate(page, total, author, messageId, reactions);
    if reactions == [] {
    } else if !Considered(author, messageId, reactions[0]) {
      EditsMoveOnePage(page, total, author, messageId, reactions[1..]);
      assert s == Navigate(page, total, author, messageId, reactions[1..]);
    } else {
      var direction := Directions[reactions[0].emoji];
      var next := page + direction;
      if direction == 0 {
      } else if !(1 <= next <= total) {
        EditsMoveOnePage(page, total, author, messageId, reactions[1..]);
        assert s == Navigate(page, total, author, messageId, reactions[1..]);
      } else {
        EditsMoveOnePage(next, total, author, messageId, reactions[1..]);
        var rest := Navigate(next, total, author, messageId, reactions[1..]);
        assert direction == 1 || direction == -1;
        var shown := [page] + s.edits;
        var inner := [next] + rest.edits;
        assert shown == [page] + inner;
        forall i | 1 <= i < |shown| ensures shown[i] == shown[i - 1] + 1 || shown[i] + 1 == shown[i - 1] {
          if i > 1 {
            assert shown[i] == inner[i - 1] && shown[i - 1] == inner[i - 2];
          }
        }
      }
    }
  }

  /** The reactions a session looks at, in order: the invoker's navigation emoji on this message. */
  function ConsideredOnly(author: int, messageId: int, reactions: seq<KeyReaction>): (r: seq<KeyReaction>)
    ensures |r| <= |reactions|
    decreases |reactions|
  {
    if reactions == [] then []
    else
      var rest := ConsideredOnly(author, messageId, reactions[1..]);
      if Considered(author, messageId, reactions[0]) then [reactions[0]] + rest else rest
  }

  /** The reactions kept are exactly those the wait's filter accepts. */
  lemma {:induction false} ConsideredOnlyMembers(author: int, messageId: int, reactions: seq<KeyReaction>)
    ensures forall x :: x in ConsideredOnly(author, messageId, reactions) <==> x in reactions && Considered(author, messageId, x)
    decreases |reactions|
  {
    if reactions != [] {
      ConsideredOnlyMembers(author, messageId, reactions[1..]);
      assert forall x :: x in reactions <==> x == reactions[0] || x in reactions[1..];
    }
  }

  /** Only the invoker's navigation reactions on this message matter. */
  lemma {:induction false} NavigateIgnoresOthers(page: nat, total: nat, author: int, messageId: int, reactions: seq<KeyReaction>)
    requires 1 <= page <= total
    ensures Navigate(page, total, author, messageId, reactions)
            == Navigate(page, total, author, messageId, ConsideredOnly(author, messageId, reactions))
    decreases |reactions|
  {
    if reactions != [] {
      var h, tail := reactions[0], reactions[1..];
      NavigateIgnoresOthers(page, total, author, messageId, tail);
      if Considered(author, messageId, h) {
        var next := page + Directions[h.emoji];
        if 1 <= next <= total {
          NavigateIgnoresOthers(next, total, author, messageId, tail);
        }
        KeepStep(page, total, author, messageId, reactions);
      } else {
        SkipStep(page, total, author, messageId, reactions);
      }
    }
  }

  /** A considered first reaction is kept, and both sessions look at it first. */
  lemma KeepStep(page: nat, total: nat, author: int, messageId: int, reactions: seq<KeyReaction>)
    requires 1 <= page <= total && reactions != [] && Considered(author, messageId, reactions[0])
    requires var tail, rest := reactions[1..], ConsideredOnly(author, messageId, reactions[1..]);
             && Navigate(page, total, author, messageId, tail) == Navigate(page, total, author, messageId, rest)
             && var next := page + Directions[reactions[0].emoji];
                1 <= next <= total ==> Navigate(next, total, author, messageId, tail) == Navigate(next, total, author, messageId, rest)
    ensures Navigate(page, total, author, messageId, reactions)
            == Navigate(page, total, author, messageId, ConsideredOnly(author, messageId, reactions))
  {
    var h, tail := reactions[0], reactions[1..];
    var rest := ConsideredOnly(author, messageId, tail);
    assert Navigate(page, total, author, messageId, reactions) == Navigate(page, total, author, messageId, [h] + tail) by {
      assert reactions == [h] + tail;
    }
    assert Navigate(page, total, author, messageId, ConsideredOnly(author, messageId, reactions))
           == Navigate(page, total, author, messageId, [h] + rest) by {
      assert ConsideredOnly(author, messageId, reactions) == [h] + rest;
    }
    NavigateSameHead(page, total, author, messageId, h, tail, rest);
  }

  /** A first reaction that is not considered is dropped, and the session passes over it. */
  lemma SkipStep(page: nat, total: nat, author: int, messageId: int, reactions: seq<KeyReaction>)
    requires 1 <= page <= total && reactions != [] && !Considered(author, messageId, reactions[0])
    requires Navigate(page, total, author, messageId, reactions[1..])
             == Navigate(page, total, author, messageId, ConsideredOnly(author, messageId, reactions[1..]))
    ensures Navigate(page, total, author, messageId, reactions)
            == Navigate(page, total, author, messageId, ConsideredOnly(author, messageId, reactions))
  {
    assert ConsideredOnly(author, messageId, reactions) == ConsideredOnly(author, messageId, reactions[1..]);
  }

  /** A considered reaction followed by two tails that navigate alike, from where it leads, navigates alike. */
  lemma NavigateSameHead(page: nat, total: nat, author: int, messageId: int, r: KeyReaction,
                         xs: seq<KeyReaction>, ys: seq<KeyReaction>)
    requires 1 <= page <= total && Considered(author, messageId, r)
    requires Navigate(page, total, author, messageId, xs) == Navigate(page, total, author, messageId, ys)
    requires var next := page + Directions[r.emoji];
             1 <= next <= total ==> Navigate(next, total, author, messageId, xs) == Navigate(next, total, author, messageId, ys)
    ensures Navigate(page, total, author, messageId, [r] + xs) == Navigate(page, total, author, messageId, [r] + ys)
  {
    assert ([r] + xs)[0] == r && ([r] + xs)[1..] == xs;
    assert ([r] + ys)[0] == r && ([r] + ys)[1..] == ys;
  }

  /** ⬅️ on the first page and ➡️ on the last change nothing: the session goes on as if they never came. */
  lemma ArrowAtEndIsNoOp(page: nat, total: nat, author: int, messageId: int, emoji: string, rest: seq<KeyReaction>)
    requires 1 <= page <= total
    requires (page == 1 && emoji == "⬅️") || (page == total && emoji == "➡️")
    ensures Navigate(page, total, author, messageId, [KeyReaction(author, messageId, emoji)] + rest)
            == Navigate(page, total, author, messageId, rest)
  {
    assert ([KeyReaction(author, messageId, emoji)] + rest)[1..] == rest;
  }

  /** ⏹️ from the invoker ends the session at once, whatever follows. */
  lemma StopEnds(page: nat, total: nat, author: int, messageId: int, rest: seq<KeyReaction>)
    requires 1 <= page <= total
    ensures Navigate(page, total, author, messageId, [KeyReaction(author, messageId, "⏹️")] + rest) == Session([], Cancelled)
  {
  }

  /** `Raised` is the `AttributeError` of `.avatar.url` or `.icon.url` on a missing image. */
  datatype KeyWordsReply = MissingRole | Raised | Shown(session: Session)

  /**
   * `key_words`: restricted to the owner and head_staff roles. The second page's examples
   * read the invoker's avatar and the guild's icon, so without either the command raises
   * before anything is sent; otherwise it starts on page 1.
   */
  function KeyWordsCommand(hasRole: bool, hasAvatar: bool, hasIcon: bool, author: int, messageId: int,
                           reactions: seq<KeyReaction>): (r: KeyWordsReply)
    ensures !hasRole <==> r.MissingRole?
    ensures r.Raised? <==> hasRole && !(hasAvatar && hasIcon)
    ensures r.Shown? ==> forall i :: 0 <= i < |r.session.edits| ==> 1 <= r.session.edits[i] <= TotalPages
    ensures r.Shown? ==> OneApart([1] + r.session.edits)
  {
    if !hasRole then MissingRole
    else if !hasAvatar || !hasIcon then Raised
    else
      EditsMoveOnePage(1, TotalPages, author, messageId, reactions);
      Shown(Navigate(1, TotalPages, author, messageId, reactions))
  }
}

=== FILE: log_handler.dfy ===
/**
 * The logging handlers: a shared buffer of at most a thousand sanitised log lines, and a stream
 * handler that writes sanitised lines. The IPv4 and IPv6 substitutions are regular-expression
 * replacements and enter as functions; formatting a record may raise, which is an input.
 */
module LogHandler {
  import opened Wrappers
  import Collections

  /** The buffer keeps this many lines once it has reached them. */
  const BufferLimit: nat := 1000

  /** The two replacements, IPv4 first, then IPv6. */
  function Sanitize(message: string, ipv4: string -> string, ipv6: string -> string): string
  {
    ipv6(ipv4(message))
  }

  /** What `emit` did: the buffer afterwards, and whether the error handler was called. */
  datatype Emitted = Emitted(buffer: seq<string>, handledError: bool)

  /**
   * `BufferLoggingHandler.emit`: append the sanitised line and drop the oldest one when the
   * buffer then exceeds the limit; a formatting failure leaves the buffer alone.
   */
  function Emit(buffer: seq<string>, formatted: Option<string>, ipv4: string -> string, ipv6: string -> string): (r: Emitted)
    ensures formatted.None? <==> r.handledError
    ensures formatted.None? ==> r.buffer == buffer
    ensures formatted.Some? ==> r.buffer != [] && r.buffer[|r.buffer| - 1] == Sanitize(formatted.value, ipv4, ipv6)
    ensures formatted.Some? && |buffer| + 1 <= BufferLimit ==> r.buffer == buffer + [Sanitize(formatted.value, ipv4, ipv6)]
    ensures formatted.Some? && |buffer| + 1 > BufferLimit ==> r.buffer == buffer[1..] + [Sanitize(formatted.value, ipv4, ipv6)]
    ensures |buffer| <= BufferLimit ==> |r.buffer| <= BufferLimit
  {
    match formatted
    case None => Emitted(buffer, true)
    case Some(msg) =>
      var appended := buffer + [Sanitize(msg, ipv4, ipv6)];
      if |appended| > BufferLimit then
        assert appended[1..] == buffer[1..] + [Sanitize(msg, ipv4, ipv6)];
        Emitted(appended[1..], false)
      else Emitted(appended, false)
  }

  /** The last `n` elements (all of them when there are fewer). */
  function Last<T>(xs: seq<T>, n: nat): (r: seq<T>)
    ensures |r| == if |xs| < n then |xs| else n
  {
    if |xs| <= n then xs else xs[|xs| - n..]
  }

  /** Emitting records one after another, in order. */
  function EmitAll(buffer: seq<string>, records: seq<Option<string>>, ipv4: string -> string, ipv6: string -> string): seq<string>
    decreases |records|
  {
    if records == [] then buffer
    else EmitAll(Emit(buffer, records[0], ipv4, ipv6).buffer, records[1..], ipv4, ipv6)
  }

  /** The sanitised lines of the records that formatted, in order. */
  function Lines(records: seq<Option<string>>, ipv4: string -> string, ipv6: string -> string): seq<string>
    decreases |records|
  {
    if records == [] then []
    else (if records[0].Some? then [Sanitize(records[0].value, ipv4, ipv6)] else []) + Lines(records[1..], ipv4, ipv6)
  }

  /** Starting within the limit, the buffer always holds exactly the newest thousand lines logged. */
  lemma {:induction false} BufferKeepsNewest(buffer: seq<string>, records: seq<Option<string>>, ipv4: string -> string, ipv6: string -> string)
    requires |buffer| <= BufferLimit
    ensures EmitAll(buffer, records, ipv4, ipv6) == Last(buffer + Lines(records, ipv4, ipv6), BufferLimit)
    decreases |records|
  {
    if records == [] {
      assert buffer + [] == buffer;
    } else {
      var next := Emit(buffer, records[0], ipv4, ipv6).buffer;
      var rest := Lines(records[1..], ipv4, ipv6);
      BufferKeepsNewest(next, records[1..], ipv4, ipv6);
      var here := if records[0].Some? then [Sanitize(records[0].value, ipv4, ipv6)] else [];
      assert Lines(records, ipv4, ipv6) == here + rest;
      Collections.AppendAssoc(buffer, here, rest);
      assert next == Last(buffer + here, BufferLimit) || (|buffer + here| <= BufferLimit && next == buffer + here);
      LastAfterDrop(buffer + here, next, rest);
    }
  }

  /** Keeping the newest thousand of a prefix first changes nothing about the newest thousand of the whole. */
  lemma LastAfterDrop(whole: seq<string>, kept: seq<string>, rest: seq<string>)
    requires kept == Last(whole, BufferLimit) || (|whole| <= BufferLimit && kept == whole)
    ensures Last(kept + rest, BufferLimit) == Last(whole + rest, BufferLimit)
  {
    if |whole| > BufferLimit {
      var d := |whole| - BufferLimit;
      assert kept == whole[d..];
      assert whole + rest == whole[..d] + (kept + rest);
      assert (whole + rest)[|whole + rest| - BufferLimit..] == (kept + rest)[|kept + rest| - BufferLimit..];
    }
  }

  /** `SanitizingHandler.emit`: the sanitised line and a newline, or the error handler. */
  function StreamEmit(formatted: Option<string>, ipv4: string -> string, ipv6: string -> string): (written: Option<string>)
    ensures formatted.None? <==> written.None?
    ensures written.Some? ==> written.value == Sanitize(formatted.value, ipv4, ipv6) + "\n"
  {
    if formatted.None? then None else Some(Sanitize(formatted.value, ipv4, ipv6) + "\n")
  }

  /** Both handlers produce the same sanitised text for a record. */
  lemma HandlersAgree(buffer: seq<string>, msg: string, ipv4: string -> string, ipv6: string -> string)
    ensures var line := Emit(buffer, Some(msg), ipv4, ipv6).buffer;
            StreamEmit(Some(msg), ipv4, ipv6) == Some(line[|line| - 1] + "\n")
  {
  }
}

=== FILE: nsfw_checker.dfy ===
/**
 * The NSFW image listener: image attachments are read by OCR and the text is matched
 * against a keyword list; hits become staff alerts. OCR and image processing are
 * inputs: each attachment carries the text OCR returns for it (one per GIF frame).
 */
module NsfwChecker {
  import opened Wrappers
  import Text
  import GuildConfig
  import AlertTables
  import AlertWorkflow

  const ImageExtensions: seq<string> := [".png", ".jpg", ".jpeg", ".gif"]

  /** Images over one mebibyte are shrunk before OCR. */
  const MaxImageBytes: nat := 1024 * 1024

  /** An attachment: its file name, the OCR text of each GIF frame, and the OCR text of a still image. */
  datatype Attachment = Attachment(filename: string, frameTexts: seq<string>, stillText: string)

  predicate Scannable(a: Attachment)
  {
    exists k :: 0 <= k < |ImageExtensions| && Text.EndsWith(Text.Lower(a.filename), ImageExtensions[k])
  }

  predicate IsGif(a: Attachment) { Text.EndsWith(Text.Lower(a.filename), ".gif") }

  /** `any(keyword in text.lower() for keyword in keywords)` */
  predicate Flagged(text: string, keywords: seq<string>)
  {
    exists k :: 0 <= k < |keywords| && Text.Contains(Text.Lower(text), keywords[k])
  }

  /** The first frame whose text is flagged; the frame loop stops there. */
  function FirstFlaggedFrame(texts: seq<string>, keywords: seq<string>): (r: Option<nat>)
    ensures r.Some? ==> r.value < |texts| && Flagged(texts[r.value], keywords)
                        && forall j :: 0 <= j < r.value ==> !Flagged(texts[j], keywords)
    ensures r.None? ==> forall j :: 0 <= j < |texts| ==> !Flagged(texts[j], keywords)
    decreases |texts|
  {
    if texts == [] then None
    else if Flagged(texts[0], keywords) then Some(0)
    else
      match FirstFlaggedFrame(texts[1..], keywords)
      case None => None
      case Some(i) => Some(i + 1)
  }

  /** A call of `handle_nsfw_content`: which attachment, with which extracted text. */
  datatype Hit = Hit(attachment: nat, text: string)

  /**
   * The attachment loop of `on_message`, from attachment index `from`: a GIF reports at
   * most its first flagged frame and the loop goes on; a flagged still image is reported
   * and ends the loop.
   */
  function Scan(atts: seq<Attachment>, keywords: seq<string>, from: nat): (hits: seq<Hit>)
    requires from <= |atts|
    ensures forall k :: 0 <= k < |hits| ==> from <= hits[k].attachment < |atts|
                                            && Scannable(atts[hits[k].attachment])
                                            && Flagged(hits[k].text, keywords)
    ensures forall k :: 0 <= k < |hits| - 1 ==> hits[k].attachment < hits[k + 1].attachment
    ensures forall k :: 0 <= k < |hits| - 1 ==> IsGif(atts[hits[k].attachment])
    decreases |atts| - from
  {
    if from == |atts| then []
    else
      var a := atts[from];
      var rest := Scan(atts, keywords, from + 1);
      if !Scannable(a) then rest
      else if IsGif(a) then
        match FirstFlaggedFrame(a.frameTexts, keywords)
        case Some(i) => [Hit(from, a.frameTexts[i])] + rest
        case None => rest
      else if Flagged(a.stillText, keywords) then [Hit(from, a.stillText)]
      else rest
  }

  /** Attachments with other extensions are never read. */
  lemma {:induction false} UnscannableNeverReported(atts: seq<Attachment>, keywords: seq<string>, from: nat, k: nat)
    requires from <= |atts|
    requires k < |Scan(atts, keywords, from)|
    ensures Scannable(atts[Scan(atts, keywords, from)[k].attachment])
  {
  }

  /** `resize_image_if_needed`: at most one mebibyte stays as it is; larger images become the thumbnail. */
  function ResizeIfNeeded(image: seq<int>, thumbnail: seq<int> -> seq<int>): (r: seq<int>)
    ensures |image| <= MaxImageBytes ==> r == image
    ensures r != image ==> r == thumbnail(image)
    ensures |thumbnail(image)| <= MaxImageBytes ==> |r| <= MaxImageBytes
  {
    if |image| > MaxImageBytes then thumbnail(image) else image
  }

  /** Resizing twice is resizing once, as long as thumbnails fit the limit. */
  lemma ResizeIdempotent(image: seq<int>, thumbnail: seq<int> -> seq<int>)
    requires |thumbnail(image)| <= MaxImageBytes
    ensures ResizeIfNeeded(ResizeIfNeeded(image, thumbnail), thumbnail) == ResizeIfNeeded(image, thumbnail)
  {
  }

  /** The "Extracted Text" field: `extracted_text or "No text extracted."`. */
  function TextField(text: string): string
  {
    if text == "" then "No text extracted." else text
  }

  const ChannelsUrl: string := "https://discord.com/channels/"

  /** `message.jump_url`: `https://discord.com/channels/<guild>/<channel>/<message>`. */
  function JumpUrl(m: AlertWorkflow.Message): string
  {
    ChannelsUrl + Text.IntToString(m.guildId) + "/" + Text.IntToString(m.channelId)
    + "/" + Text.IntToString(m.id)
  }

  /** "Guild: <name>\nChannel: <#channel>" */
  function OriginField(guildName: string, channel: int): string
  {
    "Guild: " + guildName + "\nChannel: <#" + Text.IntToString(channel) + ">"
  }

  /** The alert embed's three fields, in order: "Extracted Text", "Origin" and "Message Link". */
  function AlertFields(m: AlertWorkflow.Message, guildName: string, text: string): seq<string>
  {
    [TextField(text), OriginField(guildName, m.channelId), JumpUrl(m)]
  }

  /** `handle_nsfw_content` for one extracted text: an alert when the staff thread resolves. */
  function Handle(tables: AlertWorkflow.Tables, m: AlertWorkflow.Message, guildName: string, text: string,
                  world: AlertWorkflow.World, alertId: int): (r: (AlertWorkflow.Tables, seq<AlertWorkflow.Effect>))
  {
    var config := if m.guildId in world.configs then Some(world.configs[m.guildId]) else None;
    var guild := if m.guildId in world.guilds then world.guilds[m.guildId] else AlertWorkflow.GuildView({}, map[]);
    AlertWorkflow.RaiseAlert(tables, AlertWorkflow.Nsfw, config, guild, m.guildId, m.author,
                             m.channelId, AlertFields(m, guildName, text), alertId)
  }

  /** Every alert `handle_nsfw_content` posts carries the fields built from the message and the text. */
  lemma HandlePostsFields(tables: AlertWorkflow.Tables, m: AlertWorkflow.Message, guildName: string, text: string,
                          world: AlertWorkflow.World, alertId: int)
    ensures var r := Handle(tables, m, guildName, text, world, alertId);
      forall i :: 0 <= i < |r.1| && r.1[i].PostAlert? ==> r.1[i].fields == AlertFields(m, guildName, text)
  {
  }

  /**
   * `on_message`: the bot's own messages are skipped; each hit goes through
   * `handle_nsfw_content`. `alertIds(k)` is the id the platform gives the k-th alert posted.
   */
  function OnMessage(tables: AlertWorkflow.Tables, m: AlertWorkflow.Message, guildName: string,
                     atts: seq<Attachment>, keywords: seq<string>, world: AlertWorkflow.World, alertIds: nat -> int)
    : (r: (AlertWorkflow.Tables, seq<AlertWorkflow.Effect>))
    ensures m.authorIsSelf ==> r == (tables, [])
    ensures !m.authorIsSelf ==> r == HandleAll(tables, m, guildName, Scan(atts, keywords, 0), world, alertIds, 0)
  {
    if m.authorIsSelf then (tables, [])
    else HandleAll(tables, m, guildName, Scan(atts, keywords, 0), world, alertIds, 0)
  }

  function HandleAll(tables: AlertWorkflow.Tables, m: AlertWorkflow.Message, guildName: string, hits: seq<Hit>,
                     world: AlertWorkflow.World, alertIds: nat -> int, k: nat)
    : (r: (AlertWorkflow.Tables, seq<AlertWorkflow.Effect>))
    requires k <= |hits|
    ensures r.0.actions == tables.actions
    ensures |tables.alerts| <= |r.0.alerts| <= |tables.alerts| + (|hits| - k)
    ensures r.0.alerts[..|tables.alerts|] == tables.alerts
    decreases |hits| - k
  {
    if k == |hits| then (tables, [])
    else
      var first := Handle(tables, m, guildName, hits[k].text, world, alertIds(k));
      var rest := HandleAll(first.0, m, guildName, hits, world, alertIds, k + 1);
      assert first.0.alerts[..|tables.alerts|] == tables.alerts;
      assert rest.0.alerts[..|tables.alerts|] == rest.0.alerts[..|first.0.alerts|][..|tables.alerts|];
      (rest.0, first.1 + rest.1)
  }

  /** Every alert among `effects` links back to message `id`. */
  predicate LinksBack(effects: seq<AlertWorkflow.Effect>, id: int)
  {
    forall i :: 0 <= i < |effects| && effects[i].PostAlert? ==> OriginalMessageId(effects[i].fields) == Some(id)
  }

  lemma LinksBackAppend(a: seq<AlertWorkflow.Effect>, b: seq<AlertWorkflow.Effect>, id: int)
    requires LinksBack(a, id) && LinksBack(b, id)
    ensures LinksBack(a + b, id)
  {
    forall i | 0 <= i < |a + b| && (a + b)[i].PostAlert?
      ensures OriginalMessageId((a + b)[i].fields) == Some(id)
    {
      if i >= |a| {
        assert (a + b)[i] == b[i - |a|];
      }
    }
  }

  /** The message link of every alert posted for a message parses back to that message's id. */
  lemma {:induction false} AlertsLinkBack(tables: AlertWorkflow.Tables, m: AlertWorkflow.Message, guildName: string,
                                          hits: seq<Hit>, world: AlertWorkflow.World, alertIds: nat -> int, k: nat)
    requires k <= |hits|
    requires m.id >= 0
    ensures LinksBack(HandleAll(tables, m, guildName, hits, world, alertIds, k).1, m.id)
    decreases |hits| - k
  {
    if k < |hits| {
      var first := Handle(tables, m, guildName, hits[k].text, world, alertIds(k));
      var rest := HandleAll(first.0, m, guildName, hits, world, alertIds, k + 1);
      HandlePostsFields(tables, m, guildName, hits[k].text, world, alertIds(k));
      AlertFieldsLinkBack(m, guildName, hits[k].text);
      assert LinksBack(first.1, m.id);
      AlertsLinkBack(first.0, m, guildName, hits, world, alertIds, k + 1);
      LinksBackAppend(first.1, rest.1, m.id);
      assert HandleAll(tables, m, guildName, hits, world, alertIds, k).1 == first.1 + rest.1;
    }
  }

  /** Without a configuration for the guild nothing is stored or sent, however many images are flagged. */
  lemma {:induction false} NoThreadNoAlerts(tables: AlertWorkflow.Tables, m: AlertWorkflow.Message, guildName: string,
                                            hits: seq<Hit>, world: AlertWorkflow.World, alertIds: nat -> int, k: nat)
    requires k <= |hits|
    requires m.guildId !in world.configs
    ensures HandleAll(tables, m, guildName, hits, world, alertIds, k).0 == tables
    ensures HandleAll(tables, m, guildName, hits, world, alertIds, k).1 == []
    decreases |hits| - k
  {
    if k < |hits| {
      assert Handle(tables, m, guildName, hits[k].text, world, alertIds(k)) == (tables, []);
      NoThreadNoAlerts(tables, m, guildName, hits, world, alertIds, k + 1);
      var rest := HandleAll(tables, m, guildName, hits, world, alertIds, k + 1);
      assert rest.0 == tables && rest.1 == [];
      assert HandleAll(tables, m, guildName, hits, world, alertIds, k).1 == [] + rest.1;
      assert HandleAll(tables, m, guildName, hits, world, alertIds, k).0 == rest.0;
    }
  }

  // ---------------------------------------------------------------- re-check from an alert

  /**
   * The original message id `check_attachments` reads from the alert: the last '/'-separated
   * part of the third embed field, as `int()` parses it. Fewer than three fields, or a part
   * that is not an integer, raise in the source and give `None` here.
   */
  function OriginalMessageId(fields: seq<string>): (r: Option<int>)
    ensures |fields| < 3 ==> r.None?
  {
    if |fields| < 3 then None else Text.ParseInt(Text.LastPart(fields[2], '/'))
  }

  /** A message link `…/<channel>/<message>` yields its message id. */
  lemma JumpUrlRoundTrip(prefix: string, messageId: nat, f0: string, f1: string)
    ensures OriginalMessageId([f0, f1, prefix + "/" + Text.NatToString(messageId)]) == Some(messageId)
  {
    var d := Text.NatToString(messageId);
    forall i | 0 <= i < |d|
      ensures d[i] != '/'
    {
      assert Text.IsDigit(d[i]);
    }
    assert prefix + "/" + d == prefix + ['/'] + d;
    Text.LastPartAfterSep(prefix, '/', d);
    Text.ParseIntToString(messageId);
  }

  /** The link an alert is built with parses back to the id of the message it reports. */
  lemma AlertFieldsLinkBack(m: AlertWorkflow.Message, guildName: string, text: string)
    requires m.id >= 0
    ensures OriginalMessageId(AlertFields(m, guildName, text)) == Some(m.id)
  {
    var prefix := ChannelsUrl + Text.IntToString(m.guildId) + "/" + Text.IntToString(m.channelId);
    assert JumpUrl(m) == prefix + "/" + Text.NatToString(m.id);
    JumpUrlRoundTrip(prefix, m.id, AlertFields(m, guildName, text)[0], AlertFields(m, guildName, text)[1]);
  }

  /**
   * `check_attachments`, run when staff confirm an NSFW alert. The original message id is read
   * from the alert's third field and fetched from the channel the alert was posted in:
   * `found` holds the messages `fetch_message` finds there, each with whether it has an
   * attachment. An original with an attachment is alerted again with the alert's extracted
   * text. A missing embed, a missing field, an unparsable link or a message the channel does
   * not hold ends the re-check; the source raises on the last three.
   */
  function Recheck(tables: AlertWorkflow.Tables, embedFields: Option<seq<string>>,
                   found: map<int, (AlertWorkflow.Message, bool)>, guildName: string,
                   world: AlertWorkflow.World, alertId: int): (r: (AlertWorkflow.Tables, seq<AlertWorkflow.Effect>))
    ensures r.0.actions == tables.actions
    ensures r.1 != [] ==>
      embedFields.Some? && OriginalMessageId(embedFields.value).Some?
      && OriginalMessageId(embedFields.value).value in found
      && found[OriginalMessageId(embedFields.value).value].1
  {
    if embedFields.None? then (tables, [])
    else
      match OriginalMessageId(embedFields.value)
      case None => (tables, [])
      case Some(id) =>
        if id !in found || !found[id].1 then (tables, [])
        else Handle(tables, found[id].0, guildName, embedFields.value[0], world, alertId)
  }

  /**
   * Confirming an alert the listener posted, when the alert's channel holds the original
   * message with its attachment, posts a second alert with exactly the same three fields.
   */
  lemma RecheckRepostsSameFields(tables: AlertWorkflow.Tables, m: AlertWorkflow.Message, guildName: string,
                                 text: string, found: map<int, (AlertWorkflow.Message, bool)>,
                                 world: AlertWorkflow.World, alertId: int)
    requires m.id >= 0
    requires m.id in found && found[m.id] == (m, true)
    ensures var r := Recheck(tables, Some(AlertFields(m, guildName, text)), found, guildName, world, alertId);
      r == Handle(tables, m, guildName, text, world, alertId)
      && forall i :: 0 <= i < |r.1| && r.1[i].PostAlert? ==> r.1[i].fields == AlertFields(m, guildName, text)
  {
    AlertFieldsLinkBack(m, guildName, text);
    var fields := AlertFields(m, guildName, text);
    assert AlertFields(m, guildName, fields[0]) == fields;
    HandlePostsFields(tables, m, guildName, text, world, alertId);
  }
}

=== FILE: paging.dfy ===
/**
 * Page navigation shared by the paginated views (reaction-role menu list, keyword help,
 * image search): "previous" and "next" move one page within `[first, last]` and are
 * no-ops at the ends.
 */
module Paging {

  /** "Previous": never moves forward, moves at most one page, and moves exactly off the first. */
  function Prev(page: int, first: int): (p: int)
    ensures page - 1 <= p <= page
    ensures p < page <==> page > first
  {
    if page > first then page - 1 else page
  }

  /** "Next": never moves back, moves at most one page, and moves exactly below the last. */
  function Next(page: int, last: int): (p: int)
    ensures page <= p <= page + 1
    ensures p > page <==> page < last
  {
    if page < last then page + 1 else page
  }

  /** Both moves keep a page inside `[first, last]`. */
  lemma StaysInRange(page: int, first: int, last: int)
    requires first <= page <= last
    ensures first <= Prev(page, first) <= last
    ensures first <= Next(page, last) <= last
  {
  }

  /** Away from the ends, "next" undoes "previous" and the other way round. */
  lemma PrevNextInverse(page: int, first: int, last: int)
    requires first <= page <= last
    ensures page > first ==> Next(Prev(page, first), last) == page
    ensures page < last ==> Prev(Next(page, last), first) == page
  {
  }

  /** The page a sequence of moves (true = next, false = previous) ends on, from `page`. */
  function Walk(page: int, first: int, last: int, moves: seq<bool>): (p: int)
    requires first <= page <= last
    ensures first <= p <= last
    decreases |moves|
  {
    if moves == [] then page
    else
      var q := if moves[0] then Next(page, last) else Prev(page, first);
      Walk(q, first, last, moves[1..])
  }
}

=== FILE: prefix_manager.dfy ===
/**
 * The `setprefix` command: a guild's command prefix, kept in the bot's in-memory map and in
 * the `guild_prefixes` table, whose rows are keyed by guild id and written with an upsert.
 */
module PrefixManager {
  import opened Wrappers

  /** The bot's `guild_prefixes` dictionary. */
  type Prefixes = map<int, string>

  /** A row of the `guild_prefixes` table. */
  datatype PrefixRow = PrefixRow(guild: int, prefix: string)

  /** The table's key: no two rows share a guild id. */
  predicate KeyedByGuild(rows: seq<PrefixRow>)
  {
    forall i, j :: 0 <= i < j < |rows| ==> rows[i].guild != rows[j].guild
  }

  /** The stored prefix of a guild. */
  function Lookup(rows: seq<PrefixRow>, guild: int): (r: Option<string>)
    ensures r.None? <==> forall i :: 0 <= i < |rows| ==> rows[i].guild != guild
    ensures r.Some? ==> exists i :: 0 <= i < |rows| && rows[i] == PrefixRow(guild, r.value)
    decreases |rows|
  {
    if rows == [] then None
    else if rows[0].guild == guild then Some(rows[0].prefix)
    else
      var r := Lookup(rows[1..], guild);
      assert forall i :: 1 <= i < |rows| ==> rows[i] == rows[1..][i - 1];
      if r.Some? then
        ghost var i :| 0 <= i < |rows[1..]| && rows[1..][i] == PrefixRow(guild, r.value);
        assert rows[i + 1] == PrefixRow(guild, r.value);
        r
      else r
  }

  /** Some row of the table is the guild's. */
  predicate HasGuild(rows: seq<PrefixRow>, guild: int)
  {
    exists i :: 0 <= i < |rows| && rows[i].guild == guild
  }

  /** `INSERT ... ON CONFLICT(guild_id) DO UPDATE SET prefix = ?`: replace the guild's row in place, or add one. */
  function Upsert(rows: seq<PrefixRow>, guild: int, prefix: string): (r: seq<PrefixRow>)
    ensures |r| == if HasGuild(rows, guild) then |rows| else |rows| + 1
    ensures forall i :: 0 <= i < |rows| ==> r[i] == (if rows[i].guild == guild then PrefixRow(guild, prefix) else rows[i])
    ensures !HasGuild(rows, guild) ==> r[|rows|] == PrefixRow(guild, prefix)
  {
    if HasGuild(rows, guild) then
      seq(|rows|, i requires 0 <= i < |rows| => if rows[i].guild == guild then PrefixRow(guild, prefix) else rows[i])
    else rows + [PrefixRow(guild, prefix)]
  }

  /** In a keyed table, looking up a row's guild finds that row's prefix. */
  lemma LookupKeyed(rows: seq<PrefixRow>, i: nat)
    requires KeyedByGuild(rows) && i < |rows|
    ensures Lookup(rows, rows[i].guild) == Some(rows[i].prefix)
  {
    var r := Lookup(rows, rows[i].guild);
    var j :| 0 <= j < |rows| && rows[j] == PrefixRow(rows[i].guild, r.value);
    if j < i {
      assert rows[j].guild != rows[i].guild;
    } else if i < j {
      assert rows[i].guild != rows[j].guild;
    }
  }

  /** The upsert keeps the table keyed by guild, stores the prefix, and leaves other guilds' rows alone. */
  lemma UpsertStores(rows: seq<PrefixRow>, guild: int, prefix: string, other: int)
    requires KeyedByGuild(rows)
    ensures KeyedByGuild(Upsert(rows, guild, prefix))
    ensures Lookup(Upsert(rows, guild, prefix), guild) == Some(prefix)
    ensures other != guild ==> Lookup(Upsert(rows, guild, prefix), other) == Lookup(rows, other)
  {
    var r := Upsert(rows, guild, prefix);
    assert forall i :: 0 <= i < |r| ==> r[i].guild == (if i < |rows| then rows[i].guild else guild);
    var k: nat :| k < |r| && r[k].guild == guild;
    LookupKeyed(r, k);
    if other != guild {
      if HasGuild(rows, other) {
        var m: nat :| m < |rows| && rows[m].guild == other;
        LookupKeyed(rows, m);
        LookupKeyed(r, m);
      } else {
        assert forall i :: 0 <= i < |r| ==> r[i].guild != other;
      }
    }
  }

  /** Upserting twice for a guild leaves what upserting the second prefix alone leaves. */
  lemma UpsertLastWins(rows: seq<PrefixRow>, guild: int, p1: string, p2: string)
    ensures Upsert(Upsert(rows, guild, p1), guild, p2) == Upsert(rows, guild, p2)
  {
    var once := Upsert(rows, guild, p1);
    if HasGuild(rows, guild) {
      var i :| 0 <= i < |rows| && rows[i].guild == guild;
      assert once[i].guild == guild;
    } else {
      assert once[|rows|].guild == guild;
    }
  }

  /** `Raised` is the `AttributeError` that ends the command before its reply. */
  datatype Reply = GuildOnly | Updated(text: string) | Raised

  datatype Outcome = Outcome(prefixes: Prefixes, rows: seq<PrefixRow>, reply: Reply)

  /**
   * `setprefix` as intended (corrected): in a guild, both the map and the table get the new
   * prefix and the reply echoes it.
   */
  function SetPrefix(guild: Option<int>, newPrefix: string, prefixes: Prefixes, rows: seq<PrefixRow>): (r: Outcome)
    ensures guild.None? <==> r.reply == GuildOnly
    ensures guild.None? ==> r.prefixes == prefixes && r.rows == rows
    ensures guild.Some? ==> r.prefixes.Keys == prefixes.Keys + {guild.value} && r.prefixes[guild.value] == newPrefix
    ensures forall g :: g in prefixes && (guild.None? || g != guild.value) ==> g in r.prefixes && r.prefixes[g] == prefixes[g]
    ensures guild.Some? ==> r.rows == Upsert(rows, guild.value, newPrefix)
    ensures guild.Some? ==> r.reply == Updated("Prefix for this guild updated to: `" + newPrefix + "`")
  {
    match guild
    case None => Outcome(prefixes, rows, GuildOnly)
    case Some(g) =>
      Outcome(prefixes[g := newPrefix], Upsert(rows, g, newPrefix), Updated("Prefix for this guild updated to: `" + newPrefix + "`"))
  }

  /** After the corrected `setprefix` in a guild, the memory and the table agree on that guild's prefix. */
  lemma MemoryAndTableAgree(g: int, newPrefix: string, prefixes: Prefixes, rows: seq<PrefixRow>)
    requires KeyedByGuild(rows)
    ensures var r := SetPrefix(Some(g), newPrefix, prefixes, rows);
            KeyedByGuild(r.rows) && Lookup(r.rows, g) == Some(r.prefixes[g])
  {
    UpsertStores(rows, g, newPrefix, g);
  }

  /**
   * Whether the client has a `guild_prefixes` attribute: the client handler builds a plain
   * `commands.Bot` and nothing assigns one.
   */
  const ClientHasPrefixes: bool := false

  /**
   * `setprefix` as written: in a guild, `self.client.guild_prefixes` raises `AttributeError`
   * before the table write and before the reply.
   */
  function SetPrefixAsWritten(guild: Option<int>, newPrefix: string, prefixes: Prefixes, rows: seq<PrefixRow>): (r: Outcome)
    ensures guild.None? ==> r == Outcome(prefixes, rows, GuildOnly)
    ensures guild.Some? ==> r == Outcome(prefixes, rows, Raised)
  {
    if guild.Some? && !ClientHasPrefixes then Outcome(prefixes, rows, Raised)
    else SetPrefix(guild, newPrefix, prefixes, rows)
  }

  /**
   * As written the command never stores a prefix and never confirms one; outside a guild it
   * agrees with the corrected command.
   */
  lemma AsWrittenNeverStores(guild: Option<int>, newPrefix: string, prefixes: Prefixes, rows: seq<PrefixRow>)
    ensures var r := SetPrefixAsWritten(guild, newPrefix, prefixes, rows);
            r.rows == rows && r.prefixes == prefixes && !r.reply.Updated?
    ensures guild.None? ==> SetPrefixAsWritten(guild, newPrefix, prefixes, rows) == SetPrefix(guild, newPrefix, prefixes, rows)
  {
  }
}

=== FILE: progress_bar.dfy ===
/**
 * The progress bar helper: a bar of `#` and `-` between brackets whose filled part is the
 * rounded fraction `current / total` of the bar's length. Python's `round` rounds halves to
 * the even neighbour; the ratio is taken exactly here.
 */
module ProgressBar {
  import Text

  /** A constructed bar: its total and its length (twenty unless given). */
  datatype Bar = Bar(total: int, length: int)

  const DefaultLength: int := 20

  /** What the helper returns, or the `ValueError` it raises with its message. */
  datatype Made<T> = Made(value: T) | ValueError(message: string)

  /** `ProgressBar(total, bar_length)`: the total must be positive; the length is not checked. */
  function NewBar(total: int, length: int): (r: Made<Bar>)
    ensures total <= 0 <==> r.ValueError?
    ensures r.ValueError? ==> r.message == "Total must be greater than 0."
    ensures r.Made? ==> r.value.total == total && r.value.length == length
  {
    if total <= 0 then ValueError("Total must be greater than 0.") else Made(Bar(total, length))
  }

  /**
   * `round(a / b)` with halves going to the even neighbour: the nearest integer to `a / b`,
   * and the even one of the two when both are as near.
   */
  function RoundHalfEven(a: int, b: int): (k: int)
    requires b > 0
    ensures Nearest(a, b, k)
  {
    var q, rem := a / b, a % b;
    assert a == q * b + rem;
    assert (q + 1) * b == q * b + b;
    if 2 * rem < b then q
    else if 2 * rem > b then q + 1
    else if q % 2 == 0 then q
    else q + 1
  }

  /** `k` is a nearest integer to `a / b`, the even one on a tie. */
  predicate Nearest(a: int, b: int, k: int)
  {
    2 * (a - k * b) <= b && 2 * (k * b - a) <= b
    && (2 * (a - k * b) == b ==> k % 2 == 0)
    && (2 * (k * b - a) == b ==> k % 2 == 0)
  }

  /** Only one integer is nearest with ties to even: `RoundHalfEven` is that integer. */
  lemma {:induction false} RoundIsNearest(a: int, b: int, k: int)
    requires b > 0 && Nearest(a, b, k)
    ensures RoundHalfEven(a, b) == k
  {
    var r := RoundHalfEven(a, b);
    NearestOrdered(a, a, b, r, k);
    NearestOrdered(a, a, b, k, r);
  }

  /** The nearest integers to two ratios over the same `b` come in the ratios' order. */
  lemma {:induction false} NearestOrdered(a1: int, a2: int, b: int, k1: int, k2: int)
    requires b > 0 && a1 <= a2
    requires Nearest(a1, b, k1) && Nearest(a2, b, k2)
    ensures k1 <= k2
  {
    if k1 > k2 {
      // `k1` sits at least `b` above `k2`, so both are exactly half of `b` away: a tie between
      // neighbours, which cannot both be even.
      var d := k1 - k2;
      MulDistance(k2, d, b);
      if d >= 2 {
        MulLe(2, d, b);
      }
      assert false;
    }
  }

  /** `(lo + d) * b` is `lo * b + d * b`. */
  lemma MulDistance(lo: int, d: int, b: int)
    ensures (lo + d) * b == lo * b + d * b
  {
  }

  lemma MulLe(x: int, y: int, b: int)
    requires x <= y && b >= 0
    ensures x * b <= y * b
  {
  }

  /** Rounding the larger of two ratios never gives the smaller result. */
  lemma {:induction false} RoundMonotone(a1: int, a2: int, b: int)
    requires b > 0 && a1 <= a2
    ensures RoundHalfEven(a1, b) <= RoundHalfEven(a2, b)
  {
    NearestOrdered(a1, a2, b, RoundHalfEven(a1, b), RoundHalfEven(a2, b));
  }

  /** Python's `c * n` on a string: empty for a count of zero or less. */
  function Times(c: char, n: int): (r: string)
    ensures |r| == if n < 0 then 0 else n
    ensures forall i :: 0 <= i < |r| ==> r[i] == c
  {
    if n <= 0 then "" else Text.Repeat(c, n)
  }

  /** The filled length for `current`. */
  function Filled(bar: Bar, current: int): int
    requires bar.total > 0
  {
    RoundHalfEven(current * bar.length, bar.total)
  }

  /** `create(current)`: the bracketed bar, or the error for a negative or excessive current. */
  function Create(bar: Bar, current: int): (r: Made<string>)
    requires bar.total > 0
    ensures current < 0 ==> r == ValueError("Current progress cannot be negative.")
    ensures current > bar.total ==> r == ValueError("Current progress cannot exceed total.")
    ensures 0 <= current <= bar.total ==> r.Made?
    ensures r.Made? ==> r.value == "[" + Times('#', Filled(bar, current)) + Times('-', bar.length - Filled(bar, current)) + "]"
  {
    if current < 0 then ValueError("Current progress cannot be negative.")
    else if current > bar.total then ValueError("Current progress cannot exceed total.")
    else
      var k := Filled(bar, current);
      Made("[" + Times('#', k) + Times('-', bar.length - k) + "]")
  }

  /** For an accepted `current`, the filled part lies within the bar. */
  lemma {:induction false} FilledInRange(bar: Bar, current: int)
    requires bar.total > 0 && bar.length >= 0 && 0 <= current <= bar.total
    ensures 0 <= Filled(bar, current) <= bar.length
  {
    MulLe(current, bar.total, bar.length);
    assert current * bar.length <= bar.length * bar.total;
    RoundMonotone(0, current * bar.length, bar.total);
    RoundMonotone(current * bar.length, bar.length * bar.total, bar.total);
    RoundIsNearest(0, bar.total, 0);
    RoundIsNearest(bar.length * bar.total, bar.total, bar.length);
  }

  /**
   * The bar's shape: `length + 2` characters, the brackets at the ends, `#` over the filled part
   * and `-` after it, with the filled part the nearest whole share of the length.
   */
  lemma {:induction false} BarShape(bar: Bar, current: int)
    requires bar.total > 0 && bar.length >= 0 && 0 <= current <= bar.total
    ensures var s := Create(bar, current).value;
            var k := Filled(bar, current);
            |s| == bar.length + 2 && s[0] == '[' && s[|s| - 1] == ']'
            && (forall i :: 1 <= i <= k ==> s[i] == '#')
            && (forall i :: k < i <= bar.length ==> s[i] == '-')
            && 2 * (current * bar.length - k * bar.total) <= bar.total
            && 2 * (k * bar.total - current * bar.length) <= bar.total
  {
    FilledInRange(bar, current);
    var k := Filled(bar, current);
    var s := Create(bar, current).value;
    var hashes, dashes := Times('#', k), Times('-', bar.length - k);
    assert s == "[" + hashes + dashes + "]";
    forall i | 1 <= i <= k ensures s[i] == '#' {
      assert s[i] == hashes[i - 1];
    }
    forall i | k < i <= bar.length ensures s[i] == '-' {
      assert s[i] == dashes[i - 1 - k];
    }
  }

  /** Nothing done shows an empty bar; everything done shows a full one. */
  lemma EmptyAndFull(bar: Bar)
    requires bar.total > 0 && bar.length >= 0
    ensures Create(bar, 0).value == "[" + Text.Repeat('-', bar.length) + "]"
    ensures Create(bar, bar.total).value == "[" + Text.Repeat('#', bar.length) + "]"
  {
    RoundIsNearest(0, bar.total, 0);
    assert bar.total * bar.length == bar.length * bar.total;
    RoundIsNearest(bar.length * bar.total, bar.total, bar.length);
  }

  /** More progress never fills less of the bar. */
  lemma FilledMonotone(bar: Bar, c1: int, c2: int)
    requires bar.total > 0 && bar.length >= 0 && c1 <= c2
    ensures Filled(bar, c1) <= Filled(bar, c2)
  {
    MulLe(c1, c2, bar.length);
    RoundMonotone(c1 * bar.length, c2 * bar.length, bar.total);
  }

  /** The default twenty-character bar at one half shows ten `#`. */
  lemma HalfOfDefault()
    ensures Create(Bar(2, DefaultLength), 1).value == "[" + Text.Repeat('#', 10) + Text.Repeat('-', 10) + "]"
  {
    RoundIsNearest(20, 2, 10);
  }
}

=== FILE: reaction_role_menu.dfy ===
/**
 * The reaction-role menu cog: parsing role mentions and emoji, the interactive setup
 * of a menu's emoji-role pairs, listing menus grouped and paginated, importing a menu
 * from JSON, and granting or removing roles when members react.
 */
module ReactionRoleMenu {
  import opened Wrappers
  import Text
  import Collections
  import Paging
  import Store = ReactionRoleStore

  // ---------------------------------------------------------------- parsing helpers

  /**
   * `extract_role_id`: the integer inside `<@&…>`, or a bare digit string's value; `int()`
   * failing (as on `<@&>`) or any other form gives `None`.
   */
  function ExtractRoleId(mention: string): (r: Option<int>)
    ensures r.Some? ==> (Text.StartsWith(mention, "<@&") && Text.EndsWith(mention, ">")) || Text.IsDigitString(mention)
  {
    if Text.StartsWith(mention, "<@&") && Text.EndsWith(mention, ">") then
      assert mention[2] == "<@&"[2] && mention[|mention| - 1] == ">"[0];
      Text.ParseInt(mention[3..|mention| - 1])
    else if Text.IsDigitString(mention) then Some(Text.DigitsValue(mention))
    else None
  }

  /** `int()` of a plain digit string is its value. */
  lemma ParseDigits(d: string)
    requires Text.IsDigitString(d)
    ensures Text.ParseInt(d) == Some(Text.DigitsValue(d))
  {
    assert !Text.IsSpace(d[0]) && !Text.IsSpace(d[|d| - 1]);
    Text.StripNoSpace(d);
  }

  /** A role mention `<@&digits>` gives the role id the digits spell. */
  lemma ExtractRoleIdOfMention(d: string)
    requires Text.IsDigitString(d)
    ensures ExtractRoleId("<@&" + d + ">") == Some(Text.DigitsValue(d))
  {
    var m := "<@&" + d + ">";
    assert m[..3] == "<@&";
    assert m[|m| - 1..] == ">";
    assert m[3..|m| - 1] == d;
    ParseDigits(d);
  }

  /** A bare digit string is taken as the role id itself. */
  lemma ExtractRoleIdOfDigits(d: string)
    requires Text.IsDigitString(d)
    ensures ExtractRoleId(d) == Some(Text.DigitsValue(d))
  {
    assert Text.IsDigit(d[0]);
    assert !Text.StartsWith(d, "<@&") by {
      if |d| >= 3 { assert d[..3][0] == d[0]; }
    }
  }

  /** An empty mention is rejected, as `int("")` raises. */
  lemma EmptyMentionRejected()
    ensures ExtractRoleId("<@&>") == None
  {
    var m := "<@&>";
    assert Text.StartsWith(m, "<@&") && Text.EndsWith(m, ">");
    assert m[3..|m| - 1] == "";
  }

  /**
   * `is_valid_emoji`: anything not shaped `<:…>` is taken as a Unicode emoji and accepted;
   * a custom emoji is valid when the text between its last ':' and the closing '>' is an
   * integer naming one of the guild's emoji.
   */
  function IsValidEmoji(emoji: string, guildEmojis: set<int>): (ok: bool)
    ensures !(Text.StartsWith(emoji, "<:") && Text.EndsWith(emoji, ">")) ==> ok
  {
    if Text.StartsWith(emoji, "<:") && Text.EndsWith(emoji, ">") then
      var last := Text.LastPart(emoji, ':');
      var idText := if |last| > 0 then last[..|last| - 1] else last;
      match Text.ParseInt(idText)
      case None => false
      case Some(id) => id in guildEmojis
    else true
  }

  /** `<:name:id>` is valid exactly when the guild has an emoji with that id. */
  lemma CustomEmojiValidIffKnown(name: string, id: nat, guildEmojis: set<int>)
    ensures IsValidEmoji("<:" + name + ":" + Text.NatToString(id) + ">", guildEmojis) <==> id in guildEmojis
  {
    var digits := Text.NatToString(id);
    var tail := digits + ">";
    var e := "<:" + name + ":" + digits + ">";
    assert e == ("<:" + name) + [':'] + tail;
    assert e[..2] == "<:" && e[|e| - 1..] == ">";
    forall i | 0 <= i < |tail|
      ensures tail[i] != ':'
    {
      if i < |digits| {
        assert tail[i] == digits[i] && Text.IsDigit(digits[i]);
      }
    }
    Text.LastPartAfterSep("<:" + name, ':', tail);
    assert tail[..|tail| - 1] == digits;
    Text.ParseIntToString(id);
  }

  // ---------------------------------------------------------------- setting up a menu

  /** The guild as the setup sees it: its roles (with whether the bot may assign them) and its emoji ids. */
  datatype RoleGuild = RoleGuild(roles: map<int, bool>, emojis: set<int>)

  /** What the setup answers to one line of the emoji-role dialogue. */
  datatype SetupReply =
    | InvalidFormat | InvalidRole | RoleNotFound | NotAssignable
    | DuplicateEmoji(emoji: string) | InvalidEmoji(emoji: string) | ReactionFailed(emoji: string)
    | Added(emoji: string, roleId: int)

  /** How the dialogue ends: out of time, "done" with nothing added, or "done" with the pairs. */
  datatype SetupOutcome =
    | SetupTimedOut(replies: seq<SetupReply>)
    | SetupCancelled(replies: seq<SetupReply>)
    | SetupDone(pairs: seq<(string, int)>, replies: seq<SetupReply>)

  predicate DistinctEmojis(pairs: seq<(string, int)>)
  {
    forall i, j :: 0 <= i < j < |pairs| ==> pairs[i].0 != pairs[j].0
  }

  /** A pair the setup accepts: an existing, assignable role and an emoji that passes validation. */
  predicate Acceptable(pair: (string, int), g: RoleGuild)
  {
    pair.1 in g.roles && g.roles[pair.1] && IsValidEmoji(pair.0, g.emojis) && pair.1 != 0
  }

  function Keys(pairs: seq<(string, int)>): (ks: seq<string>)
    ensures |ks| == |pairs| && forall i :: 0 <= i < |pairs| ==> ks[i] == pairs[i].0
  {
    seq(|pairs|, i requires 0 <= i < |pairs| => pairs[i].0)
  }

  /**
   * One line of the dialogue that is not "done": `emoji role` is checked for format, role
   * mention, existence, hierarchy, a repeated emoji, emoji validity, and whether the bot could
   * react with it (`canReact`), in that order; only a line passing all of them is added.
   */
  function SetupLine(pairs: seq<(string, int)>, line: string, g: RoleGuild, canReact: string -> bool)
    : (r: (seq<(string, int)>, SetupReply))
    requires DistinctEmojis(pairs)
    ensures DistinctEmojis(r.0)
    ensures r.1.Added? ==> r.0 == pairs + [(r.1.emoji, r.1.roleId)] && Acceptable((r.1.emoji, r.1.roleId), g)
                           && canReact(r.1.emoji)
    ensures !r.1.Added? ==> r.0 == pairs
  {
    var parts := Text.SplitFirstWord(Text.Strip(line));
    if |parts| < 2 then (pairs, InvalidFormat)
    else CheckPair(pairs, parts[0], ExtractRoleId(parts[1]), g, canReact)
  }

  /** The checks after the format: the role mention, then the role, then the emoji. */
  function CheckPair(pairs: seq<(string, int)>, emoji: string, role: Option<int>, g: RoleGuild, canReact: string -> bool)
    : (r: (seq<(string, int)>, SetupReply))
    requires DistinctEmojis(pairs)
    ensures DistinctEmojis(r.0)
    ensures r.1.Added? ==> r.0 == pairs + [(emoji, r.1.roleId)] && r.1.emoji == emoji
                           && Acceptable((emoji, r.1.roleId), g) && canReact(emoji)
    ensures !r.1.Added? ==> r.0 == pairs
    ensures r.1.Added? <==> role.Some? && Acceptable((emoji, role.value), g) && canReact(emoji)
                            && forall i :: 0 <= i < |pairs| ==> pairs[i].0 != emoji
  {
    match role
    case None => (pairs, InvalidRole)
    case Some(roleId) =>
      if roleId == 0 then (pairs, InvalidRole)
      else if roleId !in g.roles then (pairs, RoleNotFound)
      else if !g.roles[roleId] then (pairs, NotAssignable)
      else if emoji in Keys(pairs) then
        assert exists i :: 0 <= i < |pairs| && pairs[i].0 == emoji by {
          var i :| 0 <= i < |Keys(pairs)| && Keys(pairs)[i] == emoji;
        }
        (pairs, DuplicateEmoji(emoji))
      else if !IsValidEmoji(emoji, g.emojis) then (pairs, InvalidEmoji(emoji))
      else if !canReact(emoji) then (pairs, ReactionFailed(emoji))
      else
        assert forall i :: 0 <= i < |pairs| ==> pairs[i].0 != emoji by {
          forall i | 0 <= i < |pairs| ensures pairs[i].0 != emoji {
            assert Keys(pairs)[i] == pairs[i].0;
          }
        }
        (pairs + [(emoji, roleId)], Added(emoji, roleId))
  }

  /** An accepted line keeps every pair acceptable. */
  lemma SetupLineAcceptable(pairs: seq<(string, int)>, line: string, g: RoleGuild, canReact: string -> bool)
    requires DistinctEmojis(pairs) && forall k :: 0 <= k < |pairs| ==> Acceptable(pairs[k], g)
    ensures var r := SetupLine(pairs, line, g, canReact).0;
            forall k :: 0 <= k < |r| ==> Acceptable(r[k], g)
  {
    var r := SetupLine(pairs, line, g, canReact);
    if r.1.Added? {
      AppendAcceptable(pairs, (r.1.emoji, r.1.roleId), g);
    }
  }

  lemma AppendAcceptable(pairs: seq<(string, int)>, added: (string, int), g: RoleGuild)
    requires forall k :: 0 <= k < |pairs| ==> Acceptable(pairs[k], g)
    requires Acceptable(added, g)
    ensures forall k :: 0 <= k < |pairs + [added]| ==> Acceptable((pairs + [added])[k], g)
  {
    forall k | 0 <= k < |pairs + [added]|
      ensures Acceptable((pairs + [added])[k], g)
    {
      if k < |pairs| {
        assert (pairs + [added])[k] == pairs[k];
      }
    }
  }

  /** The dialogue loop of `create_menu` over the member's successive lines. */
  function SetupDialogue(lines: seq<string>, g: RoleGuild, canReact: string -> bool,
                         pairs: seq<(string, int)>, replies: seq<SetupReply>): (r: SetupOutcome)
    requires DistinctEmojis(pairs)
    requires forall k :: 0 <= k < |pairs| ==> Acceptable(pairs[k], g)
    ensures r.SetupDone? ==> |r.pairs| > 0 && DistinctEmojis(r.pairs)
                             && forall k :: 0 <= k < |r.pairs| ==> Acceptable(r.pairs[k], g)
    decreases |lines|
  {
    if lines == [] then SetupTimedOut(replies)
    else if Text.Lower(lines[0]) == "done" then
      if pairs == [] then SetupCancelled(replies) else SetupDone(pairs, replies)
    else
      var step := SetupLine(pairs, lines[0], g, canReact);
      SetupLineAcceptable(pairs, lines[0], g, canReact);
      SetupDialogue(lines[1..], g, canReact, step.0, replies + [step.1])
  }

  /** "done" before any pair was accepted cancels the setup. */
  lemma DoneFirstCancels(lines: seq<string>, g: RoleGuild, canReact: string -> bool)
    requires |lines| > 0 && Text.Lower(lines[0]) == "done"
    ensures SetupDialogue(lines, g, canReact, [], []).SetupCancelled?
  {
  }

  /** The description reply: a timeout or "skip" in any case leaves it empty, anything else is stripped. */
  function DescriptionOf(reply: Option<string>): (d: string)
    ensures reply.None? ==> d == ""
    ensures reply.Some? && Text.Lower(reply.value) != "skip" ==> d == Text.Strip(reply.value)
  {
    if reply.None? || Text.Lower(reply.value) == "skip" then "" else Text.Strip(reply.value)
  }

  datatype CreateResult = EmptyName | SetupAbandoned | SaveFailed | Created(menuId: string)

  /**
   * `create_menu` from the name onwards, on the table layout `schema`: a name that strips to
   * nothing cancels; the dialogue must end with at least one pair; the description is the
   * stripped reply unless it is "skip" in any case or the wait timed out (`None`). Then the
   * pairs are inserted one by one under the menu id; an insert that fails ends the loop with
   * the error reply, and the rows inserted before it stay.
   */
  function CreateMenu(schema: Store.Schema, t: Store.Table, nameReply: string, lines: seq<string>,
                      descriptionReply: Option<string>, g: RoleGuild, canReact: string -> bool,
                      menuId: string, guildId: int, channelId: int, messageId: int): (r: (Store.Table, CreateResult))
    ensures |t| <= |r.0| && r.0[..|t|] == t
    ensures r.1 != SaveFailed && !r.1.Created? ==> r.0 == t
    ensures r.1.Created? ==> |r.0| > |t|
    ensures schema.Unkeyed? ==> r.1 != SaveFailed
  {
    var name := Text.Strip(nameReply);
    if name == [] then (t, EmptyName)
    else
      match SetupDialogue(lines, g, canReact, [], [])
      case SetupDone(pairs, _) =>
        var h := Store.MenuHeader(menuId, guildId, channelId, messageId, name, DescriptionOf(descriptionReply));
        var saved := Store.Save(schema, t, h, pairs);
        (saved.0, if saved.1 then Created(menuId) else SaveFailed)
      case _ => (t, SetupAbandoned)
  }

  /**
   * On the table as declared, a finished dialogue for a fresh menu id stores only the first
   * pair, and the menu is reported created exactly when the dialogue had one pair; otherwise
   * the save fails with the first row left behind.
   */
  lemma CreateMenuAsDeclared(t: Store.Table, nameReply: string, lines: seq<string>, descriptionReply: Option<string>,
                             g: RoleGuild, canReact: string -> bool,
                             menuId: string, guildId: int, channelId: int, messageId: int)
    requires Store.FetchMenu(t, menuId).None?
    requires Text.Strip(nameReply) != []
    ensures SetupDialogue(lines, g, canReact, [], []).SetupDone? ==>
      var pairs := SetupDialogue(lines, g, canReact, [], []).pairs;
      var h := Store.MenuHeader(menuId, guildId, channelId, messageId, Text.Strip(nameReply), DescriptionOf(descriptionReply));
      CreateMenu(Store.Declared, t, nameReply, lines, descriptionReply, g, canReact, menuId, guildId, channelId, messageId)
        == (t + [Store.RowOf(h, pairs[0].0, pairs[0].1)], if |pairs| == 1 then Created(menuId) else SaveFailed)
  {
    if SetupDialogue(lines, g, canReact, [], []).SetupDone? {
      var pairs := SetupDialogue(lines, g, canReact, [], []).pairs;
      var h := Store.MenuHeader(menuId, guildId, channelId, messageId, Text.Strip(nameReply), DescriptionOf(descriptionReply));
      Store.StorePairsKeyedFresh(t, h, pairs);
      var saved := Store.Save(Store.Declared, t, h, pairs);
      assert saved == Store.StorePairsKeyed(t, h, pairs);
      assert CreateMenu(Store.Declared, t, nameReply, lines, descriptionReply, g, canReact, menuId, guildId, channelId, messageId)
        == (saved.0, if saved.1 then Created(menuId) else SaveFailed);
    }
  }

  /**
   * On the table without the key, a created menu holds every pair of the dialogue, each found
   * again through the menu's message, and the pairs have distinct emoji.
   */
  lemma CreatedMenuIsReachable(t: Store.Table, nameReply: string, lines: seq<string>, descriptionReply: Option<string>,
                               g: RoleGuild, canReact: string -> bool,
                               menuId: string, guildId: int, channelId: int, messageId: int, k: nat)
    ensures CreateMenu(Store.Unkeyed, t, nameReply, lines, descriptionReply, g, canReact, menuId, guildId, channelId,
                       messageId).1.Created?
            ==> SetupDialogue(lines, g, canReact, [], []).SetupDone?
                && DistinctEmojis(SetupDialogue(lines, g, canReact, [], []).pairs)
    ensures CreateMenu(Store.Unkeyed, t, nameReply, lines, descriptionReply, g, canReact, menuId, guildId, channelId,
                       messageId).1.Created?
            && k < |SetupDialogue(lines, g, canReact, [], []).pairs| ==>
      var pair := SetupDialogue(lines, g, canReact, [], []).pairs[k];
      var h := Store.MenuHeader(menuId, guildId, channelId, messageId, Text.Strip(nameReply), DescriptionOf(descriptionReply));
      Store.RowOf(h, pair.0, pair.1)
        in Store.ByMessage(CreateMenu(Store.Unkeyed, t, nameReply, lines, descriptionReply, g, canReact, menuId,
                                      guildId, channelId, messageId).0, guildId, Some(messageId))
  {
    if CreateMenu(Store.Unkeyed, t, nameReply, lines, descriptionReply, g, canReact, menuId, guildId, channelId,
                  messageId).1.Created? {
      var pairs := SetupDialogue(lines, g, canReact, [], []).pairs;
      var h := Store.MenuHeader(menuId, guildId, channelId, messageId, Text.Strip(nameReply), DescriptionOf(descriptionReply));
      if k < |pairs| {
        Store.StoredPairsFoundByMessage(t, h, pairs, k);
      }
    }
  }

  // ---------------------------------------------------------------- listing menus

  /** One menu of the listing: the header of its first row and its pairs in row order. */
  datatype MenuEntry = MenuEntry(menuId: string, name: string, description: string, channelId: int,
                                 messageId: int, reactions: seq<(string, int)>)

  function MenuIds(menus: seq<MenuEntry>): (ids: seq<string>)
    ensures |ids| == |menus| && forall i :: 0 <= i < |menus| ==> ids[i] == menus[i].menuId
  {
    seq(|menus|, i requires 0 <= i < |menus| => menus[i].menuId)
  }

  predicate DistinctIds(menus: seq<MenuEntry>)
  {
    forall i, j :: 0 <= i < j < |menus| ==> menus[i].menuId != menus[j].menuId
  }

  /** The pairs of menu `id` in row order. */
  function PairsOf(rows: Store.Table, id: string): seq<(string, int)>
  {
    if rows == [] then []
    else
      var last := rows[|rows| - 1];
      PairsOf(rows[..|rows| - 1], id) + (if last.menuId == id then [(last.emoji, last.roleId)] else [])
  }

  /** One step of the grouping loop: a new menu id opens an entry at the end; a known one gains a pair. */
  function AddRow(menus: seq<MenuEntry>, row: Store.MenuRow): (r: seq<MenuEntry>)
    requires DistinctIds(menus)
    ensures DistinctIds(r)
    ensures row.menuId in MenuIds(menus) ==> MenuIds(r) == MenuIds(menus)
    ensures row.menuId !in MenuIds(menus) ==> MenuIds(r) == MenuIds(menus) + [row.menuId]
    ensures forall i :: 0 <= i < |menus| ==>
      r[i] == if menus[i].menuId == row.menuId
              then menus[i].(reactions := menus[i].reactions + [(row.emoji, row.roleId)]) else menus[i]
    ensures row.menuId !in MenuIds(menus) ==>
      r[|menus|] == MenuEntry(row.menuId, row.name, row.description, row.channelId, row.messageId, [(row.emoji, row.roleId)])
  {
    if row.menuId in MenuIds(menus) then
      var i :| 0 <= i < |menus| && MenuIds(menus)[i] == row.menuId;
      var r := menus[i := menus[i].(reactions := menus[i].reactions + [(row.emoji, row.roleId)])];
      assert MenuIds(r) == MenuIds(menus);
      r
    else
      var r := menus + [MenuEntry(row.menuId, row.name, row.description, row.channelId, row.messageId,
                                  [(row.emoji, row.roleId)])];
      assert MenuIds(r) == MenuIds(menus) + [row.menuId];
      r
  }

  /** The grouping loop of `list_menus`: menus in order of first appearance. */
  function Group(rows: Store.Table): (menus: seq<MenuEntry>)
    ensures DistinctIds(menus)
    ensures forall id :: id in MenuIds(menus) <==> exists k :: 0 <= k < |rows| && rows[k].menuId == id
  {
    if rows == [] then []
    else
      var init := rows[..|rows| - 1];
      assert forall k :: 0 <= k < |init| ==> init[k] == rows[k];
      AddRow(Group(init), rows[|rows| - 1])
  }

  /** Each menu of the listing carries exactly the pairs of its rows, in row order. */
  lemma {:induction false} GroupCollectsPairs(rows: Store.Table, i: nat)
    requires i < |Group(rows)|
    ensures Group(rows)[i].reactions == PairsOf(rows, Group(rows)[i].menuId)
    decreases |rows|
  {
    var init := rows[..|rows| - 1];
    var last := rows[|rows| - 1];
    var g := Group(init);
    var id := Group(rows)[i].menuId;
    if i < |g| {
      GroupCollectsPairs(init, i);
      assert g[i].menuId == id;
    } else {
      assert last.menuId !in MenuIds(g);
      PairsOfAbsent(init, last.menuId);
      assert PairsOf(init, id) == [];
    }
  }

  /** A menu id no row carries has no pairs. */
  lemma {:induction false} PairsOfAbsent(rows: Store.Table, id: string)
    requires forall k :: 0 <= k < |rows| ==> rows[k].menuId != id
    ensures PairsOf(rows, id) == []
    decreases |rows|
  {
    if rows != [] {
      PairsOfAbsent(rows[..|rows| - 1], id);
    }
  }

  /** Fields per listing page, Discord's limit for one embed. */
  const FieldsPerPage: nat := 25

  datatype ListResult = NoMenus | Pages(pages: seq<seq<MenuEntry>>)

  /**
   * `list_menus` as the source reads it: the rows come from the by-message query with no
   * message id, which matches no row, so every guild is reported as having no menus.
   */
  function ListMenusAsWritten(t: Store.Table, guild: int): (r: ListResult)
  {
    var rows := Store.ByMessage(t, guild, None);
    if rows == [] then NoMenus else Pages(Collections.Chunks(Group(rows), FieldsPerPage))
  }

  lemma ListMenusAsWrittenNeverLists(t: Store.Table, guild: int)
    ensures ListMenusAsWritten(t, guild) == NoMenus
  {
  }

  /** `list_menus` reading all of the guild's rows, as it intends. */
  function ListMenus(t: Store.Table, guild: int): (r: ListResult)
    ensures r == NoMenus <==> forall row :: row in t ==> row.guildId != guild
    ensures r.Pages? ==> |r.pages| > 0
                         && Collections.Flatten(r.pages) == Group(Store.ByGuild(t, guild))
                         && forall p :: 0 <= p < |r.pages| ==> 0 < |r.pages[p]| <= FieldsPerPage
  {
    var rows := Store.ByGuild(t, guild);
    if rows == [] then NoMenus
    else
      assert rows[0] in rows;
      var menus := Group(rows);
      assert MenuIds(menus)[0] in MenuIds(menus) by { assert rows[0].menuId in MenuIds(menus); }
      Pages(Collections.Chunks(menus, FieldsPerPage))
  }

  /** A guild with a menu gets it listed; one without gets the "no menus" reply. */
  lemma ListMenusShowsEveryMenu(t: Store.Table, guild: int, row: Store.MenuRow)
    requires row in t && row.guildId == guild
    ensures ListMenus(t, guild).Pages?
    ensures row.menuId in MenuIds(Collections.Flatten(ListMenus(t, guild).pages))
  {
    var rows := Store.ByGuild(t, guild);
    assert row in rows;
    var k :| 0 <= k < |rows| && rows[k] == row;
  }

  /**
   * The page buttons of `paginate`: "Previous" and "Next" move within `[0, n-1]`, and the
   * message is edited only when the page changed.
   */
  function PaginateButton(current: nat, n: nat, next: bool): (r: (nat, bool))
    requires current < n
    ensures r.0 < n
    ensures r.1 <==> r.0 != current
    ensures !next && current == 0 ==> r.0 == 0
    ensures next && current == n - 1 ==> r.0 == current
  {
    var p := if next then Paging.Next(current, n - 1) else Paging.Prev(current, 0);
    (p, p != current)
  }

  // ---------------------------------------------------------------- importing a menu

  const RequiredFields: seq<string> := ["menu_id", "name", "guild_id", "channel_id", "message_id", "reactions"]

  /** The decoded JSON document: which keys it has and their values. */
  datatype MenuJson = MenuJson(keys: set<string>, guildId: int, channelId: int, messageId: int,
                               name: string, description: string, reactions: seq<(string, int)>)

  datatype ImportResult =
    | NotJsonFile | BadJson | MissingFields | OtherGuild
    | UnknownRole(roleId: int) | BadEmoji(emoji: string)
    | ImportSaveFailed | Imported(menuId: string)

  /** The validation loop: the first pair whose role is missing or whose emoji is invalid. */
  function FirstInvalid(pairs: seq<(string, int)>, g: RoleGuild): (r: Option<ImportResult>)
    ensures r.None? <==> forall k :: 0 <= k < |pairs| ==> pairs[k].1 in g.roles && IsValidEmoji(pairs[k].0, g.emojis)
    ensures r.Some? ==> r.value.UnknownRole? || r.value.BadEmoji?
    decreases |pairs|
  {
    if pairs == [] then None
    else if pairs[0].1 !in g.roles then Some(UnknownRole(pairs[0].1))
    else if !IsValidEmoji(pairs[0].0, g.emojis) then Some(BadEmoji(pairs[0].0))
    else
      var r := FirstInvalid(pairs[1..], g);
      assert forall k :: 1 <= k < |pairs| ==> pairs[k] == pairs[1..][k - 1];
      r
  }

  /** The header an imported document's rows carry; a missing description is empty. */
  function ImportHeader(doc: MenuJson, guildId: int, newMenuId: string): Store.MenuHeader
  {
    Store.MenuHeader(newMenuId, guildId, doc.channelId, doc.messageId, doc.name,
                     if "description" in doc.keys then doc.description else "")
  }

  /**
   * `import_menu` on the table layout `schema`: a `.json` attachment that decodes (`json` is
   * `None` when it does not), carries every required key, belongs to this guild and whose
   * pairs all check out is inserted pair by pair under the fresh `newMenuId`; a failing insert
   * ends the loop with the error reply, and the rows inserted before it stay.
   */
  function ImportMenu(schema: Store.Schema, t: Store.Table, filename: string, json: Option<MenuJson>, guildId: int,
                      g: RoleGuild, newMenuId: string): (r: (Store.Table, ImportResult))
    ensures r.1 != ImportSaveFailed && !r.1.Imported? ==> r.0 == t
    ensures r.1 == ImportSaveFailed || r.1.Imported? ==>
      json.Some? && (forall k :: 0 <= k < |RequiredFields| ==> RequiredFields[k] in json.value.keys)
      && json.value.guildId == guildId
      && (forall k :: 0 <= k < |json.value.reactions| ==>
            json.value.reactions[k].1 in g.roles && IsValidEmoji(json.value.reactions[k].0, g.emojis))
      && r.0 == Store.Save(schema, t, ImportHeader(json.value, guildId, newMenuId), json.value.reactions).0
    ensures r.1.Imported? ==> r.1.menuId == newMenuId
    ensures schema.Unkeyed? ==> r.1 != ImportSaveFailed
  {
    if !Text.EndsWith(filename, ".json") then (t, NotJsonFile)
    else if json.None? then (t, BadJson)
    else
      var doc := json.value;
      if exists k :: 0 <= k < |RequiredFields| && RequiredFields[k] !in doc.keys then (t, MissingFields)
      else if doc.guildId != guildId then (t, OtherGuild)
      else
        match FirstInvalid(doc.reactions, g)
        case Some(err) => (t, err)
        case None =>
          var saved := Store.Save(schema, t, ImportHeader(doc, guildId, newMenuId), doc.reactions);
          (saved.0, if saved.1 then Imported(newMenuId) else ImportSaveFailed)
  }

  /**
   * On the table as declared, a valid document with two or more pairs is never imported: only
   * its first pair is stored and the save fails.
   */
  lemma ImportManyPairsFailsAsDeclared(t: Store.Table, filename: string, doc: MenuJson, guildId: int, g: RoleGuild,
                                       newMenuId: string)
    requires Store.FetchMenu(t, newMenuId).None?
    requires |doc.reactions| >= 2
    requires ImportMenu(Store.Unkeyed, t, filename, Some(doc), guildId, g, newMenuId).1.Imported?
    ensures ImportMenu(Store.Declared, t, filename, Some(doc), guildId, g, newMenuId)
      == (t + [Store.RowOf(ImportHeader(doc, guildId, newMenuId), doc.reactions[0].0, doc.reactions[0].1)], ImportSaveFailed)
  {
    Store.StorePairsKeyedFresh(t, ImportHeader(doc, guildId, newMenuId), doc.reactions);
  }

  /** A document for another guild is refused whatever else it holds. */
  lemma ImportRejectsOtherGuild(t: Store.Table, filename: string, doc: MenuJson, guildId: int, g: RoleGuild, id: string)
    requires doc.guildId != guildId
    ensures forall schema :: ImportMenu(schema, t, filename, Some(doc), guildId, g, id).0 == t
    ensures forall schema :: !ImportMenu(schema, t, filename, Some(doc), guildId, g, id).1.Imported?
  {
  }

  // ---------------------------------------------------------------- reactions on a menu message

  /** A raw reaction event on some message. */
  datatype Payload = Payload(userId: int, guildId: int, messageId: int, emoji: string)

  /** A guild as the handlers see it: its roles (assignable or not) and each member's roles. */
  datatype MemberGuild = MemberGuild(roles: map<int, bool>, memberRoles: map<int, set<int>>)

  datatype RoleChange = Grant(roleId: int) | Revoke(roleId: int)

  /** The grant loop: for each row with the reacted emoji, an existing, assignable role the member lacks. */
  function Grants(rows: Store.Table, emoji: string, roles: map<int, bool>, held: set<int>): (r: seq<RoleChange>)
    ensures forall k :: 0 <= k < |r| ==>
      r[k].Grant? && r[k].roleId in roles && roles[r[k].roleId] && r[k].roleId !in held
      && exists row :: row in rows && row.emoji == emoji && row.roleId == r[k].roleId
    ensures forall row :: (row in rows && row.emoji == emoji && row.roleId in roles && roles[row.roleId]
                           && row.roleId !in held) ==> Grant(row.roleId) in r
    decreases |rows|
  {
    if rows == [] then []
    else
      var rest := Grants(rows[1..], emoji, roles, held);
      var row := rows[0];
      assert forall x :: x in rows <==> x == row || x in rows[1..];
      if row.emoji == emoji && row.roleId in roles && roles[row.roleId] && row.roleId !in held
      then [Grant(row.roleId)] + rest
      else rest
  }

  /** The removal loop: for each row with the emoji, an existing role the member holds. */
  function Revokes(rows: Store.Table, emoji: string, roles: map<int, bool>, held: set<int>): (r: seq<RoleChange>)
    ensures forall k :: 0 <= k < |r| ==>
      r[k].Revoke? && r[k].roleId in roles && r[k].roleId in held
      && exists row :: row in rows && row.emoji == emoji && row.roleId == r[k].roleId
    ensures forall row :: (row in rows && row.emoji == emoji && row.roleId in roles && row.roleId in held)
                          ==> Revoke(row.roleId) in r
    decreases |rows|
  {
    if rows == [] then []
    else
      var rest := Revokes(rows[1..], emoji, roles, held);
      var row := rows[0];
      assert forall x :: x in rows <==> x == row || x in rows[1..];
      if row.emoji == emoji && row.roleId in roles && row.roleId in held then [Revoke(row.roleId)] + rest else rest
  }

  /**
   * `handle_reaction_add` / `handle_reaction_remove`: the bot's own reactions are ignored;
   * otherwise the menu rows of the reacted message are consulted, provided the guild and the
   * member resolve.
   */
  function OnReaction(t: Store.Table, p: Payload, added: bool, botId: int, guilds: map<int, MemberGuild>)
    : (r: seq<RoleChange>)
    ensures p.userId == botId ==> r == []
  {
    if p.userId == botId then []
    else
      var rows := Store.ByMessage(t, p.guildId, Some(p.messageId));
      if rows == [] || p.guildId !in guilds || p.userId !in guilds[p.guildId].memberRoles then []
      else
        var g := guilds[p.guildId];
        var held := g.memberRoles[p.userId];
        if added then Grants(rows, p.emoji, g.roles, held) else Revokes(rows, p.emoji, g.roles, held)
  }

  /**
   * Adding a reaction only grants roles the member lacks that a row of this message ties to
   * this emoji; removing one only revokes roles the member holds.
   */
  lemma ReactionChangesOnlyMatchingRoles(t: Store.Table, p: Payload, added: bool, botId: int,
                                         guilds: map<int, MemberGuild>, k: nat)
    ensures k < |OnReaction(t, p, added, botId, guilds)| ==>
      var c := OnReaction(t, p, added, botId, guilds)[k];
      p.userId != botId && p.guildId in guilds && p.userId in guilds[p.guildId].memberRoles
      && (added <==> c.Grant?)
      && (c.Grant? ==> c.roleId !in guilds[p.guildId].memberRoles[p.userId])
      && (c.Revoke? ==> c.roleId in guilds[p.guildId].memberRoles[p.userId])
      && exists row :: row in t && row.guildId == p.guildId && row.messageId == p.messageId
                       && row.emoji == p.emoji && row.roleId == c.roleId
  {
  }
}

=== FILE: reaction_role_store.dfy ===
/**
 * The `reaction_role_menus` table of the database handler. A menu is a group of rows
 * sharing a `menu_id`, one row per emoji-role pair, all carrying the menu's guild,
 * channel, message, name and description.
 */
module ReactionRoleStore {
  import opened Wrappers

  datatype MenuRow = MenuRow(menuId: string, guildId: int, channelId: int, messageId: int,
                             name: string, description: string, emoji: string, roleId: int)

  type Table = seq<MenuRow>

  /** What a menu's rows share: everything but the emoji and the role. */
  datatype MenuHeader = MenuHeader(menuId: string, guildId: int, channelId: int, messageId: int,
                                   name: string, description: string)

  function RowOf(h: MenuHeader, emoji: string, roleId: int): (row: MenuRow)
    ensures row.menuId == h.menuId && row.guildId == h.guildId && row.messageId == h.messageId
    ensures row.emoji == emoji && row.roleId == roleId
  {
    MenuRow(h.menuId, h.guildId, h.channelId, h.messageId, h.name, h.description, emoji, roleId)
  }

  // ---------------------------------------------------------------- inserting

  /**
   * `insert_reaction_role_menu` against the table as declared, with `menu_id` as PRIMARY KEY:
   * a row whose menu id is already present violates the key and nothing is written.
   */
  function InsertKeyed(t: Table, row: MenuRow): (r: Option<Table>)
    ensures r.None? <==> exists i :: 0 <= i < |t| && t[i].menuId == row.menuId
    ensures r.Some? ==> r.value == t + [row]
  {
    if exists i :: 0 <= i < |t| && t[i].menuId == row.menuId then None else Some(t + [row])
  }

  /** `insert_reaction_role_menu` on a table where `menu_id` is not unique: the row is appended. */
  function Insert(t: Table, row: MenuRow): (r: Table)
    ensures |r| == |t| + 1 && r[..|t|] == t && r[|t|] == row
  {
    t + [row]
  }

  /**
   * The insert loop of `create_menu` / `import_menu` as written: one insert per pair, each
   * committed on its own; the first failing insert ends the loop. The flag says whether every
   * pair was stored.
   */
  function StorePairsKeyed(t: Table, h: MenuHeader, pairs: seq<(string, int)>): (r: (Table, bool))
    ensures |t| <= |r.0| <= |t| + |pairs|
    ensures r.0[..|t|] == t
    ensures r.1 ==> |r.0| == |t| + |pairs|
    decreases |pairs|
  {
    if pairs == [] then (t, true)
    else
      match InsertKeyed(t, RowOf(h, pairs[0].0, pairs[0].1))
      case None => (t, false)
      case Some(t') =>
        var r := StorePairsKeyed(t', h, pairs[1..]);
        assert r.0[..|t|] == r.0[..|t'|][..|t|];
        r
  }

  /** The same loop with the uniqueness constraint dropped: every pair becomes a row, in order. */
  function StorePairs(t: Table, h: MenuHeader, pairs: seq<(string, int)>): (r: Table)
    ensures |r| == |t| + |pairs| && r[..|t|] == t
    ensures forall k :: 0 <= k < |pairs| ==> r[|t| + k] == RowOf(h, pairs[k].0, pairs[k].1)
    decreases |pairs|
  {
    if pairs == [] then t
    else
      var t' := Insert(t, RowOf(h, pairs[0].0, pairs[0].1));
      var r := StorePairs(t', h, pairs[1..]);
      assert r[..|t|] == r[..|t'|][..|t|];
      assert forall k :: 1 <= k < |pairs| ==> r[|t| + k] == r[|t'| + (k - 1)] && pairs[k] == pairs[1..][k - 1];
      r
  }

  /**
   * The two layouts of the table: as declared, with `menu_id` as PRIMARY KEY, and without that
   * key, as one row per emoji-role pair of a menu needs.
   */
  datatype Schema = Declared | Unkeyed

  /** The insert loop of `create_menu` and `import_menu` on either layout; the flag says whether every pair was stored. */
  function Save(schema: Schema, t: Table, h: MenuHeader, pairs: seq<(string, int)>): (r: (Table, bool))
    ensures |t| <= |r.0| && r.0[..|t|] == t
    ensures r.1 ==> |r.0| == |t| + |pairs|
  {
    match schema
    case Declared => StorePairsKeyed(t, h, pairs)
    case Unkeyed => (StorePairs(t, h, pairs), true)
  }

  /**
   * On the declared table a fresh menu keeps exactly its first pair, and the loop reports
   * success exactly when that was the only pair.
   */
  lemma StorePairsKeyedFresh(t: Table, h: MenuHeader, pairs: seq<(string, int)>)
    requires FetchMenu(t, h.menuId).None?
    requires pairs != []
    ensures StorePairsKeyed(t, h, pairs) == (t + [RowOf(h, pairs[0].0, pairs[0].1)], |pairs| == 1)
  {
    var row := RowOf(h, pairs[0].0, pairs[0].1);
    assert InsertKeyed(t, row) == Some(t + [row]);
    var t' := t + [row];
    if |pairs| > 1 {
      assert t'[|t|].menuId == h.menuId;
      assert InsertKeyed(t', RowOf(h, pairs[1..][0].0, pairs[1..][0].1)).None?;
    } else {
      assert pairs[1..] == [];
    }
  }

  /**
   * A menu with a second pair loses it: under the declared key only the first row of a new
   * menu is stored and the save is reported as failed.
   */
  lemma KeyedStoreKeepsOnlyFirstPair(h: MenuHeader, e1: string, r1: int, e2: string, r2: int)
    ensures StorePairsKeyed([], h, [(e1, r1), (e2, r2)]) == ([RowOf(h, e1, r1)], false)
  {
    var empty: Table := [];
    var t1 := [RowOf(h, e1, r1)];
    assert empty + [RowOf(h, e1, r1)] == t1;
    assert t1[0].menuId == h.menuId;
    assert InsertKeyed(t1, RowOf(h, e2, r2)).None?;
    assert [(e1, r1), (e2, r2)][1..] == [(e2, r2)];
  }

  /** Without the key every pair of the menu is found again by the menu's message. */
  lemma StoredPairsFoundByMessage(t: Table, h: MenuHeader, pairs: seq<(string, int)>, k: nat)
    requires k < |pairs|
    ensures RowOf(h, pairs[k].0, pairs[k].1) in ByMessage(StorePairs(t, h, pairs), h.guildId, Some(h.messageId))
  {
    var r := StorePairs(t, h, pairs);
    assert r[|t| + k] == RowOf(h, pairs[k].0, pairs[k].1);
  }

  // ---------------------------------------------------------------- reading

  /**
   * `fetch_reaction_role_menus_by_message`: the rows of a guild whose message id equals the one
   * given. SQL's `message_id = NULL` is never true, so `None` matches nothing.
   */
  function ByMessage(t: Table, guild: int, message: Option<int>): (r: Table)
    ensures forall row :: row in r <==> row in t && row.guildId == guild && message == Some(row.messageId)
    ensures message.None? ==> r == []
    decreases |t|
  {
    if t == [] then []
    else
      var rest := ByMessage(t[1..], guild, message);
      assert forall row :: row in t <==> row == t[0] || row in t[1..];
      if t[0].guildId == guild && message == Some(t[0].messageId) then [t[0]] + rest else rest
  }

  /** `fetch_all_reaction_role_menus`: every row of the guild, in table order. */
  function ByGuild(t: Table, guild: int): (r: Table)
    ensures forall row :: row in r <==> row in t && row.guildId == guild
    ensures |r| <= |t|
    decreases |t|
  {
    if t == [] then []
    else
      var rest := ByGuild(t[1..], guild);
      assert forall row :: row in t <==> row == t[0] || row in t[1..];
      if t[0].guildId == guild then [t[0]] + rest else rest
  }

  /** `fetch_reaction_role_menu`: some row of the menu (the first, in table order). */
  function FetchMenu(t: Table, menuId: string): (r: Option<MenuRow>)
    ensures r.None? <==> forall i :: 0 <= i < |t| ==> t[i].menuId != menuId
    ensures r.Some? ==> r.value in t && r.value.menuId == menuId
    decreases |t|
  {
    if t == [] then None
    else if t[0].menuId == menuId then Some(t[0])
    else
      var r := FetchMenu(t[1..], menuId);
      assert forall i :: 1 <= i < |t| ==> t[i] == t[1..][i - 1];
      r
  }

  // ---------------------------------------------------------------- changing a menu

  /** `delete_reaction_role_menu`: every row of the menu goes; the rest keep their order. */
  function DeleteMenu(t: Table, menuId: string): (r: Table)
    ensures forall row :: row in r <==> row in t && row.menuId != menuId
    ensures |r| <= |t|
    decreases |t|
  {
    if t == [] then []
    else
      var rest := DeleteMenu(t[1..], menuId);
      assert forall row :: row in t <==> row == t[0] || row in t[1..];
      if t[0].menuId == menuId then rest else [t[0]] + rest
  }

  /** `remove_reaction_from_menu`: only the rows matching both the menu and the emoji go. */
  function RemoveReaction(t: Table, menuId: string, emoji: string): (r: Table)
    ensures forall row :: row in r <==> row in t && !(row.menuId == menuId && row.emoji == emoji)
    ensures |r| <= |t|
    decreases |t|
  {
    if t == [] then []
    else
      var rest := RemoveReaction(t[1..], menuId, emoji);
      assert forall row :: row in t <==> row == t[0] || row in t[1..];
      if t[0].menuId == menuId && t[0].emoji == emoji then rest else [t[0]] + rest
  }

  /** After a menu is deleted no lookup finds it. */
  lemma DeletedMenuIsGone(t: Table, menuId: string)
    ensures FetchMenu(DeleteMenu(t, menuId), menuId).None?
  {
    var r := DeleteMenu(t, menuId);
    forall i | 0 <= i < |r|
      ensures r[i].menuId != menuId
    {
      assert r[i] in r;
    }
  }

  /** Removing one emoji of a menu keeps the menu's other pairs and every other menu. */
  lemma RemoveReactionKeepsOthers(t: Table, menuId: string, emoji: string, row: MenuRow)
    requires row in t && (row.menuId != menuId || row.emoji != emoji)
    ensures row in RemoveReaction(t, menuId, emoji)
  {
  }

  /** `update_reaction_role_menu_description`: every row of the menu takes the new description. */
  function UpdateDescription(t: Table, menuId: string, description: string): (r: Table)
    ensures |r| == |t|
    ensures forall i :: 0 <= i < |t| && t[i].menuId == menuId ==> r[i] == t[i].(description := description)
    ensures forall i :: 0 <= i < |t| && t[i].menuId != menuId ==> r[i] == t[i]
  {
    seq(|t|, i requires 0 <= i < |t| => if t[i].menuId == menuId then t[i].(description := description) else t[i])
  }

  /**
   * One `INSERT` statement of several rows against the table as declared: the statement is
   * atomic, so a row whose menu id is already present, or repeated among the new rows,
   * fails all of them and nothing is written.
   */
  function InsertAllKeyed(t: Table, rows: Table): (r: Option<Table>)
    ensures r.None? <==>
      (exists i, j :: 0 <= i < |rows| && 0 <= j < |t| && rows[i].menuId == t[j].menuId)
      || (exists i, j :: 0 <= i < j < |rows| && rows[i].menuId == rows[j].menuId)
    ensures r.Some? ==> r.value == t + rows
  {
    if (exists i, j :: 0 <= i < |rows| && 0 <= j < |t| && rows[i].menuId == t[j].menuId)
       || (exists i, j :: 0 <= i < j < |rows| && rows[i].menuId == rows[j].menuId)
    then None
    else Some(t + rows)
  }

  /**
   * `add_reaction_to_menu` as written, against the table as declared: `INSERT … SELECT …
   * WHERE menu_id = ?` copies each row of the menu with the new emoji and role, and every copy
   * repeats the menu's key. A menu that exists therefore fails the insert (`None`, the
   * statement raises) and one that does not gains nothing: no pair is ever added.
   */
  function AddReaction(t: Table, menuId: string, emoji: string, roleId: int): (r: Option<Table>)
    ensures r.None? <==> FetchMenu(t, menuId).Some?
    ensures r.Some? ==> r.value == t
  {
    var copies := Copies(t, menuId, emoji, roleId);
    if FetchMenu(t, menuId).Some? then
      var row := FetchMenu(t, menuId).value;
      var j :| 0 <= j < |t| && t[j] == row;
      CopiesOfPresent(t, menuId, emoji, roleId, j);
      assert copies[0].menuId == t[j].menuId;
      InsertAllKeyed(t, copies)
    else
      CopiesOfAbsent(t, menuId, emoji, roleId);
      assert copies == [];
      assert t + copies == t;
      InsertAllKeyed(t, copies)
  }

  /**
   * The same `INSERT … SELECT` once the key is dropped, as the corrected table of
   * `create_menu` needs: a menu of n rows gains n rows (none when the menu does not exist).
   */
  function AddReactionUnkeyed(t: Table, menuId: string, emoji: string, roleId: int): (r: Table)
    ensures |r| == |t| + Count(t, menuId)
    ensures r[..|t|] == t
    ensures forall i :: |t| <= i < |r| ==> r[i].menuId == menuId && r[i].emoji == emoji && r[i].roleId == roleId
  {
    t + Copies(t, menuId, emoji, roleId)
  }

  function Copies(t: Table, menuId: string, emoji: string, roleId: int): (r: Table)
    ensures |r| == Count(t, menuId)
    ensures forall i :: 0 <= i < |r| ==> r[i].menuId == menuId && r[i].emoji == emoji && r[i].roleId == roleId
    decreases |t|
  {
    if t == [] then []
    else
      var rest := Copies(t[1..], menuId, emoji, roleId);
      if t[0].menuId == menuId then [t[0].(emoji := emoji, roleId := roleId)] + rest else rest
  }

  lemma {:induction false} CopiesOfPresent(t: Table, menuId: string, emoji: string, roleId: int, j: nat)
    requires j < |t| && t[j].menuId == menuId
    ensures Copies(t, menuId, emoji, roleId) != []
    decreases |t|
  {
    if t[0].menuId != menuId {
      CopiesOfPresent(t[1..], menuId, emoji, roleId, j - 1);
    }
  }

  lemma {:induction false} CopiesOfAbsent(t: Table, menuId: string, emoji: string, roleId: int)
    requires FetchMenu(t, menuId).None?
    ensures Copies(t, menuId, emoji, roleId) == []
    decreases |t|
  {
    if t != [] {
      assert t[0].menuId != menuId;
      assert FetchMenu(t[1..], menuId).None?;
      CopiesOfAbsent(t[1..], menuId, emoji, roleId);
    }
  }

  /**
   * With the key dropped, the copying query still misbehaves: on a menu of two pairs it stores
   * the new pair twice.
   */
  lemma AddReactionDuplicates(h: MenuHeader, e1: string, r1: int, e2: string, r2: int, emoji: string, roleId: int)
    ensures var t := [RowOf(h, e1, r1), RowOf(h, e2, r2)];
            var r := AddReactionUnkeyed(t, h.menuId, emoji, roleId);
            |r| == 4 && r[2] == r[3] == RowOf(h, emoji, roleId)
  {
    var t := [RowOf(h, e1, r1), RowOf(h, e2, r2)];
    assert t[1..] == [RowOf(h, e2, r2)];
    assert Copies(t, h.menuId, emoji, roleId) == [RowOf(h, emoji, roleId), RowOf(h, emoji, roleId)];
  }

  /**
   * The evidently intended `add_reaction_to_menu`: one new row with the menu's header and the
   * new emoji and role, and nothing when the menu does not exist.
   */
  function AddPair(t: Table, menuId: string, emoji: string, roleId: int): (r: Table)
    ensures FetchMenu(t, menuId).None? ==> r == t
    ensures FetchMenu(t, menuId).Some? ==>
              r == t + [FetchMenu(t, menuId).value.(emoji := emoji, roleId := roleId)]
  {
    match FetchMenu(t, menuId)
    case None => t
    case Some(row) => t + [row.(emoji := emoji, roleId := roleId)]
  }

  /** Adding a pair to an existing menu adds exactly one row, found again by the menu's message. */
  lemma AddPairAddsOne(t: Table, menuId: string, emoji: string, roleId: int)
    requires FetchMenu(t, menuId).Some?
    ensures var row := FetchMenu(t, menuId).value;
            var r := AddPair(t, menuId, emoji, roleId);
            |r| == |t| + 1 && r[..|t|] == t
            && Count(r, menuId) == Count(t, menuId) + 1
            && row.(emoji := emoji, roleId := roleId) in ByMessage(r, row.guildId, Some(row.messageId))
  {
    var row := FetchMenu(t, menuId).value;
    var r := AddPair(t, menuId, emoji, roleId);
    assert r[..|t|] == t;
    CountAppend(t, [row.(emoji := emoji, roleId := roleId)], menuId);
    assert r[|t|] in r;
  }

  lemma {:induction false} CountAppend(t: Table, u: Table, menuId: string)
    ensures Count(t + u, menuId) == Count(t, menuId) + Count(u, menuId)
    decreases |t|
  {
    if t != [] {
      assert (t + u)[1..] == t[1..] + u;
      CountAppend(t[1..], u, menuId);
    } else {
      assert t + u == u;
    }
  }

  /** The number of rows of a menu. */
  function Count(t: Table, menuId: string): nat
    decreases |t|
  {
    if t == [] then 0 else (if t[0].menuId == menuId then 1 else 0) + Count(t[1..], menuId)
  }
}

=== FILE: repeated_messages.dfy ===
/**
 * The repeated-message listener: messages of at least five words are logged with their
 * guild, and a message whose exact text has been logged from more than one user (in any
 * guild) raises a staff alert listing the author's own occurrences.
 */
module RepeatedMessages {
  import opened Wrappers
  import Text
  import GuildConfig
  import AlertTables
  import AlertWorkflow

  /** Messages with fewer whitespace-separated words are neither logged nor checked. */
  const MinWordCount: nat := 5

  /** Declared next to the word count but never consulted by the listener. */
  const SingleUserRepeatThreshold: nat := 5

  /** Discord's epoch in milliseconds and the shift of the timestamp inside a snowflake id. */
  const DiscordEpochMs: int := 1420070400000
  const SnowflakeShift: int := 4194304

  type State = AlertWorkflow.State

  /** The row `insert_repeated_message` writes. */
  function LogRow(m: AlertWorkflow.Message): AlertTables.LoggedMessage
  {
    AlertTables.LoggedMessage(m.content, m.author, m.id, m.channelId, Some(m.guildId), m.timestamp)
  }

  /**
   * `SELECT DISTINCT user_id FROM repeated_messages WHERE content = ?`, over every guild, as the
   * set of users with a row of that text (in order of first appearance, without repeats).
   */
  function DistinctUsers(log: seq<AlertTables.LoggedMessage>, content: string): (users: seq<int>)
    ensures forall i, j :: 0 <= i < j < |users| ==> users[i] != users[j]
    ensures forall u :: u in users <==> exists i :: 0 <= i < |log| && log[i].content == content && log[i].userId == u
  {
    if log == [] then []
    else
      var init := log[..|log| - 1];
      var users := DistinctUsers(init, content);
      var last := log[|log| - 1];
      assert forall i :: 0 <= i < |init| ==> init[i] == log[i];
      if last.content == content && last.userId !in users then users + [last.userId] else users
  }

  /** `SELECT … WHERE user_id = ? AND content = ?`: the author's own rows with that text, in log order. */
  function UserRecords(log: seq<AlertTables.LoggedMessage>, user: int, content: string): (r: seq<AlertTables.LoggedMessage>)
    ensures forall k :: 0 <= k < |r| ==> r[k].userId == user && r[k].content == content && r[k] in log
    ensures |r| <= |log|
  {
    if log == [] then []
    else
      var init := UserRecords(log[..|log| - 1], user, content);
      var last := log[|log| - 1];
      assert forall row :: row in log[..|log| - 1] ==> row in log;
      if last.userId == user && last.content == content then init + [last] else init
  }

  /** Logging a row of the author with that text adds exactly one to the author's occurrences. */
  lemma CountIncludesCurrent(log: seq<AlertTables.LoggedMessage>, row: AlertTables.LoggedMessage)
    ensures |UserRecords(log + [row], row.userId, row.content)| == |UserRecords(log, row.userId, row.content)| + 1
  {
    assert (log + [row])[..|log|] == log;
  }

  /** Rows of other users, or with other text, never change the author's count. */
  lemma OtherRowsDoNotCount(log: seq<AlertTables.LoggedMessage>, row: AlertTables.LoggedMessage, user: int, content: string)
    requires row.userId != user || row.content != content
    ensures UserRecords(log + [row], user, content) == UserRecords(log, user, content)
  {
    assert (log + [row])[..|log|] == log;
  }

  /** More than one distinct user is the same as two rows with the text from different users. */
  lemma SeveralUsers(log: seq<AlertTables.LoggedMessage>, content: string)
    ensures |DistinctUsers(log, content)| > 1 <==>
      exists i, j :: 0 <= i < |log| && 0 <= j < |log| && log[i].content == content && log[j].content == content
                     && log[i].userId != log[j].userId
  {
    var users := DistinctUsers(log, content);
    if |users| > 1 {
      assert users[0] in users && users[1] in users;
    }
    if exists i, j :: 0 <= i < |log| && 0 <= j < |log| && log[i].content == content && log[j].content == content
                      && log[i].userId != log[j].userId {
      var i, j :| 0 <= i < |log| && 0 <= j < |log| && log[i].content == content && log[j].content == content
                  && log[i].userId != log[j].userId;
      TwoMembers(users, log[i].userId, log[j].userId);
    }
  }

  lemma TwoMembers(xs: seq<int>, a: int, b: int)
    requires a in xs && b in xs && a != b
    ensures |xs| > 1
  {
    var i :| 0 <= i < |xs| && xs[i] == a;
    var j :| 0 <= j < |xs| && xs[j] == b;
    assert i != j;
  }

  // ---------------------------------------------------------------- the alert's fields

  /** The seconds since 1970 that `snowflake_time` reads from a (positive) Discord id. */
  function SnowflakeSeconds(id: int): int
  {
    (id / SnowflakeShift + DiscordEpochMs) / 1000
  }

  /** One occurrence: `<@user> - <t:seconds:F> - <#channel>`. */
  function OccurrenceLine(row: AlertTables.LoggedMessage): string
  {
    "<@" + Text.IntToString(row.userId) + "> - <t:" + Text.IntToString(SnowflakeSeconds(row.messageId))
    + ":F> - <#" + Text.IntToString(row.channelId) + ">"
  }

  /** A Python dict with insertion order: a sequence of entries with distinct keys. */
  type Dict = seq<(int, string)>

  predicate DistinctKeys(d: Dict)
  {
    forall i, j :: 0 <= i < j < |d| ==> d[i].0 != d[j].0
  }

  /** `d[k] = v`: an existing key keeps its place and takes the new value; a new key goes last. */
  function Put(d: Dict, k: int, v: string): (r: Dict)
    requires DistinctKeys(d)
    ensures DistinctKeys(r)
    ensures exists i :: 0 <= i < |r| && r[i] == (k, v)
    ensures forall i :: 0 <= i < |r| ==> r[i].0 == k || r[i] in d
    ensures |r| == |d| || |r| == |d| + 1
    ensures (exists i :: 0 <= i < |d| && d[i].0 == k) ==> |r| == |d|
  {
    if exists i :: 0 <= i < |d| && d[i].0 == k then
      var i :| 0 <= i < |d| && d[i].0 == k;
      assert d[i := (k, v)][i] == (k, v);
      d[i := (k, v)]
    else
      assert (d + [(k, v)])[|d|] == (k, v);
      d + [(k, v)]
  }

  /** Whether the row's guild, channel and member are all still visible to the bot. */
  predicate Resolvable(row: AlertTables.LoggedMessage, world: AlertWorkflow.World)
  {
    row.guildId.Some? && row.guildId.value in world.guilds
    && row.channelId in world.guilds[row.guildId.value].channels
    && row.userId in world.guilds[row.guildId.value].members
  }

  /** `occurrences_by_user`: the line of each resolvable record, keyed by its user. */
  function Occurrences(records: seq<AlertTables.LoggedMessage>, world: AlertWorkflow.World): (d: Dict)
    ensures DistinctKeys(d)
    ensures forall i :: 0 <= i < |d| ==> exists k :: 0 <= k < |records| && d[i].0 == records[k].userId
    ensures |d| <= |records|
  {
    if records == [] then []
    else
      var init := records[..|records| - 1];
      var d := Occurrences(init, world);
      var row := records[|records| - 1];
      assert forall k :: 0 <= k < |init| ==> init[k] == records[k];
      if Resolvable(row, world) then Put(d, row.userId, OccurrenceLine(row)) else d
  }

  /** All records of one user give at most one occurrence line. */
  lemma {:induction false} OneUserOneLine(records: seq<AlertTables.LoggedMessage>, world: AlertWorkflow.World, user: int)
    requires forall k :: 0 <= k < |records| ==> records[k].userId == user
    ensures |Occurrences(records, world)| <= 1
  {
    FirstTwoKeysDiffer(Occurrences(records, world));
  }

  lemma FirstTwoKeysDiffer(d: Dict)
    requires DistinctKeys(d)
    ensures |d| >= 2 ==> d[0].0 != d[1].0
  {
  }

  function Values(d: Dict): (vs: seq<string>)
    ensures |vs| == |d| && forall i :: 0 <= i < |d| ==> vs[i] == d[i].1
  {
    seq(|d|, i requires 0 <= i < |d| => d[i].1)
  }

  /** `"\n".join(…)` of the occurrence lines, cut to the 1024 characters an embed field allows. */
  function LimitField(text: string): (r: string)
    ensures |r| <= 1024
    ensures |text| <= 1024 ==> r == text
    ensures |text| > 1024 ==> |r| == 1023 && Text.StartsWith(text, r[..1020]) && Text.EndsWith(r, "...")
  {
    if |text| > 1024 then text[..1020] + "..." else text
  }

  /** The three data fields of the alert: content, number of occurrences, occurrence lines. */
  function AlertFields(content: string, records: seq<AlertTables.LoggedMessage>, world: AlertWorkflow.World): (fields: seq<string>)
    ensures |fields| == 3
    ensures fields[0] == Text.Take(content, 1024)
    ensures fields[1] == Text.IntToString(|records|)
    ensures |fields[2]| <= 1024
  {
    [Text.Take(content, 1024), Text.IntToString(|records|),
     LimitField(Text.Join(Values(Occurrences(records, world)), '\n'))]
  }

  // ---------------------------------------------------------------- the listener

  /**
   * `on_message` with `check_for_repeated_messages` and `send_alert`. `alertMessageId` is
   * the id the platform gives the alert.
   */
  function OnMessage(s: State, m: AlertWorkflow.Message, world: AlertWorkflow.World, alertMessageId: int)
    : (r: (State, seq<AlertWorkflow.Effect>))
  {
    if m.authorIsSelf || |Text.Words(m.content)| < MinWordCount then (s, [])
    else
      var log := s.log + [LogRow(m)];
      if |DistinctUsers(log, m.content)| <= 1 then (s.(log := log), [])
      else
        var records := UserRecords(log, m.author, m.content);
        var config := if m.guildId in world.configs then Some(world.configs[m.guildId]) else None;
        var guild := if m.guildId in world.guilds then world.guilds[m.guildId] else AlertWorkflow.GuildView({}, map[]);
        var (tables, effects) := AlertWorkflow.RaiseAlert(s.tables, AlertWorkflow.RepeatedMessage, config, guild, m.guildId,
                                                          m.author, m.channelId, AlertFields(m.content, records, world),
                                                          alertMessageId);
        (AlertWorkflow.State(log, tables), [AlertWorkflow.SetPresence(AlertWorkflow.RepeatedMessage, m.author)] + effects)
  }

  /** Messages of fewer than five words (and the bot's own) leave everything as it was. */
  lemma ShortMessagesIgnored(s: State, m: AlertWorkflow.Message, world: AlertWorkflow.World, id: int)
    requires m.authorIsSelf || |Text.Words(m.content)| < MinWordCount
    ensures OnMessage(s, m, world, id) == (s, [])
  {
  }

  /** Any other message, five words included, is logged before anything else happens. */
  lemma AcceptedMessagesLogged(s: State, m: AlertWorkflow.Message, world: AlertWorkflow.World, id: int)
    requires !m.authorIsSelf && |Text.Words(m.content)| >= MinWordCount
    ensures OnMessage(s, m, world, id).0.log == s.log + [LogRow(m)]
  {
  }

  /**
   * The listener alerts (announces itself in the presence) exactly when the text, counting the
   * new message, has been logged from two different users.
   */
  lemma AlertIffTwoUsers(s: State, m: AlertWorkflow.Message, world: AlertWorkflow.World, id: int)
    ensures var r := OnMessage(s, m, world, id);
            var log := s.log + [LogRow(m)];
      r.1 != [] <==>
        !m.authorIsSelf && |Text.Words(m.content)| >= MinWordCount
        && exists i, j :: 0 <= i < |log| && 0 <= j < |log| && log[i].content == m.content
                          && log[j].content == m.content && log[i].userId != log[j].userId
  {
    SeveralUsers(s.log + [LogRow(m)], m.content);
  }

  /** One user repeating the same text, however often, never raises an alert. */
  lemma SingleUserNeverAlerts(s: State, m: AlertWorkflow.Message, world: AlertWorkflow.World, id: int)
    requires forall i :: 0 <= i < |s.log| && s.log[i].content == m.content ==> s.log[i].userId == m.author
    ensures OnMessage(s, m, world, id).1 == []
    ensures OnMessage(s, m, world, id).0.tables == s.tables
  {
    var log := s.log + [LogRow(m)];
    SeveralUsers(log, m.content);
    forall i, j | 0 <= i < |log| && 0 <= j < |log| && log[i].content == m.content && log[j].content == m.content
      ensures log[i].userId == log[j].userId
    {
      assert i < |s.log| ==> log[i] == s.log[i];
      assert j < |s.log| ==> log[j] == s.log[j];
    }
  }

  /**
   * Once the text is seen from two users the presence is set; if the alert is then posted it
   * reports the first 1024 characters of the text, the number of the author's logged messages
   * with that text (the new one included), and at most one occurrence line.
   */
  lemma AlertReportsAuthorOccurrences(s: State, m: AlertWorkflow.Message, world: AlertWorkflow.World, id: int)
    requires OnMessage(s, m, world, id).1 != []
    ensures var r := OnMessage(s, m, world, id);
            var records := UserRecords(s.log + [LogRow(m)], m.author, m.content);
      r.1[0] == AlertWorkflow.SetPresence(AlertWorkflow.RepeatedMessage, m.author)
      && (|r.1| > 1 ==> r.1[1].PostAlert? && r.1[1].fields == AlertFields(m.content, records, world))
      && |records| == |UserRecords(s.log, m.author, m.content)| + 1
      && |Occurrences(records, world)| <= 1
  {
    var log := s.log + [LogRow(m)];
    var records := UserRecords(log, m.author, m.content);
    var config := if m.guildId in world.configs then Some(world.configs[m.guildId]) else None;
    var guild := if m.guildId in world.guilds then world.guilds[m.guildId] else AlertWorkflow.GuildView({}, map[]);
    var raised := AlertWorkflow.RaiseAlert(s.tables, AlertWorkflow.RepeatedMessage, config, guild, m.guildId,
                                           m.author, m.channelId, AlertFields(m.content, records, world), id);
    assert !m.authorIsSelf && |Text.Words(m.content)| >= MinWordCount && |DistinctUsers(log, m.content)| > 1;
    assert OnMessage(s, m, world, id).1 == [AlertWorkflow.SetPresence(AlertWorkflow.RepeatedMessage, m.author)] + raised.1;
    CountIncludesCurrent(s.log, LogRow(m));
    OneUserOneLine(records, world, m.author);
  }
}

=== FILE: restrict_role.dfy ===
/**
 * The `restrict_role` command: after the invoker confirms, every text channel gets a read
 * overwrite for the role that is true only on the allowed channel, with progress messages
 * about every tenth of the channels. The role's overwrites are a map from channel id.
 */
module RestrictRole {
  import opened Wrappers

  /** A guild channel, in the guild's order: its id and whether it is a text channel. */
  datatype GuildChannel = GuildChannel(id: int, isText: bool)

  /** The role's read overwrite per channel id. */
  type Overwrites = map<int, bool>

  /** One channel's turn: text channels get `read_messages = (channel == allowed)`, others are untouched. */
  function Apply(ow: Overwrites, ch: GuildChannel, allowed: int): (r: Overwrites)
    ensures ch.isText ==> r == ow[ch.id := ch.id == allowed]
    ensures !ch.isText ==> r == ow
  {
    if ch.isText then ow[ch.id := ch.id == allowed] else ow
  }

  /** No text channel among `channels` has this id. */
  predicate NoTextWithId(channels: seq<GuildChannel>, id: int)
  {
    forall i :: 0 <= i < |channels| ==> !(channels[i].isText && channels[i].id == id)
  }

  /** The pass over `channels[k..]` (positions `k + 1` on), with a progress message at every multiple of `step`. */
  function RunFrom(channels: seq<GuildChannel>, k: nat, allowed: int, ow: Overwrites, step: nat): (r: (Overwrites, seq<nat>))
    requires step > 0 && k <= |channels|
    ensures forall i :: k <= i < |channels| && channels[i].isText ==>
              channels[i].id in r.0 && r.0[channels[i].id] == (channels[i].id == allowed)
    ensures forall id :: NoTextWithId(channels[k..], id) ==> (id in r.0 <==> id in ow) && (id in ow ==> r.0[id] == ow[id])
    ensures forall j :: k < j <= |channels| ==> (j in r.1 <==> j % step == 0)
    ensures forall p :: p in r.1 ==> k < p <= |channels|
    decreases |channels| - k
  {
    if k == |channels| then (ow, [])
    else
      var ow' := Apply(ow, channels[k], allowed);
      var rest := RunFrom(channels, k + 1, allowed, ow', step);
      assert forall id :: NoTextWithId(channels[k..], id) ==> NoTextWithId(channels[k + 1..], id) by {
        forall id | NoTextWithId(channels[k..], id) ensures NoTextWithId(channels[k + 1..], id) {
          var tail, from := channels[k + 1..], channels[k..];
          forall i | 0 <= i < |tail| ensures !(tail[i].isText && tail[i].id == id) {
            assert tail[i] == from[i + 1];
          }
        }
      }
      assert forall id :: NoTextWithId(channels[k..], id) ==> !(channels[k].isText && channels[k].id == id) by {
        forall id | NoTextWithId(channels[k..], id) ensures !(channels[k].isText && channels[k].id == id) {
          assert channels[k..][0] == channels[k];
        }
      }
      ((rest.0), (if (k + 1) % step == 0 then [k + 1] else []) + rest.1)
  }

  /** A reaction added while the confirmation waits. */
  datatype ConfirmReaction = ConfirmReaction(user: int, emoji: string)

  datatype Decision = Confirmed | Canceled | TimedOut

  /** The first reaction from the invoker with ✅ or ❌ decides; none before the timeout is a timeout. */
  function Decide(author: int, reactions: seq<ConfirmReaction>): (d: Decision)
    ensures d == TimedOut <==> forall i :: 0 <= i < |reactions| ==> !(reactions[i].user == author && reactions[i].emoji in ["✅", "❌"])
  {
    if reactions == [] then TimedOut
    else if reactions[0].user == author && reactions[0].emoji in ["✅", "❌"] then
      if reactions[0].emoji == "❌" then Canceled else Confirmed
    else
      var d := Decide(author, reactions[1..]);
      assert forall i :: 1 <= i < |reactions| ==> reactions[i] == reactions[1..][i - 1];
      d
  }

  datatype Reply = Usage | CanceledReply | Restricted | ErrorReply

  /** The command's effect: the role's overwrites after it, the progress positions reported, and the final reply. */
  datatype Outcome = Outcome(overwrites: Overwrites, progress: seq<nat>, reply: Reply)

  /**
   * The pass as written: progress is reported when `idx % (total // 10) == 0`, so with fewer than
   * ten channels the first modulo divides by zero, after the first channel's overwrite, and
   * the error is replied.
   */
  function PassAsWritten(channels: seq<GuildChannel>, allowed: int, ow: Overwrites): (r: Outcome)
    ensures 0 < |channels| < 10 ==> r == Outcome(Apply(ow, channels[0], allowed), [], ErrorReply)
    ensures |channels| >= 10 ==> r.reply == Restricted
  {
    var total := |channels|;
    if total == 0 then Outcome(ow, [], Restricted)
    else if total / 10 == 0 then Outcome(Apply(ow, channels[0], allowed), [], ErrorReply)
    else
      var run := RunFrom(channels, 0, allowed, ow, total / 10);
      Outcome(run.0, run.1, Restricted)
  }

  /** Concretely: a guild of three text channels only restricts the first, then reports an error. */
  lemma AsWrittenThreeChannels(ow: Overwrites)
    ensures var channels := [GuildChannel(1, true), GuildChannel(2, true), GuildChannel(3, true)];
            var r := PassAsWritten(channels, 2, ow);
            r.reply == ErrorReply && r.overwrites == ow[1 := false]
            && (2 in ow ==> r.overwrites[2] == ow[2]) && (2 !in ow ==> 2 !in r.overwrites)
  {
  }

  /** The evidently intended step: a tenth of the channels, but at least one. */
  function ProgressStep(total: nat): (s: nat)
    ensures s > 0
    ensures total >= 10 ==> s == total / 10
  {
    if total / 10 > 0 then total / 10 else 1
  }

  /** The pass with the step never zero: every text channel is restricted, whatever the guild's size. */
  function Pass(channels: seq<GuildChannel>, allowed: int, ow: Overwrites): (r: Outcome)
    ensures r.reply == Restricted
    ensures forall i :: 0 <= i < |channels| && channels[i].isText ==>
              channels[i].id in r.overwrites && r.overwrites[channels[i].id] == (channels[i].id == allowed)
    ensures forall id :: NoTextWithId(channels, id) ==> (id in r.overwrites <==> id in ow) && (id in ow ==> r.overwrites[id] == ow[id])
    ensures forall j :: 0 < j <= |channels| ==> (j in r.progress <==> j % ProgressStep(|channels|) == 0)
    ensures forall p :: p in r.progress ==> 0 < p <= |channels|
  {
    var run := RunFrom(channels, 0, allowed, ow, ProgressStep(|channels|));
    assert channels[0..] == channels;
    Outcome(run.0, run.1, Restricted)
  }

  /** From ten channels on, the corrected pass is the pass as written. */
  lemma PassAgreesFromTen(channels: seq<GuildChannel>, allowed: int, ow: Overwrites)
    requires |channels| >= 10
    ensures Pass(channels, allowed, ow) == PassAsWritten(channels, allowed, ow)
  {
  }

  /** Below ten channels the corrected step is one, so every position is reported. */
  lemma AllChannelsReported(channels: seq<GuildChannel>, allowed: int, ow: Overwrites)
    requires 0 < |channels| < 10
    ensures var r := Pass(channels, allowed, ow);
            forall j :: 0 < j <= |channels| ==> j in r.progress
  {
  }

  /** `restrict_role`: usage without both arguments; the confirmation decides; a timeout raises into the error reply. */
  function RestrictRoleCommand(role: Option<int>, allowed: Option<int>, author: int, reactions: seq<ConfirmReaction>,
                               channels: seq<GuildChannel>, ow: Overwrites): (r: Outcome)
    ensures role.None? || allowed.None? ==> r == Outcome(ow, [], Usage)
    ensures role.Some? && allowed.Some? && Decide(author, reactions) != Confirmed ==> r.overwrites == ow && r.progress == []
    ensures role.Some? && allowed.Some? && Decide(author, reactions) == Canceled ==> r.reply == CanceledReply
    ensures role.Some? && allowed.Some? && Decide(author, reactions) == Confirmed ==> r == Pass(channels, allowed.value, ow)
  {
    if role.None? || allowed.None? then Outcome(ow, [], Usage)
    else
      match Decide(author, reactions)
      case Canceled => Outcome(ow, [], CanceledReply)
      case TimedOut => Outcome(ow, [], ErrorReply)
      case Confirmed => Pass(channels, allowed.value, ow)
  }
}

=== FILE: store_api.dfy ===
/**
 * The methods the database handler defines, by name. A command that calls any other name on
 * the handler raises `AttributeError` at that call.
 */
module StoreApi {
  /** Connection, schema and raw query methods. */
  const Core: set<string> := {"connect", "setup", "migrate_guild_config", "execute", "fetchone", "fetchall", "close"}

  /** Guild configuration and warnings. */
  const Config: set<string> := {"set_config", "get_config", "get_log_channel_id", "log_warning", "fetch_warnings"}

  /** The three alert systems' message, alert and action tables. */
  const Alerts: set<string> := {
    "setup_flagged_words_alert_database", "insert_flagged_message", "insert_flagged_alert_message",
    "fetch_flagged_alert_message", "delete_flagged_alert_message", "insert_flagged_action_message",
    "fetch_flagged_action_message", "delete_flagged_action_message",
    "setup_nsfw_checker_database", "insert_nsfw_message", "insert_nsfw_alert_message",
    "fetch_nsfw_alert_message", "delete_nsfw_alert_message", "insert_nsfw_action_message",
    "fetch_nsfw_action_message", "delete_nsfw_action_message",
    "setup_repeated_message_alert_database", "insert_repeated_message", "insert_repeated_alert_message",
    "fetch_repeated_alert_message", "delete_repeated_alert_message", "insert_repeated_action_message",
    "fetch_repeated_action_message", "delete_repeated_action_message", "delete_repeated_messages"
  }

  /** Reaction role menus, autoresponses and paused ticket channels. */
  const Features: set<string> := {
    "setup_reaction_role_menu_database", "insert_reaction_role_menu", "fetch_reaction_role_menus_by_message",
    "fetch_reaction_role_menu", "delete_reaction_role_menu", "update_reaction_role_menu_description",
    "add_reaction_to_menu", "remove_reaction_from_menu", "fetch_all_reaction_role_menus",
    "insert_autoresponse", "delete_autoresponse", "fetch_autoresponses", "fetch_autoresponse_by_id",
    "update_autoresponse", "set_channel_paused", "is_channel_paused"
  }

  /** Every method of `DatabaseHandler`. */
  const Methods: set<string> := Core + Config + Alerts + Features

  /** Whether a call of `name` on the handler finds a method. */
  predicate Defines(name: string)
  {
    name in Methods
  }

  /** The names that the todo, suggest and archiver commands and the anti-hacking checker call on the handler. */
  const CommandCalls: set<string> := {"get_todo_list", "update_todo_list", "child", "get_available_archive_category",
                                      "insert_record"}

  lemma CallsNotCore()
    ensures forall n :: n in CommandCalls ==> n !in Core && n !in Config
  {
  }

  lemma CallsNotAlerts()
    ensures forall n :: n in CommandCalls ==> n !in Alerts
  {
  }

  lemma CallsNotFeatures()
    ensures forall n :: n in CommandCalls ==> n !in Features
  {
  }

  /** None of those calls finds a method. */
  lemma CommandCallMissing(name: string)
    requires name in CommandCalls
    ensures !Defines(name)
  {
    CallsNotCore();
    CallsNotAlerts();
    CallsNotFeatures();
  }

  /** A command run that either finishes with a value or raises at a missing method. */
  datatype Run<T> = Ran(value: T) | Raised(missing: string)
}

=== FILE: suggest.dfy ===
/**
 * The suggestion commands: configuring a guild's suggestion channel and posting numbered
 * suggestions to it. The commands call a key-value `child(...)` store on the database
 * handler, which has no such method; the intended store is modelled as a map from guild to
 * the two fields they read and write, and the as-written runs end where the call raises.
 * Which channel ids resolve and whether the author has an avatar are inputs.
 */
module Suggest {
  import opened Wrappers
  import Text
  import StoreApi

  /** A guild's suggestion record: the configured channel and the last number used, each possibly absent. */
  datatype SuggestionData = SuggestionData(channel: Option<int>, number: Option<int>)

  type Store = map<int, SuggestionData>

  /** `update({"channel": c})`: creates the record if needed and keeps the other field. */
  function UpdateChannel(store: Store, guild: int, channel: int): (r: Store)
    ensures guild in r && r[guild].channel == Some(channel)
    ensures r[guild].number == (if guild in store then store[guild].number else None)
    ensures forall g :: g != guild ==> (g in r <==> g in store) && (g in store ==> r[g] == store[g])
  {
    var before := if guild in store then store[guild] else SuggestionData(None, None);
    store[guild := before.(channel := Some(channel))]
  }

  datatype ChannelReply = ChannelMissingRole | ChannelUsage | ChannelSet(text: string) | ChannelUpdated(text: string)

  datatype ChannelResult = ChannelResult(store: Store, reply: ChannelReply)

  /** `suggestion_channel`: usage without a channel; otherwise the same write, reported as set or updated. */
  function SuggestionChannel(store: Store, guild: int, hasRole: bool, channel: Option<int>): (r: ChannelResult)
    ensures !hasRole ==> r == ChannelResult(store, ChannelMissingRole)
    ensures hasRole && channel.None? ==> r == ChannelResult(store, ChannelUsage)
    ensures hasRole && channel.Some? ==> r.store == UpdateChannel(store, guild, channel.value)
    ensures hasRole && channel.Some? ==> (r.reply.ChannelSet? <==> guild !in store) && (r.reply.ChannelUpdated? <==> guild in store)
  {
    if !hasRole then ChannelResult(store, ChannelMissingRole)
    else if channel.None? then ChannelResult(store, ChannelUsage)
    else
      var mention := "<#" + Text.IntToString(channel.value) + ">";
      var store' := UpdateChannel(store, guild, channel.value);
      if guild !in store then ChannelResult(store', ChannelSet("Suggestion channel set to " + mention))
      else ChannelResult(store', ChannelUpdated("Suggestion channel updated to " + mention))
  }

  /** A suggestion as posted: its title number, the text, and the author line. */
  datatype Posted = Posted(channel: int, number: int, title: string, description: string, footer: string)

  /** `Raised` is the `AttributeError` of `ctx.author.avatar.url` for an author without an avatar. */
  datatype SuggestReply = SuggestUsage | NotConfigured | InvalidChannel | Raised | Submitted(post: Posted)

  datatype SuggestResult = SuggestResult(store: Store, reply: SuggestReply)

  /** The next number: the stored one, 0 when absent, plus one. */
  function NextNumber(store: Store, guild: int): int
  {
    (if guild in store && store[guild].number.Some? then store[guild].number.value else 0) + 1
  }

  /** The guild has a configured channel that resolves. */
  predicate Configured(store: Store, guild: int, resolves: set<int>)
  {
    guild in store && store[guild].channel.Some? && store[guild].channel.value in resolves
  }

  /**
   * `suggest` against the intended store: usage without text; nothing posted and nothing
   * stored without a configured, resolvable channel, or when the author has no avatar to put
   * on the post; otherwise the suggestion is posted under the next number, which is stored.
   */
  function SuggestCommand(store: Store, guild: int, author: int, hasAvatar: bool, suggestion: Option<string>,
                          resolves: set<int>): (r: SuggestResult)
    ensures r.reply.Submitted? <==> suggestion.Some? && Configured(store, guild, resolves) && hasAvatar
    ensures r.reply.Raised? <==> suggestion.Some? && Configured(store, guild, resolves) && !hasAvatar
    ensures !r.reply.Submitted? ==> r.store == store
    ensures r.reply.Submitted? ==>
              r.reply.post.channel == store[guild].channel.value
              && r.reply.post.number == NextNumber(store, guild)
              && r.reply.post.description == suggestion.value
              && r.store == store[guild := store[guild].(number := Some(r.reply.post.number))]
    ensures suggestion.None? ==> r.reply == SuggestUsage
  {
    if suggestion.None? then SuggestResult(store, SuggestUsage)
    else if guild !in store || store[guild].channel.None? then SuggestResult(store, NotConfigured)
    else if store[guild].channel.value !in resolves then SuggestResult(store, InvalidChannel)
    else if !hasAvatar then SuggestResult(store, Raised)
    else
      var n := NextNumber(store, guild);
      var post := Posted(store[guild].channel.value, n, "Suggestion #" + Text.IntToString(n), suggestion.value,
                         "User ID: " + Text.IntToString(author));
      SuggestResult(store[guild := store[guild].(number := Some(n))], Submitted(post))
  }

  /** The one store method both commands call first. */
  const StoreCall := "child"

  /** The handler has no `child`, so every store access of these commands raises. */
  lemma StoreCallMissing()
    ensures !StoreApi.Defines(StoreCall)
  {
    StoreApi.CommandCallMissing(StoreCall);
  }

  /**
   * `suggestion_channel` as written: the usage reply needs no store; any other run calls
   * `child` on the handler and raises before anything is written or replied.
   */
  function SuggestionChannelAsWritten(store: Store, guild: int, hasRole: bool, channel: Option<int>): (r: StoreApi.Run<ChannelResult>)
    ensures r.Raised? <==> hasRole && channel.Some?
    ensures r.Raised? ==> r.missing == "child"
    ensures r.Ran? ==> r.value.store == store && r.value == SuggestionChannel(store, guild, hasRole, channel)
  {
    StoreCallMissing();
    if hasRole && channel.Some? && !StoreApi.Defines(StoreCall) then StoreApi.Raised(StoreCall)
    else StoreApi.Ran(SuggestionChannel(store, guild, hasRole, channel))
  }

  /** `suggest` as written: only the usage reply survives; any suggestion raises at the store. */
  function SuggestCommandAsWritten(store: Store, guild: int, author: int, hasAvatar: bool, suggestion: Option<string>,
                                   resolves: set<int>): (r: StoreApi.Run<SuggestResult>)
    ensures r.Raised? <==> suggestion.Some?
    ensures r.Ran? ==> r.value == SuggestResult(store, SuggestUsage)
  {
    StoreCallMissing();
    if suggestion.Some? && !StoreApi.Defines(StoreCall) then StoreApi.Raised(StoreCall)
    else StoreApi.Ran(SuggestCommand(store, guild, author, hasAvatar, suggestion, resolves))
  }

  /** As written no suggestion is ever posted and no channel is ever stored, whatever the input. */
  lemma AsWrittenNeverPosts(store: Store, guild: int, author: int, hasAvatar: bool, hasRole: bool,
                            channel: Option<int>, suggestion: Option<string>, resolves: set<int>)
    ensures var r := SuggestCommandAsWritten(store, guild, author, hasAvatar, suggestion, resolves);
            r.Ran? ==> !r.value.reply.Submitted?
    ensures var r := SuggestionChannelAsWritten(store, guild, hasRole, channel);
            r.Ran? ==> r.value.store == store
  {
  }

  /** Two accepted suggestions in a row take consecutive numbers. */
  lemma ConsecutiveNumbers(store: Store, guild: int, a: int, b: int, s1: string, s2: string, resolves: set<int>)
    requires SuggestCommand(store, guild, a, true, Some(s1), resolves).reply.Submitted?
    ensures var first := SuggestCommand(store, guild, a, true, Some(s1), resolves);
            var second := SuggestCommand(first.store, guild, b, true, Some(s2), resolves);
            second.reply.Submitted? && second.reply.post.number == first.reply.post.number + 1
  {
  }

  /** Once a resolvable channel is set, a suggestion goes through, numbered after whatever count the guild had. */
  lemma SetThenSuggest(store: Store, guild: int, channel: int, author: int, s: string, resolves: set<int>)
    requires channel in resolves
    ensures var configured := SuggestionChannel(store, guild, true, Some(channel)).store;
            var r := SuggestCommand(configured, guild, author, true, Some(s), resolves);
            r.reply.Submitted? && r.reply.post.channel == channel && r.reply.post.number == NextNumber(store, guild)
  {
  }

  /** Setting the channel never resets the count. */
  lemma ChannelKeepsCount(store: Store, guild: int, channel: int)
    ensures NextNumber(SuggestionChannel(store, guild, true, Some(channel)).store, guild) == NextNumber(store, guild)
  {
  }
}

=== FILE: text.dfy ===
/**
 * Python string semantics used throughout the bot, over `seq<char>`.
 * Case mapping and whitespace are the ASCII subsets of Python's rules;
 * the bot's inputs that matter here (commands, keywords, file names) are ASCII.
 */
module Text {
  import opened Wrappers

  predicate IsDigit(c: char) { '0' <= c <= '9' }

  /**
   * `str.isspace()` on ASCII: space, tab, newline, carriage return, vertical tab, form feed,
   * and the four separators 0x1C to 0x1F.
   */
  predicate IsSpace(c: char)
  {
    c == ' ' || c == '\t' || c == '\n' || c == '\r' || c == '\U{000B}' || c == '\U{000C}'
    || '\U{001C}' <= c <= '\U{001F}'
  }

  predicate NoSpace(s: string) { forall i :: 0 <= i < |s| ==> !IsSpace(s[i]) }

  predicate AllDigits(s: string) { forall i :: 0 <= i < |s| ==> IsDigit(s[i]) }

  /** `str.isdigit()`: non-empty and every character a digit. */
  predicate IsDigitString(s: string) { |s| > 0 && AllDigits(s) }

  function LowerChar(c: char): char
  {
    if 'A' <= c <= 'Z' then (c as int + 32) as char else c
  }

  /** `str.lower()` */
  function Lower(s: string): (r: string)
    ensures |r| == |s|
  {
    seq(|s|, i requires 0 <= i < |s| => LowerChar(s[i]))
  }

  lemma LowerIdempotent(s: string)
    ensures Lower(Lower(s)) == Lower(s)
  {
  }

  lemma LowerAppend(a: string, b: string)
    ensures Lower(a + b) == Lower(a) + Lower(b)
  {
  }

  function UpperChar(c: char): char
  {
    if 'a' <= c <= 'z' then (c as int - 32) as char else c
  }

  /** `str.capitalize()`: the first character upper-cased, the rest lower-cased. */
  function Capitalize(s: string): (r: string)
    ensures |r| == |s|
    ensures s != [] ==> r[0] == UpperChar(s[0]) && r[1..] == Lower(s[1..])
  {
    if s == [] then [] else [UpperChar(s[0])] + Lower(s[1..])
  }

  function Repeat(c: char, n: nat): (r: string)
    ensures |r| == n
    ensures forall i :: 0 <= i < n ==> r[i] == c
  {
    seq(n, _ => c)
  }

  // ---------------------------------------------------------------- prefixes, substrings

  /** Python's `s[:n]`: the first `n` characters, or all of `s` when it is shorter. */
  function Take(s: string, n: nat): (r: string)
    ensures |r| == if |s| < n then |s| else n
    ensures StartsWith(s, r)
  {
    if |s| < n then s else s[..n]
  }

  predicate StartsWith(s: string, p: string) { |p| <= |s| && s[..|p|] == p }

  predicate EndsWith(s: string, p: string) { |p| <= |s| && s[|s| - |p|..] == p }

  predicate OccursAt(s: string, sub: string, i: int)
  {
    0 <= i && i + |sub| <= |s| && s[i..i + |sub|] == sub
  }

  /** Python's `sub in s`. */
  predicate Contains(s: string, sub: string)
  {
    exists i :: 0 <= i <= |s| - |sub| && OccursAt(s, sub, i)
  }

  /** A one-character string occurs in `s` exactly when the character does. */
  lemma ContainsChar(s: string, c: char)
    ensures Contains(s, [c]) <==> c in s
  {
    if c in s {
      var i :| 0 <= i < |s| && s[i] == c;
      assert s[i..i + 1] == [c];
      assert OccursAt(s, [c], i);
    }
    if Contains(s, [c]) {
      var i :| 0 <= i <= |s| - 1 && OccursAt(s, [c], i);
      assert s[i] == s[i..i + 1][0];
    }
  }

  /** The first index at or after `from` where `sub` occurs (`str.find` from a start). */
  function FindFrom(s: string, sub: string, from: nat): (r: Option<nat>)
    ensures r.Some? ==> from <= r.value && OccursAt(s, sub, r.value)
    ensures r.Some? ==> forall j :: from <= j < r.value ==> !OccursAt(s, sub, j)
    ensures r.None? ==> forall j :: from <= j ==> !OccursAt(s, sub, j)
    decreases |s| - from
  {
    if from + |sub| > |s| then None
    else if s[from..from + |sub|] == sub then Some(from)
    else FindFrom(s, sub, from + 1)
  }

  function Find(s: string, sub: string): (r: Option<nat>)
    ensures r.Some? <==> Contains(s, sub)
    ensures r.Some? ==> OccursAt(s, sub, r.value) && forall j :: 0 <= j < r.value ==> !OccursAt(s, sub, j)
  {
    FindFrom(s, sub, 0)
  }

  lemma ContainsAppendLeft(a: string, b: string, sub: string)
    requires Contains(a, sub)
    ensures Contains(a + b, sub)
  {
    var i :| 0 <= i <= |a| - |sub| && OccursAt(a, sub, i);
    assert (a + b)[i..i + |sub|] == a[i..i + |sub|];
    assert OccursAt(a + b, sub, i);
  }

  /** Python's `str.partition(sep)`: the text before the first `sep`, whether it was found, and the rest. */
  function Partition(s: string, sep: string): (r: (string, bool, string))
    requires |sep| > 0
    ensures r.1 <==> Contains(s, sep)
    ensures r.1 ==> s == r.0 + sep + r.2 && !Contains(r.0 + sep[..|sep| - 1], sep)
    ensures !r.1 ==> r.0 == s && r.2 == ""
  {
    match Find(s, sep)
    case None => (s, false, "")
    case Some(i) =>
      var before := s[..i];
      assert s == before + sep + s[i + |sep|..];
      NoEarlierOccurrence(s, sep, i);
      (before, true, s[i + |sep|..])
  }

  /** Partitioning at a known first occurrence. */
  lemma PartitionAt(s: string, sep: string, i: nat)
    requires |sep| > 0
    requires OccursAt(s, sep, i)
    requires forall j :: 0 <= j < i ==> !OccursAt(s, sep, j)
    ensures Partition(s, sep).1
    ensures Partition(s, sep).0 == s[..i] && Partition(s, sep).2 == s[i + |sep|..]
  {
    assert Contains(s, sep);
  }

  lemma NoEarlierOccurrence(s: string, sep: string, i: nat)
    requires |sep| > 0
    requires OccursAt(s, sep, i)
    requires forall j :: 0 <= j < i ==> !OccursAt(s, sep, j)
    ensures !Contains(s[..i] + sep[..|sep| - 1], sep)
  {
    var t := s[..i] + sep[..|sep| - 1];
    if Contains(t, sep) {
      var j :| 0 <= j <= |t| - |sep| && OccursAt(t, sep, j);
      assert j < i;
      assert t == s[..i + |sep| - 1];
      assert s[j..j + |sep|] == t[j..j + |sep|];
      assert OccursAt(s, sep, j);
    }
  }

  // ---------------------------------------------------------------- whitespace trimming

  /** `str.lstrip()` */
  function TrimStart(s: string): (r: string)
    ensures |r| <= |s| && r == s[|s| - |r|..]
    ensures forall i :: 0 <= i < |s| - |r| ==> IsSpace(s[i])
    ensures r == [] || !IsSpace(r[0])
  {
    if s != [] && IsSpace(s[0]) then TrimStart(s[1..]) else s
  }

  /** `str.rstrip()` */
  function TrimEnd(s: string): (r: string)
    ensures |r| <= |s| && r == s[..|r|]
    ensures forall i :: |r| <= i < |s| ==> IsSpace(s[i])
    ensures r == [] || !IsSpace(r[|r| - 1])
  {
    if s != [] && IsSpace(s[|s| - 1]) then TrimEnd(s[..|s| - 1]) else s
  }

  /** `str.strip()` */
  function Strip(s: string): (r: string)
    ensures r == [] || (!IsSpace(r[0]) && !IsSpace(r[|r| - 1]))
    ensures exists i :: 0 <= i <= |s| - |r| && OccursAt(s, r, i)
  {
    var t := TrimStart(s);
    var r := TrimEnd(t);
    assert OccursAt(s, r, |s| - |t|);
    r
  }

  lemma StripNoSpace(s: string)
    requires s == [] || (!IsSpace(s[0]) && !IsSpace(s[|s| - 1]))
    ensures Strip(s) == s
  {
  }

  // ---------------------------------------------------------------- split and join

  /** `s.split(sep)` for a one-character separator: always at least one part. */
  function Split(s: string, sep: char): (parts: seq<string>)
    ensures |parts| >= 1
    ensures forall k :: 0 <= k < |parts| ==> sep !in parts[k]
    decreases |s|
  {
    if |s| == 0 then [""]
    else
      var rest := Split(s[1..], sep);
      if s[0] == sep then [""] + rest
      else [[s[0]] + rest[0]] + rest[1..]
  }

  /** `sep.join(parts)` */
  function Join(parts: seq<string>, sep: char): string
    decreases |parts|
  {
    if |parts| == 0 then ""
    else if |parts| == 1 then parts[0]
    else parts[0] + [sep] + Join(parts[1..], sep)
  }

  /** `sep.join(parts)` for a separator of any length. */
  function JoinWith(parts: seq<string>, sep: string): string
    decreases |parts|
  {
    if |parts| == 0 then ""
    else if |parts| == 1 then parts[0]
    else parts[0] + sep + JoinWith(parts[1..], sep)
  }

  /** Joining with a one-character string is joining with that character. */
  lemma {:induction false} JoinWithChar(parts: seq<string>, sep: char)
    ensures JoinWith(parts, [sep]) == Join(parts, sep)
    decreases |parts|
  {
    if |parts| > 1 {
      JoinWithChar(parts[1..], sep);
    }
  }

  lemma {:induction false} JoinSplit(s: string, sep: char)
    ensures Join(Split(s, sep), sep) == s
    decreases |s|
  {
    if |s| > 0 {
      var rest := Split(s[1..], sep);
      JoinSplit(s[1..], sep);
      if s[0] == sep {
        assert Split(s, sep) == [""] + rest;
        assert Join([""] + rest, sep) == "" + [sep] + Join(rest, sep);
        assert s == [s[0]] + s[1..];
      } else {
        var parts := Split(s, sep);
        assert parts == [[s[0]] + rest[0]] + rest[1..];
        if |rest| == 1 {
          assert Join(parts, sep) == [s[0]] + rest[0];
          assert Join(rest, sep) == rest[0];
        } else {
          assert parts[1..] == rest[1..];
          assert Join(parts, sep) == [s[0]] + rest[0] + [sep] + Join(rest[1..], sep);
          assert Join(rest, sep) == rest[0] + [sep] + Join(rest[1..], sep);
        }
        assert s == [s[0]] + s[1..];
      }
    }
  }

  lemma {:induction false} SplitJoin(parts: seq<string>, sep: char)
    requires |parts| >= 1
    requires forall k :: 0 <= k < |parts| ==> sep !in parts[k]
    ensures Split(Join(parts, sep), sep) == parts
    decreases |parts|, |parts[0]|
  {
    if |parts| == 1 {
      SplitNoSep(parts[0], sep);
    } else if |parts[0]| == 0 {
      var tail := Join(parts[1..], sep);
      assert Join(parts, sep) == [sep] + tail;
      SplitJoin(parts[1..], sep);
      assert ([sep] + tail)[1..] == tail;
      assert parts == [""] + parts[1..];
    } else {
      var p0 := parts[0];
      var shorter := [p0[1..]] + parts[1..];
      assert shorter[1..] == parts[1..];
      assert Join(shorter, sep) == p0[1..] + [sep] + Join(parts[1..], sep);
      assert Join(parts, sep) == [p0[0]] + Join(shorter, sep);
      assert sep !in shorter[0];
      SplitJoin(shorter, sep);
      assert (([p0[0]] + Join(shorter, sep)))[1..] == Join(shorter, sep);
      assert p0 == [p0[0]] + p0[1..];
    }
  }

  /** Only no parts, or a single empty part, join to the empty string. */
  lemma JoinEmpty(parts: seq<string>, sep: char)
    requires Join(parts, sep) == ""
    ensures parts == [] || parts == [""]
  {
  }

  /** `s.split(sep)` of a non-empty string is never the single empty part. */
  lemma SplitNonEmpty(s: string, sep: char)
    requires s != ""
    ensures Split(s, sep) != [""]
  {
    JoinSplit(s, sep);
  }

  lemma {:induction false} SplitNoSep(s: string, sep: char)
    requires sep !in s
    ensures Split(s, sep) == [s]
    decreases |s|
  {
    if |s| > 0 {
      assert sep !in s[1..];
      SplitNoSep(s[1..], sep);
      assert s == [s[0]] + s[1..];
    }
  }

  /** The last part of `s.split(sep)`, Python's `s.split(sep)[-1]`. */
  function LastPart(s: string, sep: char): string
  {
    var parts := Split(s, sep);
    parts[|parts| - 1]
  }

  lemma {:induction false} LastPartAfterSep(prefix: string, sep: char, tail: string)
    requires sep !in tail
    ensures LastPart(prefix + [sep] + tail, sep) == tail
    decreases |prefix|
  {
    if |prefix| == 0 {
      SplitNoSep(tail, sep);
      assert ([sep] + tail)[1..] == tail;
      assert Split([sep] + tail, sep) == [""] + [tail];
    } else {
      var s := prefix + [sep] + tail;
      assert s[1..] == prefix[1..] + [sep] + tail;
      LastPartAfterSep(prefix[1..], sep, tail);
      var rest := Split(s[1..], sep);
      if s[0] == sep {
        assert Split(s, sep) == [""] + rest;
      } else {
        assert |rest| >= 2 by {
          SplitAtLeastTwo(s[1..], sep, |prefix| - 1);
        }
        assert Split(s, sep) == [[s[0]] + rest[0]] + rest[1..];
      }
    }
  }

  lemma {:induction false} SplitAtLeastTwo(s: string, sep: char, i: nat)
    requires i < |s| && s[i] == sep
    ensures |Split(s, sep)| >= 2
    decreases |s|
  {
    if s[0] != sep {
      SplitAtLeastTwo(s[1..], sep, i - 1);
    }
  }

  /** Python's `s.split()`: the maximal runs of non-whitespace characters, in order. */
  function Words(s: string): (ws: seq<string>)
    ensures forall k :: 0 <= k < |ws| ==> ws[k] != [] && NoSpace(ws[k])
    decreases |s|
  {
    if s == [] then []
    else if IsSpace(s[0]) then Words(s[1..])
    else
      var n := TokenLength(s);
      [s[..n]] + Words(s[n..])
  }

  /** Length of the leading run of non-whitespace characters. */
  function TokenLength(s: string): (n: nat)
    ensures n <= |s| && NoSpace(s[..n])
    ensures n < |s| ==> IsSpace(s[n])
  {
    if s == [] || IsSpace(s[0]) then 0
    else
      var m := TokenLength(s[1..]);
      assert s[..m + 1] == [s[0]] + s[1..][..m];
      m + 1
  }

  /** A word followed by whitespace or by nothing is exactly the leading token. */
  lemma {:induction false} TokenLengthOfWord(a: string, b: string)
    requires NoSpace(a) && (b == [] || IsSpace(b[0]))
    ensures TokenLength(a + b) == |a|
    decreases |a|
  {
    if a == [] {
      assert a + b == b;
    } else {
      assert (a + b)[0] == a[0] && (a + b)[1..] == a[1..] + b;
      TokenLengthOfWord(a[1..], b);
    }
  }

  /** A single word splits into itself. */
  lemma WordsOfWord(a: string)
    requires a != [] && NoSpace(a)
    ensures Words(a) == [a]
  {
    TokenLengthOfWord(a, []);
    assert a + [] == a;
    assert a[..|a|] == a && a[|a|..] == [];
  }

  /** Splitting a word, a space and a rest gives the word, then the rest's words. */
  lemma WordsAfterWord(a: string, rest: string)
    requires a != [] && NoSpace(a)
    ensures Words(a + " " + rest) == [a] + Words(rest)
  {
    var s := a + " " + rest;
    TokenLengthOfWord(a, " " + rest);
    assert s == a + (" " + rest);
    assert s[0] == a[0];
    assert s[..|a|] == a && s[|a|..] == " " + rest;
    assert (" " + rest)[1..] == rest;
  }

  function Concat(ws: seq<string>): string
  {
    if ws == [] then "" else ws[0] + Concat(ws[1..])
  }

  function RemoveSpaces(s: string): (r: string)
    ensures NoSpace(r)
  {
    if s == [] then ""
    else if IsSpace(s[0]) then RemoveSpaces(s[1..])
    else [s[0]] + RemoveSpaces(s[1..])
  }

  lemma {:induction false} RemoveSpacesAppend(a: string, b: string)
    ensures RemoveSpaces(a + b) == RemoveSpaces(a) + RemoveSpaces(b)
    decreases |a|
  {
    if a != [] {
      assert (a + b)[1..] == a[1..] + b;
      RemoveSpacesAppend(a[1..], b);
    } else {
      assert a + b == b;
    }
  }

  lemma {:induction false} RemoveSpacesNoSpace(s: string)
    requires NoSpace(s)
    ensures RemoveSpaces(s) == s
    decreases |s|
  {
    if s != [] {
      RemoveSpacesNoSpace(s[1..]);
      assert s == [s[0]] + s[1..];
    }
  }

  /** The words of a message are exactly its non-whitespace characters, cut at whitespace. */
  lemma {:induction false} WordsCoverText(s: string)
    ensures Concat(Words(s)) == RemoveSpaces(s)
    decreases |s|
  {
    if s != [] {
      if IsSpace(s[0]) {
        WordsCoverText(s[1..]);
      } else {
        var n := TokenLength(s);
        WordsCoverText(s[n..]);
        assert s == s[..n] + s[n..];
        RemoveSpacesAppend(s[..n], s[n..]);
        RemoveSpacesNoSpace(s[..n]);
        assert Words(s)[1..] == Words(s[n..]);
      }
    }
  }

  /** Python's `s.split(maxsplit=1)`: the first word and, if more text follows, the rest after the whitespace. */
  function SplitFirstWord(s: string): (parts: seq<string>)
    ensures |parts| <= 2
    ensures |parts| == 0 <==> Words(s) == []
    ensures |parts| >= 1 ==> parts[0] == Words(s)[0]
  {
    var t := TrimStart(s);
    TrimStartWords(s);
    if t == [] then []
    else
      var n := TokenLength(t);
      var rest := TrimStart(t[n..]);
      if rest == [] then [t[..n]] else [t[..n], rest]
  }

  lemma {:induction false} TrimStartWords(s: string)
    ensures Words(TrimStart(s)) == Words(s)
    decreases |s|
  {
    if s != [] && IsSpace(s[0]) {
      TrimStartWords(s[1..]);
    }
  }

  // ---------------------------------------------------------------- integers

  function DigitValue(c: char): nat
    requires IsDigit(c)
  {
    c as int - '0' as int
  }

  /** The value of a decimal digit string (`int(d)` for plain digits). */
  function DigitsValue(d: string): nat
    requires AllDigits(d)
    decreases |d|
  {
    if d == [] then 0 else DigitsValue(d[..|d| - 1]) * 10 + DigitValue(d[|d| - 1])
  }

  /** `str(n)` for a natural number. */
  function NatToString(n: nat): (r: string)
    ensures IsDigitString(r)
    ensures DigitsValue(r) == n
    ensures r[0] == '0' ==> n == 0
  {
    var last := ['0' + (n % 10) as char];
    if n < 10 then last
    else
      var r := NatToString(n / 10) + last;
      assert r[..|r| - 1] == NatToString(n / 10);
      r
  }

  /** `str(i)` for any integer. */
  function IntToString(i: int): string
  {
    if i < 0 then "-" + NatToString(-i) else NatToString(i)
  }

  /** The digit characters of `s`, in order (`''.join(filter(str.isdigit, s))`). */
  function DigitsOf(s: string): (r: string)
    ensures AllDigits(r) && |r| <= |s|
    ensures AllDigits(s) ==> r == s
  {
    if s == [] then ""
    else
      var rest := DigitsOf(s[1..]);
      assert AllDigits(s) ==> AllDigits(s[1..]);
      if IsDigit(s[0]) then
        assert AllDigits(s) ==> s == [s[0]] + s[1..];
        [s[0]] + rest
      else rest
  }

  /** Collecting digits distributes over concatenation. */
  lemma {:induction false} DigitsOfAppend(a: string, b: string)
    ensures DigitsOf(a + b) == DigitsOf(a) + DigitsOf(b)
    decreases |a|
  {
    if a == [] {
      assert a + b == b;
    } else {
      assert (a + b)[0] == a[0];
      assert (a + b)[1..] == a[1..] + b;
      DigitsOfAppend(a[1..], b);
    }
  }

  /** Python's `int(s)` on text: surrounding whitespace, an optional sign, then one or more digits. */
  function ParseInt(s: string): (r: Option<int>)
    ensures r.Some? ==> exists d :: IsDigitString(d) && (r.value == DigitsValue(d) || r.value == -(DigitsValue(d) as int))
  {
    var t := Strip(s);
    if t != [] && (t[0] == '-' || t[0] == '+') then
      var d := t[1..];
      var v: int := if IsDigitString(d) then DigitsValue(d) else 0;
      if IsDigitString(d) then Some(if t[0] == '-' then -v else v) else None
    else if IsDigitString(t) then Some(DigitsValue(t))
    else None
  }

  /** `int(str(i)) == i` */
  lemma ParseIntToString(i: int)
    ensures ParseInt(IntToString(i)) == Some(i)
  {
    var s := IntToString(i);
    assert !IsSpace(s[0]) && !IsSpace(s[|s| - 1]);
    StripNoSpace(s);
    if i < 0 {
      assert s[1..] == NatToString(-i);
    }
  }

  /** `str.zfill(width)`: pad with zeros after an optional sign up to `width` characters. */
  function ZFill(s: string, width: nat): (r: string)
    ensures |r| == if |s| >= width then |s| else width
    ensures |s| >= width ==> r == s
    ensures |s| < width && (s == [] || (s[0] != '-' && s[0] != '+')) ==>
              r == Repeat('0', width - |s|) + s
    ensures |s| < width && s != [] && (s[0] == '-' || s[0] == '+') ==>
              r == [s[0]] + Repeat('0', width - |s|) + s[1..]
  {
    if |s| >= width then s
    else if s != [] && (s[0] == '-' || s[0] == '+') then [s[0]] + Repeat('0', width - |s|) + s[1..]
    else Repeat('0', width - |s|) + s
  }

  /** Python's `s.replace(pat, rep)` for a non-empty pattern: left-to-right, non-overlapping. */
  function ReplaceAll(s: string, pat: string, rep: string): (r: string)
    requires |pat| > 0
    ensures !Contains(s, pat) ==> r == s
    decreases |s|
  {
    if |s| < |pat| then s
    else if s[..|pat|] == pat then
      assert OccursAt(s, pat, 0);
      rep + ReplaceAll(s[|pat|..], pat, rep)
    else
      var tail := ReplaceAll(s[1..], pat, rep);
      ContainsTail(s, pat);
      assert s == [s[0]] + s[1..];
      [s[0]] + tail
  }

  lemma ContainsTail(s: string, pat: string)
    requires |s| > 0
    ensures Contains(s[1..], pat) ==> Contains(s, pat)
  {
    if Contains(s[1..], pat) {
      var i :| 0 <= i <= |s[1..]| - |pat| && OccursAt(s[1..], pat, i);
      assert s[i + 1..i + 1 + |pat|] == s[1..][i..i + |pat|];
      assert OccursAt(s, pat, i + 1);
    }
  }

  /** An occurrence at the front is replaced, and the replacement carries on after it. */
  lemma ReplaceAllHit(s: string, pat: string, rep: string)
    requires |pat| > 0 && OccursAt(s, pat, 0)
    ensures ReplaceAll(s, pat, rep) == rep + ReplaceAll(s[|pat|..], pat, rep)
  {
  }

  /** A first character that starts no occurrence is kept, and the replacement carries on after it. */
  lemma ReplaceAllSkip(s: string, pat: string, rep: string)
    requires |pat| > 0 && |s| > 0 && !OccursAt(s, pat, 0)
    ensures ReplaceAll(s, pat, rep) == [s[0]] + ReplaceAll(s[1..], pat, rep)
  {
    if |s| < |pat| {
      assert s == [s[0]] + s[1..];
    }
  }

  lemma ReplaceAllAtStart(pat: string, rep: string, rest: string)
    requires |pat| > 0
    ensures ReplaceAll(pat + rest, pat, rep) == rep + ReplaceAll(rest, pat, rep)
  {
    assert (pat + rest)[..|pat|] == pat;
    assert (pat + rest)[|pat|..] == rest;
  }
}

=== FILE: ticket_checker.dfy ===
/**
 * The ticket checker: which channels count as tickets, when a ticket is warned and
 * closed for inactivity, the on/off monitor command, and the store of paused tickets.
 * Message histories, the clock and the outcome of each send are inputs.
 */
module TicketChecker {
  import opened Wrappers
  import Text

  /** A message younger than this many seconds counts as recent activity. */
  const ActiveWithin: int := 3600

  const Warning: string :=
    "📌 Please send a message in the next 60 minutes to keep this ticket open, otherwise it will be closed."

  /** The messages that close a ticket, in the order they are sent. */
  const ClosingSequence: seq<string> := ["🔒 Closing this ticket due to inactivity.", "$close", "$transcript", "$delete"]

  // ---------------------------------------------------------------- ticket names

  /** `ticket-\d+` matched at the start of the name only: anything may follow the first digit. */
  predicate IsTicketName(name: string)
  {
    |name| >= 8 && name[..7] == "ticket-" && Text.IsDigit(name[7])
  }

  /** Every name made of "ticket-", a digit and any tail is a ticket name. */
  lemma TicketNameIntro(d: char, tail: string)
    requires Text.IsDigit(d)
    ensures IsTicketName("ticket-" + [d] + tail)
  {
    var name := "ticket-" + [d] + tail;
    assert name[..7] == "ticket-";
    assert name[7] == d;
  }

  /** And every ticket name has that shape. */
  lemma TicketNameShape(name: string)
    requires IsTicketName(name)
    ensures Text.IsDigit(name[7]) && name == "ticket-" + [name[7]] + name[8..]
  {
    assert name == name[..7] + [name[7]] + name[8..];
  }

  /** The match is anchored: a name with anything but "t" in front, such as "closed-ticket-1", is not a ticket. */
  lemma AnchoredAtStart(front: string, name: string)
    requires front != [] && front[0] != 't'
    ensures !IsTicketName(front + name)
  {
    assert (front + name)[0] == front[0];
  }

  // ---------------------------------------------------------------- activity

  /** One look at a channel: the creation time of its newest message, if any, and the clock. */
  datatype Look = Look(newest: Option<int>, now: int)

  /** `has_recent_activity`: the newest message is younger than an hour; an empty channel is inactive. */
  predicate HasRecentActivity(look: Look)
  {
    look.newest.Some? && look.now - look.newest.value < ActiveWithin
  }

  /** Waiting without anyone speaking never makes a silent channel active again. */
  lemma SilenceStaysInactive(first: Look, second: Look)
    requires first.newest == second.newest && first.now <= second.now
    requires !HasRecentActivity(first)
    ensures !HasRecentActivity(second)
  {
  }

  // ---------------------------------------------------------------- the check loop

  /**
   * A text channel as the check sees it: id, name, the look before the warning and the look
   * an hour later, whether sending the warning raises, and the index of the first closing
   * message whose send raises, if any.
   */
  datatype TicketChannel = TicketChannel(id: int, name: string, first: Look, second: Look,
                                         warningFails: bool, closingFailsAt: Option<nat>)

  /** A message the bot sent into a channel. */
  datatype Effect = Sent(channel: int, text: string)

  /** The closing messages that go out before the first send that raises. */
  function ClosingSent(failsAt: Option<nat>): (k: nat)
    ensures k <= |ClosingSequence|
    ensures failsAt.None? ==> k == |ClosingSequence|
  {
    match failsAt
    case None => |ClosingSequence|
    case Some(i) => if i < |ClosingSequence| then i else |ClosingSequence|
  }

  function SendAll(channel: int, texts: seq<string>): (r: seq<Effect>)
    ensures |r| == |texts|
    ensures forall i :: 0 <= i < |texts| ==> r[i] == Sent(channel, texts[i])
  {
    seq(|texts|, i requires 0 <= i < |texts| => Sent(channel, texts[i]))
  }

  /** Whether a channel reaches the warning: a ticket, not paused, and inactive at the first look. */
  predicate Warned(ch: TicketChannel, paused: bool)
  {
    IsTicketName(ch.name) && !paused && !HasRecentActivity(ch.first) && !ch.warningFails
  }

  /**
   * What the check does to one channel. Non-tickets, paused tickets and active tickets get
   * nothing; a failed warning skips the channel; after the warning, a second inactive look
   * starts the closing sequence, which stops at the first send that raises.
   */
  function ChannelEffects(ch: TicketChannel, paused: bool): (r: seq<Effect>)
    ensures |r| <= 1 + |ClosingSequence|
    ensures r != [] <==> Warned(ch, paused)
    ensures r != [] ==> r[0] == Sent(ch.id, Warning)
    ensures forall i :: 1 <= i < |r| ==> r[i] == Sent(ch.id, ClosingSequence[i - 1])
    ensures |r| > 1 <==> Warned(ch, paused) && !HasRecentActivity(ch.second) && ClosingSent(ch.closingFailsAt) > 0
    ensures forall e :: e in r ==> e.channel == ch.id
  {
    if !IsTicketName(ch.name) || paused || HasRecentActivity(ch.first) || ch.warningFails then []
    else if HasRecentActivity(ch.second) then [Sent(ch.id, Warning)]
    else [Sent(ch.id, Warning)] + SendAll(ch.id, ClosingSequence[..ClosingSent(ch.closingFailsAt)])
  }

  /** The paused tickets: channel id to the time it was paused. */
  type PausedStore = map<int, int>

  /** `is_channel_paused`: a row for the channel exists. */
  predicate IsChannelPaused(store: PausedStore, channel: int)
  {
    channel in store
  }

  /** Some listed channel with this id is a ticket that failed both looks. */
  predicate ClosedFor(channels: seq<TicketChannel>, id: int)
  {
    exists ch :: ch in channels && ch.id == id && IsTicketName(ch.name)
                 && !HasRecentActivity(ch.first) && !HasRecentActivity(ch.second)
  }

  /** Some listed channel with this id is a ticket that failed the first look. */
  predicate WarnedFor(channels: seq<TicketChannel>, id: int)
  {
    exists ch :: ch in channels && ch.id == id && IsTicketName(ch.name) && !HasRecentActivity(ch.first)
  }

  /**
   * One iteration of `check_tickets` over every guild's text channels in order: nothing while
   * monitoring is off; paused channels are skipped.
   */
  function CheckTickets(enabled: bool, channels: seq<TicketChannel>, store: PausedStore): (r: seq<Effect>)
    ensures !enabled ==> r == []
    ensures forall e :: e in r ==> !IsChannelPaused(store, e.channel) && WarnedFor(channels, e.channel)
    ensures forall e :: e in r && e.text != Warning ==> ClosedFor(channels, e.channel)
  {
    if !enabled || channels == [] then []
    else
      var here := ChannelEffects(channels[0], IsChannelPaused(store, channels[0].id));
      var rest := CheckTickets(enabled, channels[1..], store);
      assert forall e :: e in rest ==> WarnedFor(channels, e.channel) by {
        forall e | e in rest ensures WarnedFor(channels, e.channel) {
          var ch :| ch in channels[1..] && ch.id == e.channel && IsTicketName(ch.name) && !HasRecentActivity(ch.first);
          assert ch in channels;
        }
      }
      assert forall e :: e in rest && e.text != Warning ==> ClosedFor(channels, e.channel) by {
        forall e | e in rest && e.text != Warning ensures ClosedFor(channels, e.channel) {
          var ch :| ch in channels[1..] && ch.id == e.channel && IsTicketName(ch.name)
                    && !HasRecentActivity(ch.first) && !HasRecentActivity(ch.second);
          assert ch in channels;
        }
      }
      assert forall e :: e in here && e.text != Warning ==> ClosedFor(channels, e.channel) by {
        forall e | e in here && e.text != Warning ensures ClosedFor(channels, e.channel) {
          assert channels[0] in channels;
        }
      }
      assert forall e :: e in here ==> WarnedFor(channels, e.channel) by {
        forall e | e in here ensures WarnedFor(channels, e.channel) {
          assert channels[0] in channels;
        }
      }
      here + rest
  }

  /** The check treats the channels one after another: a split list gives the concatenated effects. */
  lemma {:induction false} CheckTicketsAppend(enabled: bool, a: seq<TicketChannel>, b: seq<TicketChannel>, store: PausedStore)
    ensures CheckTickets(enabled, a + b, store) == CheckTickets(enabled, a, store) + CheckTickets(enabled, b, store)
    decreases |a|
  {
    if !enabled || a == [] {
      assert a + b == b || !enabled;
    } else {
      assert (a + b)[0] == a[0];
      assert (a + b)[1..] == a[1..] + b;
      CheckTicketsAppend(enabled, a[1..], b, store);
    }
  }

  /** A paused ticket is skipped whatever its activity: only the other channels act. */
  lemma PausedTicketSkipped(enabled: bool, ch: TicketChannel, store: PausedStore)
    requires IsChannelPaused(store, ch.id)
    ensures CheckTickets(enabled, [ch], store) == []
  {
  }

  // ---------------------------------------------------------------- the monitor command

  /** Whether checks are enabled, and whether the background loop is running. */
  datatype Monitor = Monitor(enabled: bool, running: bool)

  /** Checks start disabled with the loop stopped. */
  const InitialMonitor: Monitor := Monitor(false, false)

  datatype MonitorReply = MonitorReply(monitor: Monitor, text: string)

  /** `ticketmonitor_command`, with the state word compared in lower case. */
  function TicketMonitor(m: Monitor, state: Option<string>): (r: MonitorReply)
    ensures state.None? ==> r.monitor == m
    ensures state.Some? && Text.Lower(state.value) == "on" ==> r.monitor.enabled
    ensures state.Some? && Text.Lower(state.value) == "off" ==> !r.monitor.enabled
    ensures state.Some? && Text.Lower(state.value) != "on" && Text.Lower(state.value) != "off" ==>
              r == MonitorReply(m, "Invalid state. Please use `on` or `off`.")
    ensures r.monitor.enabled == m.enabled ==> r.monitor == m
  {
    match state
    case None =>
      MonitorReply(m, "Ticket monitoring is currently **" + (if m.enabled then "on" else "off") + "**.")
    case Some(s) =>
      var word := Text.Lower(s);
      if word == "on" then
        if m.enabled then MonitorReply(m, "Ticket monitoring is already enabled.")
        else MonitorReply(Monitor(true, true), "Ticket monitoring has been **enabled**.")
      else if word == "off" then
        if !m.enabled then MonitorReply(m, "Ticket monitoring is already disabled.")
        else MonitorReply(Monitor(false, false), "Ticket monitoring has been **disabled**.")
      else MonitorReply(m, "Invalid state. Please use `on` or `off`.")
  }

  /** The loop runs exactly while checks are enabled, from the start and after every command. */
  predicate InStep(m: Monitor) { m.running == m.enabled }

  lemma MonitorKeepsLoopInStep(m: Monitor, state: Option<string>)
    requires InStep(m)
    ensures InStep(TicketMonitor(m, state).monitor)
  {
  }

  /** Repeating a command only reports: the second run changes nothing. */
  lemma MonitorIdempotent(m: Monitor, state: Option<string>)
    ensures var m' := TicketMonitor(m, state).monitor;
            TicketMonitor(m', state).monitor == m'
  {
  }

  /** Only the lower-cased word matters: "ON" and "on" do the same. */
  lemma MonitorIgnoresCase(m: Monitor, a: string, b: string)
    requires Text.Lower(a) == Text.Lower(b)
    ensures TicketMonitor(m, Some(a)) == TicketMonitor(m, Some(b))
  {
  }

  /** A reported status names the current state and the enabling reply only comes from a change. */
  lemma MonitorReplies(m: Monitor, state: Option<string>)
    ensures state.None? ==>
              (TicketMonitor(m, state).text == "Ticket monitoring is currently **" + (if m.enabled then "on" else "off") + "**.")
    ensures TicketMonitor(m, state).text == "Ticket monitoring has been **enabled**." <==>
              !m.enabled && TicketMonitor(m, state).monitor.enabled
    ensures TicketMonitor(m, state).text == "Ticket monitoring has been **disabled**." <==>
              m.enabled && !TicketMonitor(m, state).monitor.enabled
  {
    if state.None? {
      var t := TicketMonitor(m, state).text;
      assert t[18] != "Ticket monitoring has been **enabled**."[18];
      assert t[18] != "Ticket monitoring has been **disabled**."[18];
    }
  }

  // ---------------------------------------------------------------- the paused store

  /** What `set_channel_paused` does as written: pausing raises before the insert runs. */
  datatype PauseResult = Stored(store: PausedStore) | NameErrorRaised

  /** `set_channel_paused` as written: the timestamp for a pause uses a name the module never imports. */
  function SetChannelPausedAsWritten(store: PausedStore, channel: int, paused: bool): (r: PauseResult)
    ensures paused <==> r.NameErrorRaised?
    ensures !paused ==> r == Stored(store - {channel})
  {
    if paused then NameErrorRaised else Stored(store - {channel})
  }

  /** The store after the as-written call: unchanged when it raised. */
  function AfterAsWritten(store: PausedStore, channel: int, paused: bool): PausedStore
  {
    var r := SetChannelPausedAsWritten(store, channel, paused);
    if r.Stored? then r.store else store
  }

  /** As written, no call ever pauses a channel that was not paused before. */
  lemma AsWrittenNeverPauses(store: PausedStore, channel: int, paused: bool, c: int)
    ensures IsChannelPaused(AfterAsWritten(store, channel, paused), c) ==> IsChannelPaused(store, c)
  {
  }

  /** Concretely: pausing channel 1 in an empty store leaves it unpaused. */
  lemma AsWrittenPauseLost()
    ensures !IsChannelPaused(AfterAsWritten(map[], 1, true), 1)
  {
  }

  /** `set_channel_paused` with the timestamp supplied: an upsert of the pause time, or a delete. */
  function SetChannelPaused(store: PausedStore, channel: int, paused: bool, now: int): (r: PausedStore)
    ensures IsChannelPaused(r, channel) == paused
    ensures paused ==> r[channel] == now
    ensures forall c :: c != channel ==> (c in r <==> c in store)
    ensures forall c :: c != channel && c in store ==> r[c] == store[c]
  {
    if paused then store[channel := now] else store - {channel}
  }

  /** Pausing then unpausing a channel restores the store without it. */
  lemma PauseThenUnpause(store: PausedStore, channel: int, now: int)
    ensures SetChannelPaused(SetChannelPaused(store, channel, true, now), channel, false, now) == store - {channel}
  {
  }

  /** Once paused through the corrected store, the check skips the channel. */
  lemma PausedThenSkipped(enabled: bool, ch: TicketChannel, store: PausedStore, now: int)
    ensures CheckTickets(enabled, [ch], SetChannelPaused(store, ch.id, true, now)) == []
  {
  }
}

=== FILE: todo.dfy ===
/**
 * The `todo` command: each user's to-do list, added to at the end, removed from by a 1-based
 * index, and listed with numbers. The command calls `get_todo_list` and `update_todo_list`
 * on the database handler, which defines neither; the intended store is modelled as a map
 * from user id to the list, and the as-written run ends where the first call raises.
 */
module Todo {
  import opened Wrappers
  import Text
  import StoreApi

  type Store = map<int, seq<string>>

  /** A user's list; no entry reads as the empty list. */
  function ListOf(store: Store, user: int): seq<string>
  {
    if user in store then store[user] else []
  }

  datatype Reply =
    | Usage
    | NeedMessage
    | Added(text: string)
    | NeedIndex
    | Removed(text: string)
    | InvalidIndex
    | EmptyList
    | Listing(text: string)
    | NoReply

  datatype Result = Result(store: Store, reply: Reply)

  /** The first line of a listing. */
  const Header := "Your Todo List:"

  /** Python's truthiness of an optional string. */
  predicate Truthy(s: Option<string>) { s.Some? && s.value != "" }

  /** `"\n".join(f"{i + 1}. {item}")`, numbered from `from`. */
  function NumberedLines(items: seq<string>, from: nat): (lines: seq<string>)
    ensures |lines| == |items|
    ensures forall i :: 0 <= i < |items| ==> lines[i] == Text.NatToString(from + i) + ". " + items[i]
    decreases |items|
  {
    if items == [] then [] else [Text.NatToString(from) + ". " + items[0]] + NumberedLines(items[1..], from + 1)
  }

  /** Removing the item at `i` keeps the others in order. */
  function RemoveAt(xs: seq<string>, i: nat): (r: seq<string>)
    requires i < |xs|
    ensures |r| == |xs| - 1
    ensures forall j :: 0 <= j < i ==> r[j] == xs[j]
    ensures forall j :: i <= j < |r| ==> r[j] == xs[j + 1]
  {
    xs[..i] + xs[i + 1..]
  }

  /** The command with its action word and the rest of the message. */
  function TodoCommand(store: Store, user: int, action: Option<string>, message: Option<string>): (r: Result)
    ensures !Truthy(action) ==> r == Result(store, Usage)
    ensures forall u :: u != user ==> ListOf(r.store, u) == ListOf(store, u)
    ensures action == Some("add") ==>
              (Truthy(message) ==> ListOf(r.store, user) == ListOf(store, user) + [message.value]
                                   && r.reply == Added("Added to todo list: " + message.value))
              && (!Truthy(message) ==> r == Result(store, NeedMessage))
    ensures action == Some("remove") ==>
              (!Truthy(message) || !Text.IsDigitString(message.value) ==> r == Result(store, NeedIndex))
              && (Truthy(message) && Text.IsDigitString(message.value) ==>
                    var i := Text.DigitsValue(message.value) - 1;
                    (0 <= i < |ListOf(store, user)| ==>
                       ListOf(r.store, user) == RemoveAt(ListOf(store, user), i)
                       && r.reply == Removed("Removed from todo list: " + ListOf(store, user)[i]))
                    && (!(0 <= i < |ListOf(store, user)|) ==> r == Result(store, InvalidIndex)))
    ensures action == Some("list") ==> r.store == store && (r.reply == EmptyList <==> ListOf(store, user) == [])
    ensures action == Some("list") && ListOf(store, user) != [] ==>
              r.reply == Listing(Header + "\n" + Text.JoinWith(NumberedLines(ListOf(store, user), 1), "\n"))
    ensures Truthy(action) && action.value !in ["add", "remove", "list"] ==> r == Result(store, NoReply)
  {
    if !Truthy(action) then Result(store, Usage)
    else
      var list := ListOf(store, user);
      if action.value == "add" then
        if !Truthy(message) then Result(store, NeedMessage)
        else Result(store[user := list + [message.value]], Added("Added to todo list: " + message.value))
      else if action.value == "remove" then
        if !Truthy(message) || !Text.IsDigitString(message.value) then Result(store, NeedIndex)
        else
          var i := Text.DigitsValue(message.value) - 1;
          if 0 <= i < |list| then Result(store[user := RemoveAt(list, i)], Removed("Removed from todo list: " + list[i]))
          else Result(store, InvalidIndex)
      else if action.value == "list" then
        if list == [] then Result(store, EmptyList)
        else Result(store, Listing(Header + "\n" + Text.JoinWith(NumberedLines(list, 1), "\n")))
      else Result(store, NoReply)
  }

  /** Adding an item and then removing the last index gives the list back. */
  lemma AddThenRemoveLast(store: Store, user: int, item: string)
    requires item != ""
    ensures var added := TodoCommand(store, user, Some("add"), Some(item)).store;
            var n := |ListOf(added, user)|;
            ListOf(TodoCommand(added, user, Some("remove"), Some(Text.NatToString(n))).store, user) == ListOf(store, user)
  {
    var list := ListOf(store, user) + [item];
    var added := TodoCommand(store, user, Some("add"), Some(item)).store;
    assert ListOf(added, user) == list;
    var n := |list|;
    var index := Text.NatToString(n);
    assert Text.IsDigitString(index) && Text.DigitsValue(index) - 1 == n - 1;
    var removed := TodoCommand(added, user, Some("remove"), Some(index)).store;
    assert ListOf(removed, user) == RemoveAt(list, n - 1);
    assert RemoveAt(list, n - 1) == ListOf(store, user);
  }

  /** Index "0" never removes anything. */
  lemma ZeroIndexInvalid(store: Store, user: int)
    ensures TodoCommand(store, user, Some("remove"), Some("0")) == Result(store, InvalidIndex)
  {
    assert Text.IsDigitString("0");
    assert Text.DigitsValue("0") == 0;
  }

  /** No item of the list holds a line break. */
  predicate SingleLineItems(items: seq<string>)
  {
    forall i :: 0 <= i < |items| ==> '\n' !in items[i]
  }

  /**
   * A listing of single-line items reads back, line by line, as the header followed by one
   * numbered line per item, in list order.
   */
  lemma ListingLines(store: Store, user: int)
    requires ListOf(store, user) != [] && SingleLineItems(ListOf(store, user))
    ensures var r := TodoCommand(store, user, Some("list"), None);
            r.reply.Listing? && Text.Split(r.reply.text, '\n') == [Header] + NumberedLines(ListOf(store, user), 1)
  {
    var lines := NumberedLines(ListOf(store, user), 1);
    var all := [Header] + lines;
    Text.JoinWithChar(lines, '\n');
    assert "\n" == ['\n'];
    assert all[1..] == lines;
    assert Text.Join(all, '\n') == Header + ['\n'] + Text.Join(lines, '\n');
    forall k | 0 <= k < |all| ensures '\n' !in all[k] {
      if k > 0 {
        NumberedLineSingle(ListOf(store, user), 1, k - 1);
      }
    }
    Text.SplitJoin(all, '\n');
  }

  /** A numbered line of a single-line item is a single line. */
  lemma NumberedLineSingle(items: seq<string>, from: nat, i: nat)
    requires SingleLineItems(items) && i < |items|
    ensures '\n' !in NumberedLines(items, from)[i]
  {
    var n := Text.NatToString(from + i);
    assert NumberedLines(items, from)[i] == n + ". " + items[i];
  }

  /** The store calls the command makes first: reading the list, then writing it back. */
  const GetList := "get_todo_list"
  const UpdateList := "update_todo_list"

  /** Neither call finds a method on the handler. */
  lemma StoreCallsMissing()
    ensures !StoreApi.Defines(GetList) && !StoreApi.Defines(UpdateList)
  {
    GetListMissing();
    UpdateListMissing();
  }

  lemma GetListMissing()
    ensures !StoreApi.Defines(GetList)
  {
    StoreApi.CommandCallMissing(GetList);
  }

  lemma UpdateListMissing()
    ensures !StoreApi.Defines(UpdateList)
  {
    StoreApi.CommandCallMissing(UpdateList);
  }

  /**
   * `todo` as written: the replies that need no list (usage, a missing message, a missing
   * index) are given; every run that reaches the list calls `get_todo_list` and raises.
   */
  function TodoCommandAsWritten(store: Store, user: int, action: Option<string>, message: Option<string>): (r: StoreApi.Run<Result>)
    ensures r.Raised? <==>
              action == Some("list")
              || (action == Some("add") && Truthy(message))
              || (action == Some("remove") && Truthy(message) && Text.IsDigitString(message.value))
    ensures r.Raised? ==> r.missing == GetList
    ensures r.Ran? ==> r.value.store == store && r.value == TodoCommand(store, user, action, message)
  {
    StoreCallsMissing();
    var needsList :=
      Truthy(action)
      && (action.value == "list"
          || (action.value == "add" && Truthy(message))
          || (action.value == "remove" && Truthy(message) && Text.IsDigitString(message.value)));
    if needsList && !StoreApi.Defines(GetList) then StoreApi.Raised(GetList)
    else StoreApi.Ran(TodoCommand(store, user, action, message))
  }

  /** As written no list is ever changed, shown or reported empty. */
  lemma AsWrittenNeverTouchesLists(store: Store, user: int, action: Option<string>, message: Option<string>)
    ensures var r := TodoCommandAsWritten(store, user, action, message);
            r.Ran? ==> r.value.reply in {Usage, NeedMessage, NeedIndex, NoReply}
  {
  }
}

=== FILE: vibecheck.dfy ===
/**
 * The vibecheck command: validation of its JSON setup, the selection of the messages of one
 * day and hour range, the collection of the first `count` of them, and the classification of
 * their combined sentiment score. The sentiment analyser and the message history are inputs.
 */
module VibeCheck {
  import opened Wrappers
  import Text

  // ---------------------------------------------------------------- the setup object

  /** A JSON value as the setup object can hold it (floats are not modelled). */
  datatype JsonValue = JNull | JNumber(n: int) | JString(s: string)

  /** The keys of the setup object; `None` is an absent key. */
  datatype Setup = Setup(user: Option<JsonValue>, channel: Option<JsonValue>, month: Option<JsonValue>,
                         day: Option<JsonValue>, from: Option<JsonValue>, to: Option<JsonValue>)

  /** What `json.loads` made of the setup text. */
  datatype ParsedSetup = NotJson | NotObject | Object(setup: Setup)

  /** Python's `str(v)`. */
  function Str(v: JsonValue): string
  {
    match v
    case JNull => "None"
    case JNumber(n) => Text.IntToString(n)
    case JString(s) => s
  }

  /** Python's `int(v)` on a value that may be missing; `None` is the TypeError or ValueError it raises. */
  function IntOf(v: Option<JsonValue>): (r: Option<int>)
    ensures v.None? || v == Some(JNull) ==> r.None?
    ensures v.Some? && v.value.JNumber? ==> r == Some(v.value.n)
  {
    match v
    case None => None
    case Some(JNull) => None
    case Some(JNumber(n)) => Some(n)
    case Some(JString(s)) => Text.ParseInt(s)
  }

  /** `int("".join(filter(str.isdigit, v)))`: `None` when `v` is no string or holds no digit. */
  function MentionId(v: JsonValue): (r: Option<nat>)
    ensures r.Some? <==> v.JString? && Text.DigitsOf(v.s) != ""
    ensures r.Some? ==> r.value == Text.DigitsValue(Text.DigitsOf(v.s))
  {
    if v.JString? && Text.DigitsOf(v.s) != "" then Some(Text.DigitsValue(Text.DigitsOf(v.s))) else None
  }

  lemma MentionWithPrefix(prefix: string, id: nat)
    requires Text.DigitsOf(prefix) == ""
    ensures MentionId(JString(prefix + Text.NatToString(id) + ">")) == Some(id)
  {
    var d := Text.NatToString(id);
    assert Text.DigitsOf(d) == d;
    assert Text.DigitsOf(">") == "";
    Text.DigitsOfAppend(prefix, d);
    assert Text.DigitsOf(prefix + d) == d;
    Text.DigitsOfAppend(prefix + d, ">");
    assert Text.DigitsOf(prefix + d + ">") == d + "";
    assert d + "" == d;
  }

  /** A user mention `<@id>` or `<@!id>` and a channel mention `<#id>` all give back the id. */
  lemma MentionRoundTrip(id: nat)
    ensures MentionId(JString("<@" + Text.NatToString(id) + ">")) == Some(id)
    ensures MentionId(JString("<@!" + Text.NatToString(id) + ">")) == Some(id)
    ensures MentionId(JString("<#" + Text.NatToString(id) + ">")) == Some(id)
  {
    assert Text.DigitsOf("<@") == "" && Text.DigitsOf("<@!") == "" && Text.DigitsOf("<#") == "";
    MentionWithPrefix("<@", id);
    MentionWithPrefix("<@!", id);
    MentionWithPrefix("<#", id);
  }

  /** Two digits, as `strftime` prints a month, day or hour. */
  function TwoDigits(n: nat): string
  {
    Text.ZFill(Text.NatToString(n), 2)
  }

  /** Below 100, the two-digit text of a number tells the number. */
  lemma {:induction false} TwoDigitsInjective(a: nat, b: nat)
    requires a < 100 && b < 100
    ensures TwoDigits(a) == TwoDigits(b) <==> a == b
  {
    TwoDigitsValue(a);
    TwoDigitsValue(b);
  }

  lemma {:induction false} TwoDigitsValue(n: nat)
    requires n < 100
    ensures Text.AllDigits(TwoDigits(n)) && Text.DigitsValue(TwoDigits(n)) == n
  {
    var d := Text.NatToString(n);
    if n < 10 {
      assert d == ['0' + n as char];
      var t := TwoDigits(n);
      assert t == ['0', '0' + n as char];
      assert t[..1] == ['0'] && t[..1][..0] == [];
    } else {
      assert n / 10 < 10;
      assert Text.NatToString(n / 10) == ['0' + (n / 10) as char];
      assert |d| == 2;
    }
  }

  /** `str(value).zfill(2)` when the key is given, else the current UTC month or day. */
  function DateText(v: Option<JsonValue>, current: nat): (r: string)
    ensures |r| >= 2
    ensures v.None? ==> r == TwoDigits(current)
    ensures v.Some? ==> r == Text.ZFill(Str(v.value), 2)
  {
    match v
    case None => TwoDigits(current)
    case Some(x) => Text.ZFill(Str(x), 2)
  }

  /** A numeric month or day override selects the date it names, with or without a leading zero. */
  lemma NumberOverrideNamesDate(n: nat, m: nat, current: nat)
    requires n < 100 && m < 100
    ensures DateText(Some(JNumber(n)), current) == TwoDigits(m) <==> n == m
    ensures DateText(Some(JString(Text.NatToString(n))), current) == DateText(Some(JNumber(n)), current)
  {
    assert Str(JNumber(n)) == Text.NatToString(n);
    TwoDigitsInjective(n, m);
  }

  // ---------------------------------------------------------------- hours

  datatype Hours = Hours(from: int, to: int) | BadHours | HoursCrash

  /**
   * `0 <= int(from) <= 24 and 0 <= int(to) <= 24`, evaluated left to right: an out-of-range
   * start rejects before the end is converted, and a failed conversion raises.
   */
  function CheckHours(from: Option<JsonValue>, to: Option<JsonValue>): (r: Hours)
    ensures r.Hours? <==> IntOf(from).Some? && IntOf(to).Some?
                          && 0 <= IntOf(from).value <= 24 && 0 <= IntOf(to).value <= 24
    ensures r.Hours? ==> r == Hours(IntOf(from).value, IntOf(to).value)
    ensures r.HoursCrash? <==> IntOf(from).None? || (0 <= IntOf(from).value <= 24 && IntOf(to).None?)
  {
    match IntOf(from)
    case None => HoursCrash
    case Some(a) =>
      if !(0 <= a <= 24) then BadHours
      else
        match IntOf(to)
        case None => HoursCrash
        case Some(b) => if 0 <= b <= 24 then Hours(a, b) else BadHours
  }

  /** A start outside the range is rejected even when the end is missing. */
  lemma StartCheckedFirst(a: int)
    requires a < 0 || a > 24
    ensures CheckHours(Some(JNumber(a)), None) == BadHours
  {
  }

  // ---------------------------------------------------------------- message selection

  /** A message as the selection sees it: its author, its UTC creation date and hour, its text. */
  datatype Message = Message(authorBot: bool, authorId: int, month: nat, day: nat, hour: nat, content: string)

  /** The selection: the author when a user is given, the two-digit month and day, the hour range. */
  datatype Criteria = Criteria(member: Option<int>, month: string, day: string, from: int, to: int)

  /** `is_valid_message`. */
  predicate IsValidMessage(m: Message, c: Criteria)
  {
    && !m.authorBot
    && (c.member.None? || m.authorId == c.member.value)
    && TwoDigits(m.month) == c.month
    && TwoDigits(m.day) == c.day
    && c.from <= m.hour <= c.to
  }

  /** The contents of the qualifying messages, in history order (the reference selection). */
  function Matching(history: seq<Message>, c: Criteria): (r: seq<string>)
    ensures |r| <= |history|
  {
    if history == [] then []
    else if IsValidMessage(history[0], c) then [history[0].content] + Matching(history[1..], c)
    else Matching(history[1..], c)
  }

  lemma {:induction false} MatchingFromValid(history: seq<Message>, c: Criteria, s: string)
    requires s in Matching(history, c)
    ensures exists m :: m in history && IsValidMessage(m, c) && m.content == s
    decreases |history|
  {
    if !(IsValidMessage(history[0], c) && s == history[0].content) {
      MatchingFromValid(history[1..], c, s);
      var m :| m in history[1..] && IsValidMessage(m, c) && m.content == s;
      assert m in history;
    }
  }

  lemma {:induction false} MatchingNone(history: seq<Message>, c: Criteria)
    requires forall i :: 0 <= i < |history| ==> !IsValidMessage(history[i], c)
    ensures Matching(history, c) == []
    decreases |history|
  {
    if history != [] {
      MatchingNone(history[1..], c);
    }
  }

  /** How many qualifying messages one pass keeps: the append happens before the count check, so at least one. */
  function Quota(count: int, acc: nat): nat
  {
    if count - acc >= 1 then count - acc else 1
  }

  function Min(a: nat, b: nat): nat { if a <= b then a else b }

  /**
   * One pass of the inner `for` loop over a fetched history, appending to `acc`; the flag says
   * whether the count was reached.
   */
  function Pass(acc: seq<string>, history: seq<Message>, c: Criteria, count: int): (seq<string>, bool)
    decreases |history|
  {
    if history == [] then (acc, false)
    else if IsValidMessage(history[0], c) then
      var acc' := acc + [history[0].content];
      if |acc'| >= count then (acc', true) else Pass(acc', history[1..], c, count)
    else Pass(acc, history[1..], c, count)
  }

  lemma PrefixStep(acc: seq<string>, x: string, rest: seq<string>, k: nat)
    requires k <= |rest|
    ensures (acc + [x]) + rest[..k] == acc + ([x] + rest)[..k + 1]
  {
    assert ([x] + rest)[..k + 1] == [x] + rest[..k];
  }

  /** A pass appends the first qualifying messages, as many as the quota, and stops early exactly when it fills the quota. */
  lemma {:induction false} PassTakesPrefix(acc: seq<string>, history: seq<Message>, c: Criteria, count: int)
    ensures var ms := Matching(history, c);
            Pass(acc, history, c, count).0 == acc + ms[..Min(|ms|, Quota(count, |acc|))]
    ensures Pass(acc, history, c, count).1 <==> |Matching(history, c)| >= Quota(count, |acc|)
    decreases |history|
  {
    var ms := Matching(history, c);
    if history == [] {
      assert acc + ms[..0] == acc;
    } else if !IsValidMessage(history[0], c) {
      PassTakesPrefix(acc, history[1..], c, count);
    } else {
      var x := history[0].content;
      var rest := Matching(history[1..], c);
      assert ms == [x] + rest;
      if |acc| + 1 < count {
        PassTakesPrefix(acc + [x], history[1..], c, count);
        PrefixStep(acc, x, rest, Min(|rest|, Quota(count, |acc| + 1)));
      } else {
        assert ms[..1] == [x];
      }
    }
  }

  /**
   * Collection in one pass over the history: the first `count` qualifying messages (at least one
   * when any qualifies), each at most once and in history order.
   */
  function Collect(history: seq<Message>, c: Criteria, count: int): (r: seq<string>)
    ensures var ms := Matching(history, c);
            r == ms[..Min(|ms|, if count >= 1 then count else 1)]
    ensures r == [] <==> Matching(history, c) == []
  {
    PassTakesPrefix([], history, c, count);
    Pass([], history, c, count).0
  }

  /** Every collected text is the content of a qualifying message of the history. */
  lemma CollectedQualify(history: seq<Message>, c: Criteria, count: int, s: string)
    requires s in Collect(history, c, count)
    ensures exists m :: m in history && IsValidMessage(m, c) && m.content == s
  {
    var ms := Matching(history, c);
    assert s in ms;
    MatchingFromValid(history, c, s);
  }

  /** The history size one fetch requests. */
  const SearchLimit: nat := 1000

  /**
   * `fetch_messages` as written: the `while` loop fetches the same newest `SearchLimit` messages
   * again on every pass, keeping what it collected. `fuel` bounds the number of passes; `None`
   * means the loop has not stopped after that many.
   */
  function FetchAsWritten(acc: seq<string>, history: seq<Message>, c: Criteria, count: int, fuel: nat): Option<seq<string>>
    decreases fuel
  {
    if fuel == 0 then None
    else
      var (acc', reached) := Pass(acc, history, c, count);
      if reached || |history| < SearchLimit then Some(acc')
      else FetchAsWritten(acc', history, c, count, fuel - 1)
  }

  /** With fewer messages than the fetch limit the loop makes one pass, which is `Collect`. */
  lemma ShortHistoryOnePass(history: seq<Message>, c: Criteria, count: int, fuel: nat)
    requires |history| < SearchLimit && fuel >= 1
    ensures FetchAsWritten([], history, c, count, fuel) == Some(Collect(history, c, count))
  {
  }

  /** A full history with one qualifying message, asked for two, yields that message twice. */
  lemma FetchAsWrittenDuplicates(good: Message, bad: Message, c: Criteria)
    requires IsValidMessage(good, c) && !IsValidMessage(bad, c)
    ensures var history := [good] + seq(SearchLimit - 1, _ => bad);
            FetchAsWritten([], history, c, 2, 2) == Some([good.content, good.content])
            && Collect(history, c, 2) == [good.content]
  {
    var history := [good] + seq(SearchLimit - 1, _ => bad);
    assert history[1..] == seq(SearchLimit - 1, _ => bad);
    MatchingNone(history[1..], c);
    assert Matching(history, c) == [good.content];
    var ms := Matching(history, c);
    PassTakesPrefix([], history, c, 2);
    assert Min(|ms|, Quota(2, 0)) == 1;
    assert [] + ms[..1] == [good.content];
    assert Pass([], history, c, 2) == ([good.content], false);
    PassTakesPrefix([good.content], history, c, 2);
    assert Min(|ms|, Quota(2, 1)) == 1;
    assert [good.content] + ms[..1] == [good.content, good.content];
    assert Pass([good.content], history, c, 2) == ([good.content, good.content], true);
    assert FetchAsWritten([good.content], history, c, 2, 1) == Some([good.content, good.content]);
  }

  /** A full history with no qualifying message keeps the loop going for ever. */
  lemma {:induction false} FetchAsWrittenNeverStops(history: seq<Message>, c: Criteria, count: int, fuel: nat)
    requires |history| >= SearchLimit && Matching(history, c) == []
    ensures FetchAsWritten([], history, c, count, fuel) == None
    decreases fuel
  {
    if fuel > 0 {
      PassTakesPrefix([], history, c, count);
      assert [] + Matching(history, c)[..0] == [];
      assert Pass([], history, c, count) == ([], false);
      FetchAsWrittenNeverStops(history, c, count, fuel - 1);
    }
  }

  // ---------------------------------------------------------------- classification

  datatype Vibe = Based | Neutral | Cringe

  /** The overall state from the compound score: the three intervals cover the line without overlap. */
  function Classify(compound: real): (v: Vibe)
    ensures v == Based <==> compound >= 0.05
    ensures v == Neutral <==> -0.05 < compound < 0.05
    ensures v == Cringe <==> compound <= -0.05
  {
    if compound >= 0.05 then Based
    else if -0.05 < compound < 0.05 then Neutral
    else Cringe
  }

  function Rank(v: Vibe): nat
  {
    match v
    case Cringe => 0
    case Neutral => 1
    case Based => 2
  }

  /** A higher score never gets a lower state. */
  lemma ClassifyMonotone(a: real, b: real)
    requires a <= b
    ensures Rank(Classify(a)) <= Rank(Classify(b))
  {
  }

  // ---------------------------------------------------------------- the command

  /** What the platform tells the command: known members and channels, today's date, the history, the score. */
  datatype Env = Env(members: set<int>, channels: set<int>, currentMonth: nat, currentDay: nat,
                     history: seq<Message>, compound: real)

  datatype Reply =
    | Usage
    | InvalidJson
    | NoSuchUser(userId: int)
    | NoSuchChannel(channelId: int)
    | HoursOutOfRange
    | NoMessages
    | Results(vibe: Vibe, date: string, messages: seq<string>)
    | Raised

  /** Where the checks before `fetch_messages` leave the command: stopped with a reply, or going on to fetch. */
  datatype Checked =
    | Stop(reply: Reply)
    | Go(crit: Criteria, member: Option<nat>, channel: Option<nat>, date: string)

  /**
   * The checks of `vibecheck(messages_count, setup)` before any message is fetched: usage,
   * the JSON, the user, the channel and the hours, in that order; then the criteria.
   */
  function Checks(count: Option<int>, setup: Option<ParsedSetup>, env: Env): (r: Checked)
    ensures r.Stop? ==> !r.reply.Results? && !r.reply.NoMessages?
    ensures count.None? || setup.None? ==> r == Stop(Usage)
    ensures setup == Some(NotJson) && count.Some? ==> r == Stop(InvalidJson)
    ensures r.Go? ==> count.Some? && setup.Some? && setup.value.Object?
                      && CheckHours(setup.value.setup.from, setup.value.setup.to).Hours?
                      && (r.member.Some? <==> setup.value.setup.user.Some?)
                      && (r.channel.Some? <==> setup.value.setup.channel.Some?)
    ensures r.Go? ==> var s := setup.value.setup;
                      (s.user.Some? ==> r.member == MentionId(s.user.value))
                      && r.crit == Criteria(if r.member.Some? then Some(r.member.value as int) else None,
                                            DateText(s.month, env.currentMonth), DateText(s.day, env.currentDay),
                                            IntOf(s.from).value, IntOf(s.to).value)
  {
    if count.None? || setup.None? then Stop(Usage)
    else
      match setup.value
      case NotJson => Stop(InvalidJson)
      case NotObject => Stop(Raised)
      case Object(s) =>
        var member := if s.user.Some? then MentionId(s.user.value) else None;
        if s.user.Some? && member.None? then Stop(Raised)
        else if member.Some? && member.value !in env.members then Stop(NoSuchUser(member.value))
        else
          var channel := if s.channel.Some? then MentionId(s.channel.value) else None;
          if s.channel.Some? && channel.None? then Stop(Raised)
          else if channel.Some? && channel.value !in env.channels then Stop(NoSuchChannel(channel.value))
          else
            match CheckHours(s.from, s.to)
            case HoursCrash => Stop(Raised)
            case BadHours => Stop(HoursOutOfRange)
            case Hours(a, b) =>
              var month := DateText(s.month, env.currentMonth);
              var day := DateText(s.day, env.currentDay);
              var crit := Criteria(if member.Some? then Some(member.value as int) else None, month, day, a, b);
              Go(crit, member, channel, month + "-" + day)
  }

  /**
   * `vibecheck` as written. Under discord.py 2 `fetch_messages` cannot read any history: with a
   * channel it calls `channel.history(...).flatten()`, which the history iterator no longer
   * has, and without one it runs `async for` over `ctx.guild.text_channels`, a plain list.
   * Either raises, so every run that passes the checks ends in the error.
   */
  function VibecheckAsWritten(count: Option<int>, setup: Option<ParsedSetup>, env: Env): (r: Reply)
    ensures Checks(count, setup, env).Stop? ==> r == Checks(count, setup, env).reply
    ensures Checks(count, setup, env).Go? ==> r == Raised
  {
    match Checks(count, setup, env)
    case Stop(reply) => reply
    case Go(_, _, _, _) => Raised
  }

  /** As written, no run ever shows results or reports that no message was found. */
  lemma AsWrittenNeverShowsResults(count: Option<int>, setup: Option<ParsedSetup>, env: Env)
    ensures !VibecheckAsWritten(count, setup, env).Results?
    ensures !VibecheckAsWritten(count, setup, env).NoMessages?
  {
  }

  /**
   * `vibecheck` with the history read as intended: the first `count` qualifying messages of
   * the channel's history, or of the guild's, are analysed. The results are titled with the
   * member's or else the channel's name, so a setup naming neither raises once messages were
   * found.
   */
  function Vibecheck(count: Option<int>, setup: Option<ParsedSetup>, env: Env): (r: Reply)
    ensures count.None? || setup.None? ==> r == Usage
    ensures setup == Some(NotJson) && count.Some? ==> r == InvalidJson
    ensures Checks(count, setup, env).Stop? ==> r == Checks(count, setup, env).reply
    ensures r.Results? ==> r.vibe == Classify(env.compound) && r.messages != []
    ensures r.Results? ==> setup.Some? && setup.value.Object?
                           && CheckHours(setup.value.setup.from, setup.value.setup.to).Hours?
                           && (setup.value.setup.user.Some? || setup.value.setup.channel.Some?)
  {
    match Checks(count, setup, env)
    case Stop(reply) => reply
    case Go(crit, member, channel, date) =>
      var messages := Collect(env.history, crit, count.value);
      if messages == [] then NoMessages
      else if member.None? && channel.None? then Raised
      else Results(Classify(env.compound), date, messages)
  }

  /** The two differ only once the checks pass: as written the fetch raises, as intended it collects. */
  lemma AsWrittenAgreesUntilFetch(count: Option<int>, setup: Option<ParsedSetup>, env: Env)
    ensures VibecheckAsWritten(count, setup, env) != Vibecheck(count, setup, env) ==>
              Checks(count, setup, env).Go? && VibecheckAsWritten(count, setup, env) == Raised
  {
  }

  /** Results hold exactly what the history yields for the criteria the checks built. */
  lemma ResultsCollect(count: Option<int>, setup: Option<ParsedSetup>, env: Env)
    requires Vibecheck(count, setup, env).Results?
    ensures Checks(count, setup, env).Go? && count.Some?
    ensures Vibecheck(count, setup, env).messages == Collect(env.history, Checks(count, setup, env).crit, count.value)
  {
  }

  /** With the history read as intended, a run for one user keeps only that user's messages of the named day and hours. */
  lemma ResultsAreTheUsers(count: int, s: Setup, env: Env, id: nat, m: nat, d: nat, text: string)
    requires s.user == Some(JString("<@" + Text.NatToString(id) + ">")) && s.channel.None?
    requires s.month == Some(JNumber(m)) && s.day == Some(JNumber(d))
    requires Vibecheck(Some(count), Some(Object(s)), env).Results?
    requires text in Vibecheck(Some(count), Some(Object(s)), env).messages
    ensures exists msg :: msg in env.history && msg.content == text && !msg.authorBot && msg.authorId == id
                          && TwoDigits(msg.month) == Text.ZFill(Text.IntToString(m), 2)
                          && TwoDigits(msg.day) == Text.ZFill(Text.IntToString(d), 2)
                          && IntOf(s.from).value <= msg.hour <= IntOf(s.to).value
  {
    MentionRoundTrip(id);
    ResultsCollect(Some(count), Some(Object(s)), env);
    var c := Checks(Some(count), Some(Object(s)), env);
    assert c.member == Some(id);
    var crit := c.crit;
    CollectedQualify(env.history, crit, count, text);
  }
}

=== FILE: vote.dfy ===
/**
 * The vote commands: the vote link, and a member's vote count with the time until they may
 * vote again. The vote table is a map; the clock is an input, in microseconds as the
 * platform's `utcnow` carries them.
 */
module Vote {
  import opened Wrappers
  import Text

  const SecondsPerDay: nat := 86400
  const SecondsPerHour: nat := 3600
  const SecondsPerMinute: nat := 60
  const MicrosPerSecond: nat := 1000000

  /** `vote`: the link to the server's voting page. */
  function VoteLink(guildName: string, guildId: int): (r: string)
    ensures Text.StartsWith(r, "**[Vote for " + guildName + "]")
  {
    var head := "**[Vote for " + guildName + "]";
    var r := head + "(https://top.gg/servers/" + Text.IntToString(guildId) + "/vote)**";
    assert r[..|head|] == head;
    r
  }

  /** Days, hours, minutes and seconds, as three `divmod`s compute them. */
  datatype Span = Span(days: nat, hours: nat, minutes: nat, seconds: nat)

  function Decompose(total: nat): (s: Span)
    ensures total == s.days * SecondsPerDay + s.hours * SecondsPerHour + s.minutes * SecondsPerMinute + s.seconds
    ensures s.hours < 24 && s.minutes < 60 && s.seconds < 60
  {
    var days, remainder := total / SecondsPerDay, total % SecondsPerDay;
    var hours, remainder' := remainder / SecondsPerHour, remainder % SecondsPerHour;
    var minutes, seconds := remainder' / SecondsPerMinute, remainder' % SecondsPerMinute;
    Span(days, hours, minutes, seconds)
  }

  /** The decomposition is the only one within those bounds: composing and decomposing gives the parts back. */
  lemma {:induction false} DecomposeUnique(s: Span)
    requires s.hours < 24 && s.minutes < 60 && s.seconds < 60
    ensures Decompose(s.days * SecondsPerDay + s.hours * SecondsPerHour + s.minutes * SecondsPerMinute + s.seconds) == s
  {
    var low := s.hours * SecondsPerHour + s.minutes * SecondsPerMinute + s.seconds;
    var within := s.minutes * SecondsPerMinute + s.seconds;
    assert within < SecondsPerHour;
    assert s.hours * SecondsPerHour <= 23 * SecondsPerHour;
    assert low < SecondsPerDay;
    var total := s.days * SecondsPerDay + low;
    DivModUnique(total, SecondsPerDay, s.days, low);
    DivModUnique(low, SecondsPerHour, s.hours, within);
    DivModUnique(within, SecondsPerMinute, s.minutes, s.seconds);
  }

  /** `q` and `r` are the quotient and remainder of `q * d + r` when `r < d`. */
  lemma DivModUnique(n: nat, d: nat, q: nat, r: nat)
    requires d > 0 && r < d && n == q * d + r
    ensures n / d == q && n % d == r
  {
    var q', r' := n / d, n % d;
    assert n == q' * d + r' && r' < d;
    assert (q + 1) * d == q * d + d;
    assert (q' + 1) * d == q' * d + d;
    MulCancel(q', q + 1, d);
    MulCancel(q, q' + 1, d);
  }

  lemma MulCancel(x: int, y: int, d: int)
    requires d > 0 && x * d < y * d
    ensures x < y
  {
  }

  /** Two amounts with their units, as the wait shows them: "`3 hours, 5 minutes`". */
  function Pair(a: nat, big: string, b: nat, small: string): string
  {
    "`" + (Text.NatToString(a) + (" " + (big + (", " + (Text.NatToString(b) + (" " + (small + "`")))))))
  }

  /**
   * The wait as shown: from a day on, whole days and the hours left over; from an hour on,
   * hours and minutes; from a minute on, minutes and seconds; below a minute the fixed text.
   */
  function WaitText(total: nat): (t: string)
    ensures total >= SecondsPerDay ==> t == Pair(Decompose(total).days, "days", Decompose(total).hours, "hours")
    ensures SecondsPerHour <= total < SecondsPerDay ==>
              t == Pair(Decompose(total).hours, "hours", Decompose(total).minutes, "minutes")
    ensures SecondsPerMinute <= total < SecondsPerHour ==>
              t == Pair(Decompose(total).minutes, "minutes", Decompose(total).seconds, "seconds")
    ensures total < SecondsPerMinute ==> t == "`10 seconds`"
  {
    var s := Decompose(total);
    if s.days > 0 then Pair(s.days, "days", s.hours, "hours")
    else if s.hours > 0 then Pair(s.hours, "hours", s.minutes, "minutes")
    else if s.minutes > 0 then Pair(s.minutes, "minutes", s.seconds, "seconds")
    else "`10 seconds`"
  }

  /** The smallest unit the wait shows, in seconds: an hour from a day on, a minute from an hour on, else a second. */
  function Resolution(total: nat): (u: nat)
    ensures u in {SecondsPerHour, SecondsPerMinute, 1}
    ensures total >= SecondsPerDay <==> u == SecondsPerHour
    ensures SecondsPerHour <= total < SecondsPerDay <==> u == SecondsPerMinute
  {
    if total >= SecondsPerDay then SecondsPerHour
    else if total >= SecondsPerHour then SecondsPerMinute
    else 1
  }

  /** The unit shown first for a given resolution. */
  function Larger(u: nat): string
  {
    if u == SecondsPerHour then "days" else if u == SecondsPerMinute then "hours" else "minutes"
  }

  /** The unit shown second for a given resolution. */
  function Smaller(u: nat): string
  {
    if u == SecondsPerHour then "hours" else if u == SecondsPerMinute then "minutes" else "seconds"
  }

  /** How many of the smaller shown unit make one of the larger. */
  function PerLarger(u: nat): nat
  {
    if u == SecondsPerHour then 24 else 60
  }

  /** The wait cut down to its resolution: whole hours from a day on, whole minutes from an hour on, else seconds. */
  function Cut(total: nat): nat
  {
    if total >= SecondsPerDay then total / SecondsPerHour
    else if total >= SecondsPerHour then total / SecondsPerMinute
    else total
  }

  /** The amount shown first. */
  function Lead(total: nat): nat
  {
    if total >= SecondsPerDay then total / SecondsPerDay
    else if total >= SecondsPerHour then total / SecondsPerHour
    else total / SecondsPerMinute
  }

  /** The amount shown second: what is left past the last whole larger unit. */
  function Rest(total: nat): nat
  {
    if total >= SecondsPerDay then total % SecondsPerDay / SecondsPerHour
    else if total >= SecondsPerHour then total % SecondsPerHour / SecondsPerMinute
    else total % SecondsPerMinute
  }

  /** From a minute on, the wait shows its cut-down value split into the larger unit and the rest. */
  lemma Shows(total: nat)
    requires total >= SecondsPerMinute
    ensures var u := Resolution(total);
            WaitText(total) == Pair(Lead(total), Larger(u), Rest(total), Smaller(u))
    ensures Cut(total) == Lead(total) * PerLarger(Resolution(total)) + Rest(total)
    ensures Rest(total) < PerLarger(Resolution(total))
  {
    if total >= SecondsPerDay {
      ShowsDays(total);
    } else if total >= SecondsPerHour {
      ShowsHours(total);
    } else {
      ShowsMinutes(total);
    }
  }

  lemma ShowsDays(total: nat)
    requires total >= SecondsPerDay
    ensures WaitText(total) == Pair(total / SecondsPerDay, "days", total % SecondsPerDay / SecondsPerHour, "hours")
    ensures total / SecondsPerHour == total / SecondsPerDay * 24 + total % SecondsPerDay / SecondsPerHour
    ensures total % SecondsPerDay / SecondsPerHour < 24
  {
    DaysOfHours(total);
    var u := total / SecondsPerHour;
    assert u == u / 24 * 24 + u % 24;
  }

  lemma ShowsHours(total: nat)
    requires SecondsPerHour <= total < SecondsPerDay
    ensures WaitText(total) == Pair(total / SecondsPerHour, "hours", total % SecondsPerHour / SecondsPerMinute, "minutes")
    ensures total / SecondsPerMinute == total / SecondsPerHour * 60 + total % SecondsPerHour / SecondsPerMinute
    ensures total % SecondsPerHour / SecondsPerMinute < 60
  {
    HoursOfMinutes(total);
    var u := total / SecondsPerMinute;
    assert u == u / 60 * 60 + u % 60;
    assert total % SecondsPerDay == total;
  }

  lemma ShowsMinutes(total: nat)
    requires SecondsPerMinute <= total < SecondsPerHour
    ensures WaitText(total) == Pair(total / SecondsPerMinute, "minutes", total % SecondsPerMinute, "seconds")
    ensures total == total / SecondsPerMinute * 60 + total % SecondsPerMinute
  {
    assert total % SecondsPerDay == total;
    assert total % SecondsPerHour == total;
  }

  /**
   * From a minute on, two waits read the same exactly when they have the same resolution and
   * agree once cut down to it: the text loses nothing but the part below its smallest unit.
   */
  lemma WaitTextSameIff(x: nat, y: nat)
    requires x >= SecondsPerMinute && y >= SecondsPerMinute
    ensures WaitText(x) == WaitText(y) <==> Resolution(x) == Resolution(y) && Cut(x) == Cut(y)
  {
    Shows(x);
    Shows(y);
    var u, v := Resolution(x), Resolution(y);
    if WaitText(x) == WaitText(y) {
      PairInjective(Lead(x), Larger(u), Rest(x), Smaller(u), Lead(y), Larger(v), Rest(y), Smaller(v));
    }
    if u == v && Cut(x) == Cut(y) {
      DivModUnique(Cut(x), PerLarger(u), Lead(x), Rest(x));
      DivModUnique(Cut(y), PerLarger(u), Lead(y), Rest(y));
    }
  }

  /** Whole days are whole hours in 24s, and the hours past the last day are the rest of that division. */
  lemma DaysOfHours(x: nat)
    ensures x / SecondsPerDay == x / SecondsPerHour / 24 && x % SecondsPerDay / SecondsPerHour == x / SecondsPerHour % 24
  {
    var u, w := x / 3600, x % 3600;
    var a, b := u / 24, u % 24;
    assert x == 3600 * u + w;
    assert u == 24 * a + b;
    assert x == a * 86400 + (b * 3600 + w);
    DivModUnique(x, 86400, a, b * 3600 + w);
    DivModUnique(b * 3600 + w, 3600, b, w);
  }

  /** Whole hours are whole minutes in 60s, and the minutes past the last hour are the rest of that division. */
  lemma HoursOfMinutes(x: nat)
    ensures x / SecondsPerHour == x / SecondsPerMinute / 60 && x % SecondsPerHour / SecondsPerMinute == x / SecondsPerMinute % 60
  {
    var u, w := x / 60, x % 60;
    var a, b := u / 60, u % 60;
    assert x == 60 * u + w;
    assert u == 60 * a + b;
    assert x == a * 3600 + (b * 60 + w);
    DivModUnique(x, 3600, a, b * 60 + w);
    DivModUnique(b * 60 + w, 60, b, w);
  }

  /** Digits followed by a non-digit split the same way in two equal texts. */
  lemma DigitsThenOther(x: string, y: string, x': string, y': string)
    requires Text.AllDigits(x) && Text.AllDigits(x')
    requires |y| > 0 && |y'| > 0 && !Text.IsDigit(y[0]) && !Text.IsDigit(y'[0])
    requires x + y == x' + y'
    ensures x == x' && y == y'
  {
    var s := x + y;
    assert !Text.IsDigit(s[|x|]) && !Text.IsDigit(s[|x'|]);
    assert |x| == |x'|;
    assert x == s[..|x|] == x';
    assert y == s[|x|..] == y';
  }

  /** A shown wait determines its amounts and units. */
  lemma PairInjective(a: nat, big: string, b: nat, small: string, a': nat, big': string, b': nat, small': string)
    requires big in {"days", "hours", "minutes"} && big' in {"days", "hours", "minutes"}
    requires Pair(a, big, b, small) == Pair(a', big', b', small')
    ensures a == a' && big == big' && b == b' && small == small'
  {
    var sa, sb, sa', sb' := Text.NatToString(a), Text.NatToString(b), Text.NatToString(a'), Text.NatToString(b');
    var tail, tail' := sb + (" " + (small + "`")), sb' + (" " + (small' + "`"));
    var rest, rest' := big + (", " + tail), big' + (", " + tail');
    assert sa + (" " + rest) == Pair(a, big, b, small)[1..];
    DigitsThenOther(sa, " " + rest, sa', " " + rest');
    assert rest == (" " + rest)[1..];
    assert rest[0] == big[0] && rest'[0] == big'[0];
    assert big == big';
    assert tail == rest[|big| + 2..];
    assert tail' == rest'[|big| + 2..];
    DigitsThenOther(sb, " " + (small + "`"), sb', " " + (small' + "`"));
    assert small + "`" == (" " + (small + "`"))[1..];
    assert small == (small + "`")[..|small + "`"| - 1];
    assert small' == (small' + "`")[..|small' + "`"| - 1];
  }

  /** Which unit leads the wait: days from one day on, hours from one hour, minutes from one minute. */
  lemma WaitUnits(total: nat)
    ensures total >= SecondsPerDay <==> Decompose(total).days > 0
    ensures total < SecondsPerDay ==> (total >= SecondsPerHour <==> Decompose(total).hours > 0)
    ensures total < SecondsPerHour ==> (total >= SecondsPerMinute <==> Decompose(total).minutes > 0)
  {
  }

  /** A row of the votes table: the count and the next vote time in seconds, if set. */
  datatype VoteRow = VoteRow(count: int, nextVote: Option<int>)

  type VoteTable = map<(int, int), VoteRow>

  datatype VotesReply = VotesReply(member: int, count: int, wait: string, requestedBy: Option<int>)

  const Now: string := "**Now**"

  /** `int((next - now).total_seconds())`: the whole seconds left until a next vote time still ahead. */
  function Remaining(next: int, nowMicros: int): (n: nat)
    requires next * MicrosPerSecond > nowMicros
    ensures n * MicrosPerSecond <= next * MicrosPerSecond - nowMicros < (n + 1) * MicrosPerSecond
  {
    (next * MicrosPerSecond - nowMicros) / MicrosPerSecond
  }

  /**
   * `votes`: the target defaults to the invoker; no row means no votes and "Now"; a next vote
   * time not in the future also leaves "Now"; otherwise the remaining whole seconds are shown.
   */
  function Votes(table: VoteTable, guild: int, author: int, member: Option<int>, nowMicros: int): (r: VotesReply)
    ensures r.member == (if member.Some? then member.value else author)
    ensures (guild, r.member) !in table ==> r.count == 0 && r.wait == Now
    ensures (guild, r.member) in table ==> r.count == table[(guild, r.member)].count
    ensures (guild, r.member) in table && table[(guild, r.member)].nextVote.Some?
            && table[(guild, r.member)].nextVote.value * MicrosPerSecond > nowMicros ==>
              r.wait == WaitText(Remaining(table[(guild, r.member)].nextVote.value, nowMicros))
    ensures (guild, r.member) in table
            && (table[(guild, r.member)].nextVote.None? || table[(guild, r.member)].nextVote.value * MicrosPerSecond <= nowMicros)
            ==> r.wait == Now
    ensures r.requestedBy.Some? <==> r.member != author
  {
    var target := if member.Some? then member.value else author;
    var requestedBy := if target != author then Some(author) else None;
    if (guild, target) !in table then VotesReply(target, 0, Now, requestedBy)
    else
      var row := table[(guild, target)];
      if row.nextVote.Some? && row.nextVote.value * MicrosPerSecond > nowMicros then
        VotesReply(target, row.count, WaitText(Remaining(row.nextVote.value, nowMicros)), requestedBy)
      else VotesReply(target, row.count, Now, requestedBy)
  }

  /** Less than a second away still shows the fixed sub-minute text, never "Now". */
  lemma UnderASecond(table: VoteTable, guild: int, author: int, t: int, nowMicros: int)
    requires (guild, author) in table && table[(guild, author)].nextVote == Some(t)
    requires t * MicrosPerSecond - MicrosPerSecond < nowMicros < t * MicrosPerSecond
    ensures Votes(table, guild, author, None, nowMicros).wait == "`10 seconds`"
  {
    var remaining := t * MicrosPerSecond - nowMicros;
    assert 0 < remaining < MicrosPerSecond;
    assert remaining / MicrosPerSecond == 0;
  }

  /**
   * The command as sent: the embed's author icon is the target's avatar, and the footer's
   * icon, present when someone else asked, is the invoker's. A missing avatar raises before
   * anything is sent.
   */
  function VotesCommand(table: VoteTable, guild: int, author: int, member: Option<int>, nowMicros: int,
                        withAvatar: set<int>): (r: Option<VotesReply>)
    ensures var target := if member.Some? then member.value else author;
            r.None? <==> target !in withAvatar || (target != author && author !in withAvatar)
    ensures r.Some? ==> r.value == Votes(table, guild, author, member, nowMicros)
  {
    var reply := Votes(table, guild, author, member, nowMicros);
    if reply.member !in withAvatar then None
    else if reply.requestedBy.Some? && author !in withAvatar then None
    else Some(reply)
  }
}

=== FILE: wrappers.dfy ===
/** Optional values, standing for Python's `None`-or-value results. */
module Wrappers {

  datatype Option<+T> = None | Some(value: T)
  {
    /** The value, or `default` when there is none (Python's `x or default` on a nullable field). */
    function GetOr(default: T): (r: T)
      ensures this.Some? ==> r == this.value
      ensures this.None? ==> r == default
    {
      match this
      case Some(v) => v
      case None => default
    }
  }
}
